=== FILE: README.md ===
# ampscan core in Dafny

This project models the discrete core of ampscan, a Python package for
analysing 3D scans of residual limbs. An `AmpObject` mesh is a vertex array,
a face array of vertex-index triples and a per-vertex scalar `values` field.
The modelled core covers:

- the index bookkeeping that ampscan builds around meshes:
  - vertex unification;
  - edge tables and the edge/face adjacency with its `-99999` boundary sentinel;
  - hole closing and outward orientation of faces;
  - rigid transforms and their argument checks;
  - the `.aop` text reader and the binary STL checks;
- slicing a mesh into polygons, and the area, width, volume and perimeter of those slices;
- Laplacian and HC smoothing;
- planar, three-point and distance trimming;
- the per-step geometry of point-to-plane registration and its signed error;
- the ICP bookkeeping in alignment;
- the histogram of registration values;
- the triangle grid and sensor map of the pressure-sensor sheet.

Coordinates are exact `real`s. Meshes are immutable records, and every
operation is a pure function, or a method with loop invariants where the
source loops. Python's errors become the `Err` case of a `Result`.

Modules, one per file:

- `Wrappers`: `Option`, `Result` and the Python error kinds.
- `Linalg`: 3-vectors, 3x3 matrices, sums, means, `Min`/`Max`/`ArgMin`, and `int()` truncation and `math.ceil`.
- `PyArgs`: dynamically typed Python arguments (`isinstance` and `len` tests).
- `Unique`: `np.unique(axis=0, return_inverse=True)`.
- `Grouping`: the argsort/searchsorted grouping of a flat index array.
- `Topology`: the `AmpObject` structure (`ampscan/core.py`).
- `Transform`: translate, centre, scale, rotate and flip (`ampscan/core.py`).
- `Closing`: `close` (`ampscan/core.py`).
- `Aop`: `read_aop` (`ampscan/core.py`).
- `StlBytes`: `read_bytes` (`ampscan/core.py`).
- `Slicing` and `Measure`: `ampscan/analyse/analyse.py`.
- `Smooth`: `ampscan/smooth.py`.
- `Trim` and `TrimExample`: `ampscan/trim.py`.
- `Registration`: `ampscan/registration.py`.
- `Align`: `ampscan/align.py`.
- `Output`: `generateRegBinsCsv` in `ampscan/analyse/output.py`.
- `PressSens`: `AmpScan/pressSens.py`.
- `Arith`: integer helper lemmas.

External numerics are not modelled, only passed in as parameters:

- square roots and norms, `cos`/`sin` (`Trig`), and float parsing (`Aop.Numbers`);
- float32 decoding (`StlBytes.Float32`);
- k-d-tree query results, nearest distances and indices;
- the results of SVD, least squares and `scipy.minimize` (`Align.Solvers`).

## Model

| member | source | states |
|---|---|---|
| Unique.UniqueRows | ampscan/core.py:422 | the unique rows are strictly increasing under a strict total order and contain exactly the input rows |
| Unique.IncreasingUnique | ampscan/core.py:422 | two strictly increasing sequences with the same elements are equal, so sorted-unique output depends only on the set of rows |
| Unique.UniqueRowsIdempotent | ampscan/core.py:422 | taking unique rows of unique rows changes nothing |
| Unique.UniqueRowsOfIncreasing | ampscan/core.py:422 | rows that are already strictly increasing are their own unique rows |
| Unique.Inverse | ampscan/core.py:422 | the inverse map sends every input row to an index of the unique rows holding the same row |
| Grouping.PositionsSpec | ampscan/smooth.py:29-38 | the reference grouping of entry j: exactly the positions that hold j, in increasing order |
| Grouping.SortOrderIsArgSort | ampscan/smooth.py:31 | `e.argsort()` of entries in [0, n): a permutation of the positions of e, with e non-decreasing along it and equal entries in increasing position order |
| Grouping.GroupSlice | ampscan/smooth.py:29-38 | in the stable sort order of the flat array, the slice between `searchsorted` bounds j and j+1 is exactly the reference group of j |
| Grouping.Group | ampscan/core.py:538-542 | the group of vertex j lists every flat position that holds j, only those, in increasing order |
| Topology.UnifyVert | ampscan/core.py:405-425 | vertices become the distinct input rows in strictly increasing lexicographic order; faces are resized to the number of normals; when that number is the face count, every remapped corner indexes a vertex with its old coordinates |
| Topology.RemapKeepsCorners | ampscan/core.py:422-425 | remapping faces through the inverse map keeps every corner in range and at the same coordinates |
| Topology.UnifyVertIdempotent | ampscan/core.py:405-425 | unifying an already-unified mesh changes neither vertices nor faces |
| Topology.CalcEdges | ampscan/core.py:427-442 | edges have their lower index first, are strictly increasing and duplicate-free, and are exactly the corner pairs (0,1), (0,2), (1,2) of the faces |
| Topology.CalcEdgesCoverFaces | ampscan/core.py:439-442 | every side of every face is in the edge table |
| Topology.CalcEdgesFromFaces | ampscan/core.py:439-442 | every entry of the edge table is a side of some face |
| Topology.CalcEdgeFaces | ampscan/core.py:444-462 | slot k of face f indexes the edge that is the k-th side of face f |
| Topology.EdgeFacesDistinct | ampscan/core.py:444-462 | a face with three distinct corners has three distinct edges |
| Topology.RefFacesSpec | ampscan/core.py:479-486 | the reference list of faces touching an edge contains only faces that touch it, all of them, in non-decreasing order |
| Topology.CalcFaceEdges | ampscan/core.py:464-486 | the in-order scan yields the reference table: slot 0 holds the first referencing face, slot 1 the last later one, and `-99999` where none exists |
| Topology.FaceEdgesFirstSlot | ampscan/core.py:482-485 | for a referenced edge, slot 0 is the lowest index of a face touching it |
| Topology.FaceEdgesSecondSlot | ampscan/core.py:476-486 | for an edge with one or two faces, slot 0 is the first face, and slot 1 is the sentinel exactly when there is only one face, otherwise the second face |
| Topology.CalcStruct | ampscan/core.py:321-355 | the structure holds the edge table and per-face edge index of the faces, one face pair per edge, and every per-face edge index is in range |
| Topology.StructEveryEdgeHasFace | ampscan/core.py:476-485 | slot 0 of every edge is a real face index, never the sentinel |
| Topology.SwapWindingNegatesNormal | ampscan/core.py:520-522 | swapping corners 1 and 2 negates the face normal and keeps the face centre |
| Topology.FixNormOutward | ampscan/core.py:507-525 | the contract of `fixNorm` (modelled by `Topology.FixNorm`, which swaps corners 1 and 2 of the inward faces and keeps the rest): after `fixNorm`, every face normal points away from the vertex centroid: its dot product with centroid-to-face-centre is non-negative |
| Topology.IncidentNormalsSound | ampscan/core.py:538-546 | every normal averaged for vertex i belongs to a face that has i as a corner |
| Topology.IncidentNormalsComplete | ampscan/core.py:538-546 | the normal of every face with vertex i as a corner is among those averaged for i |
| Topology.VertexNormals | ampscan/core.py:527-546 | one normal per vertex, the mean of the normals of its incident faces; see the two lemmas above for which faces those are |
| Transform.Translate | ampscan/core.py:781-800 | TypeError for a non-sequence, ValueError for a length other than 3; otherwise every vertex moves by the same vector and faces and values stay |
| Transform.TranslateBack | ampscan/core.py:781-800 | translating by t and then by -t gives back the mesh |
| Transform.Centre | ampscan/core.py:802-807 | every vertex moves by one common vector, and the centroid of a non-empty result is the origin |
| Transform.ScaleMesh | ampscan/core.py:809-819 | every vertex is multiplied by the factor; faces and values stay |
| Transform.ScaleBack | ampscan/core.py:809-819 | scaling by sf and then by 1/sf gives back the mesh |
| Transform.RotMatrix | ampscan/core.py:953-996 | TypeError for a non-sequence, ValueError for length other than 3, then ValueError for an angle unit other than rad/deg; otherwise the Euler product of the angles in radians |
| Transform.RotMatrixDegrees | ampscan/core.py:982-983 | angles in degrees give the same matrix as the converted angles in radians |
| Transform.EulerApply | ampscan/core.py:985-996 | applying the matrix is rotating about x, then y, then z (Rz·Ry·Rx) |
| Transform.Rotate | ampscan/core.py:866-894 | TypeError for a non-sequence, an error for a non-3x3 argument, otherwise every vertex is multiplied by R |
| Transform.RotateCompose | ampscan/core.py:889 | rotating by A and then by B is rotating by B·A |
| Transform.RotateBack | ampscan/core.py:889 | for an orthogonal R, rotating by R and then by its transpose gives back the mesh |
| Transform.RotateAng | ampscan/core.py:836-864 | the angle unit is checked (ValueError) before the type of the angles (TypeError); otherwise the mesh is rotated by `rotMatrix` of the angles |
| Transform.CheckOrder | ampscan/core.py:856-863 | with a bad unit and a non-sequence, `rotateAng` reports ValueError while `rotMatrix` reports TypeError |
| Transform.RigidTransform | ampscan/core.py:896-918 | no arguments is a no-op; a rotation alone is `rotate` and a translation alone `translate`; a non-sequence R is a TypeError, a failing rotation fails the call, then a non-sequence T is a TypeError; otherwise the rotated mesh is translated, moving every vertex to R·v + T |
| Transform.Flip | ampscan/core.py:998-1018 | TypeError for a non-int axis, ValueError outside 0..2; otherwise one coordinate is negated and face corners 1 and 2 are swapped |
| Transform.FlipTwice | ampscan/core.py:998-1018 | flipping the same axis twice gives back the mesh |
| Closing.BrimIndicesSpec | ampscan/core.py:928-931 | the brim edges are exactly the edges with a sentinel slot, in increasing order, and there is one iff the mesh has a hole |
| Closing.FanFaces | ampscan/core.py:940-941 | the fan has one face per loop vertex, joining it, the new centre and the previous loop vertex (wrapping at the start) |
| Closing.BrimLoopInRange | ampscan/core.py:931-933 | the loop walked through the brim edges names only existing vertices |
| Closing.Fan | ampscan/core.py:935-941 | one vertex is appended at the mean of the loop, one face per loop vertex is appended, and the old vertices, faces and values are kept |
| Closing.FillHole | ampscan/core.py:928-941 | a pass succeeds exactly when the brim loop can be walked, and then adds that loop's fan |
| Closing.FillHoleExtends | ampscan/core.py:928-943 | a pass keeps the old mesh as a prefix and leaves every face index in range |
| Closing.CloseLoop | ampscan/core.py:928-943 | when the loop ends, the result extends the input and has no sentinel left; a mesh without holes is returned unchanged |
| Closing.Close | ampscan/core.py:920-949 | without overwrite the mesh is untouched and the closed copy is returned; with overwrite the mesh is replaced by a hole-free one with the same values |
| Slicing.Find | ampscan/analyse/analyse.py:299-308 | finds the first remaining row that touches the current vertex and steps to its other end, or keeps the vertex if no row touches it |
| Slicing.Delete | ampscan/analyse/analyse.py:297 | removes exactly the entry at the position, keeping the order of the rest |
| Slicing.FindLoop | ampscan/analyse/analyse.py:300-308 | the row-by-row search loop returns the same row and next vertex as `Find` |
| Slicing.Walk | ampscan/analyse/analyse.py:296-309 | a successful walk of k steps has k+1 vertices starting at the current one, each step along an input edge (the last may stay put) |
| Slicing.LogEuPath | ampscan/analyse/analyse.py:285-312 | IndexError on no edges; a successful walk has as many vertices as edges, starting at the first edge's first end, and each step follows an input edge (the last may repeat) |
| Slicing.LogEuPathEnds | ampscan/analyse/analyse.py:285-312 | every vertex on the path is an end of some input edge |
| Slicing.LogEuPathLoop | ampscan/analyse/analyse.py:285-312 | the imperative walk with row deletion returns the same as the functional walk |
| Slicing.LogEuPathCycle | ampscan/analyse/analyse.py:285-312 | for the edges of a simple cycle in any order and orientation, with the closing edge first, the walk returns exactly that cycle |
| Slicing.StructSliceReady | ampscan/analyse/analyse.py:117-128 | the structure of any face list satisfies the index bounds that slicing needs |
| Slicing.CrossingHeightsDiffer | ampscan/analyse/analyse.py:122-124 | the two ends of a crossing edge differ along the axis, so the interpolation divisor is nonzero |
| Slicing.CrossingEdges | ampscan/analyse/analyse.py:122-124 | exactly the edges with one end at or below the plane and the other above, in increasing order |
| Slicing.IntersectCy | ampscan/analyse/analyse.py:315-344 | as written: off axis 2, coordinate z of every intersection point is 0 |
| Slicing.IntersectCyOnPlane | ampscan/analyse/analyse.py:336-343 | the intersection point lies on the slicing plane |
| Slicing.IntersectCyAgrees | ampscan/analyse/analyse.py:315-376 | x and y agree with true interpolation; z agrees iff the axis is 2 or the true z is 0 |
| Slicing.IntersectCyAxis2 | ampscan/analyse/analyse.py:315-376 | for axis 2 both intersection routines give the same point |
| Slicing.IntersectCyOffEdge | ampscan/analyse/analyse.py:336-344 | concrete input where the as-written point is off the edge |
| Slicing.IntersectOnSegment | ampscan/analyse/analyse.py:346-376 | the interpolated point lies on the line through the edge at the plane, at a parameter in [0,1] for a crossing edge |
| Slicing.RowCrossings | ampscan/analyse/analyse.py:130 | keeps exactly the face's edges that cross the plane |
| Slicing.OrderedCrossings | ampscan/analyse/analyse.py:126-130 | IndexError exactly when a face index is outside Python's index range (negative indices wrap); otherwise only crossing edges remain |
| Slicing.Dedup | ampscan/analyse/analyse.py:131-136 | the same elements without duplicates, starting with the first one |
| Slicing.DedupFirstOccurrence | ampscan/analyse/analyse.py:131-136 | the kept elements are in order of first occurrence |
| Slicing.EdgePoint | ampscan/analyse/analyse.py:141-145 | the point computed for an edge lies on the slicing plane |
| Slicing.PlanePoints | ampscan/analyse/analyse.py:141-145 | one point per ordered edge, all on the plane, and a closed edge list gives a closed polygon |
| Slicing.SlicePlane | ampscan/analyse/analyse.py:120-145 | a polygon is closed, lies on the plane and has between 2 and crossing-edges + 1 points; a plane that crosses nothing is an IndexError |
| Slicing.SliceAllSound | ampscan/analyse/analyse.py:119-147 | every returned polygon is the successful slice of some plane |
| Slicing.SliceAllComplete | ampscan/analyse/analyse.py:119-147 | when every plane slices, there is one polygon per plane, in order |
| Slicing.Arange | ampscan/analyse/analyse.py:97 | step 0 is a ZeroDivisionError; otherwise entry i is lo + i·step |
| Slicing.ArangeBounds | ampscan/analyse/analyse.py:97 | for a positive step, every entry lies in [lo, hi) and the next one would reach hi |
| Slicing.Intervals | ampscan/analyse/analyse.py:97-98 | the arange values followed by the upper limit |
| Slicing.Planes | ampscan/analyse/analyse.py:90-113 | explicit slices are used as given, interval types use the interval list, an unknown type gives None, and norm_intervals on no vertices is a ValueError |
| Slicing.NormIntervalsSpan | ampscan/analyse/analyse.py:99-108 | norm_intervals over [0,1] runs from the lowest to the highest vertex along the axis |
| Slicing.CreateSlices | ampscan/analyse/analyse.py:57-148 | an unknown type gives None; otherwise the polygons are those of the generated planes, skipping failed planes, at most one per plane |
| Measure.ExtentSpec | ampscan/analyse/analyse.py:202 | the extent bounds every difference of coordinates along the axis and is attained |
| Measure.FlatAxis | ampscan/analyse/analyse.py:229 | the slicing axis has the least extent, and the first such axis is chosen on ties |
| Measure.SliceAxis | ampscan/analyse/analyse.py:229 | IndexError for no polygons, ValueError for an empty first polygon, otherwise the flattest axis of the first polygon |
| Measure.ClosedPolygonArea | ampscan/analyse/analyse.py:235-245 | the shoelace sum `calc_csa` takes is that of the closed polygon: repeating the first point at the end leaves it unchanged |
| Measure.UnitSquareArea | ampscan/analyse/analyse.py:235-245 | the unit square has area 1 in either orientation |
| Measure.AreaRotate | ampscan/analyse/analyse.py:235-245 | the shoelace sum and the area do not depend on which point of the polygon comes first |
| Measure.CalcWidths | ampscan/analyse/analyse.py:179-209 | IndexError for no polygons, ValueError for an empty one; otherwise, per polygon, the extents along the two in-plane axes |
| Measure.TrapezoidNonneg | ampscan/analyse/analyse.py:270-282 | the volume `est_volume` sums from non-negative slice areas is non-negative, and 0 with fewer than two slices |
| Measure.TrapezoidPrism | ampscan/analyse/analyse.py:270-282 | for slices of constant area a at increasing heights, `est_volume`'s trapezoid sum is a times the total height, the volume of a prism |
| Measure.PolyLengthNonneg | ampscan/analyse/analyse.py:165-175 | a perimeter is non-negative for a non-negative norm |
| Measure.PolyLengthChord | ampscan/analyse/analyse.py:165-175 | for a subadditive norm the perimeter is at least the distance between the first and last points |
| Measure.PolyLengthJoin | ampscan/analyse/analyse.py:165-175 | the perimeter of two paths joined at a shared end point is the sum of their perimeters |
| Smooth.Neighbours | ampscan/smooth.py:29-42 | the grouped neighbours of j are in range and each is joined to j by an edge, one per incident edge end |
| Smooth.NeighboursComplete | ampscan/smooth.py:29-42 | the other end of every edge at j is among the neighbours of j |
| Smooth.BrimVertices | ampscan/smooth.py:24-26 | the brim vertices are exactly the ends of the edges that have a sentinel slot |
| Smooth.LpStep | ampscan/smooth.py:39-48 | fixed vertices stay; every other vertex becomes the mean of its neighbours taken from the snapshot |
| Smooth.LpSmoothKeepsFixed | ampscan/smooth.py:44-46 | after any number of passes a fixed vertex is where it was |
| Smooth.LpStepShift | ampscan/smooth.py:39-48 | translating the mesh and then smoothing equals smoothing and then translating |
| Smooth.LpStepLoop | ampscan/smooth.py:39-48 | the in-place loop over a snapshot computes the simultaneous update |
| Smooth.LpSmoothLoop | ampscan/smooth.py:39-48 | n in-place passes compute n simultaneous updates |
| Smooth.HcUpdateClosedForm | ampscan/smooth.py:93-103 | the HC update is q + (2β-1)(p-q) with p the neighbour mean |
| Smooth.HcStep | ampscan/smooth.py:84-103 | fixed vertices stay; every other vertex takes the HC update of its snapshot position |
| Smooth.HcBetaOne | ampscan/smooth.py:54-56 | with β = 1 an HC pass is a Laplacian pass |
| Smooth.HcBetaHalf | ampscan/smooth.py:93-103 | with β = 0.5 an HC pass leaves every vertex in place |
| Smooth.HcSmooth | ampscan/smooth.py:52-105 | after any number of passes the fixed vertices are where they were |
| Smooth.ValuesStep | ampscan/smooth.py:131-135 | every value becomes the mean of its neighbours' values from the copy |
| Smooth.ValuesStepInRange | ampscan/smooth.py:131-135 | a pass keeps every value between the old minimum and maximum |
| Smooth.SmoothValuesBounded | ampscan/smooth.py:107-135 | any number of passes keeps values within bounds that held before |
| Smooth.SmoothValuesConstant | ampscan/smooth.py:107-135 | a constant field is unchanged |
| Trim.SelectAt | ampscan/trim.py:60-63 | boolean selection puts kept entry v at the position counting the kept entries before it |
| Trim.SelectOnto | ampscan/trim.py:60-63 | every selected entry comes from a kept input entry |
| Trim.CumIndexKept | ampscan/trim.py:59 | `cumsum(~delv)-1` at a kept vertex is the number of kept vertices before it |
| Trim.AboveCount | ampscan/trim.py:48 | the count of corners above is 0 iff none is above and 3 iff all are |
| Trim.KeptCornerSurvives | ampscan/trim.py:48-62 | every corner of a kept face is a kept vertex after clamping |
| Trim.CutVertices | ampscan/trim.py:54-62 | every remaining vertex is an input vertex, in order, with at most the clamped coordinate changed, and lies at or below its height |
| Trim.CutFaces | ampscan/trim.py:60-61 | every remaining face is an input face with fewer than three corners above, whose corners map to the same remaining vertices |
| Trim.CutKeepsFaces | ampscan/trim.py:60 | every face with fewer than three corners above is kept, at the position counting the kept faces before it |
| Trim.CutWellFormed | ampscan/trim.py:57-63 | remapped faces index the remaining vertices and values are filtered with them |
| Trim.PlanarTrim | ampscan/trim.py:24-66 | TypeError unless height is a number and plane an int, IndexError for a plane outside -3..2; otherwise a well-formed mesh with no vertex above the height |
| Trim.CutBelowLevel | ampscan/trim.py:54-62 | with one level for all vertices, no remaining vertex is above it |
| Trim.PlaneAxis | ampscan/trim.py:46 | negative plane numbers select axes from the end, as Python indexing does |
| Trim.HeightOnPlane | ampscan/trim.py:101-107 | the corrected height puts the vertex on the plane through the three points |
| Trim.HeightAsWrittenAgrees | ampscan/trim.py:107 | the as-written height equals the corrected one iff y·(c.x - c.y) = 0 |
| Trim.ThreePointTrim | ampscan/trim.py:69-127 | as written: a well-formed mesh whose every vertex has z at or below the height computed with c[0] in the y term |
| Trim.ThreePointTrimIntended | ampscan/trim.py:69-127 | corrected: a well-formed mesh whose every vertex is on or below the plane through the three points |
| Trim.ThreePointTrimAgrees | ampscan/trim.py:107 | when the plane normal has equal x and y components both trims give the same mesh |
| TrimExample.HeightAsWrittenWrong | ampscan/trim.py:107 | for plane z = y, vertex (0, 1, 0.5) gets height 0 as written |
| TrimExample.ExampleHeight | ampscan/trim.py:101-107 | for the same plane and vertex the plane height is 1 |
| Trim.FaceIds | ampscan/trim.py:161-163 | exactly the faces whose distance magnitude is below maxdist, in increasing order |
| Trim.VertIds | ampscan/trim.py:164-169 | the corners of the kept faces, each once |
| Trim.ReindexAll | ampscan/trim.py:171-175 | each new face corner indexes the position of the old corner in the vertex list |
| Trim.DynamicTrim | ampscan/trim.py:130-182 | the result is well formed |
| Trim.DynamicTrimFaces | ampscan/trim.py:157-176 | face i of the result is kept face i, with every corner at the same coordinates |
| Trim.DynamicTrimVerticesUsed | ampscan/trim.py:164-176 | every vertex of the result is a corner of some result face |
| Registration.ProjectOnPlane | ampscan/registration.py:147-154 | the projected candidate lies on the face plane (unnormalised normal) |
| Registration.ProjectIdempotent | ampscan/registration.py:147-154 | projecting a projected point again changes nothing |
| Registration.DenomIsNormalSq | ampscan/registration.py:346 | the barycentric denominator is the squared length of the face normal, so it is 0 only for degenerate faces |
| Registration.BarycentricRecovers | ampscan/registration.py:335-349 | the coordinates of P0 + a·(P2-P0) + b·(P1-P0) are u = a, v = b, w = 1-a-b |
| Registration.Classify | ampscan/registration.py:352-357 | each of the six regions holds exactly under its strict sign pattern |
| Registration.InsideUnchanged | ampscan/registration.py:352-361 | a point strictly inside the face matches none of the six patterns, so it is left where it is |
| Registration.LineProjectOrthogonal | ampscan/registration.py:364-370 | the offset from the projected point is orthogonal to the edge |
| Registration.AdjustAsWrittenSpec | ampscan/registration.py:352-370 | as written: corner patterns snap to that corner, edge patterns go to the foot of the perpendicular on the line through the edge, other points stay |
| Registration.PatternP1P2 | ampscan/registration.py:357 | a concrete point beyond edge P1P2 has the edge pattern P1P2 |
| Registration.AdjustAsWrittenOffEdge | ampscan/registration.py:364-370 | when that point's foot on line P1P2 falls before P1, the as-written adjustment is not on the edge segment |
| Registration.SegmentProject | ampscan/registration.py:364-370 | corrected projection: always on the edge segment, and equal to the line projection when the foot falls inside the edge |
| Registration.Adjust | ampscan/registration.py:352-370 | corrected: corner patterns snap to the corner, edge patterns land on an edge segment, other points stay |
| Registration.AdjustAgrees | ampscan/registration.py:364-370 | when the projection parameter lies in [0,1] the corrected and as-written adjustments agree |
| Registration.Offsets | ampscan/registration.py:147-162 | one offset per neighbouring face, from the vertex to that face's candidate |
| Registration.Displacement | ampscan/registration.py:162-166 | the offset of least length, the first one on ties |
| Registration.DisplacementOnPlane | ampscan/registration.py:147-166 | without barycentric adjustment the displaced vertex lies on the plane of one of the candidate faces |
| Registration.Schedule | ampscan/registration.py:141 | divisors steps, steps-1, ..., 1, all at least 1 |
| Registration.SmoothingSkipsLastStep | ampscan/registration.py:169 | smoothing runs on a step iff it is not the last |
| Registration.StepsAccumulate | ampscan/registration.py:141-174 | after all steps the displacement is the initial one plus the sum of D/step over the steps, and the registered vertex is the baseline plus that |
| Registration.ScaleStep | ampscan/registration.py:128-135 | ValueError for an empty mesh; vertices at or above the scale height stay, and x and y never change |
| Registration.LowestLands | ampscan/registration.py:129-134 | the lowest registered vertex lands exactly on the target's minimum z |
| Registration.ScaledZAffine | ampscan/registration.py:131-134 | heights below the scale level are stretched affinely about it |
| Registration.ScaleStepMatchesMinimum | ampscan/registration.py:128-135 | the lowest vertex, when below the scale height, ends at the target's minimum z |
| Registration.CalcError | ampscan/registration.py:180-202 | an unknown method name yields None; otherwise one value per baseline vertex |
| Registration.ErrorMagnitude | ampscan/registration.py:205-251 | all three methods have magnitude equal to the distance from baseline to registered vertex |
| Registration.ErrorSign | ampscan/registration.py:217-251 | a value is negative iff the method's strict sign rule holds and the distance is positive |
| Registration.CentSign | ampscan/registration.py:217-233 | cent: negative iff the registered vertex is nearer the baseline centroid than the baseline vertex |
| Registration.NormSign | ampscan/registration.py:235-251 | norm: negative iff the displacement points against the vertex normal |
| Align.MoveIsRigidTransform | ampscan/align.py:143 | moving the vertices by a rigid motion is `rigidTransform` with its R and T |
| Align.ComposeApply | ampscan/align.py:201-202 | the composed motion applies the accumulated one and then the step |
| Align.MoveCompose | ampscan/align.py:201-202 | moving twice equals moving once by the composition |
| Align.AccumulateTracksMesh | ampscan/align.py:134-208 | the accumulated transform applied to the original vertices gives the vertices moved step by step |
| Align.TForm | ampscan/align.py:214 | the 4x4 layout has R in the upper left, zeros in the last column, T in the last row and a 1 in the corner |
| Align.ReadTForm | ampscan/align.py:139-140 | reading R and T back from a tForm recovers the motion |
| Align.DefaultIsNoMotion | ampscan/align.py:137-140 | the default initial transform is the identity motion, and its tForm is the 4x4 identity |
| Align.ClosedFormIsProduct | ampscan/align.py:286-290 | the closed-form matrix from cos/sin values equals Rz·Ry·Rx |
| Align.LinearisedRotation | ampscan/align.py:286-290 | the solver's rotation equals the Euler matrix `rotMatrix` builds |
| Align.MeanSqGapBounds | ampscan/align.py:145-151 | the mean squared correspondence gap is non-negative and 0 for a perfect fit |
| Align.OptDistErrorSqBounds | ampscan/align.py:501-538 | the optimiser's objective is non-negative and 0 for a perfect fit |
| Align.ArgSortSorts | ampscan/align.py:145-149 | the order is a permutation of the indices, sorted by distance, with index order on ties |
| Align.Inliers | ampscan/align.py:144-150 | the kept correspondences are a prefix of the sorted order, of length ceil(n·inlier) when that is in range, and all of them when inlier ≥ 1 |
| Align.InliersAreClosest | ampscan/align.py:144-150 | every kept correspondence is at least as close as every dropped one |
| Align.ContPoints | ampscan/align.py:345-400 | missing or mismatched control points return a ValueError; otherwise the motion maps the moving centroid onto the static centroid, with R from the centred points |
| Align.ContPointsShift | ampscan/align.py:388-397 | translating the moving control points does not change where a moving point ends up |
| Align.PyGather | ampscan/align.py:441 | fancy indexing succeeds iff every index is in Python range, and each entry is the indexed element |
| Align.IdxPoints | ampscan/align.py:402-443 | missing indices return a ValueError, out-of-range ones raise IndexError, otherwise `contPoints` of the indexed vertices |
| Align.LowestAfterLift | ampscan/align.py:562-567 | lifting by dz raises the lowest z by dz |
| Align.LowestShiftAsWrittenMisses | ampscan/align.py:562-567 | the as-written shift puts the lowest moving z at 2·mMin - sMin, which is sMin only when the minima already agree |
| Align.LowestShift | ampscan/align.py:543 | corrected: the shift makes the lowest moving z equal the static one |
| Align.OptZVol | ampscan/align.py:540-619 | ValueError for an empty mesh; otherwise a pure z translation of mMin - sMin - z, with the matching tForm |
| Align.ParseMethod | ampscan/align.py:153-200 | the six method names are recognised and nothing else |
| Align.Finish | ampscan/align.py:210-217 | the final motion has the accumulated T and the re-orthonormalised R, with the matching tForm |
| Align.InitTransform | ampscan/align.py:139-140 | an `initTransform` whose top-left block does not broadcast onto 3×3 is a ValueError and one without a fourth row an IndexError; a 4×4 array gives its R and T, a single column is repeated |
| Align.RunICP | ampscan/align.py:111-217 | maxiter < -1 is a ValueError and -1 an IndexError, then a bad `initTransform` fails as it is read, an unknown method fails on the unbound R, and every result carries its tForm |
| Align.RunICPIterative | ampscan/align.py:134-217 | for an iterative method the mesh is moved by the accumulated motion and the final T is its T |
| Align.RunICPSingle | ampscan/align.py:166-199 | single-transform methods apply one motion after the initial one, and a returned error becomes a TypeError |
| Align.InvertUndoes | ampscan/align.py:219-235 | the true inverse motion undoes the motion |
| Align.InverseAsWrittenError | ampscan/align.py:231-232 | the as-written inverse sends a moved point back to itself plus Rᵀ·T - T |
| Align.InverseAsWrittenMissesStart | ampscan/align.py:231-232 | with a quarter turn about z and T = (1,0,0) the as-written inverse misses the start by (-1,-1,0) |
| Align.Inverse | ampscan/align.py:219-235 | fails as ICP with the roles swapped does; after `optZVol`, whose T is a Python list (ampscan/align.py:617), negating T is a TypeError; otherwise records Rᵀ and -T and moves both meshes by that |
| Align.InverseMovesStatic | ampscan/align.py:219-235 | after `optZVol` `inverse` is a TypeError; after any other method the static mesh is displaced by Rᵀ·T - T |
| Align.InverseIntended | ampscan/align.py:219-235 | corrected: records the true inverse motion, computed as `-np.dot(Rᵀ, T)`, which also accepts the list T of `optZVol` |
| Align.InverseRestoresStatic | ampscan/align.py:219-235 | with the corrected inverse the static mesh returns to where it was |
| Output.BinOf | ampscan/analyse/output.py:102-109 | bin size 0 divides a NumPy float by zero, so `int()` of inf is an OverflowError and of nan (the value at the lower edge) a ValueError; no bins is an IndexError; otherwise a bin below the count |
| Output.BinContains | ampscan/analyse/output.py:102-109 | a value within range lies in its bin's half-open interval |
| Output.CountBins | ampscan/analyse/output.py:97-109 | one count per bin; it fails as the first value's bin does: IndexError with no bins, otherwise ValueError or OverflowError for bin size 0 |
| Output.CountBinsCounts | ampscan/analyse/output.py:97-109 | each bin counts exactly the values that fall into it |
| Output.CountBinsTotal | ampscan/analyse/output.py:97-110 | every value is counted once: the counts sum to the number of values |
| Output.RegBins | ampscan/analyse/output.py:84-113 | succeeds iff there are bins, values and a non-empty range, or a negative bin count with no values; otherwise, for a non-zero bin count, some values and an empty range, ValueError or OverflowError as the first value's bin raises; else IndexError for a negative bin count and ZeroDivisionError in the remaining cases; one row per bin |
| Output.RegBinsRows | ampscan/analyse/output.py:111-113 | row i is the bin's lower edge and the share of values in it |
| Output.RegBinsFractions | ampscan/analyse/output.py:111-113 | the fractions sum to 1 |
| PressSens.SlotCover | AmpScan/pressSens.py:94-98 | every face slot is written by exactly one cell row, column and half |
| PressSens.TemplateWithin | AmpScan/pressSens.py:92-98 | every face indexes a vertex of the (rows+1)×(cols+1) grid |
| PressSens.FaceLoop | AmpScan/pressSens.py:94-98 | the nested row and column loop fills every slot with the triangle its cell and half prescribe |
| PressSens.CalcFaceArray | AmpScan/pressSens.py:86-98 | rows·cols·2 faces, each cell's two triangles at its slots, all within the vertex grid |
| PressSens.BlockFlatten | AmpScan/pressSens.py:101-104 | the flattened index block of a sensor is its reference list of faces |
| PressSens.SensorLoop | AmpScan/pressSens.py:99-105 | 45 sensor lists, each the reference list of its cell |
| PressSens.EntrySquare | AmpScan/pressSens.py:99-105 | each sensor entry is the face slot of a cell in the sensor's d×d square |
| PressSens.EntryDecode | AmpScan/pressSens.py:99-105 | a sensor entry determines its sensor and position |
| PressSens.EntryInjective | AmpScan/pressSens.py:99-105 | no face index is listed twice, by one sensor or by two |
| PressSens.LocateCovers | AmpScan/pressSens.py:99-105 | every face index is listed by some sensor |
| PressSens.CalcSensorMap | AmpScan/pressSens.py:90-105 | 45 lists of 2d² entries that together partition the face indices |
| PressSens.CalcFaces | AmpScan/pressSens.py:79-136 | negative d is a ValueError and d = 0 a ZeroDivisionError; otherwise slots 2(row·cols + col) and +1 of every grid square hold the layout's two triangles, every corner is a grid vertex, and `sF[k]` is the block of face slots of sensor cell (k / 3, k % 3), the 45 blocks partitioning the faces |
| PressSens.LayoutsDiffer | AmpScan/pressSens.py:92-93 | the hexagonal layout differs from the square one only in the third corner of the second triangle, cols lower |
| Aop.SplitJoin | ampscan/core.py:285 | splitting on a character and joining back gives the line; the parts do not contain the character |
| Aop.ParseShow | ampscan/core.py:215 | reading an integer back from its decimal text gives the integer |
| Aop.CollectOk | ampscan/core.py:226-236 | reading a list succeeds iff every item does, keeping the items in order |
| Aop.CollectErr | ampscan/core.py:226-236 | a failed list read reports the first failing item |
| Aop.CommentsStop | ampscan/core.py:198-206 | comments are the lines up to the first END COMMENTS line, each with a newline, and reading resumes after it |
| Aop.CommentsRunOut | ampscan/core.py:198-206 | without an END COMMENTS line every remaining line is a comment |
| Aop.LandmarkPoints | ampscan/core.py:219-237 | a landmark is a name line, a count line and three lines per point in polar form |
| Aop.LandmarksGrow | ampscan/core.py:217-238 | reading landmarks keeps earlier names and moves the cursor forwards, by at least two lines per landmark |
| Aop.ReadFloatsSpec | ampscan/core.py:248-250 | reading n lines as floats succeeds iff every line reads; the values are the lines' floats in order, and a failure is the first failing line's |
| Aop.Spokes | ampscan/core.py:240-256 | a zero spacing reads one angle per spoke from the following lines, converted to radians, and the next line is after them (or the first read's error); otherwise no line is read and spoke j is -π/2 + (len - 1 - j)·step, the reversed `arange(-π/2, 3π/2, step)` |
| Aop.Slices | ampscan/core.py:258-273 | one height per slice: with a zero spacing slice j's height is the float on line id + j and the next line is after them (or the first read's error); otherwise slice i is at i·step and no line is read |
| Aop.ReadHeader | ampscan/core.py:193-273 | the parsed header has one slice height per slice |
| Aop.HeaderMissingLines | ampscan/core.py:195-215 | a file with no END COMMENTS line after its first line runs out of lines and raises IndexError |
| Aop.HeaderWrongSystem | ampscan/core.py:207-210 | a coordinate system other than CYLINDRICAL is reported as a returned ValueError |
| Aop.PointAt | ampscan/core.py:280-296 | vertex i·nSpokes+j is at the radius of its line, spoke angle j and slice height i, and its value is the line's second field as a float, or 0 when there is none or it does not parse |
| Aop.ReadRow | ampscan/core.py:283-296 | one ring of points, each from its own line, or the first failing line's error |
| Aop.ReadGrid | ampscan/core.py:280-296 | all points in order iff every line reads, otherwise the first failure |
| Aop.QuadAtSlot | ampscan/core.py:298-310 | face slot 2·(sl·nSpokes+sp)+h holds triangle h of quad (sl, sp) |
| Aop.QuadWithin | ampscan/core.py:299-309 | every grid triangle indexes an existing vertex |
| Aop.QuadAtWithin | ampscan/core.py:298-310 | every face slot of the ring grid indexes an existing vertex |
| Aop.QuadOriented | ampscan/core.py:303-309 | the triangles of a quad share its diagonal in opposite directions, and neighbouring quads share edges in opposite directions |
| Aop.RingFaces | ampscan/core.py:298-310 | (nSlices-1)·nSpokes·2 faces, each the grid triangle of its slot |
| Aop.Build | ampscan/core.py:275-310 | a negative array size is a ValueError; otherwise the grid succeeds iff every point line reads, with the face count and layout above |
| Aop.ReadAop | ampscan/core.py:175-318 | header errors propagate, the wrong coordinate system is returned, and a loaded file holds the header fields, the points and the grid faces |
| StlBytes.DecodeInt32 | ampscan/core.py:149 | unpacking needs exactly four bytes and gives a signed 32-bit value |
| StlBytes.DecodeEncode | ampscan/core.py:149 | decoding the encoding of a 32-bit integer gives it back |
| StlBytes.EncodeDecode | ampscan/core.py:149 | encoding a decoded four-byte group gives it back |
| StlBytes.AsciiUtf8 | ampscan/core.py:153 | ASCII bytes are valid UTF-8 |
| StlBytes.Arrays | ampscan/core.py:151-161 | n records give 3n vertices, n normals and n faces, every face within the vertices |
| StlBytes.ArraysAt | ampscan/core.py:151-161 | record f gives normal f from its first 12 bytes, vertices 3f..3f+2 from the next 36, and face (3f, 3f+1, 3f+2) |
| StlBytes.ReadBytes | ampscan/core.py:124-161 | as written: fails exactly for a short header, a body that is not whole records, a header whose first five bytes are not UTF-8 or read "solid", or a count that disagrees |
| StlBytes.ReadBytesIntended | ampscan/core.py:140-161 | corrected: the same, with only the "solid" test on the header |
| StlBytes.ReadersAgree | ampscan/core.py:147-154 | the two readers agree whenever the header's first five bytes are valid UTF-8 |
| StlBytes.ConcatRecords | ampscan/core.py:151 | a concatenation of 50-byte records splits back into them |
| StlBytes.EncodeOk | ampscan/core.py:124-161 | a well-formed file is read into the arrays of its records |
| StlBytes.ArraysOfRecords | ampscan/core.py:151-161 | record f gives normal f and vertices 3f..3f+2 |
| StlBytes.ReadEncoded | ampscan/core.py:124-161 | reading a well-formed file recovers every record's normal and corners |
| StlBytes.CornerOf | ampscan/core.py:159 | vertex 3f+k is decoded from bytes 12+12k of record f |
| StlBytes.Merge | ampscan/core.py:162-168 | without unification the arrays are kept; with it, faces stay in range and keep their count |
| StlBytes.Read | ampscan/core.py:124-173 | fails exactly as the byte checks do; a loaded mesh has valid faces, zero values and a structure iff requested |
| StlBytes.BadHeaderRejected | ampscan/core.py:153 | a header starting with byte 0xFF and a count of 0 fails as written but reads as an empty mesh when corrected |

## Left out

- Rendering, GUIs, plotting, file opening and writing, `save`, `save_aop`, `read_stl`, the PDF and CSV writers: these are I/O. `read_aop` is modelled on the list of lines, without `splitlines`.
- `calc_volume_closed`, `centreStatic`, the getters and setters, and `calcNorm`'s normalisation are not modelled. `fixNorm` uses the unnormalised cross product, which has the same direction.
- Normals, vertex normals and `calcStruct` are not recomputed after trims, transforms, smoothing and `close`. Only the vertex, face and value arrays are modelled there, except where `calcStruct` decides control flow, as in `close`.
- `inverse` runs ICP on the caller's static mesh and moves it in place (ampscan/align.py:221-235). The model returns new vertex arrays for both meshes instead.
- Floating point: all coordinates are exact reals. NaN, infinities and rounding are not modelled.
- `Slicing.IntersectCy` does not model the float32 result array of `planeEdgeIntersect_cy`. It computes in exact reals.
- `Topology.VertexNormals` requires every vertex to have an incident face. The source takes `nanmean` of an empty slice and stores NaN.
- `Smooth.LpStep`, `Smooth.HcStep` and `Smooth.ValuesStep` require every moved vertex to have a neighbour (`Smoothable`). The source's mean of an empty slice is NaN.
- `Measure.EstVolume` requires non-empty polygons. An empty later polygon makes the source's mean NaN.
- `Registration.Displacement` requires non-degenerate candidate faces (`Usable`, denominator ≠ 0). The source divides by zero and produces NaN or inf.
- `Align.ContPoints` requires non-empty control points when both are given. The source's mean over zero points is NaN.
- `Align.RunICP`, `Align.Inverse` and the lemmas about them require `initTransform`, when given, to be rectangular (every row as long as the first). A NumPy array always is; a ragged list is not an array.
- `Grouping.SortOrder` is the stable order on ties. NumPy's default `argsort` is not stable, so the order of positions within one group may differ in the source; the set of positions in each group is the same.
- `Align.ArgSort` uses the stable order on ties; numpy's default sort is not stable. Properties about it are stated up to ties, as sortedness plus permutation.
- sqrt, norms, `cos`, `sin` and float parsing are parameters: `norm`, `Trig` and `Numbers.float`. Python's `int()` is modelled for optional sign and decimal digits only, without surrounding whitespace or underscores.
- `StlBytes.DecodeInt32`: native `@i` byte order is taken as little-endian. Float32 decoding is a parameter.
- The k-d-tree queries, SVD, `lstsq` and `scipy.minimize` are inputs. Their results are passed as `Align.Solvers`, candidate face indices and distances, and `rot2quat` is not modelled.
- The `point2plane` driver as a whole is not modelled. Its smoothing call does not match `hc_smooth`'s signature, and it calls `adjustCoincident`, which is defined nowhere in the package. Its per-step pieces are modelled: projection, adjustment, candidate choice, schedule, accumulation and the scale pre-step. `__calcBarycentric` is unused.
- `Align.OptZVol`: the slice-volume search that finds z is not modelled. z is an input, and the translation it produces is modelled.
- `Closing.CloseLoop` and `Closing.Close` take a fuel bound. Running out of fuel gives `None`, which does not occur in the source's unbounded loop.
- `Trim.ThreePointTrim` and `Trim.ThreePointTrimIntended` require the plane normal to have a non-zero z component. For a vertical plane the source divides by zero and its heights are ±inf or nan, which exact reals cannot hold.
- `Trim.ThreePointTrim` does not normalise the plane normal c. Heights `-(.. + k)/c2` do not change when c and k are scaled together.
- `read_aop` is followed by `calcStruct` and `unifyVert` in the source. The model returns the grid and leaves those calls to `Topology`.
- The legacy `AmpScan/` and `build/` copies of the same operations are superseded by `ampscan/` and not modelled, except `AmpScan/pressSens.py`. `ssm`, `pca` and `fe` are SVD- and file-based.

## Findings

| source | as written | input that shows it | evidently intended | confidence | as-written member | corrected member |
|---|---|---|---|---|---|---|
| ampscan/analyse/analyse.py:336-344 | `planeEdgeIntersect_cy` interpolates only coordinates 0 and 1, so for slicing axis 0 or 1 coordinate 2 stays 0 | edge (0,0,1)-(2,0,1), axis 0, plane 1 gives (1,0,0) instead of (1,0,1) | interpolate both in-plane coordinates, as `planeEdgeintersect` does | not executed | Slicing.IntersectCyOffEdge | Slicing.IntersectOnSegment |
| ampscan/trim.py:107 | the height uses c[0] for the y term | plane z = y through (0,0,0), (1,0,0), (0,1,1); vertex (0,1,0.5) gets height 0, not 1 | `-(x·c0 + y·c1 + k)/c2` | not executed | TrimExample.HeightAsWrittenWrong | Trim.ThreePointTrimIntended |
| ampscan/registration.py:364-370 | edge patterns project onto the whole line through the edge | P0=(0,0,0), P1=(1,0,0), P2=(0,1,0), G=(3,1,0) goes to (1.5,-0.5,0), outside the face | clamp the projection onto the edge segment, so that candidates lie on the face | not executed | Registration.AdjustAsWrittenOffEdge | Registration.Adjust |
| ampscan/align.py:232 | `inverse` records T := -T (and after `optZVol`, whose T is a list, raises TypeError) | R a quarter turn about z, T = (1,0,0): a moved point comes back displaced by (-1,-1,0) | T := -Rᵀ·T, the inverse motion | not executed | Align.InverseAsWrittenMissesStart | Align.InverseRestoresStatic |
| ampscan/align.py:564 | `optZVol` shifts by dZ = mMinZ - sMinZ | mMin = 1, sMin = 0: the lowest moving z goes to 2, not 0 | dZ = sMinZ - mMinZ, to match the static minimum z | not executed | Align.LowestShiftAsWrittenMisses | Align.LowestShift |
| ampscan/core.py:153-154 | `str(head[:5], 'utf-8')` raises on a header that is not UTF-8 | an 80-byte header starting with byte 0xFF and face count 0 raises instead of giving an empty mesh | reject only headers starting with "solid" | not executed | StlBytes.BadHeaderRejected | StlBytes.ReadBytesIntended |

=== FILE: align.dfy ===
/** The bookkeeping of rigid alignment (`align`): inlier selection, the
    composition of the per-iteration transforms, the 4x4 `tForm` layout, the
    dispatch on the method name, the control-point solution, the inverse mode
    and the z bookkeeping of `optZVol`. The numerical solvers (least squares,
    SVD, minimisation, the k-d tree and the volume search) are parameters. */
module Align {
  import opened Wrappers
  import opened Linalg
  import opened PyArgs
  import opened Topology
  import Transform

  // ---------------------------------------------------------------------
  // Rigid transforms

  /** x ↦ R x + T, as `rigidTransform` applies it (rotate, then translate). */
  datatype Rigid = Rigid(R: Mat3, T: Vec3)

  const NoMotion := Rigid(Identity, Zero)

  function Apply(t: Rigid, x: Vec3): Vec3 {
    Add(MatVec(t.R, x), t.T)
  }

  /** Every vertex moved by `t`. */
  function Move(vert: seq<Vec3>, t: Rigid): (r: seq<Vec3>)
    ensures |r| == |vert|
    ensures forall i :: 0 <= i < |vert| ==> r[i] == Apply(t, vert[i])
  {
    seq(|vert|, i requires 0 <= i < |vert| => Apply(t, vert[i]))
  }

  lemma IdentityApply(x: Vec3)
    ensures MatVec(Identity, x) == x
  {
  }

  /** `Move` is what `rigidTransform(R, T)` does to the vertices. */
  lemma MoveIsRigidTransform(m: Mesh, t: Rigid)
    ensures Transform.RigidTransform(m, FromMat(t.R), FromVec(t.T)) == Ok(m.(vert := Move(m.vert, t)))
  {
    assert AsMatrix(FromMat(t.R)) == Ok(t.R);
    assert AsVec(FromVec(t.T)) == Ok(t.T);
    var r := Transform.RigidTransform(m, FromMat(t.R), FromVec(t.T));
    assert r.value.vert == Move(m.vert, t);
  }

  /** One ICP step folded into the running transform:
      `Rs[i+1] = R Rs[i]`, `Ts[i+1] = R Ts[i] + T`. */
  function Compose(acc: Rigid, step: Rigid): Rigid {
    Rigid(MatMul(step.R, acc.R), Add(MatVec(step.R, acc.T), step.T))
  }

  /** The composed transform is the two transforms applied in turn. */
  lemma ComposeApply(acc: Rigid, step: Rigid, x: Vec3)
    ensures Apply(Compose(acc, step), x) == Apply(step, Apply(acc, x))
  {
    MatMulApply(step.R, acc.R, x);
    MatVecAdd(step.R, MatVec(acc.R, x), acc.T);
  }

  lemma MoveCompose(vert: seq<Vec3>, acc: Rigid, step: Rigid)
    ensures Move(Move(vert, acc), step) == Move(vert, Compose(acc, step))
  {
    forall i | 0 <= i < |vert|
      ensures Move(Move(vert, acc), step)[i] == Move(vert, Compose(acc, step))[i]
    {
      ComposeApply(acc, step, vert[i]);
    }
  }

  /** `(Rs[k], Ts[k])` after the steps so far. */
  function Accumulate(init: Rigid, steps: seq<Rigid>): Rigid {
    if |steps| == 0 then init
    else Compose(Accumulate(init, steps[..|steps| - 1]), steps[|steps| - 1])
  }

  /** The moving vertices after each step has been applied in turn. */
  function MoveAll(vert: seq<Vec3>, steps: seq<Rigid>): seq<Vec3> {
    if |steps| == 0 then vert
    else Move(MoveAll(vert, steps[..|steps| - 1]), steps[|steps| - 1])
  }

  /** The accumulated transform applied to the original vertices gives the
      vertices that the in-place updates have produced. */
  lemma {:induction false} AccumulateTracksMesh(vert: seq<Vec3>, init: Rigid, steps: seq<Rigid>)
    ensures MoveAll(Move(vert, init), steps) == Move(vert, Accumulate(init, steps))
  {
    if |steps| > 0 {
      var pre := steps[..|steps| - 1];
      AccumulateTracksMesh(vert, init, pre);
      MoveCompose(vert, Accumulate(init, pre), steps[|steps| - 1]);
    }
  }

  // ---------------------------------------------------------------------
  // The 4x4 transformation array

  /** `np.r_[np.c_[R, np.zeros(3)], np.append(T, 1)[:, None].T]`: R in the
      upper-left block, T in the last row. */
  function TForm(t: Rigid): (f: seq<seq<real>>)
    ensures |f| == 4 && forall i :: 0 <= i < 4 ==> |f[i]| == 4
    ensures forall i, j :: 0 <= i < 3 && 0 <= j < 3 ==> f[i][j] == t.R.Row(i).At(j)
    ensures forall j :: 0 <= j < 3 ==> f[3][j] == t.T.At(j)
    ensures f[0][3] == 0.0 && f[1][3] == 0.0 && f[2][3] == 0.0 && f[3][3] == 1.0
  {
    [[t.R.r0.x, t.R.r0.y, t.R.r0.z, 0.0],
     [t.R.r1.x, t.R.r1.y, t.R.r1.z, 0.0],
     [t.R.r2.x, t.R.r2.y, t.R.r2.z, 0.0],
     [t.T.x, t.T.y, t.T.z, 1.0]]
  }

  /** The shape `initTransform` must have for `[:3, :3]` and `[3, :3]`. */
  predicate Readable(f: seq<seq<real>>) {
    |f| >= 4 && forall i :: 0 <= i < 4 ==> |f[i]| >= 3
  }

  /** The transform a single-column array broadcasts to: column 0 of rows
      0-2 repeated across the rows of R, and row 3 repeated across T. */
  function ColumnTransform(f: seq<seq<real>>): (t: Rigid)
    requires |f| >= 4 && forall i :: 0 <= i < 4 ==> |f[i]| >= 1
    ensures forall i, j :: 0 <= i < 3 && 0 <= j < 3 ==> t.R.Row(i).At(j) == f[i][0]
    ensures forall j :: 0 <= j < 3 ==> t.T.At(j) == f[3][0]
  {
    Rigid(Mat3(Vec3(f[0][0], f[0][0], f[0][0]),
               Vec3(f[1][0], f[1][0], f[1][0]),
               Vec3(f[2][0], f[2][0], f[2][0])),
          Vec3(f[3][0], f[3][0], f[3][0]))
  }

  /** `Rs[:, :, 0] = initTransform[:3, :3]`, `Ts[:, 0] = initTransform[3, :3]`. */
  function ReadTransform(f: seq<seq<real>>): (t: Rigid)
    requires Readable(f)
    ensures forall i, j :: 0 <= i < 3 && 0 <= j < 3 ==> t.R.Row(i).At(j) == f[i][j]
    ensures forall j :: 0 <= j < 3 ==> t.T.At(j) == f[3][j]
  {
    Rigid(Mat3(Vec3(f[0][0], f[0][1], f[0][2]),
               Vec3(f[1][0], f[1][1], f[1][2]),
               Vec3(f[2][0], f[2][1], f[2][2])),
          Vec3(f[3][0], f[3][1], f[3][2]))
  }

  /** A two-dimensional array: every row as long as the first. */
  predicate Rectangular(f: seq<seq<real>>) {
    forall i :: 0 <= i < |f| ==> |f[i]| == |f[0]|
  }

  function Cols(f: seq<seq<real>>): nat {
    if |f| == 0 then 0 else |f[0]|
  }

  /** The first (at most) three entries along a dimension of size `k`
      broadcast onto three entries: one entry is repeated, three are copied,
      and none or two do not fit. */
  predicate BroadcastsToThree(k: nat) {
    k == 1 || k >= 3
  }

  /** `Rs[:, :, 0] = initTransform[:3, :3]` and then
      `Ts[:, 0] = initTransform[3, :3]`: a block that does not broadcast onto
      3×3 is a ValueError, a missing fourth row an IndexError. A single
      column is repeated across each row of R and across T. */
  function InitTransform(f: seq<seq<real>>): (r: Result<Rigid>)
    requires Rectangular(f)
    ensures !BroadcastsToThree(|f|) || !BroadcastsToThree(Cols(f)) ==> r == Err(ValueError)
    ensures BroadcastsToThree(|f|) && BroadcastsToThree(Cols(f)) && |f| < 4 ==> r == Err(IndexError)
    ensures r.Ok? <==> |f| >= 4 && BroadcastsToThree(Cols(f))
    ensures Readable(f) ==> r == Ok(ReadTransform(f))
    ensures r.Ok? && Cols(f) == 1 ==> forall i, j :: 0 <= i < 3 && 0 <= j < 3 ==> r.value.R.Row(i).At(j) == f[i][0]
    ensures r.Ok? && Cols(f) == 1 ==> forall j :: 0 <= j < 3 ==> r.value.T.At(j) == f[3][0]
  {
    if !BroadcastsToThree(|f|) || !BroadcastsToThree(Cols(f)) then Err(ValueError)
    else if |f| < 4 then Err(IndexError)
    else if Cols(f) == 1 then
      Ok(ColumnTransform(f))
    else
      Ok(ReadTransform(f))
  }

  /** The initial transform of `runICP`: `initTransform`, or `np.eye(4)`
      when it is `None`. */
  function StartTransform(initTransform: Option<seq<seq<real>>>): (r: Result<Rigid>)
    requires initTransform.Some? ==> Rectangular(initTransform.value)
    ensures initTransform.None? ==> r == Ok(NoMotion)
    ensures initTransform.Some? ==> r == InitTransform(initTransform.value)
  {
    DefaultIsNoMotion();
    InitTransform(if initTransform.Some? then initTransform.value else Eye4)
  }

  /** Reading an array written by `TForm` gives back the transform: the
      translation really is stored in the last row. */
  lemma ReadTForm(t: Rigid)
    ensures Readable(TForm(t))
    ensures ReadTransform(TForm(t)) == t
  {
  }

  /** `np.eye(4)`, the default `initTransform`. */
  const Eye4: seq<seq<real>> :=
    [[1.0, 0.0, 0.0, 0.0], [0.0, 1.0, 0.0, 0.0], [0.0, 0.0, 1.0, 0.0], [0.0, 0.0, 0.0, 1.0]]

  lemma DefaultIsNoMotion()
    ensures Readable(Eye4) && ReadTransform(Eye4) == NoMotion
    ensures TForm(NoMotion) == Eye4
  {
  }

  // ---------------------------------------------------------------------
  // Rotations built from angles

  /** The rotation `linPoint2Plane` writes out from the cosines and sines of
      the three angles. */
  function ClosedForm(cx: real, sx: real, cy: real, sy: real, cz: real, sz: real): Mat3 {
    Mat3(Vec3(cy * cz, sx * sy * cz - cx * sz, cx * sy * cz + sx * sz),
         Vec3(cy * sz, cx * cz + sx * sy * sz, cx * sy * sz - sx * cz),
         Vec3(-sy, sx * cy, cx * cy))
  }

  /** Rz Ry written out. */
  lemma ZY(cy: real, sy: real, cz: real, sz: real)
    ensures MatMul(RotZ(cz, sz), RotY(cy, sy)) == Mat3(Vec3(cz * cy, -sz, cz * sy), Vec3(sz * cy, cz, sz * sy), Vec3(-sy, 0.0, cy))
  {
    var B := RotY(cy, sy);
    assert B.Col(0) == Vec3(cy, 0.0, -sy);
    assert B.Col(1) == Vec3(0.0, 1.0, 0.0);
    assert B.Col(2) == Vec3(sy, 0.0, cy);
  }
  /** A row times the rotation about x. */
  function RowTimesX(r: Vec3, cx: real, sx: real): Vec3 {
    Vec3(r.x, r.y * cx + r.z * sx, r.z * cx - r.y * sx)
  }

  lemma TimesX(a: Mat3, cx: real, sx: real)
    ensures MatMul(a, RotX(cx, sx)) == Mat3(RowTimesX(a.r0, cx, sx), RowTimesX(a.r1, cx, sx), RowTimesX(a.r2, cx, sx))
  {
    var B := RotX(cx, sx);
    assert B.Col(0) == Vec3(1.0, 0.0, 0.0);
    assert B.Col(1) == Vec3(0.0, cx, sx);
    assert B.Col(2) == Vec3(0.0, -sx, cx);
    RowTimesXDots(a.r0, cx, sx);
    RowTimesXDots(a.r1, cx, sx);
    RowTimesXDots(a.r2, cx, sx);
  }

  lemma RowTimesXDots(r: Vec3, cx: real, sx: real)
    ensures Vec3(Dot(r, Vec3(1.0, 0.0, 0.0)), Dot(r, Vec3(0.0, cx, sx)), Dot(r, Vec3(0.0, -sx, cx)))
         == RowTimesX(r, cx, sx)
  {
  }

  function Expanded(cx: real, sx: real, cy: real, sy: real, cz: real, sz: real): Mat3 {
    Mat3(RowTimesX(Vec3(cz * cy, -sz, cz * sy), cx, sx),
         RowTimesX(Vec3(sz * cy, cz, sz * sy), cx, sx),
         RowTimesX(Vec3(-sy, 0.0, cy), cx, sx))
  }

  lemma ProductExpanded(cx: real, sx: real, cy: real, sy: real, cz: real, sz: real)
    ensures MatMul(MatMul(RotZ(cz, sz), RotY(cy, sy)), RotX(cx, sx)) == Expanded(cx, sx, cy, sy, cz, sz)
  {
    ZY(cy, sy, cz, sz);
    TimesX(MatMul(RotZ(cz, sz), RotY(cy, sy)), cx, sx);
  }

  lemma ExpandedIsClosedForm(cx: real, sx: real, cy: real, sy: real, cz: real, sz: real)
    ensures Expanded(cx, sx, cy, sy, cz, sz) == ClosedForm(cx, sx, cy, sy, cz, sz)
  {
  }

  /** The closed form is the product Rz Ry Rx of the three axis rotations. */
  lemma ClosedFormIsProduct(cx: real, sx: real, cy: real, sy: real, cz: real, sz: real)
    ensures ClosedForm(cx, sx, cy, sy, cz, sz) == MatMul(MatMul(RotZ(cz, sz), RotY(cy, sy)), RotX(cx, sx))
  {
    ProductExpanded(cx, sx, cy, sy, cz, sz);
    ExpandedIsClosedForm(cx, sx, cy, sy, cz, sz);
  }

  /** The rotation `linPoint2Plane` returns for the solved angles `X[:3]`. */
  function LinearisedRotation(tr: Trig, a: Vec3): (r: Mat3)
    ensures r == Transform.Euler(tr, a)
  {
    ClosedFormIsProduct(tr.cos(a.x), tr.sin(a.x), tr.cos(a.y), tr.sin(a.y), tr.cos(a.z), tr.sin(a.z));
    ClosedForm(tr.cos(a.x), tr.sin(a.x), tr.cos(a.y), tr.sin(a.y), tr.cos(a.z), tr.sin(a.z))
  }

  /** The gaps between the moved points and their partners. */
  function Gaps(t: Rigid, mv: seq<Vec3>, sv: seq<Vec3>): (w: seq<Vec3>)
    requires |mv| == |sv|
    ensures |w| == |mv|
    ensures forall i :: 0 <= i < |mv| ==> w[i] == Sub(Apply(t, mv[i]), sv[i])
  {
    seq(|mv|, i requires 0 <= i < |mv| => Sub(Apply(t, mv[i]), sv[i]))
  }

  /** The squared length of each vector (`(w**2).sum(axis=1)`). */
  function SqNorms(w: seq<Vec3>): (d: seq<real>)
    ensures |d| == |w|
    ensures forall i :: 0 <= i < |w| ==> d[i] == NormSq(w[i])
  {
    seq(|w|, i requires 0 <= i < |w| => NormSq(w[i]))
  }

  /** A mean of squared lengths is never negative, and it is zero when
      every vector is zero. */
  lemma SqNormsMean(w: seq<Vec3>)
    requires |w| > 0
    ensures Mean(SqNorms(w)) >= 0.0
    ensures (forall i :: 0 <= i < |w| ==> w[i] == Zero) ==> Mean(SqNorms(w)) == 0.0
  {
    var d := SqNorms(w);
    forall i | 0 <= i < |d| ensures d[i] >= 0.0 {
      NormSqNonneg(w[i]);
    }
    MeanZero(d);
  }

  /** The transform carries every moving point onto its partner. */
  predicate Fits(t: Rigid, mv: seq<Vec3>, sv: seq<Vec3>)
    requires |mv| == |sv|
  {
    forall i :: 0 <= i < |mv| ==> Apply(t, mv[i]) == sv[i]
  }

  /** The mean squared distance between the moved points and their
      partners. */
  function MeanSqGap(t: Rigid, mv: seq<Vec3>, sv: seq<Vec3>): real
    requires |mv| == |sv| > 0
  {
    Mean(SqNorms(Gaps(t, mv, sv)))
  }

  /** The mean squared distance is never negative, and it is zero when the
      transform carries every point onto its partner. */
  lemma MeanSqGapBounds(t: Rigid, mv: seq<Vec3>, sv: seq<Vec3>)
    requires |mv| == |sv| > 0
    ensures MeanSqGap(t, mv, sv) >= 0.0
    ensures Fits(t, mv, sv) ==> MeanSqGap(t, mv, sv) == 0.0
  {
    var w := Gaps(t, mv, sv);
    SqNormsMean(w);
    assert forall i :: 0 <= i < |mv| ==> (Apply(t, mv[i]) == sv[i] ==> w[i] == Zero);
  }

  /** The transform `optDistError` builds from `X`: rotation Rz Ry Rx by the
      angles `X[:3]`, then translation by `X[3:]`. */
  function OptTransform(tr: Trig, a: Vec3, T: Vec3): Rigid
  {
    Rigid(Transform.Euler(tr, a), T)
  }

  /** `optDistError(X, mv, sv)` before the final square root. */
  function OptDistErrorSq(tr: Trig, a: Vec3, T: Vec3, mv: seq<Vec3>, sv: seq<Vec3>): real
    requires |mv| == |sv| > 0
  {
    MeanSqGap(OptTransform(tr, a, T), mv, sv)
  }

  /** The error is never negative, and it is zero when the transform
      carries every moving point onto its partner. */
  lemma {:induction false} OptDistErrorSqBounds(tr: Trig, a: Vec3, T: Vec3, mv: seq<Vec3>, sv: seq<Vec3>)
    requires |mv| == |sv| > 0
    ensures OptDistErrorSq(tr, a, T, mv, sv) >= 0.0
    ensures Fits(OptTransform(tr, a, T), mv, sv) ==> OptDistErrorSq(tr, a, T, mv, sv) == 0.0
  {
    var t := OptTransform(tr, a, T);
    assert OptDistErrorSq(tr, a, T, mv, sv) == MeanSqGap(t, mv, sv);
    MeanSqGapBounds(t, mv, sv);
  }

  lemma {:induction false} SumZero(s: seq<real>)
    requires forall i :: 0 <= i < |s| ==> s[i] >= 0.0
    ensures Sum(s) >= 0.0
    ensures Sum(s) == 0.0 <==> forall i :: 0 <= i < |s| ==> s[i] == 0.0
  {
    if |s| > 0 {
      var s' := s[..|s| - 1];
      assert forall i :: 0 <= i < |s'| ==> s'[i] == s[i];
      SumZero(s');
    }
  }

  lemma MeanZero(s: seq<real>)
    requires |s| > 0
    requires forall i :: 0 <= i < |s| ==> s[i] >= 0.0
    ensures Mean(s) >= 0.0
    ensures Mean(s) == 0.0 <==> forall i :: 0 <= i < |s| ==> s[i] == 0.0
  {
    SumZero(s);
    DivNonneg(Sum(s), |s| as real);
    if Mean(s) == 0.0 {
      assert Sum(s) == Mean(s) * (|s| as real);
    }
  }

  // ---------------------------------------------------------------------
  // Inliers

  /** `math.ceil(n * inlier)`. */
  function InlierCount(n: nat, inlier: real): int
  {
    Ceil(n as real * inlier)
  }

  /** Python's `s[:k]`: a negative `k` counts from the end. */
  function Prefix<T>(s: seq<T>, k: int): (r: seq<T>)
    ensures r <= s
    ensures 0 <= k ==> |r| == if k < |s| then k else |s|
    ensures k < 0 ==> |r| == if |s| + k < 0 then 0 else |s| + k
  {
    if 0 <= k then (if k < |s| then s[..k] else s)
    else if |s| + k < 0 then []
    else s[..|s| + k]
  }

  function Iota(n: nat): (r: seq<nat>)
    ensures |r| == n && forall i :: 0 <= i < n ==> r[i] == i
  {
    seq(n, i requires 0 <= i < n => i)
  }

  /** `order` lists the positions of `d` by non-decreasing key. */
  ghost predicate SortedBy(d: seq<real>, order: seq<nat>) {
    (forall i :: 0 <= i < |order| ==> order[i] < |d|)
    && forall i, j :: 0 <= i < j < |order| ==> d[order[i]] <= d[order[j]]
  }

  /** What any `np.argsort(d)` returns: every position once, sorted by key. */
  ghost predicate IsArgSort(d: seq<real>, order: seq<nat>) {
    multiset(order) == multiset(Iota(|d|)) && SortedBy(d, order)
  }

  /** Position `a` comes before position `b` when its key is smaller, or
      equal with a smaller position. */
  predicate Before(d: seq<real>, a: nat, b: nat) {
    a < |d| && b < |d| && (d[a] < d[b] || (d[a] == d[b] && a < b))
  }

  /** Sorted by key, ties in position order. */
  ghost predicate Ranked(d: seq<real>, order: seq<nat>) {
    forall i, k :: 0 <= i < k < |order| ==> Before(d, order[i], order[k])
  }

  ghost predicate AllBefore(d: seq<real>, s: seq<nat>, b: nat) {
    forall i :: 0 <= i < |s| ==> Before(d, s[i], b)
  }

  ghost predicate AllBelow(s: seq<nat>, n: nat) {
    forall i :: 0 <= i < |s| ==> s[i] < n
  }

  /** Insert position `j` behind every entry whose key is not larger. */
  function InsertIx(d: seq<real>, order: seq<nat>, j: nat): (r: seq<nat>)
    ensures |r| == |order| + 1
  {
    if |order| == 0 then [j]
    else
      var last := order[|order| - 1];
      if j < |d| && last < |d| && d[j] < d[last] then
        var pre := order[..|order| - 1];
        assert order == pre + [last];
        InsertIx(d, pre, j) + [last]
      else
        order + [j]
  }

  /** Insertion adds `j` and keeps every other entry. */
  lemma {:induction false} InsertIxCount(d: seq<real>, order: seq<nat>, j: nat)
    ensures multiset(InsertIx(d, order, j)) == multiset(order) + multiset{j}
  {
    if |order| > 0 {
      var last := order[|order| - 1];
      var pre := order[..|order| - 1];
      assert order == pre + [last];
      InsertIxCount(d, pre, j);
    }
  }

  lemma {:induction false} InsertBelow(d: seq<real>, order: seq<nat>, j: nat, n: nat)
    requires AllBelow(order, n) && j < n
    ensures AllBelow(InsertIx(d, order, j), n)
  {
    if |order| > 0 {
      InsertBelow(d, order[..|order| - 1], j, n);
    }
  }

  lemma {:induction false} InsertBefore(d: seq<real>, order: seq<nat>, j: nat, b: nat)
    requires AllBefore(d, order, b) && Before(d, j, b)
    ensures AllBefore(d, InsertIx(d, order, j), b)
  {
    if |order| > 0 {
      InsertBefore(d, order[..|order| - 1], j, b);
    }
  }

  /** Inserting a position larger than every listed one keeps the order
      ranked. */
  lemma {:induction false} InsertRanked(d: seq<real>, order: seq<nat>, j: nat)
    requires j < |d|
    requires Ranked(d, order) && AllBelow(order, j)
    ensures Ranked(d, InsertIx(d, order, j))
  {
    if |order| > 0 {
      var last := order[|order| - 1];
      var pre := order[..|order| - 1];
      assert order == pre + [last];
      if d[j] < d[last] {
        assert Ranked(d, pre) && AllBelow(pre, j);
        InsertRanked(d, pre, j);
        assert AllBefore(d, pre, last);
        InsertBefore(d, pre, j, last);
      } else {
        assert Before(d, last, j);
        assert forall i :: 0 <= i < |pre| ==> Before(d, order[i], last);
      }
    }
  }

  /** Insertion sort of the positions `0 .. k-1` by key. */
  function ArgSortUpTo(d: seq<real>, k: nat): (r: seq<nat>)
    requires k <= |d|
    ensures |r| == k
  {
    if k == 0 then [] else InsertIx(d, ArgSortUpTo(d, k - 1), k - 1)
  }

  /** The sort lists each of the positions `0 .. k-1` once. */
  lemma {:induction false} ArgSortUpToPermutes(d: seq<real>, k: nat)
    requires k <= |d|
    ensures multiset(ArgSortUpTo(d, k)) == multiset(Iota(k))
  {
    if k > 0 {
      var j: nat := k - 1;
      var r' := ArgSortUpTo(d, j);
      ArgSortUpToPermutes(d, j);
      InsertIxCount(d, r', j);
      IotaSnoc(j);
      calc {
        multiset(ArgSortUpTo(d, k));
        multiset(InsertIx(d, r', j));
        multiset(r') + multiset{j};
        multiset(Iota(j)) + multiset{j};
        multiset(Iota(k));
      }
    }
  }

  lemma IotaSnoc(j: nat)
    ensures multiset(Iota(j + 1)) == multiset(Iota(j)) + multiset{j}
  {
    assert Iota(j + 1) == Iota(j) + [j];
  }

  lemma {:induction false} ArgSortUpToBelow(d: seq<real>, k: nat)
    requires k <= |d|
    ensures AllBelow(ArgSortUpTo(d, k), k)
  {
    if k > 0 {
      var r' := ArgSortUpTo(d, k - 1);
      ArgSortUpToBelow(d, k - 1);
      InsertBelow(d, r', k - 1, k);
    }
  }

  /** The sort orders the positions by key, ties by position. */
  lemma {:induction false} ArgSortUpToRanked(d: seq<real>, k: nat)
    requires k <= |d|
    ensures Ranked(d, ArgSortUpTo(d, k))
  {
    if k > 0 {
      ArgSortUpToRanked(d, k - 1);
      ArgSortUpToBelow(d, k - 1);
      InsertRanked(d, ArgSortUpTo(d, k - 1), k - 1);
    }
  }

  /** `np.argsort(dist)`. NumPy's default sort is not stable, so the order
      of equal distances is unspecified; the model takes the stable order
      (ties in index order), one of the orders NumPy may return. */
  function ArgSort(d: seq<real>): (r: seq<nat>)
    ensures |r| == |d|
  {
    ArgSortUpTo(d, |d|)
  }

  /** The order lists every position once, by non-decreasing key, ties by
      position. */
  lemma ArgSortSorts(d: seq<real>)
    ensures IsArgSort(d, ArgSort(d)) && Ranked(d, ArgSort(d))
  {
    var r := ArgSort(d);
    ArgSortUpToPermutes(d, |d|);
    ArgSortUpToBelow(d, |d|);
    ArgSortUpToRanked(d, |d|);
    assert forall i :: 0 <= i < |r| ==> r[i] < |d|;
    forall i, j | 0 <= i < j < |r| ensures d[r[i]] <= d[r[j]] {
      assert Before(d, r[i], r[j]);
    }
  }

  /** `sort[:inlier]` with `inlier = ceil(n * fraction)`. */
  function Inliers(dist: seq<real>, fraction: real): (r: seq<nat>)
    ensures r <= ArgSort(dist)
    ensures 0 <= InlierCount(|dist|, fraction) <= |dist| ==> |r| == InlierCount(|dist|, fraction)
    ensures 1.0 <= fraction ==> |r| == |dist|
  {
    AtLeastAll(|dist|, fraction);
    Prefix(ArgSort(dist), InlierCount(|dist|, fraction))
  }

  /** Keeping a fraction of at least one keeps everything. */
  lemma AtLeastAll(n: nat, fraction: real)
    ensures 1.0 <= fraction ==> InlierCount(n, fraction) >= n
  {
    if 1.0 <= fraction {
      var x := n as real * fraction;
      assert x == n as real + n as real * (fraction - 1.0);
      assert n as real * (fraction - 1.0) >= 0.0;
      assert Ceil(x) as real >= x;
    }
  }

  lemma InIota(n: nat, i: nat)
    requires i < n
    ensures i in multiset(Iota(n))
  {
    assert Iota(n)[i] == i;
  }

  /** Every kept correspondence is at least as close as every dropped one,
      whatever order `argsort` gives to ties. */
  lemma {:induction false} KeptAreClosest(dist: seq<real>, order: seq<nat>, k: int, a: nat, b: nat)
    requires IsArgSort(dist, order)
    requires a in Prefix(order, k)
    requires b < |dist| && b !in Prefix(order, k)
    ensures dist[a] <= dist[b]
  {
    var p := Prefix(order, k);
    InIota(|dist|, b);
    assert b in order;
    var j :| 0 <= j < |order| && order[j] == b;
    var i :| 0 <= i < |p| && p[i] == a;
    assert order[i] == a;
    assert j >= |p|;
  }

  lemma InliersAreClosest(dist: seq<real>, fraction: real, a: nat, b: nat)
    requires a in Inliers(dist, fraction)
    requires b < |dist| && b !in Inliers(dist, fraction)
    ensures a < |dist| && dist[a] <= dist[b]
  {
    ArgSortSorts(dist);
    assert a in ArgSort(dist);
    KeptAreClosest(dist, ArgSort(dist), InlierCount(|dist|, fraction), a, b);
  }

  // ---------------------------------------------------------------------
  // contPoints and idxPoints

  /** What `contPoints` and `idxPoints` hand back: a transform, or an
      exception object that is returned rather than raised. */
  datatype Returned = Solved(t: Rigid) | ReturnedError(e: Error)

  /** The points with their mean subtracted (`mv - mv.mean(axis=0)`). */
  function Centred(s: seq<Vec3>): (r: seq<Vec3>)
    requires |s| > 0
    ensures |r| == |s|
  {
    Shift(s, Neg(VecMean(s)))
  }

  lemma CentredShift(s: seq<Vec3>, c: Vec3)
    requires |s| > 0
    ensures Centred(Shift(s, c)) == Centred(s)
  {
    VecMeanShift(s, c);
  }

  /** `contPoints(mv, sv)`; `rot` is the rotation the SVD of the centred
      cross-covariance yields, kept abstract. The translation then carries
      the mean of `mv` onto the mean of `sv`. */
  function ContPoints(mv: Option<seq<Vec3>>, sv: Option<seq<Vec3>>,
                      rot: (seq<Vec3>, seq<Vec3>) -> Mat3): (r: Returned)
    requires mv.Some? && sv.Some? && |mv.value| == |sv.value| ==> |mv.value| > 0
    ensures r.ReturnedError? <==> mv.None? || sv.None? || |mv.value| != |sv.value|
    ensures r.ReturnedError? ==> r.e == ValueError
    ensures r.Solved? ==>
      && r.t.R == rot(Centred(mv.value), Centred(sv.value))
      && Apply(r.t, VecMean(mv.value)) == VecMean(sv.value)
  {
    if mv.None? || sv.None? then ReturnedError(ValueError)
    else if |mv.value| != |sv.value| then ReturnedError(ValueError)
    else
      var R := rot(Centred(mv.value), Centred(sv.value));
      Solved(Rigid(R, Sub(VecMean(sv.value), MatVec(R, VecMean(mv.value)))))
  }

  /** Shifting the moving control points by `c` gives the same rotation,
      and the new transform sends each shifted point where the old one sent
      the original. */
  lemma ContPointsShift(mv: seq<Vec3>, sv: seq<Vec3>, c: Vec3,
                        rot: (seq<Vec3>, seq<Vec3>) -> Mat3, x: Vec3)
    requires |mv| == |sv| > 0
    ensures ContPoints(Some(Shift(mv, c)), Some(sv), rot).Solved?
    ensures ContPoints(Some(mv), Some(sv), rot).Solved?
    ensures Apply(ContPoints(Some(Shift(mv, c)), Some(sv), rot).t, Add(x, c))
         == Apply(ContPoints(Some(mv), Some(sv), rot).t, x)
  {
    CentredShift(mv, c);
    VecMeanShift(mv, c);
    var R := rot(Centred(mv), Centred(sv));
    MatVecAdd(R, x, c);
    MatVecAdd(R, VecMean(mv), c);
  }

  /** `s[ix]` for a list of Python indices: a negative index counts from
      the end, anything else out of range is an IndexError. */
  function PyGather<T>(s: seq<T>, ix: seq<int>): (r: Result<seq<T>>)
    ensures r.Ok? <==> forall i :: 0 <= i < |ix| ==> -|s| <= ix[i] < |s|
    ensures r.Ok? ==> |r.value| == |ix| && forall i :: 0 <= i < |ix| ==> Ok(r.value[i]) == PyIndex(s, ix[i])
    ensures r.Err? ==> r.error == IndexError
  {
    if |ix| == 0 then Ok([])
    else
      var pre :- PyGather(s, ix[..|ix| - 1]);
      var x :- PyIndex(s, ix[|ix| - 1]);
      assert forall i :: 0 <= i < |ix| - 1 ==> ix[..|ix| - 1][i] == ix[i];
      Ok(pre + [x])
  }

  /** `idxPoints(mv, sv)`: missing index lists are a returned ValueError; the
      indices are then looked up (an IndexError is raised) and the points
      handed to `contPoints`. */
  function IdxPoints(mvert: seq<Vec3>, svert: seq<Vec3>, mv: Option<seq<int>>, sv: Option<seq<int>>,
                     rot: (seq<Vec3>, seq<Vec3>) -> Mat3): (r: Result<Returned>)
    requires mv.Some? && sv.Some? && |mv.value| == |sv.value| ==> |mv.value| > 0
    ensures mv.None? || sv.None? ==> r == Ok(ReturnedError(ValueError))
    ensures r.Err? ==> r.error == IndexError
    ensures r.Ok? && mv.Some? && sv.Some? ==>
      && PyGather(mvert, mv.value).Ok? && PyGather(svert, sv.value).Ok?
      && r.value == ContPoints(Some(PyGather(mvert, mv.value).value), Some(PyGather(svert, sv.value).value), rot)
  {
    if mv.None? || sv.None? then Ok(ReturnedError(ValueError))
    else
      var mp :- PyGather(mvert, mv.value);
      var sp :- PyGather(svert, sv.value);
      Ok(ContPoints(Some(mp), Some(sp), rot))
  }

  // ---------------------------------------------------------------------
  // optZVol: the z bookkeeping

  /** Every vertex raised by `dz` (`vert[:, 2] += dz`). */
  function LiftZ(vert: seq<Vec3>, dz: real): (r: seq<Vec3>)
    ensures |r| == |vert|
    ensures forall i :: 0 <= i < |vert| ==> r[i] == vert[i].(z := vert[i].z + dz)
  {
    Shift(vert, Vec3(0.0, 0.0, dz))
  }

  lemma MinShift(s: seq<real>, d: real, t: seq<real>)
    requires |s| > 0
    requires |t| == |s| && forall i :: 0 <= i < |s| ==> t[i] == s[i] + d
    ensures Min(t) == Min(s) + d
  {
    var j :| 0 <= j < |s| && s[j] == Min(s);
    var k :| 0 <= k < |t| && t[k] == Min(t);
    assert Min(t) <= t[j];
    assert Min(s) <= s[k];
  }

  lemma LowestAfterLift(vert: seq<Vec3>, dz: real)
    requires |vert| > 0
    ensures Min(Column(LiftZ(vert, dz), 2)) == Min(Column(vert, 2)) + dz
  {
    MinShift(Column(vert, 2), dz, Column(LiftZ(vert, dz), 2));
  }

  function LowestZ(vert: seq<Vec3>): real
    requires |vert| > 0
  {
    Min(Column(vert, 2))
  }

  /** `dZ = mMinZ - sMinZ`, added to the moving z. */
  function LowestShiftAsWritten(mvert: seq<Vec3>, svert: seq<Vec3>): real
    requires |mvert| > 0 && |svert| > 0
  {
    LowestZ(mvert) - LowestZ(svert)
  }

  /** The shift as written puts the lowest moving vertex at
      `2 mMinZ - sMinZ`, which is the static minimum only when the two
      minima already agree. */
  lemma LowestShiftAsWrittenMisses(mvert: seq<Vec3>, svert: seq<Vec3>)
    requires |mvert| > 0 && |svert| > 0
    ensures LowestZ(LiftZ(mvert, LowestShiftAsWritten(mvert, svert)))
         == 2.0 * LowestZ(mvert) - LowestZ(svert)
    ensures LowestZ(LiftZ(mvert, LowestShiftAsWritten(mvert, svert))) == LowestZ(svert)
        <==> LowestZ(mvert) == LowestZ(svert)
  {
    LowestAfterLift(mvert, LowestShiftAsWritten(mvert, svert));
  }

  /** The shift that matches the moving minimum to the static one. */
  function LowestShift(mvert: seq<Vec3>, svert: seq<Vec3>): (dz: real)
    requires |mvert| > 0 && |svert| > 0
    ensures LowestZ(LiftZ(mvert, dz)) == LowestZ(svert)
  {
    LowestAfterLift(mvert, LowestZ(svert) - LowestZ(mvert));
    LowestZ(svert) - LowestZ(mvert)
  }

  /** The result of one alignment run: the moved vertices, the recorded
      `(R, T)` and `tForm`. */
  datatype Alignment = Alignment(moved: seq<Vec3>, fit: Rigid, tForm: seq<seq<real>>)

  /** `optZVol`: shift the moving mesh in z by `dZ = mMinZ - sMinZ`, then
      lower it by the level `z` the volume search settles on (kept abstract);
      the recorded transform is the identity rotation and the net z shift.
      `np.min` of an empty mesh raises a ValueError. */
  function OptZVol(mvert: seq<Vec3>, svert: seq<Vec3>, z: real): (r: Result<Alignment>)
    ensures r.Err? <==> |mvert| == 0 || |svert| == 0
    ensures r.Err? ==> r.error == ValueError
    ensures r.Ok? ==> r.value.moved == Move(mvert, r.value.fit) && r.value.tForm == TForm(r.value.fit)
    ensures r.Ok? ==> r.value.fit.R == Identity && r.value.fit.T.x == 0.0 && r.value.fit.T.y == 0.0
    ensures r.Ok? ==> r.value.fit.T.z == LowestZ(mvert) - LowestZ(svert) - z
  {
    if |svert| == 0 || |mvert| == 0 then Err(ValueError)
    else
      var dZ := LowestShiftAsWritten(mvert, svert);
      var moved := LiftZ(LiftZ(mvert, dZ), -z);
      var fit := Rigid(Identity, Vec3(0.0, 0.0, dZ - z));
      assert moved == Move(mvert, fit) by {
        forall i | 0 <= i < |mvert| ensures moved[i] == Move(mvert, fit)[i] {
          IdentityApply(mvert[i]);
        }
      }
      Ok(Alignment(moved, fit, TForm(fit)))
  }

  // ---------------------------------------------------------------------
  // runICP

  datatype Method = LinPoint2Point | LinPoint2Plane | OptPoint2Point | ContPointsMethod | IdxPointsMethod | OptZVolMethod

  function ParseMethod(name: string): (m: Option<Method>)
    ensures m == Some(LinPoint2Plane) <==> name == "linPoint2Plane"
    ensures m.None? <==> name !in {"linPoint2Point", "linPoint2Plane", "optPoint2Point", "contPoints", "idxPoints", "optZVol"}
  {
    if name == "linPoint2Point" then Some(LinPoint2Point)
    else if name == "linPoint2Plane" then Some(LinPoint2Plane)
    else if name == "optPoint2Point" then Some(OptPoint2Point)
    else if name == "contPoints" then Some(ContPointsMethod)
    else if name == "idxPoints" then Some(IdxPointsMethod)
    else if name == "optZVol" then Some(OptZVolMethod)
    else None
  }

  /** The methods that iterate and compose. */
  predicate Iterative(m: Method) {
    m == LinPoint2Point || m == LinPoint2Plane || m == OptPoint2Point
  }

  /** The numerical parts of a run: the transform each iteration's solver
      returns, what `contPoints`/`idxPoints` return or raise, the level of
      the `optZVol` volume search, and `U V` from the SVD of a matrix. */
  datatype Solvers = Solvers(steps: seq<Rigid>, single: Result<Returned>, zLevel: real, orth: Mat3 -> Mat3)

  /** The end of the loop: the accumulated rotation is re-orthonormalised
      through its SVD and recorded with the accumulated translation. */
  function Finish(moved: seq<Vec3>, acc: Rigid, orth: Mat3 -> Mat3): (a: Alignment)
    ensures a.moved == moved && a.fit.T == acc.T && a.fit.R == orth(acc.R)
    ensures a.tForm == TForm(a.fit)
  {
    var fit := Rigid(orth(acc.R), acc.T);
    Alignment(moved, fit, TForm(fit))
  }

  /** `runICP(name, maxiter, inlier, initTransform)` on the moving
      vertices `vert`, against the static vertices `svert`. A negative
      array size is a ValueError and `maxiter == -1` leaves no slot for the
      initial transform (IndexError). An unknown name only builds a
      KeyError, so the first iteration reads an unbound `R`. */
  function RunICP(name: string, maxiter: int, initTransform: Option<seq<seq<real>>>,
                  vert: seq<Vec3>, svert: seq<Vec3>, sol: Solvers): (r: Result<Alignment>)
    requires initTransform.Some? ==> Rectangular(initTransform.value)
    requires maxiter >= 0 ==> |sol.steps| == maxiter
    ensures maxiter < -1 ==> r == Err(ValueError)
    ensures maxiter == -1 ==> r == Err(IndexError)
    ensures maxiter >= 0 && StartTransform(initTransform).Err? ==> r == Err(StartTransform(initTransform).error)
    ensures maxiter >= 1 && StartTransform(initTransform).Ok? && ParseMethod(name).None? ==> r == Err(UnboundLocalError)
    ensures r.Ok? ==> r.value.tForm == TForm(r.value.fit)
  {
    if maxiter < -1 then Err(ValueError)
    else if maxiter == -1 then Err(IndexError)
    else
      var init :- StartTransform(initTransform);
      var start := Move(vert, init);
      if maxiter == 0 then Ok(Finish(start, init, sol.orth))
      else match ParseMethod(name)
        case None => Err(UnboundLocalError)
        case Some(m) =>
          if Iterative(m) then
            Ok(Finish(MoveAll(start, sol.steps), Accumulate(init, sol.steps), sol.orth))
          else if m == OptZVolMethod then
            OptZVol(start, svert, sol.zLevel)
          else
            var ret :- sol.single;
            if ret.ReturnedError? then Err(TypeError)
            else Ok(Alignment(Move(start, ret.t), ret.t, TForm(ret.t)))
  }

  /** For the iterative methods the moving vertices are the original ones
      under the recorded translation and the accumulated rotation. */
  lemma RunICPIterative(name: string, maxiter: int, initTransform: Option<seq<seq<real>>>,
                        vert: seq<Vec3>, svert: seq<Vec3>, sol: Solvers)
    requires initTransform.Some? ==> Rectangular(initTransform.value)
    requires StartTransform(initTransform).Ok?
    requires maxiter >= 0 && |sol.steps| == maxiter
    requires ParseMethod(name).Some? && Iterative(ParseMethod(name).value)
    ensures RunICP(name, maxiter, initTransform, vert, svert, sol).Ok?
    ensures var init := StartTransform(initTransform).value;
            var a := RunICP(name, maxiter, initTransform, vert, svert, sol).value;
            && a.moved == Move(vert, Accumulate(init, sol.steps))
            && a.fit.T == Accumulate(init, sol.steps).T
  {
    var init := StartTransform(initTransform).value;
    AccumulateTracksMesh(vert, init, sol.steps);
    if maxiter == 0 {
      assert MoveAll(Move(vert, init), sol.steps) == Move(vert, init);
    }
  }

  /** `contPoints` and `idxPoints` apply one transform after the initial
      one and record only that transform, without composing or
      re-orthonormalising; a returned exception fails at the unpacking. */
  lemma RunICPSingle(name: string, maxiter: int, initTransform: Option<seq<seq<real>>>,
                     vert: seq<Vec3>, svert: seq<Vec3>, sol: Solvers)
    requires initTransform.Some? ==> Rectangular(initTransform.value)
    requires StartTransform(initTransform).Ok?
    requires maxiter >= 1 && |sol.steps| == maxiter
    requires name == "contPoints" || name == "idxPoints"
    ensures sol.single.Err? ==> RunICP(name, maxiter, initTransform, vert, svert, sol) == Err(sol.single.error)
    ensures sol.single.Ok? && sol.single.value.ReturnedError? ==>
      RunICP(name, maxiter, initTransform, vert, svert, sol) == Err(TypeError)
    ensures sol.single.Ok? && sol.single.value.Solved? ==>
      var init := StartTransform(initTransform).value;
      var t := sol.single.value.t;
      RunICP(name, maxiter, initTransform, vert, svert, sol) == Ok(Alignment(Move(Move(vert, init), t), t, TForm(t)))
  {
  }

  // ---------------------------------------------------------------------
  // inverse

  /** `R := R.T`, `T := -T`. */
  function InverseAsWritten(t: Rigid): Rigid {
    Rigid(Transpose(t.R), Neg(t.T))
  }

  /** The inverse of x ↦ R x + T for an orthogonal R: x ↦ Rᵀ x - Rᵀ T. */
  function Invert(t: Rigid): Rigid {
    Rigid(Transpose(t.R), Neg(MatVec(Transpose(t.R), t.T)))
  }

  lemma InvertUndoes(t: Rigid, x: Vec3)
    requires MatMul(Transpose(t.R), t.R) == Identity
    ensures Apply(Invert(t), Apply(t, x)) == x
  {
    var Rt := Transpose(t.R);
    MatVecAdd(Rt, MatVec(t.R, x), t.T);
    MatMulApply(Rt, t.R, x);
    IdentityApply(x);
  }

  /** Undoing the translation before the rotation leaves the point off by
      `Rᵀ T - T`, which vanishes only when R fixes T. */
  lemma InverseAsWrittenError(t: Rigid, x: Vec3)
    requires MatMul(Transpose(t.R), t.R) == Identity
    ensures Apply(InverseAsWritten(t), Apply(t, x)) == Add(x, Sub(MatVec(Transpose(t.R), t.T), t.T))
  {
    var Rt := Transpose(t.R);
    MatVecAdd(Rt, MatVec(t.R, x), t.T);
    MatMulApply(Rt, t.R, x);
    IdentityApply(x);
  }

  /** A rotation about z is orthogonal. */
  lemma RotZOrthogonal(c: real, s: real)
    requires c * c + s * s == 1.0
    ensures MatMul(Transpose(RotZ(c, s)), RotZ(c, s)) == Identity
  {
  }

  lemma TransposeRotZ(c: real, s: real)
    ensures Transpose(RotZ(c, s)) == RotZ(c, -s)
  {
  }

  /** A quarter turn about z is orthogonal. */
  lemma QuarterTurnOrthogonal(c: real, s: real)
    requires c == 0.0 && s == 1.0
    ensures MatMul(Transpose(RotZ(c, s)), RotZ(c, s)) == Identity
  {
    RotZOrthogonal(c, s);
  }

  /** With R a quarter turn about z and T = (1, 0, 0), the transform as
      written sends every point x to x + (-1, -1, 0) instead of back to x. */
  lemma InverseAsWrittenMissesStart(c: real, s: real, x: Vec3)
    requires c == 0.0 && s == 1.0
    ensures Apply(InverseAsWritten(Rigid(RotZ(c, s), Vec3(1.0, 0.0, 0.0))),
                  Apply(Rigid(RotZ(c, s), Vec3(1.0, 0.0, 0.0)), x))
         == Add(x, Vec3(-1.0, -1.0, 0.0))
  {
    var v := Apply(Rigid(RotZ(c, s), Vec3(1.0, 0.0, 0.0)), x);
    assert v == Vec3(1.0 - x.y, x.x, x.z);
    TransposeRotZ(c, s);
    assert MatVec(RotZ(c, -s), v) == Vec3(x.x, x.y - 1.0, x.z);
  }

  /** The meshes after the inverse mode: the static mesh (which the run
      moved onto the moving one) and the moving mesh, both under the
      inverted transform, with the inverted `(R, T)` and `tForm`. */
  datatype InverseAlignment = InverseAlignment(staticVert: seq<Vec3>, movingVert: seq<Vec3>, fit: Rigid, tForm: seq<seq<real>>)

  /** A run that ends in `optZVol`, which stores `self.T = [0, 0, T]` as a
      Python list rather than an array. */
  predicate RecordsListT(name: string, maxiter: int) {
    maxiter >= 1 && ParseMethod(name) == Some(OptZVolMethod)
  }

  /** `inverse(method, ...)`: run ICP with the roles swapped, then record
      `R := Rᵀ`, `T := -T` and apply that transform to both meshes. After
      `optZVol` T is a list, and unary minus on a list is a TypeError. */
  function Inverse(name: string, maxiter: int, initTransform: Option<seq<seq<real>>>,
                   mvert: seq<Vec3>, svert: seq<Vec3>, sol: Solvers): (r: Result<InverseAlignment>)
    requires initTransform.Some? ==> Rectangular(initTransform.value)
    requires maxiter >= 0 ==> |sol.steps| == maxiter
    ensures r.Ok? <==> RunICP(name, maxiter, initTransform, svert, mvert, sol).Ok? && !RecordsListT(name, maxiter)
    ensures RunICP(name, maxiter, initTransform, svert, mvert, sol).Err? ==>
      r == Err(RunICP(name, maxiter, initTransform, svert, mvert, sol).error)
    ensures RunICP(name, maxiter, initTransform, svert, mvert, sol).Ok? && RecordsListT(name, maxiter) ==>
      r == Err(TypeError)
    ensures r.Ok? ==>
      var a := RunICP(name, maxiter, initTransform, svert, mvert, sol).value;
      && r.value.fit.R == Transpose(a.fit.R) && r.value.fit.T == Neg(a.fit.T)
      && r.value.staticVert == Move(a.moved, r.value.fit)
      && r.value.movingVert == Move(mvert, r.value.fit)
      && r.value.tForm == TForm(r.value.fit)
  {
    var a :- RunICP(name, maxiter, initTransform, svert, mvert, sol);
    if RecordsListT(name, maxiter) then Err(TypeError)
    else
      var inv := InverseAsWritten(a.fit);
      Ok(InverseAlignment(Move(a.moved, inv), Move(mvert, inv), inv, TForm(inv)))
  }

  /** When the recorded transform is orthogonal and is what moved the static
      mesh, the inverse mode leaves every static vertex displaced by
      `Rᵀ T - T` from where it started. */
  lemma InverseMovesStatic(name: string, maxiter: int, initTransform: Option<seq<seq<real>>>,
                           mvert: seq<Vec3>, svert: seq<Vec3>, sol: Solvers)
    requires initTransform.Some? ==> Rectangular(initTransform.value)
    requires maxiter >= 0 ==> |sol.steps| == maxiter
    requires RunICP(name, maxiter, initTransform, svert, mvert, sol).Ok?
    requires var a := RunICP(name, maxiter, initTransform, svert, mvert, sol).value;
             a.moved == Move(svert, a.fit) && MatMul(Transpose(a.fit.R), a.fit.R) == Identity
    ensures RecordsListT(name, maxiter) ==> Inverse(name, maxiter, initTransform, mvert, svert, sol) == Err(TypeError)
    ensures !RecordsListT(name, maxiter) ==> Inverse(name, maxiter, initTransform, mvert, svert, sol).Ok?
    ensures !RecordsListT(name, maxiter) ==>
      var a := RunICP(name, maxiter, initTransform, svert, mvert, sol).value;
      var r := Inverse(name, maxiter, initTransform, mvert, svert, sol).value;
      |r.staticVert| == |svert| &&
      forall i :: 0 <= i < |svert| ==>
        r.staticVert[i] == Add(svert[i], Sub(MatVec(Transpose(a.fit.R), a.fit.T), a.fit.T))
  {
    var a := RunICP(name, maxiter, initTransform, svert, mvert, sol).value;
    MoveBackAsWritten(svert, a.fit);
  }

  lemma MoveBackAsWritten(svert: seq<Vec3>, t: Rigid)
    requires MatMul(Transpose(t.R), t.R) == Identity
    ensures forall i :: 0 <= i < |svert| ==>
      Move(Move(svert, t), InverseAsWritten(t))[i] == Add(svert[i], Sub(MatVec(Transpose(t.R), t.T), t.T))
  {
    forall i | 0 <= i < |svert|
      ensures Move(Move(svert, t), InverseAsWritten(t))[i] == Add(svert[i], Sub(MatVec(Transpose(t.R), t.T), t.T))
    {
      InverseAsWrittenError(t, svert[i]);
    }
  }

  /** The inverse mode with the inverse of the recorded transform,
      `R := Rᵀ`, `T := -Rᵀ T`. */
  function InverseIntended(name: string, maxiter: int, initTransform: Option<seq<seq<real>>>,
                           mvert: seq<Vec3>, svert: seq<Vec3>, sol: Solvers): (r: Result<InverseAlignment>)
    requires initTransform.Some? ==> Rectangular(initTransform.value)
    requires maxiter >= 0 ==> |sol.steps| == maxiter
    ensures r.Ok? <==> RunICP(name, maxiter, initTransform, svert, mvert, sol).Ok?
    ensures r.Ok? ==>
      var a := RunICP(name, maxiter, initTransform, svert, mvert, sol).value;
      && r.value.fit == Invert(a.fit)
      && r.value.staticVert == Move(a.moved, r.value.fit)
      && r.value.movingVert == Move(mvert, r.value.fit)
      && r.value.tForm == TForm(r.value.fit)
  {
    var a :- RunICP(name, maxiter, initTransform, svert, mvert, sol);
    var inv := Invert(a.fit);
    Ok(InverseAlignment(Move(a.moved, inv), Move(mvert, inv), inv, TForm(inv)))
  }

  /** When the recorded transform is orthogonal and is what moved the static
      mesh, the intended inverse mode puts the static mesh back where it
      started. */
  lemma InverseRestoresStatic(name: string, maxiter: int, initTransform: Option<seq<seq<real>>>,
                              mvert: seq<Vec3>, svert: seq<Vec3>, sol: Solvers)
    requires initTransform.Some? ==> Rectangular(initTransform.value)
    requires maxiter >= 0 ==> |sol.steps| == maxiter
    requires RunICP(name, maxiter, initTransform, svert, mvert, sol).Ok?
    requires var a := RunICP(name, maxiter, initTransform, svert, mvert, sol).value;
             a.moved == Move(svert, a.fit) && MatMul(Transpose(a.fit.R), a.fit.R) == Identity
    ensures InverseIntended(name, maxiter, initTransform, mvert, svert, sol).Ok?
    ensures InverseIntended(name, maxiter, initTransform, mvert, svert, sol).value.staticVert == svert
  {
    var a := RunICP(name, maxiter, initTransform, svert, mvert, sol).value;
    var r := InverseIntended(name, maxiter, initTransform, mvert, svert, sol).value;
    forall i | 0 <= i < |svert| ensures r.staticVert[i] == svert[i] {
      InvertUndoes(a.fit, svert[i]);
    }
  }
}

=== FILE: aop.dfy ===
/** The `.aop` reader (`read_aop`). An `.aop` file is text: a version line,
    a comment block closed by `END COMMENTS`, the coordinate system (only
    `CYLINDRICAL` is accepted), the limb side, the landmarks, the spoke and
    slice parameters, and then one radius per line for every point of a
    cylindrical grid of `nSlices` slices by `nSpokes` spokes. The grid points
    become the vertices and each cell of the grid two triangles, every slice
    band closing into a ring. */
module Aop {
  import opened Wrappers
  import opened Linalg
  import opened Topology
  import opened Arith
  import Slicing

  // ---------------------------------------------------------------------
  // Text

  /** `s.split(c)`: the pieces between occurrences of `c`, empty pieces
      kept, so a string without `c` is one piece. */
  function SplitOn(s: string, c: char): (r: seq<string>)
    ensures |r| >= 1
    decreases |s|
  {
    if |s| == 0 then [""]
    else
      var rest := SplitOn(s[1..], c);
      if s[0] == c then [""] + rest
      else [[s[0]] + rest[0]] + rest[1..]
  }

  /** `c.join(parts)`. */
  function Join(parts: seq<string>, c: char): string
    requires |parts| >= 1
    decreases |parts|
  {
    if |parts| == 1 then parts[0] else parts[0] + [c] + Join(parts[1..], c)
  }

  lemma {:induction false} JoinHead(parts: seq<string>, pre: string, c: char)
    requires |parts| >= 1
    ensures Join([pre + parts[0]] + parts[1..], c) == pre + Join(parts, c)
  {
    var q := [pre + parts[0]] + parts[1..];
    if |parts| > 1 {
      assert q[1..] == parts[1..];
    }
  }

  /** Splitting loses nothing: joining the pieces with `c` gives the string
      back, no piece contains `c`, and there is more than one piece exactly
      when `c` occurs. */
  lemma {:induction false} SplitJoin(s: string, c: char)
    ensures Join(SplitOn(s, c), c) == s
    ensures forall k :: 0 <= k < |SplitOn(s, c)| ==> c !in SplitOn(s, c)[k]
    ensures |SplitOn(s, c)| > 1 <==> c in s
    decreases |s|
  {
    if |s| > 0 {
      SplitJoin(s[1..], c);
      var rest := SplitOn(s[1..], c);
      assert s == [s[0]] + s[1..];
      if s[0] == c {
        assert SplitOn(s, c) == [""] + rest;
        assert (([""] + rest)[1..]) == rest;
      } else {
        JoinHead(rest, [s[0]], c);
        forall k | 0 <= k < |SplitOn(s, c)| ensures c !in SplitOn(s, c)[k] {
          if k > 0 {
            assert SplitOn(s, c)[k] == rest[k];
          }
        }
      }
    }
  }

  predicate IsDigit(ch: char) {
    '0' <= ch <= '9'
  }

  predicate AllDigits(s: string) {
    forall i :: 0 <= i < |s| ==> IsDigit(s[i])
  }

  /** The value of a string of decimal digits, most significant first. */
  function DigitsValue(ds: string): nat
    requires AllDigits(ds)
  {
    if |ds| == 0 then 0
    else DigitsValue(ds[..|ds| - 1]) * 10 + (ds[|ds| - 1] as int - '0' as int)
  }

  /** `int(s)` on a decimal literal: an optional sign and at least one digit;
      anything else is a ValueError (`None`). */
  function ParseInt(s: string): Option<int> {
    if |s| > 0 && (s[0] == '-' || s[0] == '+') then
      if |s| > 1 && AllDigits(s[1..]) then
        var v: int := DigitsValue(s[1..]);
        Some(if s[0] == '-' then -v else v)
      else None
    else if |s| > 0 && AllDigits(s) then Some(DigitsValue(s))
    else None
  }

  /** `str(n)` for a natural number. */
  function ShowNat(n: nat): string
    decreases n
  {
    if n < 10 then [('0' as int + n) as char]
    else ShowNat(n / 10) + [('0' as int + n % 10) as char]
  }

  /** `str(n)`. */
  function ShowInt(n: int): string {
    if n < 0 then "-" + ShowNat(-n) else ShowNat(n)
  }

  lemma {:induction false} ShowNatDigits(n: nat)
    ensures |ShowNat(n)| > 0 && AllDigits(ShowNat(n)) && DigitsValue(ShowNat(n)) == n
    decreases n
  {
    if n >= 10 {
      ShowNatDigits(n / 10);
      var s := ShowNat(n);
      assert s[..|s| - 1] == ShowNat(n / 10);
    }
  }

  /** `int(str(n)) == n`: every integer the file could hold is read back. */
  lemma ParseShow(n: int)
    ensures ParseInt(ShowInt(n)) == Some(n)
  {
    if n < 0 {
      var t := ShowNat(-n);
      ShowNatDigits(-n);
      var s := "-" + t;
      assert s[0] == '-' && s[1..] == t;
      var v: int := DigitsValue(t);
      assert ParseInt(s) == Some(-v);
    } else {
      var s := ShowNat(n);
      ShowNatDigits(n);
      assert IsDigit(s[0]);
      assert ParseInt(s) == Some(DigitsValue(s));
    }
  }

  // ---------------------------------------------------------------------
  // Reading lines

  /** What the reader takes from outside: Python's `float` on a string
      (`None` where it raises ValueError) and the trigonometry. */
  datatype Numbers = Numbers(float: string -> Option<real>, trig: Trig)

  /** `np.deg2rad`. */
  function Deg2Rad(t: Trig, x: real): real {
    x * t.pi / 180.0
  }

  /** The point at radius `r`, angle `theta` and height `z`. */
  function Polar(t: Trig, r: real, theta: real, z: real): Vec3 {
    Vec3(r * t.cos(theta), r * t.sin(theta), z)
  }

  /** `lines[id]`: past the last line is an IndexError. */
  function ReadLine(lines: seq<string>, id: int): Result<string> {
    if 0 <= id < |lines| then Ok(lines[id]) else Err(IndexError)
  }

  function Float(num: Numbers, s: string): Result<real> {
    match num.float(s)
    case Some(x) => Ok(x)
    case None => Err(ValueError)
  }

  /** `int(lines[id])`. */
  function ReadInt(lines: seq<string>, id: int): Result<int> {
    var text :- ReadLine(lines, id);
    match ParseInt(text)
    case Some(n) => Ok(n)
    case None => Err(ValueError)
  }

  /** `float(lines[id])`. */
  function ReadFloat(lines: seq<string>, id: int, num: Numbers): Result<real> {
    var text :- ReadLine(lines, id);
    Float(num, text)
  }

  /** Running the reads `rs` in order: all their values, or the error of the
      first one that fails. */
  function Collect<T>(rs: seq<Result<T>>): Result<seq<T>> {
    if |rs| == 0 then Ok([])
    else
      var v :- rs[0];
      var vs :- Collect(rs[1..]);
      Ok([v] + vs)
  }

  /** Collecting succeeds exactly when every read does, and then keeps the
      values in order. */
  lemma {:induction false} CollectOk<T>(rs: seq<Result<T>>)
    ensures Collect(rs).Ok? <==> forall j :: 0 <= j < |rs| ==> rs[j].Ok?
    ensures Collect(rs).Ok? ==>
      |Collect(rs).value| == |rs| && forall j :: 0 <= j < |rs| ==> rs[j] == Ok(Collect(rs).value[j])
  {
    if |rs| > 0 {
      CollectOk(rs[1..]);
      if rs[0].Ok? && Collect(rs[1..]).Ok? {
        var vs := Collect(rs).value;
        forall j | 0 <= j < |rs| ensures rs[j] == Ok(vs[j]) {
          if j > 0 {
            assert rs[j] == rs[1..][j - 1];
          }
        }
      } else if rs[0].Ok? {
        var j :| 0 <= j < |rs[1..]| && !rs[1..][j].Ok?;
        assert !rs[j + 1].Ok?;
      }
    }
  }

  /** A failed collection reports the error of its first failing read. */
  lemma {:induction false} CollectErr<T>(rs: seq<Result<T>>)
    requires Collect(rs).Err?
    ensures exists j ::
      0 <= j < |rs| && rs[j] == Err(Collect(rs).error) && forall i :: 0 <= i < j ==> rs[i].Ok?
  {
    if rs[0].Ok? {
      CollectErr(rs[1..]);
      var j :| 0 <= j < |rs[1..]| && rs[1..][j] == Err(Collect(rs[1..]).error) &&
        forall i :: 0 <= i < j ==> rs[1..][i].Ok?;
      forall i | 0 <= i < j + 1 ensures rs[i].Ok? {
        if i > 0 {
          assert rs[i] == rs[1..][i - 1];
        }
      }
      assert rs[j + 1] == Err(Collect(rs).error);
    } else {
      assert rs[0] == Err(Collect(rs).error);
    }
  }

  // ---------------------------------------------------------------------
  // The header

  /** The comment block from line `id` on: the lines before `END COMMENTS`,
      each followed by a newline, and the line after the marker. When the
      marker never comes, every remaining line is a comment. */
  function Comments(lines: seq<string>, id: nat): (string, nat)
    decreases |lines| - id
  {
    if id >= |lines| then ("", id)
    else if lines[id] == "END COMMENTS" then ("", id + 1)
    else
      var (c, k) := Comments(lines, id + 1);
      (lines[id] + "\n" + c, k)
  }

  /** The lines `ls` laid end to end, each followed by a newline. */
  function Text(ls: seq<string>): string {
    if |ls| == 0 then "" else ls[0] + "\n" + Text(ls[1..])
  }

  /** With the first marker at line `m`, the comments are the lines between
      and reading goes on at line `m + 1`. */
  lemma {:induction false} CommentsStop(lines: seq<string>, id: nat, m: nat)
    requires id <= m < |lines| && lines[m] == "END COMMENTS"
    requires forall i :: id <= i < m ==> lines[i] != "END COMMENTS"
    ensures Comments(lines, id) == (Text(lines[id..m]), m + 1)
    decreases m - id
  {
    if id < m {
      CommentsStop(lines, id + 1, m);
      assert lines[id..m][1..] == lines[id + 1..m];
    }
  }

  /** Without a marker, every line from `id` on is a comment and reading goes
      on past the end of the file. */
  lemma {:induction false} CommentsRunOut(lines: seq<string>, id: nat)
    requires id <= |lines|
    requires forall i :: id <= i < |lines| ==> lines[i] != "END COMMENTS"
    ensures Comments(lines, id) == (Text(lines[id..]), |lines|)
    decreases |lines| - id
  {
    if id < |lines| {
      CommentsRunOut(lines, id + 1);
      assert lines[id..][1..] == lines[id + 1..];
    }
  }

  /** The three lines `r`, `theta` (degrees) and `z` of one landmark point. */
  function ReadPoint(lines: seq<string>, id: int, num: Numbers): Result<Vec3> {
    var r :- ReadFloat(lines, id, num);
    var theta :- ReadFloat(lines, id + 1, num);
    var z :- ReadFloat(lines, id + 2, num);
    Ok(Polar(num.trig, r, Deg2Rad(num.trig, theta), z))
  }

  /** One landmark: its name, its point count and three lines per point. A
      negative count is the ValueError of `np.zeros`. */
  function ReadLandmark(lines: seq<string>, id: int, num: Numbers): Result<(string, seq<Vec3>)> {
    var name :- ReadLine(lines, id);
    var n :- ReadInt(lines, id + 1);
    if n < 0 then Err(ValueError)
    else
      var points :- Collect(seq(n, j => ReadPoint(lines, id + 2 + 3 * j, num)));
      Ok((name, points))
  }

  /** A landmark read in full has as many points as its count line says,
      point `j` converted from lines `id + 2 + 3 j` onwards. */
  lemma LandmarkPoints(lines: seq<string>, id: int, num: Numbers)
    requires ReadLandmark(lines, id, num).Ok?
    ensures var (name, points) := ReadLandmark(lines, id, num).value;
      && 0 <= id && id + 1 < |lines| && name == lines[id]
      && ParseInt(lines[id + 1]) == Some(|points|)
      && forall j :: 0 <= j < |points| ==> ReadPoint(lines, id + 2 + 3 * j, num) == Ok(points[j])
  {
    var n := ReadInt(lines, id + 1).value;
    var rs := seq(n, j => ReadPoint(lines, id + 2 + 3 * j, num));
    CollectOk(rs);
  }

  /** `nLand` landmarks into the dictionary `acc`; a name read again
      replaces the earlier points. Returns the dictionary and the next line. */
  function ReadLandmarks(lines: seq<string>, id: int, count: int, acc: map<string, seq<Vec3>>, num: Numbers)
    : Result<(map<string, seq<Vec3>>, int)>
    decreases count
  {
    if count <= 0 then Ok((acc, id))
    else
      var lm :- ReadLandmark(lines, id, num);
      ReadLandmarks(lines, id + 2 + 3 * |lm.1|, count - 1, acc[lm.0 := lm.1], num)
  }

  /** Reading landmarks only adds names, and reads on from where it began. */
  lemma {:induction false} LandmarksGrow(lines: seq<string>, id: int, count: int, acc: map<string, seq<Vec3>>, num: Numbers)
    requires ReadLandmarks(lines, id, count, acc, num).Ok?
    ensures acc.Keys <= ReadLandmarks(lines, id, count, acc, num).value.0.Keys
    ensures id <= ReadLandmarks(lines, id, count, acc, num).value.1
    ensures count > 0 ==> id + 2 <= ReadLandmarks(lines, id, count, acc, num).value.1
    decreases count
  {
    if count > 0 {
      var lm := ReadLandmark(lines, id, num).value;
      LandmarksGrow(lines, id + 2 + 3 * |lm.1|, count - 1, acc[lm.0 := lm.1], num);
    }
  }

  /** `np.flip`. */
  function Reverse(s: seq<real>): seq<real> {
    seq(|s|, i requires 0 <= i < |s| => s[|s| - 1 - i])
  }

  /** The `n` floats on lines `id .. id + n - 1`. */
  function ReadFloats(lines: seq<string>, id: int, n: nat, num: Numbers): Result<seq<real>> {
    Collect(seq(n, j => ReadFloat(lines, id + j, num)))
  }

  /** `len(range(n))`. */
  function RangeLen(n: int): nat {
    if n < 0 then 0 else n
  }

  /** Reading `n` floats succeeds exactly when each of the lines does; the
      values are those of the lines in order, and a failure is that of the
      first line that does not read. */
  lemma ReadFloatsSpec(lines: seq<string>, id: int, n: nat, num: Numbers)
    ensures ReadFloats(lines, id, n, num).Ok? <==> forall l :: id <= l < id + n ==> ReadFloat(lines, l, num).Ok?
    ensures ReadFloats(lines, id, n, num).Ok? ==>
      |ReadFloats(lines, id, n, num).value| == n &&
      forall l :: id <= l < id + n ==> ReadFloat(lines, l, num) == Ok(ReadFloats(lines, id, n, num).value[l - id])
    ensures ReadFloats(lines, id, n, num).Err? ==> exists l ::
      id <= l < id + n && ReadFloat(lines, l, num) == Err(ReadFloats(lines, id, n, num).error) &&
      forall l' :: id <= l' < l ==> ReadFloat(lines, l', num).Ok?
  {
    var rs := seq(n, j => ReadFloat(lines, id + j, num));
    assert forall l :: id <= l < id + n ==> rs[l - id] == ReadFloat(lines, l, num);
    CollectOk(rs);
    if Collect(rs).Err? {
      CollectErr(rs);
      var j :| 0 <= j < |rs| && rs[j] == Err(Collect(rs).error) && forall i :: 0 <= i < j ==> rs[i].Ok?;
      assert ReadFloat(lines, id + j, num) == Err(Collect(rs).error);
      forall l' | id <= l' < id + j ensures ReadFloat(lines, l', num).Ok? {
        assert rs[l' - id].Ok?;
      }
    }
  }

  /** The spoke angles and the next line. A step of 0 means irregular
      spokes, read one angle (degrees) per line; otherwise the spokes are
      `np.arange(-pi/2, 3 pi/2, step)` reversed, whatever `nSpokes` says,
      and no line is read. */
  function Spokes(lines: seq<string>, id: int, nSpokes: int, step: real, num: Numbers): (r: Result<(seq<real>, int)>)
    ensures step == 0.0 ==> (r.Ok? <==> ReadFloats(lines, id, RangeLen(nSpokes), num).Ok?)
    ensures step == 0.0 && r.Err? ==> r.error == ReadFloats(lines, id, RangeLen(nSpokes), num).error
    ensures step == 0.0 && r.Ok? ==>
      && r.value.1 == id + RangeLen(nSpokes) && |r.value.0| == RangeLen(nSpokes)
      && forall j :: 0 <= j < |r.value.0| ==>
           ReadFloat(lines, id + j, num).Ok? && r.value.0[j] == Deg2Rad(num.trig, ReadFloat(lines, id + j, num).value)
    ensures step != 0.0 ==> r.Ok? && r.value.1 == id
    ensures step != 0.0 && r.Ok? ==>
      && |r.value.0| == Slicing.ArangeLen(-0.5 * num.trig.pi, 1.5 * num.trig.pi, step)
      && forall j :: 0 <= j < |r.value.0| ==>
           r.value.0[j] == -0.5 * num.trig.pi + ((|r.value.0| - 1 - j) as real) * step
  {
    if step == 0.0 then
      var n := RangeLen(nSpokes);
      ReadFloatsSpec(lines, id, n, num);
      var ds :- ReadFloats(lines, id, n, num);
      Ok((seq(|ds|, j requires 0 <= j < |ds| => Deg2Rad(num.trig, ds[j])), id + n))
    else
      var pi := num.trig.pi;
      Ok((Reverse(Slicing.Arange(-0.5 * pi, 1.5 * pi, step).value), id))
  }

  /** The slice heights and the next line: read one per line when the step
      is 0, otherwise `i * step` for `i` in `range(nSlices)` without reading
      a line. Either way there is one height per slice. */
  function Slices(lines: seq<string>, id: int, nSlices: int, step: real, num: Numbers): (r: Result<(seq<real>, int)>)
    ensures r.Ok? ==> |r.value.0| == RangeLen(nSlices)
    ensures step == 0.0 ==> (r.Ok? <==> ReadFloats(lines, id, RangeLen(nSlices), num).Ok?)
    ensures step == 0.0 && r.Err? ==> r.error == ReadFloats(lines, id, RangeLen(nSlices), num).error
    ensures step == 0.0 && r.Ok? ==>
      && r.value.1 == id + RangeLen(nSlices)
      && forall j :: 0 <= j < |r.value.0| ==> ReadFloat(lines, id + j, num) == Ok(r.value.0[j])
    ensures step != 0.0 ==> r.Ok? && r.value.1 == id
    ensures step != 0.0 && r.Ok? ==> forall i :: 0 <= i < |r.value.0| ==> r.value.0[i] == i as real * step
  {
    var n := RangeLen(nSlices);
    if step == 0.0 then
      ReadFloatsSpec(lines, id, n, num);
      var zs :- ReadFloats(lines, id, n, num);
      Ok((zs, id + n))
    else
      Ok((seq(n, i => i as real * step), id))
  }

  /** Everything before the radii. */
  datatype Header = Header(
    version: string, comments: string, side: string,
    landmarks: map<string, seq<Vec3>>,
    nSpokes: int, spokes: seq<real>,
    nSlices: int, slices: seq<real>,
    next: int)

  /** A header in the cylindrical system, or the other system that makes
      the reader give up. */
  datatype HeaderRead = Parsed(h: Header) | WrongSystem

  /** The header, line by line: the version, the comments from line 1 on
      (the code sets the line counter with `lID =+ 1`, which is 1 here as
      well), the coordinate system, the side, the landmarks, then the count
      and step of the spokes and of the slices. */
  function ReadHeader(lines: seq<string>, num: Numbers): (r: Result<HeaderRead>)
    ensures r.Ok? && r.value.Parsed? ==>
      |r.value.h.slices| == RangeLen(r.value.h.nSlices)
  {
    var version :- ReadLine(lines, 0);
    var (comments, k) := Comments(lines, 1);
    var system :- ReadLine(lines, k);
    if system != "CYLINDRICAL" then Ok(WrongSystem)
    else
      var side :- ReadLine(lines, k + 1);
      var nLand :- ReadInt(lines, k + 2);
      var lm :- ReadLandmarks(lines, k + 3, nLand, map[], num);
      var nSpokes :- ReadInt(lines, lm.1);
      var spokeDeg :- ReadFloat(lines, lm.1 + 1, num);
      var sp :- Spokes(lines, lm.1 + 2, nSpokes, Deg2Rad(num.trig, spokeDeg), num);
      var nSlices :- ReadInt(lines, sp.1);
      var sliceDist :- ReadFloat(lines, sp.1 + 1, num);
      var sl :- Slices(lines, sp.1 + 2, nSlices, sliceDist, num);
      Ok(Parsed(Header(version, comments, side, lm.0, nSpokes, sp.0, nSlices, sl.0, sl.1)))
  }

  /** An empty file has no version line, and a comment block that never
      ends leaves no line for the coordinate system: both IndexErrors. */
  lemma HeaderMissingLines(lines: seq<string>, num: Numbers)
    requires forall i :: 1 <= i < |lines| ==> lines[i] != "END COMMENTS"
    ensures ReadHeader(lines, num) == Err(IndexError)
  {
    if |lines| > 0 {
      CommentsRunOut(lines, 1);
    }
  }

  /** A file whose comment block is closed at line `m` and whose next line
      names another coordinate system is turned away without an exception. */
  lemma HeaderWrongSystem(lines: seq<string>, num: Numbers, m: nat)
    requires 1 <= m && m + 1 < |lines| && lines[m] == "END COMMENTS"
    requires forall i :: 1 <= i < m ==> lines[i] != "END COMMENTS"
    requires lines[m + 1] != "CYLINDRICAL"
    ensures ReadHeader(lines, num) == Ok(WrongSystem)
  {
    CommentsStop(lines, 1, m);
  }

  // ---------------------------------------------------------------------
  // The radii

  /** Grid point `k` in reading order, on line `next + k`: slice
      `k / nSpokes`, spoke `k % nSpokes`. The line is split on spaces; the
      radius is the first field and the value the second when there is one
      (0 when it does not parse, since the code catches that). */
  function Point(lines: seq<string>, h: Header, num: Numbers, k: int): Result<(Vec3, real)>
    requires h.nSpokes > 0
  {
    var i, j := k / h.nSpokes, k % h.nSpokes;
    if !(0 <= i < |h.slices|) then Err(IndexError)
    else
      var text :- ReadLine(lines, h.next + k);
      var fields := SplitOn(text, ' ');
      var r :- Float(num, fields[0]);
      var v := if |fields| > 1 && num.float(fields[1]).Some? then num.float(fields[1]).value else 0.0;
      if !(0 <= j < |h.spokes|) then Err(IndexError)
      else Ok((Polar(num.trig, r, h.spokes[j], h.slices[i]), v))
  }

  /** Point `(i, j)` of the grid is read from line `next + i nSpokes + j`,
      at the angle of spoke `j` and the height of slice `i`. */
  lemma PointAt(lines: seq<string>, h: Header, num: Numbers, i: int, j: int)
    requires h.nSpokes > 0 && 0 <= i < |h.slices| && 0 <= j < h.nSpokes
    ensures var k := i * h.nSpokes + j;
      && (j < |h.spokes| && ReadLine(lines, h.next + k).Ok? && Float(num, SplitOn(lines[h.next + k], ' ')[0]).Ok?
          ==> Point(lines, h, num, k).Ok? &&
              Point(lines, h, num, k).value.0 ==
                Polar(num.trig, Float(num, SplitOn(lines[h.next + k], ' ')[0]).value, h.spokes[j], h.slices[i]) &&
              Point(lines, h, num, k).value.1 ==
                (var fields := SplitOn(lines[h.next + k], ' ');
                 if |fields| > 1 && num.float(fields[1]).Some? then num.float(fields[1]).value else 0.0))
      && (!ReadLine(lines, h.next + k).Ok? ==> Point(lines, h, num, k) == Err(IndexError))
  {
    Radix(i, j, h.nSpokes);
  }

  /** The points before `k` all read. */
  ghost predicate PointsOk(lines: seq<string>, h: Header, num: Numbers, k: int)
    requires h.nSpokes > 0
  {
    forall k' :: 0 <= k' < k ==> Point(lines, h, num, k').Ok?
  }

  /** `e` is the error of the first grid point that fails to read. */
  ghost predicate FirstFailure(lines: seq<string>, h: Header, num: Numbers, e: Error)
    requires h.nSpokes > 0
  {
    exists k :: 0 <= k < h.nSlices * h.nSpokes && Point(lines, h, num, k) == Err(e) && PointsOk(lines, h, num, k)
  }

  /** The inner loop over the spokes of slice `i`, whose first point is
      `start = i nSpokes`. */
  method ReadRow(lines: seq<string>, h: Header, num: Numbers, i: int, start: int, vert0: seq<Vec3>, values0: seq<real>)
    returns (r: Result<(seq<Vec3>, seq<real>)>)
    requires h.nSpokes > 0 && start == i * h.nSpokes
    requires |vert0| == |values0| && 0 <= start && start + h.nSpokes <= |vert0|
    requires forall k :: 0 <= k < start ==> Point(lines, h, num, k) == Ok((vert0[k], values0[k]))
    ensures r.Ok? ==> |r.value.0| == |r.value.1| == |vert0|
    ensures r.Ok? ==> forall k :: 0 <= k < start + h.nSpokes ==> Point(lines, h, num, k) == Ok((r.value.0[k], r.value.1[k]))
    ensures r.Err? ==> exists k ::
      0 <= k < start + h.nSpokes && Point(lines, h, num, k) == Err(r.error) && PointsOk(lines, h, num, k)
  {
    var vert, values := vert0, values0;
    for j := 0 to h.nSpokes
      invariant |vert| == |values| == |vert0|
      invariant forall k :: 0 <= k < start + j ==> Point(lines, h, num, k) == Ok((vert[k], values[k]))
    {
      var idx := start + j;
      var p := Point(lines, h, num, idx);
      if p.Err? {
        return Err(p.error);
      }
      vert, values := vert[idx := p.value.0], values[idx := p.value.1];
    }
    r := Ok((vert, values));
  }

  /** The radii of all `nSlices nSpokes` grid points, slice by slice: the
      vertices and values, or the error of the first point that fails. */
  method ReadGrid(lines: seq<string>, h: Header, num: Numbers) returns (r: Result<(seq<Vec3>, seq<real>)>)
    requires h.nSlices >= 1 && h.nSpokes >= 1
    ensures r.Ok? <==> PointsOk(lines, h, num, h.nSlices * h.nSpokes)
    ensures r.Ok? ==> |r.value.0| == |r.value.1| == h.nSlices * h.nSpokes
    ensures r.Ok? ==> forall k :: 0 <= k < h.nSlices * h.nSpokes ==> Point(lines, h, num, k) == Ok((r.value.0[k], r.value.1[k]))
    ensures r.Err? ==> FirstFailure(lines, h, num, r.error)
  {
    var n := h.nSlices * h.nSpokes;
    var vert := seq(n, _ => Vec3(0.0, 0.0, 0.0));
    var values := seq(n, _ => 0.0);
    for i := 0 to h.nSlices
      invariant |vert| == |values| == n
      invariant forall k :: 0 <= k < i * h.nSpokes ==> Point(lines, h, num, k) == Ok((vert[k], values[k]))
    {
      RowsWithin(h.nSlices, h.nSpokes, i);
      var row := ReadRow(lines, h, num, i, i * h.nSpokes, vert, values);
      if row.Err? {
        ghost var k :| 0 <= k < i * h.nSpokes + h.nSpokes && Point(lines, h, num, k) == Err(row.error) &&
          PointsOk(lines, h, num, k);
        assert k < n;
        return Err(row.error);
      }
      vert, values := row.value.0, row.value.1;
      assert i * h.nSpokes + h.nSpokes == (i + 1) * h.nSpokes;
    }
    r := Ok((vert, values));
  }

  // ---------------------------------------------------------------------
  // The faces

  /** Half `half` of the cell between slices `sl`, `sl + 1` and spokes `sp`,
      `sp + 1` (the spoke after the last being spoke 0): with `v0, v1` on
      slice `sl` and `v3, v2` above them, `[v0, v3, v1]` and `[v1, v3, v2]`. */
  function Quad(nSpokes: int, sl: int, sp: int, half: int): Tri
    requires nSpokes > 0
  {
    var next := (sp + 1) % nSpokes;
    var v0, v1 := sl * nSpokes + sp, sl * nSpokes + next;
    var v2, v3 := (sl + 1) * nSpokes + next, (sl + 1) * nSpokes + sp;
    if half == 0 then Tri(v0, v3, v1) else Tri(v1, v3, v2)
  }

  /** The face in slot `s`, read back as cell and half. */
  function QuadAt(nSpokes: int, s: int): Tri
    requires nSpokes > 0
  {
    var q := s / 2;
    Quad(nSpokes, q / nSpokes, q % nSpokes, s % 2)
  }

  lemma QuadAtSlot(nSpokes: int, sl: int, sp: int, half: int)
    requires nSpokes > 0 && 0 <= sp < nSpokes && 0 <= half < 2
    ensures QuadAt(nSpokes, Slot(nSpokes, sl, sp, half)) == Quad(nSpokes, sl, sp, half)
  {
    Radix(sl * nSpokes + sp, half, 2);
    Radix(sl, sp, nSpokes);
  }

  /** The inner loop over the spokes of band `sl`, whose first slot is
      `start = sl nSpokes 2`. */
  method FaceRing(f0: seq<Tri>, bands: int, nSpokes: int, sl: int, start: int) returns (f: seq<Tri>)
    requires nSpokes >= 1 && 0 <= sl < bands && start == sl * nSpokes * 2
    requires |f0| == bands * nSpokes * 2 && 0 <= start && start + nSpokes * 2 <= |f0|
    requires forall s :: 0 <= s < start ==> f0[s] == QuadAt(nSpokes, s)
    ensures |f| == |f0|
    ensures forall s :: 0 <= s < start + nSpokes * 2 ==> f[s] == QuadAt(nSpokes, s)
  {
    f := f0;
    for sp := 0 to nSpokes
      invariant |f| == |f0|
      invariant forall s :: 0 <= s < start + sp * 2 ==> f[s] == QuadAt(nSpokes, s)
    {
      var fidx := start + sp * 2;
      QuadAtSlot(nSpokes, sl, sp, 0);
      QuadAtSlot(nSpokes, sl, sp, 1);
      f := f[fidx := Quad(nSpokes, sl, sp, 0)][fidx + 1 := Quad(nSpokes, sl, sp, 1)];
    }
  }

  /** The face loops: two faces per cell, band by band. */
  method RingFaces(nSlices: int, nSpokes: int) returns (f: seq<Tri>)
    requires nSlices >= 1 && nSpokes >= 1
    ensures |f| == (nSlices - 1) * nSpokes * 2
    ensures forall s :: 0 <= s < |f| ==> f[s] == QuadAt(nSpokes, s)
  {
    var bands := nSlices - 1;
    f := seq(bands * nSpokes * 2, _ => Tri(0, 0, 0));
    for sl := 0 to bands
      invariant |f| == bands * nSpokes * 2
      invariant forall s :: 0 <= s < sl * nSpokes * 2 ==> f[s] == QuadAt(nSpokes, s)
    {
      RowsWithin(bands, nSpokes, sl);
      f := FaceRing(f, bands, nSpokes, sl, sl * nSpokes * 2);
      assert sl * nSpokes * 2 + nSpokes * 2 == (sl + 1) * nSpokes * 2;
    }
  }

  /** Every face of the cells between slices `0 .. nSlices - 1` has its
      corners among the `nSlices nSpokes` grid points. */
  lemma QuadWithin(nSlices: int, nSpokes: int, sl: int, sp: int, half: int)
    requires nSpokes > 0 && 0 <= sl < nSlices - 1 && 0 <= sp < nSpokes && 0 <= half < 2
    ensures Quad(nSpokes, sl, sp, half).Within(nSlices * nSpokes)
  {
    var next := (sp + 1) % nSpokes;
    RadixBound(sl + 1, next, nSpokes, nSlices);
    RadixBound(sl + 1, sp, nSpokes, nSlices);
    RadixBound(sl, sp, nSpokes, 0);
    RadixBound(sl, next, nSpokes, 0);
    assert (sl + 1) * nSpokes == sl * nSpokes + nSpokes;
  }

  lemma QuadAtWithin(nSlices: int, nSpokes: int, s: int)
    requires nSlices >= 1 && nSpokes > 0 && 0 <= s < (nSlices - 1) * nSpokes * 2
    ensures QuadAt(nSpokes, s).Within(nSlices * nSpokes)
  {
    var q := s / 2;
    Split(s, 2);
    Split(q, nSpokes);
    RadixBound(q, s % 2, 2, (nSlices - 1) * nSpokes);
    RadixBound(q / nSpokes, q % nSpokes, nSpokes, nSlices - 1);
    QuadWithin(nSlices, nSpokes, q / nSpokes, q % nSpokes, s % 2);
  }

  /** `t` runs from `u` to `v` along one of its three sides. */
  predicate Directed(t: Tri, u: int, v: int) {
    (t.a == u && t.b == v) || (t.b == u && t.c == v) || (t.c == u && t.a == v)
  }

  /** The faces are consistently oriented: each side shared by two faces is
      run in opposite directions by them, across the diagonal of a cell,
      between neighbouring spokes (the last spoke's cell meeting spoke 0)
      and between neighbouring bands. */
  lemma QuadOriented(nSpokes: int, sl: int, sp: int)
    requires nSpokes > 0 && 0 <= sp < nSpokes
    ensures var v1, v3 := sl * nSpokes + (sp + 1) % nSpokes, (sl + 1) * nSpokes + sp;
      Directed(Quad(nSpokes, sl, sp, 0), v3, v1) && Directed(Quad(nSpokes, sl, sp, 1), v1, v3)
    ensures var next := (sp + 1) % nSpokes;
      var v1, v2 := sl * nSpokes + next, (sl + 1) * nSpokes + next;
      Directed(Quad(nSpokes, sl, sp, 1), v2, v1) && Directed(Quad(nSpokes, sl, next, 0), v1, v2)
    ensures var v2, v3 := (sl + 1) * nSpokes + (sp + 1) % nSpokes, (sl + 1) * nSpokes + sp;
      Directed(Quad(nSpokes, sl, sp, 1), v3, v2) && Directed(Quad(nSpokes, sl + 1, sp, 0), v2, v3)
  {
    assert (sl + 2) * nSpokes == (sl + 1) * nSpokes + nSpokes;
  }

  // ---------------------------------------------------------------------
  // read_aop

  /** What `read_aop` leaves on the object. */
  datatype AopFile = AopFile(
    version: string, comments: string, side: string,
    landmarks: map<string, seq<Vec3>>,
    vert: seq<Vec3>, faces: seq<Tri>, values: seq<real>)

  /** The reader either loads the file or, for a coordinate system other
      than `CYLINDRICAL`, returns a ValueError object instead of raising
      it. */
  datatype AopRead = Loaded(file: AopFile) | Returned(error: Error)

  /** What a loaded file holds for header `h`: the header fields, one
      vertex and value per grid point and two faces per cell; on a grid with
      at least one slice and one spoke, vertex `k` is grid point `k`, the
      faces are those of the cells, and every face corner is a vertex. */
  ghost predicate Holds(lines: seq<string>, h: Header, num: Numbers, file: AopFile) {
    && file.version == h.version && file.comments == h.comments && file.side == h.side
    && file.landmarks == h.landmarks
    && |file.vert| == |file.values| == h.nSlices * h.nSpokes
    && |file.faces| == (h.nSlices - 1) * (h.nSpokes * 2)
    && (h.nSlices >= 1 && h.nSpokes >= 1 ==>
         && (forall k :: 0 <= k < |file.vert| ==> Point(lines, h, num, k) == Ok((file.vert[k], file.values[k])))
         && (forall s :: 0 <= s < |file.faces| ==> file.faces[s] == QuadAt(h.nSpokes, s))
         && (forall s :: 0 <= s < |file.faces| ==> file.faces[s].Within(|file.vert|)))
  }

  /** The arrays of `read_aop` after the header. The vertex and face
      arrays are `np.zeros` of `nSlices nSpokes` and
      `(nSlices - 1) (nSpokes 2)` rows, a ValueError when either is
      negative; the loops fill them only when there is at least one slice
      and one spoke. */
  method Build(lines: seq<string>, h: Header, num: Numbers) returns (r: Result<AopFile>)
    requires |h.slices| == RangeLen(h.nSlices)
    ensures h.nSlices * h.nSpokes < 0 || (h.nSlices - 1) * (h.nSpokes * 2) < 0 ==> r == Err(ValueError)
    ensures h.nSlices >= 1 && h.nSpokes >= 1 ==> (r.Ok? <==> PointsOk(lines, h, num, h.nSlices * h.nSpokes))
    ensures h.nSlices >= 1 && h.nSpokes >= 1 && r.Err? ==> FirstFailure(lines, h, num, r.error)
    ensures r.Ok? ==> Holds(lines, h, num, r.value)
  {
    var nVerts := h.nSlices * h.nSpokes;
    var nFaces := (h.nSlices - 1) * (h.nSpokes * 2);
    if nVerts < 0 || nFaces < 0 {
      return Err(ValueError);
    }
    var vert, values, faces;
    if h.nSlices >= 1 && h.nSpokes >= 1 {
      var grid :- ReadGrid(lines, h, num);
      vert, values := grid.0, grid.1;
      faces := RingFaces(h.nSlices, h.nSpokes);
      assert |faces| == nFaces;
      forall s | 0 <= s < |faces| ensures faces[s].Within(|vert|) {
        QuadAtWithin(h.nSlices, h.nSpokes, s);
      }
    } else {
      vert := seq(nVerts, _ => Vec3(0.0, 0.0, 0.0));
      values := seq(nVerts, _ => 0.0);
      faces := seq(nFaces, _ => Tri(0, 0, 0));
    }
    r := Ok(AopFile(h.version, h.comments, h.side, h.landmarks, vert, faces, values));
  }

  /** `read_aop` on the lines of a file, up to the face array: the header's
      exception, the returned ValueError of a non-cylindrical file, or the
      arrays built on the header. */
  method ReadAop(lines: seq<string>, num: Numbers) returns (r: Result<AopRead>)
    ensures ReadHeader(lines, num).Err? ==> r == Err(ReadHeader(lines, num).error)
    ensures ReadHeader(lines, num) == Ok(WrongSystem) ==> r == Ok(Returned(ValueError))
    ensures ReadHeader(lines, num).Ok? && ReadHeader(lines, num).value.Parsed? ==>
      var h := ReadHeader(lines, num).value.h;
      && (h.nSlices * h.nSpokes < 0 || (h.nSlices - 1) * (h.nSpokes * 2) < 0 ==> r == Err(ValueError))
      && (h.nSlices >= 1 && h.nSpokes >= 1 ==> (r.Ok? <==> PointsOk(lines, h, num, h.nSlices * h.nSpokes)))
      && (h.nSlices >= 1 && h.nSpokes >= 1 && r.Err? ==> FirstFailure(lines, h, num, r.error))
      && (r.Ok? ==> r.value.Loaded? && Holds(lines, h, num, r.value.file))
  {
    var hr :- ReadHeader(lines, num);
    if hr.WrongSystem? {
      return Ok(Returned(ValueError));
    }
    var file :- Build(lines, hr.h, num);
    r := Ok(Loaded(file));
  }
}

=== FILE: arith.dfy ===
/** Integer facts about row-major grids: a cell `(row, col)` of a grid with
    `cols` columns is number `row cols + col`, and a grid that stores two
    triangles per cell keeps them in slots `2 (row cols + col)` and the one
    after. Both mesh generators (the pressure-sensor sheet and the `.aop`
    reader) lay out their faces this way. */
module Arith {
  lemma MulNonneg(x: int, y: int)
    requires x >= 0 && y >= 0
    ensures x * y >= 0
  {
  }

  /** Multiplying by a positive `n` keeps whole steps apart. */
  lemma MulStep(a: int, b: int, n: int)
    requires n > 0 && a < b
    ensures a * n + n <= b * n
  {
    MulNonneg(b - a - 1, n);
    assert (b - a - 1) * n == b * n - a * n - n;
  }

  /** Every number splits into quotient and remainder. */
  lemma Split(x: int, n: int)
    requires n > 0
    ensures x == (x / n) * n + x % n && 0 <= x % n < n
  {
  }

  /** `hi n + lo` with `0 <= lo < n` has quotient `hi` and remainder `lo`. */
  lemma Radix(hi: int, lo: int, n: int)
    requires n > 0 && 0 <= lo < n
    ensures (hi * n + lo) / n == hi && (hi * n + lo) % n == lo
  {
    var x := hi * n + lo;
    var q := x / n;
    Split(x, n);
    if q < hi {
      MulStep(q, hi, n);
    } else if hi < q {
      MulStep(hi, q, n);
    }
  }

  /** With `0 <= lo < n`, `hi n + lo` stays below `m n` exactly when `hi`
      stays below `m`, and is nonnegative exactly when `hi` is. */
  lemma RadixBound(hi: int, lo: int, n: int, m: int)
    requires n > 0 && 0 <= lo < n
    ensures hi * n + lo < m * n <==> hi < m
    ensures 0 <= hi * n + lo <==> 0 <= hi
  {
    if hi < m {
      MulStep(hi, m, n);
    } else if m < hi {
      MulStep(m, hi, n);
    }
    if hi < 0 {
      MulStep(hi, 0, n);
    } else {
      MulNonneg(hi, n);
    }
  }

  /** Slot `(row cols + col) 2 + h` of half `h` of cell (row, col). */
  function Slot(cols: int, row: int, col: int, h: int): int {
    (row * cols + col) * 2 + h
  }

  /** The cells of rows `0 .. row` fill the first `(row + 1) cols` places. */
  lemma RowsWithin(rows: int, cols: int, row: int)
    requires cols >= 1 && 0 <= row < rows
    ensures 0 <= row * cols * 2 && (row + 1) * cols * 2 <= rows * cols * 2
  {
    MulNonneg(row, cols);
    MulStep(row, rows, cols);
  }

  /** The two slots of cell (row, col) lie inside a grid of `rows cols 2`. */
  lemma SlotWithin(rows: int, cols: int, row: int, col: int)
    requires cols > 0 && 0 <= row < rows && 0 <= col < cols
    ensures 0 <= Slot(cols, row, col, 0) && Slot(cols, row, col, 0) + 1 < rows * cols * 2
  {
    RadixBound(row * cols + col, 1, 2, rows * cols);
    RadixBound(row, col, cols, rows);
    RadixBound(row * cols + col, 0, 2, 0);
    RadixBound(row, col, cols, 0);
  }
}

=== FILE: closing.dfy ===
/** `AmpObject.close`: fill every hole of the mesh with a fan of triangles
    around the mean of the hole's boundary vertices, one hole per pass,
    until no edge lacks a second face. */
module Closing {
  import opened Wrappers
  import opened Linalg
  import opened Topology
  import Slicing

  /** An edge with only one face: its face pair holds the sentinel. */
  predicate OnBrim(p: (int, int)) { p.0 == NoFace || p.1 == NoFace }

  /** The `while` condition: some edge has no second face. */
  predicate HasHole(fe: seq<(int, int)>) {
    exists e :: 0 <= e < |fe| && OnBrim(fe[e])
  }

  /** `(faceEdges == -99999).sum(axis=1).astype(bool)` as the increasing
      list of the edges it selects. */
  function BrimIndices(fe: seq<(int, int)>): (r: seq<int>)
    ensures forall x :: 0 <= x < |r| ==> 0 <= r[x] < |fe|
  {
    if |fe| == 0 then []
    else
      var n := |fe| - 1;
      var r' := BrimIndices(fe[..n]);
      if OnBrim(fe[n]) then r' + [n] else r'
  }

  /** Every listed edge is on the brim. */
  predicate AllOnBrim(r: seq<int>, fe: seq<(int, int)>) {
    forall x :: 0 <= x < |r| ==> 0 <= r[x] < |fe| && OnBrim(fe[r[x]])
  }

  predicate Increasing(r: seq<int>) {
    forall x, y :: 0 <= x < y < |r| ==> r[x] < r[y]
  }

  /** The list holds exactly the brim edges, in increasing order, and is
      empty exactly when there is no hole. */
  lemma BrimIndicesSpec(fe: seq<(int, int)>)
    ensures AllOnBrim(BrimIndices(fe), fe)
    ensures forall e :: 0 <= e < |fe| && OnBrim(fe[e]) ==> e in BrimIndices(fe)
    ensures Increasing(BrimIndices(fe))
    ensures |BrimIndices(fe)| > 0 <==> HasHole(fe)
  {
    var r := BrimIndices(fe);
    BrimSound(fe);
    BrimComplete(fe);
    BrimIncreasing(fe);
    if |r| > 0 {
      assert OnBrim(fe[r[0]]);
    }
    if HasHole(fe) {
      var e :| 0 <= e < |fe| && OnBrim(fe[e]);
      assert e in r;
    }
  }

  lemma {:induction false} BrimSound(fe: seq<(int, int)>)
    ensures AllOnBrim(BrimIndices(fe), fe)
  {
    if |fe| > 0 {
      var n := |fe| - 1;
      var r, r' := BrimIndices(fe), BrimIndices(fe[..n]);
      BrimSound(fe[..n]);
      assert AllOnBrim(r', fe[..n]);
      forall x | 0 <= x < |r| ensures 0 <= r[x] < |fe| && OnBrim(fe[r[x]]) {
        if x < |r'| {
          assert r[x] == r'[x] && fe[..n][r'[x]] == fe[r'[x]];
        }
      }
    }
  }

  lemma {:induction false} BrimComplete(fe: seq<(int, int)>)
    ensures forall e :: 0 <= e < |fe| && OnBrim(fe[e]) ==> e in BrimIndices(fe)
  {
    if |fe| > 0 {
      var n := |fe| - 1;
      var r, r' := BrimIndices(fe), BrimIndices(fe[..n]);
      BrimComplete(fe[..n]);
      forall e | 0 <= e < |fe| && OnBrim(fe[e]) ensures e in r {
        if e < n {
          assert fe[..n][e] == fe[e];
          assert e in r';
        } else {
          assert r == r' + [n];
        }
      }
    }
  }

  lemma {:induction false} BrimIncreasing(fe: seq<(int, int)>)
    ensures Increasing(BrimIndices(fe))
  {
    if |fe| > 0 {
      var n := |fe| - 1;
      var r, r' := BrimIndices(fe), BrimIndices(fe[..n]);
      BrimIncreasing(fe[..n]);
      if OnBrim(fe[n]) {
        assert Increasing(r');
        forall x, y | 0 <= x < y < |r| ensures r[x] < r[y] {
          if y < |r'| { assert r[x] == r'[x] && r[y] == r'[y]; }
          else { assert r[x] == r'[x] < n; }
        }
      }
    }
  }

  /** `amp.edges[...]` on those edges, as the vertex pairs `logEuPath`
      walks. */
  function BrimEdges(edges: seq<Edge>, fe: seq<(int, int)>): (r: seq<(int, int)>)
    requires |fe| == |edges|
    ensures var ix := BrimIndices(fe);
            |r| == |ix| && forall x :: 0 <= x < |r| ==> r[x] == (edges[ix[x]].lo, edges[ix[x]].hi)
  {
    var ix := BrimIndices(fe);
    seq(|ix|, x requires 0 <= x < |ix| => (edges[ix[x]].lo, edges[ix[x]].hi))
  }

  /** `zip(vInd, np.roll(vInd, 1))` turned into faces `[f1, f0, f2]`: every
      loop vertex, the new centre, and the loop vertex before it. */
  function FanFaces(loop: seq<int>, centre: int): (r: seq<Tri>)
    ensures |r| == |loop|
    ensures forall i :: 0 < i < |loop| ==> r[i] == Tri(loop[i], centre, loop[i - 1])
    ensures |loop| > 0 ==> r[0] == Tri(loop[0], centre, loop[|loop| - 1])
  {
    seq(|loop|, i requires 0 <= i < |loop| =>
      Tri(loop[i], centre, if i == 0 then loop[|loop| - 1] else loop[i - 1]))
  }

  /** The walk around the brim edges visits vertices of the mesh. */
  lemma BrimLoopInRange(n: int, edges: seq<Edge>, fe: seq<(int, int)>)
    requires Slicing.EdgesIn(edges, n) && |fe| == |edges|
    requires Slicing.LogEuPath(BrimEdges(edges, fe)).Ok?
    ensures var w := Slicing.LogEuPath(BrimEdges(edges, fe)).value;
            forall i :: 0 <= i < |w| ==> 0 <= w[i] < n
  {
    var brim := BrimEdges(edges, fe);
    var w := Slicing.LogEuPath(brim).value;
    forall i | 0 <= i < |w| ensures 0 <= w[i] < n {
      Slicing.LogEuPathEnds(brim, i);
      var x :| 0 <= x < |brim| && Slicing.Touches(brim[x], w[i]);
      var e := BrimIndices(fe)[x];
      assert brim[x] == (edges[e].lo, edges[e].hi);
    }
  }

  /** The brim of the current faces, walked by `logEuPath`: a non-empty
      list of vertices of the mesh. */
  function HoleLoop(m: Mesh): (r: Result<seq<int>>)
    requires ValidFaces(m.faces, |m.vert|)
    ensures r.Ok? ==> |r.value| > 0 && forall i :: 0 <= i < |r.value| ==> 0 <= r.value[i] < |m.vert|
  {
    var s := CalcStruct(m.faces);
    Slicing.StructSliceReady(m.vert, m.faces);
    var r := Slicing.LogEuPath(BrimEdges(s.edges, s.faceEdges));
    if r.Ok? then
      BrimLoopInRange(|m.vert|, s.edges, s.faceEdges);
      r
    else r
  }

  /** Some edge of the current faces lacks a second face. */
  predicate Holed(faces: seq<Tri>) {
    HasHole(CalcStruct(faces).faceEdges)
  }

  /** The mesh with the mean of the loop's vertices appended and the loop's
      fan around it added. */
  function Fan(m: Mesh, loop: seq<int>): (r: Mesh)
    requires ValidFaces(m.faces, |m.vert|)
    requires forall i :: 0 <= i < |loop| ==> 0 <= loop[i] < |m.vert|
    requires |loop| > 0
    ensures ValidFaces(r.faces, |r.vert|)
    ensures |r.vert| == |m.vert| + 1 && r.vert[..|m.vert|] == m.vert
    ensures r.vert[|m.vert|] == VecMean(Points(m.vert, loop))
    ensures |r.faces| == |m.faces| + |loop| && r.faces[..|m.faces|] == m.faces
    ensures r.faces[|m.faces|..] == FanFaces(loop, |m.vert|)
    ensures r.values == m.values
  {
    var centre := |m.vert|;
    var vert := m.vert + [VecMean(Points(m.vert, loop))];
    var fan := FanFaces(loop, centre);
    var faces := m.faces + fan;
    assert ValidFaces(faces, |vert|) by {
      forall i | 0 <= i < |faces| ensures faces[i].Within(|vert|) {
        if i >= |m.faces| {
          var k := i - |m.faces|;
          assert faces[i] == fan[k];
        }
      }
    }
    assert faces[..|m.faces|] == m.faces && faces[|m.faces|..] == fan;
    assert vert[..|m.vert|] == m.vert;
    Mesh(vert, faces, m.values)
  }

  /** One pass of the `while` loop on a mesh with a hole: walk the brim
      edges, append the mean of the walked vertices, and fan the walk's
      consecutive vertex pairs to it. The scalar field is not extended. A
      walk that gets stuck raises. */
  function FillHole(m: Mesh): (r: Result<Mesh>)
    requires ValidFaces(m.faces, |m.vert|)
    ensures r.Ok? <==> HoleLoop(m).Ok?
    ensures r.Ok? ==> r.value == Fan(m, HoleLoop(m).value)
  {
    var loop :- HoleLoop(m);
    Ok(Fan(m, loop))
  }

  /** `m2` extends `m1`: the old vertices and faces are kept as a prefix,
      the scalar field is the same and the faces stay valid. */
  ghost predicate Extends(m1: Mesh, m2: Mesh) {
    && |m2.vert| >= |m1.vert| && m2.vert[..|m1.vert|] == m1.vert
    && |m2.faces| >= |m1.faces| && m2.faces[..|m1.faces|] == m1.faces
    && m2.values == m1.values
    && ValidFaces(m2.faces, |m2.vert|)
  }

  lemma ExtendsTrans(m1: Mesh, m2: Mesh, m3: Mesh)
    requires Extends(m1, m2) && Extends(m2, m3)
    ensures Extends(m1, m3)
  {
    assert m3.vert[..|m1.vert|] == m3.vert[..|m2.vert|][..|m1.vert|];
    assert m3.faces[..|m1.faces|] == m3.faces[..|m2.faces|][..|m1.faces|];
  }

  /** The `while` loop of `close`, with at most `fuel` passes (`None` when
      the fuel runs out with holes left). It ends only on a mesh in which
      every edge has two faces, and only adds to the mesh. */
  function CloseLoop(m: Mesh, fuel: nat): (r: Option<Result<Mesh>>)
    requires ValidFaces(m.faces, |m.vert|)
    ensures r.Some? && r.value.Ok? ==> Extends(m, r.value.value) && !Holed(r.value.value.faces)
    ensures !Holed(m.faces) ==> r == Some(Ok(m))
    decreases fuel
  {
    if !Holed(m.faces) then
      ExtendsSelf(m);
      Some(Ok(m))
    else if fuel == 0 then None
    else
      match FillHole(m)
      case Err(e) => Some(Err(e))
      case Ok(m') =>
        FillHoleExtends(m);
        var r := CloseLoop(m', fuel - 1);
        if r.Some? && r.value.Ok? then
          ExtendsTrans(m, m', r.value.value);
          r
        else r
  }

  lemma FillHoleExtends(m: Mesh)
    requires ValidFaces(m.faces, |m.vert|) && FillHole(m).Ok?
    ensures Extends(m, FillHole(m).value)
  {
  }

  lemma ExtendsSelf(m: Mesh)
    requires ValidFaces(m.faces, |m.vert|)
    ensures Extends(m, m)
  {
    assert m.vert[..|m.vert|] == m.vert && m.faces[..|m.faces|] == m.faces;
  }

  /** `close(overwrite)`: the loop runs on a copy; without `overwrite` the
      object is untouched and the copy is returned, with it the object takes
      the copy's vertices and faces (keeping its own values) and `None` is
      returned. The result pairs the object after the call with the return
      value. */
  function Close(m: Mesh, overwrite: bool, fuel: nat): (r: Option<Result<(Mesh, Option<Mesh>)>>)
    requires ValidFaces(m.faces, |m.vert|)
    ensures r.Some? && r.value.Ok? && !overwrite ==> r.value.value.0 == m && r.value.value.1.Some?
    ensures r.Some? && r.value.Ok? && overwrite ==>
      r.value.value.1 == None && r.value.value.0.values == m.values
      && !Holed(r.value.value.0.faces)
    ensures CloseLoop(m, fuel).Some? <==> r.Some?
  {
    match CloseLoop(m, fuel)
    case None => None
    case Some(Err(e)) => Some(Err(e))
    case Some(Ok(c)) =>
      if overwrite then Some(Ok((Mesh(c.vert, c.faces, m.values), None)))
      else Some(Ok((m, Some(c))))
  }
}

=== FILE: grouping.dfy ===
/** The sort/searchsorted grouping idiom used for per-vertex neighbourhoods:

      o_idx = e.argsort()
      ndx   = r_[0, searchsorted(e[o_idx], arange(n), side='right')]

    after which `o_idx[ndx[j]:ndx[j+1]]` are the positions of `e` holding `j`.
    `argsort` is not stable in numpy; the model takes the stable order, and
    what the callers rely on (which positions fall into each slice) does not
    depend on the order inside a slice. */
module Grouping {

  /** Number of positions of `e` holding `j`. */
  function Count(e: seq<int>, j: int): nat
  {
    if |e| == 0 then 0 else Count(e[..|e| - 1], j) + (if e[|e| - 1] == j then 1 else 0)
  }

  /** Number of positions of `e` holding a value below `j`; with `j - 1` this is
      `searchsorted(sorted(e), j - 1, side='right')`. */
  function CountBelow(e: seq<int>, j: int): nat
  {
    if |e| == 0 then 0 else CountBelow(e[..|e| - 1], j) + (if e[|e| - 1] < j then 1 else 0)
  }

  ghost predicate InRange(e: seq<int>, n: nat) {
    forall p :: 0 <= p < |e| ==> 0 <= e[p] < n
  }

  /** The positions of `e` that hold `j`, in increasing order. */
  function Positions(e: seq<int>, j: int): (ps: seq<nat>)
    ensures |ps| == Count(e, j)
  {
    if |e| == 0 then []
    else
      var ps' := Positions(e[..|e| - 1], j);
      if e[|e| - 1] == j then ps' + [|e| - 1] else ps'
  }

  /** `Positions` lists every position holding `j`, and only those, in
      increasing order. */
  lemma {:induction false} PositionsSpec(e: seq<int>, j: int)
    ensures var ps := Positions(e, j);
            && (forall k :: 0 <= k < |ps| ==> ps[k] < |e| && e[ps[k]] == j)
            && (forall p :: 0 <= p < |e| && e[p] == j ==> p in ps)
            && (forall k, l :: 0 <= k < l < |ps| ==> ps[k] < ps[l])
  {
    if |e| > 0 {
      var m := |e| - 1;
      var e' := e[..m];
      PositionsSpec(e', j);
      var ps' := Positions(e', j);
      assert forall p :: 0 <= p < m ==> e'[p] == e[p];
      if e[m] == j {
        var ps := ps' + [m];
        assert forall k :: 0 <= k < |ps'| ==> ps[k] == ps'[k];
      }
    }
  }

  /** A stable `argsort` of `e` when every value lies in `[0, n)`: the positions
      holding 0, then those holding 1, and so on. */
  function SortOrder(e: seq<int>, n: nat): seq<nat>
  {
    if n == 0 then [] else SortOrder(e, n - 1) + Positions(e, n - 1)
  }

  /** Position `a` comes before position `b` in a stable sort of `e`: a
      smaller value, or the same value at a smaller position. */
  predicate Before(e: seq<int>, a: nat, b: nat) {
    a < |e| && b < |e| && (e[a] < e[b] || (e[a] == e[b] && a < b))
  }

  /** Every position of `e` holds a value below `m`: `CountBelow` counts them all. */
  lemma {:induction false} CountBelowAll(e: seq<int>, m: int)
    requires forall p :: 0 <= p < |e| ==> e[p] < m
    ensures CountBelow(e, m) == |e|
  {
    if |e| > 0 { CountBelowAll(e[..|e| - 1], m); }
  }

  /** The first `m` groups of the sort order hold values in `[0, m)`, each
      entry before every later one. */
  lemma {:induction false} SortOrderRanked(e: seq<int>, m: nat)
    ensures forall k :: 0 <= k < |SortOrder(e, m)| ==> SortOrder(e, m)[k] < |e| && 0 <= e[SortOrder(e, m)[k]] < m
    ensures forall k, l :: 0 <= k < l < |SortOrder(e, m)| ==> Before(e, SortOrder(e, m)[k], SortOrder(e, m)[l])
  {
    if m > 0 {
      SortOrderRanked(e, m - 1);
      PositionsSpec(e, m - 1);
      var a, b := SortOrder(e, m - 1), Positions(e, m - 1);
      var o := a + b;
      assert forall k :: 0 <= k < |a| ==> o[k] == a[k];
      assert forall k :: |a| <= k < |o| ==> o[k] == b[k - |a|];
      forall k | 0 <= k < |o| ensures o[k] < |e| && 0 <= e[o[k]] < m {
        if k < |a| {
          assert o[k] == a[k];
        } else {
          assert o[k] == b[k - |a|];
        }
      }
      forall k, l | 0 <= k < l < |o| ensures Before(e, o[k], o[l]) {
        if l < |a| {
          assert o[k] == a[k] && o[l] == a[l];
          assert Before(e, a[k], a[l]);
        } else if k < |a| {
          assert o[k] == a[k] && o[l] == b[l - |a|];
          assert e[a[k]] < m - 1 && e[b[l - |a|]] == m - 1;
        } else {
          assert o[k] == b[k - |a|] && o[l] == b[l - |a|];
          assert b[k - |a|] < b[l - |a|];
        }
      }
    }
  }

  /** `SortOrder` is a stable `argsort` of `e`: it lists every position of `e`
      exactly once, by non-decreasing value, ties in position order. */
  lemma SortOrderIsArgSort(e: seq<int>, n: nat)
    requires InRange(e, n)
    ensures |SortOrder(e, n)| == |e|
    ensures forall k :: 0 <= k < |SortOrder(e, n)| ==> SortOrder(e, n)[k] < |e|
    ensures forall p :: 0 <= p < |e| ==> p in SortOrder(e, n)
    ensures forall k, l :: 0 <= k < l < |SortOrder(e, n)| ==>
              e[SortOrder(e, n)[k]] <= e[SortOrder(e, n)[l]] && SortOrder(e, n)[k] != SortOrder(e, n)[l]
    ensures forall k, l :: 0 <= k < l < |SortOrder(e, n)| && e[SortOrder(e, n)[k]] == e[SortOrder(e, n)[l]] ==>
              SortOrder(e, n)[k] < SortOrder(e, n)[l]
  {
    var o := SortOrder(e, n);
    SortOrderRanked(e, n);
    SortOrderLength(e, n);
    CountBelowAll(e, n);
    forall p | 0 <= p < |e| ensures p in o {
      var j := e[p];
      PositionsSpec(e, j);
      SortOrderPrefix(e, j + 1, n);
      assert p in SortOrder(e, j + 1);
      assert o[..|SortOrder(e, j + 1)|] == SortOrder(e, j + 1);
    }
    forall k, l | 0 <= k < l < |o| ensures e[o[k]] <= e[o[l]] && o[k] != o[l] {
      assert Before(e, o[k], o[l]);
    }
  }

  /** The `ndx` array: `ndx[0] = 0` and `ndx[j + 1]` = number of values `<= j`. */
  function Bounds(e: seq<int>, n: nat): (ndx: seq<nat>)
    ensures |ndx| == n + 1
  {
    seq(n + 1, j requires 0 <= j <= n => if j == 0 then 0 else CountBelow(e, j))
  }

  lemma {:induction false} CountBelowStep(e: seq<int>, j: int)
    ensures CountBelow(e, j + 1) == CountBelow(e, j) + Count(e, j)
  {
    if |e| > 0 { CountBelowStep(e[..|e| - 1], j); }
  }

  lemma {:induction false} CountBelowZero(e: seq<int>)
    requires forall p :: 0 <= p < |e| ==> 0 <= e[p]
    ensures CountBelow(e, 0) == 0
  {
    if |e| > 0 { CountBelowZero(e[..|e| - 1]); }
  }

  lemma {:induction false} SortOrderLength(e: seq<int>, n: nat)
    requires forall p :: 0 <= p < |e| ==> 0 <= e[p]
    ensures |SortOrder(e, n)| == CountBelow(e, n)
  {
    if n == 0 {
      CountBelowZero(e);
    } else {
      SortOrderLength(e, n - 1);
      CountBelowStep(e, n - 1);
      assert |SortOrder(e, n)| == |SortOrder(e, n - 1)| + |Positions(e, n - 1)|;
    }
  }

  lemma PrefixOfAppend<T>(b: seq<T>, p: seq<T>)
    ensures b <= b + p
  {
    assert (b + p)[..|b|] == b;
  }

  lemma PrefixTrans<T>(a: seq<T>, b: seq<T>, c: seq<T>)
    requires a <= b && b <= c
    ensures a <= c
  {
    assert c[..|a|] == b[..|a|];
  }

  lemma {:induction false} SortOrderPrefix(e: seq<int>, m: nat, n: nat)
    requires m <= n
    ensures SortOrder(e, m) <= SortOrder(e, n)
    decreases n - m
  {
    if m < n {
      SortOrderPrefix(e, m, n - 1);
      PrefixOfAppend(SortOrder(e, n - 1), Positions(e, n - 1));
      PrefixTrans(SortOrder(e, m), SortOrder(e, n - 1), SortOrder(e, n));
    }
  }

  /** The entries of `whole` after a prefix `a` and up to the end of a longer
      prefix `a + p` are `p`. */
  lemma SliceOfPrefix<T>(whole: seq<T>, a: seq<T>, p: seq<T>)
    requires a + p <= whole
    ensures whole[|a|..|a| + |p|] == p
  {
    assert whole[..|a| + |p|] == a + p;
    assert whole[|a|..|a| + |p|] == (a + p)[|a|..];
  }

  /** The grouping property: for every `j < n` the slice `ndx[j]:ndx[j+1]` of
      the sort order lists exactly the positions holding `j`. */
  lemma GroupSlice(e: seq<int>, n: nat, j: nat)
    requires InRange(e, n)
    requires j < n
    ensures Bounds(e, n)[j] <= Bounds(e, n)[j + 1] <= |SortOrder(e, n)|
    ensures SortOrder(e, n)[Bounds(e, n)[j]..Bounds(e, n)[j + 1]] == Positions(e, j)
  {
    var whole := SortOrder(e, n);
    var below := SortOrder(e, j);
    var upto := SortOrder(e, j + 1);
    SortOrderLength(e, j);
    SortOrderLength(e, j + 1);
    SortOrderLength(e, n);
    CountBelowZero(e);
    assert Bounds(e, n)[j] == |below|;
    assert Bounds(e, n)[j + 1] == |upto|;
    SortOrderPrefix(e, j + 1, n);
    assert upto == below + Positions(e, j);
    SliceOfPrefix(whole, below, Positions(e, j));
  }

  lemma {:induction false} CountBelowMonotone(e: seq<int>, i: int, j: int)
    requires i <= j
    ensures CountBelow(e, i) <= CountBelow(e, j)
  {
    if |e| > 0 { CountBelowMonotone(e[..|e| - 1], i, j); }
  }

  /** The slice of vertex `j`: the positions of `e` holding `j`. */
  function Group(e: seq<int>, n: nat, j: nat): (g: seq<nat>)
    requires InRange(e, n)
    requires j < n
    ensures g == Positions(e, j) && |g| == Count(e, j)
    ensures forall k :: 0 <= k < |g| ==> g[k] < |e| && e[g[k]] == j
    ensures forall p :: 0 <= p < |e| && e[p] == j ==> p in g
    ensures forall k, l :: 0 <= k < l < |g| ==> g[k] < g[l]
  {
    GroupSlice(e, n, j);
    PositionsSpec(e, j);
    SortOrder(e, n)[Bounds(e, n)[j]..Bounds(e, n)[j + 1]]
  }
}

=== FILE: linalg.dfy ===
/** Exact real 3-vectors and 3x3 matrices, sums and means, and the integer
    conversions of Python's `int()` (truncation) and `math.ceil`. */
module Linalg {

  datatype Vec3 = Vec3(x: real, y: real, z: real) {

    /** Coordinate `axis` (0 = x, 1 = y, 2 = z). */
    function At(axis: int): real
      requires 0 <= axis < 3
    {
      if axis == 0 then x else if axis == 1 then y else z
    }

    /** This vector with coordinate `axis` replaced by `v`. */
    function With(axis: int, v: real): (r: Vec3)
      requires 0 <= axis < 3
      ensures r.At(axis) == v
      ensures forall k :: 0 <= k < 3 && k != axis ==> r.At(k) == At(k)
    {
      if axis == 0 then Vec3(v, y, z) else if axis == 1 then Vec3(x, v, z) else Vec3(x, y, v)
    }
  }

  const Zero := Vec3(0.0, 0.0, 0.0)

  function Add(a: Vec3, b: Vec3): Vec3 { Vec3(a.x + b.x, a.y + b.y, a.z + b.z) }
  function Sub(a: Vec3, b: Vec3): Vec3 { Vec3(a.x - b.x, a.y - b.y, a.z - b.z) }
  function Neg(a: Vec3): Vec3 { Vec3(-a.x, -a.y, -a.z) }
  function Scale(k: real, a: Vec3): Vec3 { Vec3(k * a.x, k * a.y, k * a.z) }
  function Dot(a: Vec3, b: Vec3): real { a.x * b.x + a.y * b.y + a.z * b.z }

  function Cross(a: Vec3, b: Vec3): Vec3 {
    Vec3(a.y * b.z - a.z * b.y, a.z * b.x - a.x * b.z, a.x * b.y - a.y * b.x)
  }

  /** The (unnormalised) normal of the triangle `p0, p1, p2`:
      `np.cross(p1 - p0, p2 - p0)`. */
  function TriNormal(p0: Vec3, p1: Vec3, p2: Vec3): Vec3 {
    Cross(Sub(p1, p0), Sub(p2, p0))
  }

  /** Squared Euclidean length; the length itself needs a square root and is
      kept abstract wherever the code uses it. */
  function NormSq(a: Vec3): real { Dot(a, a) }

  /** The cross product is orthogonal to both factors. */
  lemma CrossOrthogonal(u: Vec3, w: Vec3)
    ensures Dot(Cross(u, w), u) == 0.0 && Dot(Cross(u, w), w) == 0.0
  {
    var c := Cross(u, w);
    assert c.x * u.x + c.y * u.y + c.z * u.z
        == u.y * w.z * u.x - u.z * w.y * u.x + u.z * w.x * u.y - u.x * w.z * u.y + u.x * w.y * u.z - u.y * w.x * u.z;
    assert c.x * w.x + c.y * w.y + c.z * w.z
        == u.y * w.z * w.x - u.z * w.y * w.x + u.z * w.x * w.y - u.x * w.z * w.y + u.x * w.y * w.z - u.y * w.x * w.z;
  }

  lemma SquareNonneg(x: real)
    ensures x * x >= 0.0
  {
    if x < 0.0 { assert x * x == (-x) * (-x); }
  }

  lemma NormSqNonneg(s: Vec3)
    ensures NormSq(s) >= 0.0
  {
    var a, b, c := s.x * s.x, s.y * s.y, s.z * s.z;
    SquareNonneg(s.x);
    SquareNonneg(s.y);
    SquareNonneg(s.z);
    assert NormSq(s) == a + b + c;
  }

  /** Relabelling the corners cyclically keeps the normal. */
  lemma TriNormalRotate(p0: Vec3, p1: Vec3, p2: Vec3)
    ensures TriNormal(p1, p2, p0) == TriNormal(p0, p1, p2)
  {
  }

  function Abs(x: real): real { if x < 0.0 then -x else x }

  /** A 3x3 matrix given by its rows. */
  datatype Mat3 = Mat3(r0: Vec3, r1: Vec3, r2: Vec3) {
    function Row(i: int): Vec3
      requires 0 <= i < 3
    {
      if i == 0 then r0 else if i == 1 then r1 else r2
    }

    function Col(j: int): Vec3
      requires 0 <= j < 3
    {
      Vec3(r0.At(j), r1.At(j), r2.At(j))
    }
  }

  const Identity := Mat3(Vec3(1.0, 0.0, 0.0), Vec3(0.0, 1.0, 0.0), Vec3(0.0, 0.0, 1.0))

  /** M v (the vector as a column). */
  function MatVec(m: Mat3, v: Vec3): Vec3 {
    Vec3(Dot(m.r0, v), Dot(m.r1, v), Dot(m.r2, v))
  }

  function MatMul(a: Mat3, b: Mat3): Mat3 {
    Mat3(Vec3(Dot(a.r0, b.Col(0)), Dot(a.r0, b.Col(1)), Dot(a.r0, b.Col(2))),
         Vec3(Dot(a.r1, b.Col(0)), Dot(a.r1, b.Col(1)), Dot(a.r1, b.Col(2))),
         Vec3(Dot(a.r2, b.Col(0)), Dot(a.r2, b.Col(1)), Dot(a.r2, b.Col(2))))
  }

  function Transpose(m: Mat3): Mat3 {
    Mat3(m.Col(0), m.Col(1), m.Col(2))
  }

  /** (A B) v = A (B v): composing two matrices is applying them in turn. */
  lemma MatMulApply(a: Mat3, b: Mat3, v: Vec3)
    ensures MatVec(MatMul(a, b), v) == MatVec(a, MatVec(b, v))
  {
  }

  lemma DotScale(k: real, a: Vec3, b: Vec3)
    ensures Dot(a, Scale(k, b)) == k * Dot(a, b)
  {
  }

  lemma DotNeg(a: Vec3, b: Vec3)
    ensures Dot(a, Neg(b)) == -Dot(a, b)
  {
  }

  /** A positive factor keeps the sign of a product. */
  lemma PositiveFactorSign(k: real, x: real)
    requires k > 0.0
    ensures k * x < 0.0 <==> x < 0.0
  {
    if x < 0.0 { assert k * x < 0.0; }
    if x >= 0.0 { assert k * x >= 0.0; }
  }

  /** A quotient of a nonnegative number by a larger positive one lies in
      [0, 1]. */
  lemma DivUnit(e: real, d: real)
    requires d > 0.0 && 0.0 <= e <= d
    ensures 0.0 <= e / d <= 1.0
  {
    DivNonneg(e, d);
    var t := e / d;
    assert t * d == e;
    assert (t - 1.0) * d == e - d;
  }

  lemma DivNonneg(a: real, k: real)
    requires a >= 0.0 && k > 0.0
    ensures a / k >= 0.0
  {
  }

  lemma MulMono(a: real, b: real, k: real)
    requires a <= b && k > 0.0
    ensures a * k <= b * k
  {
    assert (b - a) * k >= 0.0;
  }

  lemma MulStrict(a: real, b: real, k: real)
    requires a < b && k > 0.0
    ensures a * k < b * k
  {
    assert (b - a) * k > 0.0;
  }

  /** `a <= d / k` with a positive `k` gives `a * k <= d`. */
  lemma MulBelowDiv(a: real, d: real, k: real)
    requires k > 0.0 && a <= d / k
    ensures a * k <= d
  {
    var q := d / k;
    assert q * k == d;
    MulMono(a, q, k);
  }

  lemma MulStrictBelowDiv(a: real, d: real, k: real)
    requires k > 0.0 && a < d / k
    ensures a * k < d
  {
    var q := d / k;
    assert q * k == d;
    MulStrict(a, q, k);
  }

  lemma DivBelowMul(d: real, k: real, a: real)
    requires k > 0.0 && d / k <= a
    ensures d <= a * k
  {
    var q := d / k;
    assert q * k == d;
    MulMono(q, a, k);
  }

  lemma DivStrictBelowMul(d: real, k: real, a: real)
    requires k > 0.0 && d / k < a
    ensures d < a * k
  {
    var q := d / k;
    assert q * k == d;
    MulStrict(q, a, k);
  }

  lemma NegDiv(x: real, y: real)
    requires y != 0.0
    ensures x / y == (-x) / (-y)
  {
  }

  lemma MatVecAdd(m: Mat3, u: Vec3, v: Vec3)
    ensures MatVec(m, Add(u, v)) == Add(MatVec(m, u), MatVec(m, v))
  {
  }

  // ---------------------------------------------------------------------
  // Sums and means

  function Sum(s: seq<real>): real
  {
    if |s| == 0 then 0.0 else Sum(s[..|s| - 1]) + s[|s| - 1]
  }

  function Mean(s: seq<real>): real
    requires |s| > 0
  {
    Sum(s) / (|s| as real)
  }

  function VecSum(s: seq<Vec3>): Vec3
  {
    if |s| == 0 then Zero else Add(VecSum(s[..|s| - 1]), s[|s| - 1])
  }

  /** The per-axis mean of a non-empty list of points (`arr.mean(axis=0)`). */
  function VecMean(s: seq<Vec3>): Vec3
    requires |s| > 0
  {
    Scale(1.0 / (|s| as real), VecSum(s))
  }

  /** The entries of a per-vertex (or per-face) array at a list of indices
      (`vert[ix, :]`, `values[ix]`, `faces[ix, :]`). */
  function Points<T>(vert: seq<T>, ix: seq<int>): (r: seq<T>)
    requires forall i :: 0 <= i < |ix| ==> 0 <= ix[i] < |vert|
    ensures |r| == |ix| && forall i :: 0 <= i < |ix| ==> r[i] == vert[ix[i]]
  {
    seq(|ix|, i requires 0 <= i < |ix| => vert[ix[i]])
  }

  /** Every vertex moved by `t` (`vert[:] += t`). */
  function Shift(vert: seq<Vec3>, t: Vec3): (r: seq<Vec3>)
    ensures |r| == |vert|
    ensures forall i :: 0 <= i < |vert| ==> r[i] == Add(vert[i], t)
  {
    seq(|vert|, i requires 0 <= i < |vert| => Add(vert[i], t))
  }

  lemma ScaleSucc(n: real, t: Vec3)
    ensures Scale(n + 1.0, t) == Add(Scale(n, t), t)
  {
  }

  lemma {:induction false} VecSumShift(s: seq<Vec3>, t: Vec3)
    ensures VecSum(Shift(s, t)) == Add(VecSum(s), Scale(|s| as real, t))
  {
    if |s| > 0 {
      var s' := s[..|s| - 1];
      var n' := |s'| as real;
      VecSumShift(s', t);
      assert Shift(s, t)[..|s| - 1] == Shift(s', t);
      assert VecSum(Shift(s, t)) == Add(VecSum(Shift(s', t)), Add(s[|s| - 1], t));
      ScaleSucc(n', t);
      assert |s| as real == n' + 1.0;
    }
  }

  /** Moving every point by `t` moves the mean by `t`. */
  lemma VecMeanShift(s: seq<Vec3>, t: Vec3)
    requires |s| > 0
    ensures VecMean(Shift(s, t)) == Add(VecMean(s), t)
  {
    var n := |s| as real;
    VecSumShift(s, t);
    assert (1.0 / n) * n == 1.0;
    var S := VecSum(s);
    assert (1.0 / n) * (S.x + n * t.x) == (1.0 / n) * S.x + ((1.0 / n) * n) * t.x;
    assert (1.0 / n) * (S.y + n * t.y) == (1.0 / n) * S.y + ((1.0 / n) * n) * t.y;
    assert (1.0 / n) * (S.z + n * t.z) == (1.0 / n) * S.z + ((1.0 / n) * n) * t.z;
  }

  /** The list of coordinate `axis` of every point (`arr[:, axis]`). */
  function Column(s: seq<Vec3>, axis: int): (c: seq<real>)
    requires 0 <= axis < 3
    ensures |c| == |s|
    ensures forall i :: 0 <= i < |s| ==> c[i] == s[i].At(axis)
  {
    seq(|s|, i requires 0 <= i < |s| => s[i].At(axis))
  }

  function Max(s: seq<real>): (m: real)
    requires |s| > 0
    ensures forall i :: 0 <= i < |s| ==> s[i] <= m
    ensures exists i :: 0 <= i < |s| && s[i] == m
  {
    if |s| == 1 then s[0]
    else
      var m' := Max(s[..|s| - 1]);
      assert forall i :: 0 <= i < |s| - 1 ==> s[..|s| - 1][i] == s[i];
      if s[|s| - 1] > m' then s[|s| - 1] else m'
  }

  function Min(s: seq<real>): (m: real)
    requires |s| > 0
    ensures forall i :: 0 <= i < |s| ==> m <= s[i]
    ensures exists i :: 0 <= i < |s| && s[i] == m
  {
    if |s| == 1 then s[0]
    else
      var m' := Min(s[..|s| - 1]);
      assert forall i :: 0 <= i < |s| - 1 ==> s[..|s| - 1][i] == s[i];
      if s[|s| - 1] < m' then s[|s| - 1] else m'
  }

  /** `np.argmin`: the position of the first smallest entry. */
  function ArgMin(e: seq<real>): (ix: nat)
    requires |e| > 0
    ensures ix < |e|
    ensures forall a :: 0 <= a < |e| ==> e[ix] <= e[a]
    ensures forall a :: 0 <= a < ix ==> e[a] > e[ix]
  {
    if |e| == 1 then 0
    else
      var m := ArgMin(e[1..]);
      assert forall a :: 1 <= a < |e| ==> e[1..][a - 1] == e[a];
      if e[0] <= e[1..][m] then 0 else m + 1
  }

  /** What the code relies on of `np.linalg.norm`, which is kept abstract:
      it is nonnegative, and it satisfies the triangle inequality. */
  ghost predicate NonnegNorm(norm: Vec3 -> real) {
    forall v :: norm(v) >= 0.0
  }

  ghost predicate Subadditive(norm: Vec3 -> real) {
    forall u, v :: norm(Add(u, v)) <= norm(u) + norm(v)
  }

  /** Python's `int(x)` on a float: truncation toward zero. */
  function Trunc(x: real): (n: int)
    ensures 0.0 <= x ==> n as real <= x < n as real + 1.0
    ensures x < 0.0 ==> n as real - 1.0 < x <= n as real
  {
    if x >= 0.0 then x.Floor else -((-x).Floor)
  }

  /** `math.ceil`. */
  function Ceil(x: real): (n: int)
    ensures n as real - 1.0 < x <= n as real
  {
    -((-x).Floor)
  }

  /** The transcendental functions the code calls, kept abstract: the value
      of pi and the cosine and sine functions. */
  datatype Trig = Trig(pi: real, cos: real -> real, sin: real -> real)

  /** The rotations about the x, y and z axes by an angle with cosine `c` and
      sine `s`, as `rotMatrix` writes them. */
  function RotX(c: real, s: real): Mat3 {
    Mat3(Vec3(1.0, 0.0, 0.0), Vec3(0.0, c, -s), Vec3(0.0, s, c))
  }

  function RotY(c: real, s: real): Mat3 {
    Mat3(Vec3(c, 0.0, s), Vec3(0.0, 1.0, 0.0), Vec3(-s, 0.0, c))
  }

  function RotZ(c: real, s: real): Mat3 {
    Mat3(Vec3(c, -s, 0.0), Vec3(s, c, 0.0), Vec3(0.0, 0.0, 1.0))
  }
}

=== FILE: measure.dfy ===
/** Measurements of the slice polygons: the slicing axis guessed from the
    first polygon, the shoelace cross-sectional area, the two in-plane
    widths, the trapezoidal volume estimate and the perimeter. */
module Measure {
  import opened Wrappers
  import opened Linalg

  // ---------------------------------------------------------------------
  // The slicing axis

  /** `p[:, axis].max() - p[:, axis].min()`. */
  function Extent(p: seq<Vec3>, axis: int): (w: real)
    requires |p| > 0 && 0 <= axis < 3
    ensures w >= 0.0
  {
    var c := Column(p, axis);
    assert Min(c) <= c[0] <= Max(c);
    Max(c) - Min(c)
  }

  /** The extent is the largest difference of two coordinates along the
      axis, and some pair of points attains it. */
  lemma ExtentSpec(p: seq<Vec3>, axis: int)
    requires |p| > 0 && 0 <= axis < 3
    ensures forall j, k :: 0 <= j < |p| && 0 <= k < |p| ==> p[j].At(axis) - p[k].At(axis) <= Extent(p, axis)
    ensures exists j, k :: 0 <= j < |p| && 0 <= k < |p| && p[j].At(axis) - p[k].At(axis) == Extent(p, axis)
  {
    var c := Column(p, axis);
    var j :| 0 <= j < |c| && c[j] == Max(c);
    var k :| 0 <= k < |c| && c[k] == Min(c);
    assert p[j].At(axis) - p[k].At(axis) == Extent(p, axis);
  }

  /** The extents of a polygon along the three axes. */
  function Extents(p: seq<Vec3>): (e: seq<real>)
    requires |p| > 0
    ensures |e| == 3 && forall a :: 0 <= a < 3 ==> e[a] == Extent(p, a)
  {
    [Extent(p, 0), Extent(p, 1), Extent(p, 2)]
  }

  /** The axis along which the polygon is flattest, the first on ties. */
  function FlatAxis(p: seq<Vec3>): (ix: int)
    requires |p| > 0
    ensures 0 <= ix < 3
    ensures forall a :: 0 <= a < 3 ==> Extent(p, ix) <= Extent(p, a)
    ensures forall a :: 0 <= a < ix ==> Extent(p, a) > Extent(p, ix)
  {
    var e := Extents(p);
    ArgMin(e)
  }

  /** `ind = [0, 1, 2]; ind.remove(ix)`: the two other axes, ascending. */
  function InPlane(ix: int): (r: (int, int))
    requires 0 <= ix < 3
    ensures 0 <= r.0 < r.1 < 3 && r.0 != ix && r.1 != ix
  {
    if ix == 0 then (1, 2) else if ix == 1 then (0, 2) else (0, 1)
  }

  /** The slicing axis of a polygon list, read off `polys[0]`: an empty list
      is an IndexError, an empty first polygon a ValueError (the maximum of
      an empty array). */
  function SliceAxis(polys: seq<seq<Vec3>>): (r: Result<int>)
    ensures |polys| == 0 ==> r == Err(IndexError)
    ensures |polys| > 0 && |polys[0]| == 0 ==> r == Err(ValueError)
    ensures |polys| > 0 && |polys[0]| > 0 ==> r == Ok(FlatAxis(polys[0]))
  {
    if |polys| == 0 then Err(IndexError)
    else if |polys[0]| == 0 then Err(ValueError)
    else Ok(FlatAxis(polys[0]))
  }

  // ---------------------------------------------------------------------
  // Cross-sectional area

  /** `np.dot` of two equally long vectors. */
  function DotSeq(a: seq<real>, b: seq<real>): real
    requires |a| == |b|
  {
    if |a| == 0 then 0.0 else a[0] * b[0] + DotSeq(a[1..], b[1..])
  }

  /** `np.roll(a, 1)`: the last entry moved to the front. */
  function Roll(a: seq<real>): (r: seq<real>)
    ensures |r| == |a|
    ensures forall k :: 0 < k < |a| ==> r[k] == a[k - 1]
    ensures |a| > 0 ==> r[0] == a[|a| - 1]
  {
    if |a| == 0 then [] else [a[|a| - 1]] + a[..|a| - 1]
  }

  /** The shoelace sum of `calc_csa` in the plane of axes `i` and `j`:
      `dot(x, roll(y, 1)) - dot(y, roll(x, 1))`. */
  function Shoelace(p: seq<Vec3>, i: int, j: int): real
    requires 0 <= i < 3 && 0 <= j < 3
  {
    var xs, ys := Column(p, i), Column(p, j);
    DotSeq(xs, Roll(ys)) - DotSeq(ys, Roll(xs))
  }

  /** Half the absolute shoelace sum. */
  function Area(p: seq<Vec3>, i: int, j: int): (a: real)
    requires 0 <= i < 3 && 0 <= j < 3
    ensures a >= 0.0
  {
    0.5 * Abs(Shoelace(p, i, j))
  }

  /** The cross term of the polygon side from `(x0, y0)` to `(x1, y1)`. */
  function Side(x0: real, y0: real, x1: real, y1: real): real {
    x1 * y0 - y1 * x0
  }

  /** The sum of the cross terms of consecutive points, without the closing
      side from the last point back to the first. */
  function OpenSides(xs: seq<real>, ys: seq<real>): real
    requires |xs| == |ys|
  {
    if |xs| < 2 then 0.0 else Side(xs[0], ys[0], xs[1], ys[1]) + OpenSides(xs[1..], ys[1..])
  }

  lemma {:induction false} ShiftedDots(xs: seq<real>, ys: seq<real>)
    requires |xs| == |ys| > 0
    ensures DotSeq(xs[1..], ys[..|ys| - 1]) - DotSeq(ys[1..], xs[..|xs| - 1]) == OpenSides(xs, ys)
  {
    var n := |xs|;
    if n >= 2 {
      var xs', ys' := xs[1..], ys[1..];
      ShiftedDots(xs', ys');
      assert xs[1..][1..] == xs'[1..] && ys[1..][1..] == ys'[1..];
      assert ys[..n - 1][1..] == ys'[..n - 2] && xs[..n - 1][1..] == xs'[..n - 2];
    }
  }

  /** The shoelace sum is the closing side plus the open sides. */
  lemma ShoelaceSides(xs: seq<real>, ys: seq<real>)
    requires |xs| == |ys| > 0
    ensures DotSeq(xs, Roll(ys)) - DotSeq(ys, Roll(xs))
      == Side(xs[|xs| - 1], ys[|ys| - 1], xs[0], ys[0]) + OpenSides(xs, ys)
  {
    RollDot(xs, ys);
    RollDot(ys, xs);
    ShiftedDots(xs, ys);
  }

  lemma RollDot(xs: seq<real>, ys: seq<real>)
    requires |xs| == |ys| > 0
    ensures DotSeq(xs, Roll(ys)) == xs[0] * ys[|ys| - 1] + DotSeq(xs[1..], ys[..|ys| - 1])
  {
    assert Roll(ys)[1..] == ys[..|ys| - 1];
  }

  lemma {:induction false} OpenSidesAppend(xs: seq<real>, ys: seq<real>, x: real, y: real)
    requires |xs| == |ys| > 0
    ensures OpenSides(xs + [x], ys + [y]) == OpenSides(xs, ys) + Side(xs[|xs| - 1], ys[|ys| - 1], x, y)
  {
    if |xs| >= 2 {
      OpenSidesAppend(xs[1..], ys[1..], x, y);
      assert (xs + [x])[1..] == xs[1..] + [x];
      assert (ys + [y])[1..] == ys[1..] + [y];
    } else {
      assert (xs + [x])[1..] == [x];
      assert (ys + [y])[1..] == [y];
    }
  }

  lemma SideDegenerate(x: real, y: real)
    ensures Side(x, y, x, y) == 0.0
  {
  }

  /** The slice polygons repeat their first point at the end; the repeated
      point adds nothing to the area, which is that of the open point list
      closed back to its start. */
  lemma ClosedPolygonArea(q: seq<Vec3>, i: int, j: int)
    requires |q| > 0 && 0 <= i < 3 && 0 <= j < 3
    ensures Shoelace(q + [q[0]], i, j) == Shoelace(q, i, j)
  {
    var xs, ys := Column(q, i), Column(q, j);
    var xs', ys' := xs + [xs[0]], ys + [ys[0]];
    ColumnAppend(q, q[0], i);
    ColumnAppend(q, q[0], j);
    assert Shoelace(q + [q[0]], i, j) == DotSeq(xs', Roll(ys')) - DotSeq(ys', Roll(xs'));
    ShoelaceSides(xs', ys');
    assert xs'[|xs'| - 1] == xs'[0] == xs[0] && ys'[|ys'| - 1] == ys'[0] == ys[0];
    SideDegenerate(xs[0], ys[0]);
    ShoelaceSides(xs, ys);
    OpenSidesAppend(xs, ys, xs[0], ys[0]);
  }

  lemma ColumnAppend(q: seq<Vec3>, v: Vec3, axis: int)
    requires 0 <= axis < 3
    ensures Column(q + [v], axis) == Column(q, axis) + [v.At(axis)]
  {
    var c, c' := Column(q + [v], axis), Column(q, axis) + [v.At(axis)];
    assert |c| == |c'|;
    forall k | 0 <= k < |c| ensures c[k] == c'[k] {
      if k < |q| {
        assert (q + [v])[k] == q[k];
      }
    }
  }

  lemma ColumnTail(q: seq<Vec3>, axis: int)
    requires |q| > 0 && 0 <= axis < 3
    ensures Column(q[1..], axis) == Column(q, axis)[1..]
  {
    var c, c' := Column(q[1..], axis), Column(q, axis)[1..];
    assert |c| == |c'|;
    forall k | 0 <= k < |c| ensures c[k] == c'[k] {
      assert q[1..][k] == q[k + 1];
    }
  }

  /** The area does not depend on which point the polygon starts from:
      moving the first point to the end leaves the shoelace sum, and so
      the area `calc_csa` reports, unchanged. */
  lemma AreaRotate(q: seq<Vec3>, i: int, j: int)
    requires |q| > 0 && 0 <= i < 3 && 0 <= j < 3
    ensures Shoelace(q[1..] + [q[0]], i, j) == Shoelace(q, i, j)
    ensures Area(q[1..] + [q[0]], i, j) == Area(q, i, j)
  {
    var n := |q|;
    if n >= 2 {
      var xs, ys := Column(q, i), Column(q, j);
      ColumnTail(q, i);
      ColumnTail(q, j);
      ColumnAppend(q[1..], q[0], i);
      ColumnAppend(q[1..], q[0], j);
      var xs', ys' := xs[1..] + [xs[0]], ys[1..] + [ys[0]];
      assert Column(q[1..] + [q[0]], i) == xs' && Column(q[1..] + [q[0]], j) == ys';
      ShoelaceSides(xs', ys');
      assert xs'[1..] == xs[2..] + [xs[0]] && ys'[1..] == ys[2..] + [ys[0]];
      OpenSidesAppend(xs[1..], ys[1..], xs[0], ys[0]);
      assert xs[1..][1..] == xs[2..] && ys[1..][1..] == ys[2..];
      ShoelaceSides(xs, ys);
    } else {
      assert q[1..] + [q[0]] == q;
    }
  }

  /** `calc_csa`: one area per polygon, in the plane of the two axes other
      than the slicing axis. */
  function CalcCsa(polys: seq<seq<Vec3>>): (r: Result<seq<real>>)
    ensures r.Ok? <==> SliceAxis(polys).Ok?
    ensures r.Ok? ==> |r.value| == |polys|
    ensures r.Ok? ==> var (i, j) := InPlane(SliceAxis(polys).value);
      forall k :: 0 <= k < |polys| ==> r.value[k] == Area(polys[k], i, j) && r.value[k] >= 0.0
  {
    var ix :- SliceAxis(polys);
    var (i, j) := InPlane(ix);
    Ok(Areas(polys, i, j))
  }

  function Areas(polys: seq<seq<Vec3>>, i: int, j: int): (r: seq<real>)
    requires 0 <= i < 3 && 0 <= j < 3
    ensures |r| == |polys|
    ensures forall k :: 0 <= k < |polys| ==> r[k] == Area(polys[k], i, j) && r[k] >= 0.0
  {
    seq(|polys|, k requires 0 <= k < |polys| => Area(polys[k], i, j))
  }

  /** The unit square in the xy plane has area 1, traversed either way. */
  lemma UnitSquareArea()
    ensures Area([Vec3(0.0, 0.0, 0.0), Vec3(1.0, 0.0, 0.0), Vec3(1.0, 1.0, 0.0), Vec3(0.0, 1.0, 0.0)], 0, 1) == 1.0
    ensures Area([Vec3(0.0, 1.0, 0.0), Vec3(1.0, 1.0, 0.0), Vec3(1.0, 0.0, 0.0), Vec3(0.0, 0.0, 0.0)], 0, 1) == 1.0
  {
    SquareForward([Vec3(0.0, 0.0, 0.0), Vec3(1.0, 0.0, 0.0), Vec3(1.0, 1.0, 0.0), Vec3(0.0, 1.0, 0.0)]);
    SquareBackward([Vec3(0.0, 1.0, 0.0), Vec3(1.0, 1.0, 0.0), Vec3(1.0, 0.0, 0.0), Vec3(0.0, 0.0, 0.0)]);
  }

  lemma SquareForward(p: seq<Vec3>)
    requires p == [Vec3(0.0, 0.0, 0.0), Vec3(1.0, 0.0, 0.0), Vec3(1.0, 1.0, 0.0), Vec3(0.0, 1.0, 0.0)]
    ensures Area(p, 0, 1) == 1.0
  {
    var xs, ys := Column(p, 0), Column(p, 1);
    assert xs == [0.0, 1.0, 1.0, 0.0];
    assert ys == [0.0, 0.0, 1.0, 1.0];
    ShoelaceSides(xs, ys);
    assert xs[1..][1..] == xs[2..] && ys[1..][1..] == ys[2..];
    assert xs[2..][1..] == xs[3..] && ys[2..][1..] == ys[3..];
    assert OpenSides(xs[3..], ys[3..]) == 0.0;
    assert OpenSides(xs[2..], ys[2..]) == -1.0;
    assert OpenSides(xs[1..], ys[1..]) == -2.0;
    assert OpenSides(xs, ys) == -2.0;
  }

  lemma SquareBackward(p: seq<Vec3>)
    requires p == [Vec3(0.0, 1.0, 0.0), Vec3(1.0, 1.0, 0.0), Vec3(1.0, 0.0, 0.0), Vec3(0.0, 0.0, 0.0)]
    ensures Area(p, 0, 1) == 1.0
  {
    var xs, ys := Column(p, 0), Column(p, 1);
    assert xs == [0.0, 1.0, 1.0, 0.0];
    assert ys == [1.0, 1.0, 0.0, 0.0];
    ShoelaceSides(xs, ys);
    assert xs[1..][1..] == xs[2..] && ys[1..][1..] == ys[2..];
    assert xs[2..][1..] == xs[3..] && ys[2..][1..] == ys[3..];
    assert OpenSides(xs[3..], ys[3..]) == 0.0;
    assert OpenSides(xs[2..], ys[2..]) == 0.0;
    assert OpenSides(xs[1..], ys[1..]) == 1.0;
    assert OpenSides(xs, ys) == 2.0;
  }

  // ---------------------------------------------------------------------
  // Widths

  /** `calc_widths`: for every polygon the extents along the two in-plane
      axes. An empty polygon anywhere in the list is a ValueError. */
  function CalcWidths(polys: seq<seq<Vec3>>): (r: Result<(seq<real>, seq<real>)>)
    ensures r.Ok? <==> SliceAxis(polys).Ok? && NoEmpty(polys)
    ensures r.Err? ==> r.error == if |polys| == 0 then IndexError else ValueError
    ensures r.Ok? ==> |r.value.0| == |polys| && |r.value.1| == |polys|
    ensures r.Ok? ==> WidthsAre(polys, InPlane(SliceAxis(polys).value), r.value)
  {
    var ix :- SliceAxis(polys);
    var (i, j) := InPlane(ix);
    if !NoEmpty(polys) then Err(ValueError)
    else Ok((Widths(polys, i), Widths(polys, j)))
  }

  /** The extent of every polygon along `axis`. */
  function Widths(polys: seq<seq<Vec3>>, axis: int): (w: seq<real>)
    requires NoEmpty(polys) && 0 <= axis < 3
    ensures |w| == |polys|
    ensures forall k :: 0 <= k < |polys| ==> w[k] == Extent(polys[k], axis) && w[k] >= 0.0
  {
    seq(|polys|, k requires 0 <= k < |polys| => Extent(polys[k], axis))
  }

  predicate NoEmpty(polys: seq<seq<Vec3>>) {
    forall k :: 0 <= k < |polys| ==> |polys[k]| > 0
  }

  /** Entry `k` of the two width lists is the extent of polygon `k` along
      the first and second in-plane axis. */
  ghost predicate WidthsAre(polys: seq<seq<Vec3>>, axes: (int, int), w: (seq<real>, seq<real>))
    requires 0 <= axes.0 < 3 && 0 <= axes.1 < 3
  {
    && NoEmpty(polys) && |w.0| == |polys| && |w.1| == |polys|
    && forall k :: 0 <= k < |polys| ==>
         && w.0[k] == Extent(polys[k], axes.0) && w.1[k] == Extent(polys[k], axes.1)
         && w.0[k] >= 0.0 && w.1[k] >= 0.0
  }

  // ---------------------------------------------------------------------
  // Volume

  /** The trapezoidal sum of `est_volume`: for consecutive slices the mean of
      their areas times the distance between their heights. */
  function Trapezoid(csa: seq<real>, d: seq<real>): real
    requires |csa| == |d|
  {
    var n := |csa|;
    if n < 2 then 0.0
    else Trapezoid(csa[..n - 1], d[..n - 1]) + (csa[n - 1] + csa[n - 2]) / 2.0 * Abs(d[n - 1] - d[n - 2])
  }

  lemma ProductNonneg(a: real, b: real)
    requires a >= 0.0 && b >= 0.0
    ensures a * b >= 0.0
  {
  }

  /** Nonnegative areas give a nonnegative volume; fewer than two slices give
      zero. */
  lemma {:induction false} TrapezoidNonneg(csa: seq<real>, d: seq<real>)
    requires |csa| == |d|
    requires forall k :: 0 <= k < |csa| ==> csa[k] >= 0.0
    ensures Trapezoid(csa, d) >= 0.0
    ensures |csa| < 2 ==> Trapezoid(csa, d) == 0.0
  {
    var n := |csa|;
    if n >= 2 {
      TrapezoidNonneg(csa[..n - 1], d[..n - 1]);
      ProductNonneg((csa[n - 1] + csa[n - 2]) / 2.0, Abs(d[n - 1] - d[n - 2]));
    }
  }

  /** A prism: equal areas at increasing heights give area times height. */
  lemma {:induction false} TrapezoidPrism(csa: seq<real>, d: seq<real>, a: real)
    requires |csa| == |d| > 0
    requires forall k :: 0 <= k < |csa| ==> csa[k] == a
    requires forall k :: 0 < k < |d| ==> d[k - 1] <= d[k]
    ensures Trapezoid(csa, d) == a * (d[|d| - 1] - d[0])
  {
    var n := |csa|;
    if n >= 2 {
      var c', d' := csa[..n - 1], d[..n - 1];
      assert forall k :: 0 <= k < |c'| ==> c'[k] == csa[k];
      assert forall k :: 0 <= k < |d'| ==> d'[k] == d[k];
      TrapezoidPrism(c', d', a);
      assert d'[|d'| - 1] == d[n - 2] && d'[0] == d[0];
      var lo, hi := d[n - 2] - d[0], d[n - 1] - d[n - 2];
      assert (csa[n - 1] + csa[n - 2]) / 2.0 == a;
      assert Abs(d[n - 1] - d[n - 2]) == hi;
      assert a * lo + a * hi == a * (lo + hi);
    }
  }

  /** The mean slicing-axis coordinate of every polygon. */
  function Heights(polys: seq<seq<Vec3>>, ix: int): (d: seq<real>)
    requires 0 <= ix < 3
    requires forall k :: 0 <= k < |polys| ==> |polys[k]| > 0
    ensures |d| == |polys|
    ensures forall k :: 0 <= k < |polys| ==> d[k] == Mean(Column(polys[k], ix))
  {
    seq(|polys|, k requires 0 <= k < |polys| => Mean(Column(polys[k], ix)))
  }

  /** `est_volume`: the trapezoidal sum of the areas over the mean heights of
      the polygons. */
  function EstVolume(polys: seq<seq<Vec3>>): (r: Result<real>)
    requires forall k :: 0 <= k < |polys| ==> |polys[k]| > 0
    ensures |polys| == 0 ==> r == Err(IndexError)
    ensures |polys| > 0 ==> r.Ok? && r.value >= 0.0
    ensures |polys| == 1 ==> r == Ok(0.0)
    ensures r.Ok? ==> r.value == Trapezoid(CalcCsa(polys).value, Heights(polys, SliceAxis(polys).value))
  {
    var ix :- SliceAxis(polys);
    var csa := CalcCsa(polys).value;
    var d := Heights(polys, ix);
    TrapezoidNonneg(csa, d);
    Ok(Trapezoid(csa, d))
  }

  // ---------------------------------------------------------------------
  // Perimeter

  /** The summed lengths of the sides between consecutive points, for a
      given vector norm (`np.linalg.norm`, kept abstract). */
  function PolyLength(p: seq<Vec3>, norm: Vec3 -> real): real
  {
    if |p| < 2 then 0.0
    else PolyLength(p[..|p| - 1], norm) + norm(Sub(p[|p| - 1], p[|p| - 2]))
  }

  /** `calc_perimeter`: one length per polygon, nonnegative for a
      nonnegative norm. */
  function CalcPerimeter(polys: seq<seq<Vec3>>, norm: Vec3 -> real): (r: seq<real>)
    ensures |r| == |polys|
    ensures forall k :: 0 <= k < |polys| ==> r[k] == PolyLength(polys[k], norm)
  {
    seq(|polys|, k requires 0 <= k < |polys| => PolyLength(polys[k], norm))
  }

  /** Lengths add up along a path: joining two paths at a shared point
      gives a path as long as both together. */
  lemma {:induction false} PolyLengthJoin(p: seq<Vec3>, q: seq<Vec3>, norm: Vec3 -> real)
    requires |p| > 0 && |q| > 0 && p[|p| - 1] == q[0]
    ensures PolyLength(p + q[1..], norm) == PolyLength(p, norm) + PolyLength(q, norm)
    decreases |q|
  {
    var m := |q|;
    if m == 1 {
      assert p + q[1..] == p;
    } else {
      var q' := q[..m - 1];
      PolyLengthJoin(p, q', norm);
      var w := p + q[1..];
      assert w[..|w| - 1] == p + q'[1..];
      assert w[|w| - 1] == q[m - 1];
      assert w[|w| - 2] == q[m - 2];
    }
  }

  lemma {:induction false} PolyLengthNonneg(p: seq<Vec3>, norm: Vec3 -> real)
    requires NonnegNorm(norm)
    ensures PolyLength(p, norm) >= 0.0
  {
    if |p| >= 2 {
      PolyLengthNonneg(p[..|p| - 1], norm);
    }
  }

  /** For a norm with the triangle inequality, the path is at least as long
      as the straight line from its first to its last point. */
  lemma {:induction false} PolyLengthChord(p: seq<Vec3>, norm: Vec3 -> real)
    requires Subadditive(norm) && |p| >= 2
    ensures PolyLength(p, norm) >= norm(Sub(p[|p| - 1], p[0]))
  {
    var n := |p|;
    if n > 2 {
      var q := p[..n - 1];
      PolyLengthChord(q, norm);
      assert Add(Sub(q[n - 2], q[0]), Sub(p[n - 1], p[n - 2])) == Sub(p[n - 1], p[0]);
    }
  }
}

=== FILE: output.dfy ===
/** The histogram written by `generateRegBinsCsv`: the registered scalar
    values are counted into `numBins` equal bins between a lower and an
    upper bound, out-of-range values going to the first or the last bin,
    and each bin is reported as its lower edge and the fraction of values
    it holds. */
module Output {
  import opened Wrappers
  import opened Linalg

  /** One CSV row: the lower edge of a bin and the fraction of the values
      it holds. */
  datatype Row = Row(lower: real, fraction: real)

  /** The bin a value falls in, on `n` bins of width `size` starting at
      `lo`: the truncated offset, clamped to the first and the last bin.
      The values are NumPy floats, so dividing by a zero width does not
      raise but gives an infinity (a NaN when the value is `lo` itself), on
      which `int` raises OverflowError (ValueError for the NaN). Indexing an
      empty list of bins raises IndexError. */
  function BinOf(v: real, lo: real, size: real, n: nat): (r: Result<nat>)
    ensures r.Ok? <==> size != 0.0 && n > 0
    ensures size == 0.0 && v == lo ==> r == Err(ValueError)
    ensures size == 0.0 && v != lo ==> r == Err(OverflowError)
    ensures size != 0.0 && n == 0 ==> r == Err(IndexError)
    ensures r.Ok? ==> r.value < n
  {
    if size == 0.0 then
      if v == lo then Err(ValueError) else Err(OverflowError)
    else
      var b := Trunc((v - lo) / size);
      if n == 0 then Err(IndexError)
      else if b < 0 then Ok(0)
      else if b >= n then Ok(n - 1)
      else Ok(b)
  }

  /** A value inside the range `[lo, lo + n * size)` of positive-width bins
      lands in the bin whose interval contains it. */
  lemma BinContains(v: real, lo: real, size: real, n: nat)
    requires size > 0.0 && n > 0
    requires lo <= v < lo + size * (n as real)
    ensures BinOf(v, lo, size, n).Ok?
    ensures var b := BinOf(v, lo, size, n).value;
            lo + size * (b as real) <= v < lo + size * (b as real) + size
  {
    var x := (v - lo) / size;
    var b := Trunc(x);
    DivBelow(v - lo, size, n as real);
    DivNonneg(v - lo, size);
    assert 0 <= b < n;
    TruncInterval(v - lo, size, b);
  }

  /** `0 <= d < size * m` with a positive `size` gives `d / size < m`. */
  lemma DivBelow(d: real, size: real, m: real)
    requires size > 0.0 && d < size * m
    ensures d / size < m
  {
    assert d / size * size == d;
    if d / size >= m {
      MulMono(m, d / size, size);
    }
  }

  /** `b <= d / size < b + 1` with a positive `size` gives
      `size * b <= d < size * b + size`. */
  lemma TruncInterval(d: real, size: real, b: int)
    requires size > 0.0
    requires b as real <= d / size < b as real + 1.0
    ensures size * (b as real) <= d < size * (b as real) + size
  {
    MulBelowDiv(b as real, d, size);
    DivStrictBelowMul(d, size, b as real + 1.0);
    assert (b as real + 1.0) * size == size * (b as real) + size;
  }

  /** `bins[k] += 1`. */
  function Bump(bins: seq<nat>, k: nat): (r: seq<nat>)
    requires k < |bins|
    ensures |r| == |bins| && r[k] == bins[k] + 1
    ensures forall i :: 0 <= i < |bins| && i != k ==> r[i] == bins[i]
  {
    bins[k := bins[k] + 1]
  }

  /** The counting loop over the values, from the first to the last. */
  function CountBins(values: seq<real>, lo: real, size: real, n: nat): (r: Result<seq<nat>>)
    ensures r.Ok? ==> |r.value| == n
    ensures r.Ok? <==> |values| == 0 || (size != 0.0 && n > 0)
    ensures r.Err? ==> r.error == BinOf(values[0], lo, size, n).error
    ensures r.Err? ==> r.error == if size != 0.0 then IndexError
                                  else if values[0] == lo then ValueError else OverflowError
    decreases |values|
  {
    if |values| == 0 then Ok(Zeros(n))
    else
      var last := values[|values| - 1];
      var bins :- CountBins(values[..|values| - 1], lo, size, n);
      var k :- BinOf(last, lo, size, n);
      Ok(Bump(bins, k))
  }

  function Zeros(n: nat): (z: seq<nat>)
    ensures |z| == n && forall i :: 0 <= i < n ==> z[i] == 0
  {
    seq(n, i requires 0 <= i < n => 0)
  }

  /** How many of the values fall in bin `k` (the reference count). */
  function Occurrences(values: seq<real>, lo: real, size: real, n: nat, k: nat): (c: nat)
    ensures c <= |values|
  {
    if |values| == 0 then 0
    else
      Occurrences(values[..|values| - 1], lo, size, n, k)
      + (if BinOf(values[|values| - 1], lo, size, n) == Ok(k) then 1 else 0)
  }

  /** Each count is the number of values whose bin it is. */
  lemma {:induction false} CountBinsCounts(values: seq<real>, lo: real, size: real, n: nat, k: nat)
    requires CountBins(values, lo, size, n).Ok? && k < n
    ensures CountBins(values, lo, size, n).value[k] == Occurrences(values, lo, size, n, k)
  {
    if |values| > 0 {
      CountBinsCounts(values[..|values| - 1], lo, size, n, k);
    }
  }

  function SumNat(s: seq<nat>): nat {
    if |s| == 0 then 0 else SumNat(s[..|s| - 1]) + s[|s| - 1]
  }

  lemma {:induction false} SumNatZeros(n: nat)
    ensures SumNat(Zeros(n)) == 0
  {
    if n > 0 {
      assert Zeros(n)[..n - 1] == Zeros(n - 1);
      SumNatZeros(n - 1);
    }
  }

  /** Adding one to an entry adds one to the total. */
  lemma {:induction false} SumNatBump(bins: seq<nat>, k: nat)
    requires k < |bins|
    ensures SumNat(Bump(bins, k)) == SumNat(bins) + 1
  {
    var r := Bump(bins, k);
    var m := |bins| - 1;
    if k == m {
      assert r[..m] == bins[..m];
    } else {
      assert r[..m] == Bump(bins[..m], k);
      SumNatBump(bins[..m], k);
    }
  }

  /** Every value is counted exactly once: the counts add up to the number
      of values. */
  lemma {:induction false} CountBinsTotal(values: seq<real>, lo: real, size: real, n: nat)
    requires CountBins(values, lo, size, n).Ok?
    ensures SumNat(CountBins(values, lo, size, n).value) == |values|
  {
    if |values| == 0 {
      SumNatZeros(n);
    } else {
      var pre := values[..|values| - 1];
      CountBinsTotal(pre, lo, size, n);
      var k := BinOf(values[|values| - 1], lo, size, n).value;
      SumNatBump(CountBins(pre, lo, size, n).value, k);
    }
  }

  /** The rows for the counts `bins` of `l` values. */
  function BinRows(bins: seq<nat>, lo: real, size: real, l: real): (rows: seq<Row>)
    requires l > 0.0
    ensures |rows| == |bins|
    ensures forall i :: 0 <= i < |bins| ==> rows[i] == Row(lo + size * (i as real), bins[i] as real / l)
  {
    seq(|bins|, i requires 0 <= i < |bins| => Row(lo + size * (i as real), bins[i] as real / l))
  }

  /** `generateRegBinsCsv(file, reg, numBins, scalarMin, scalarMax)`: the rows
      it writes, or the exception it raises. */
  function RegBins(values: seq<real>, numBins: int, lo: real, hi: real): (r: Result<seq<Row>>)
    ensures r.Ok? <==> (numBins > 0 && |values| > 0 && hi != lo) || (numBins < 0 && |values| == 0)
    ensures r.Err? ==> r.error == if numBins != 0 && hi == lo && |values| > 0 then
                                    (if values[0] == lo then ValueError else OverflowError)
                                  else if numBins < 0 then IndexError
                                  else ZeroDivisionError
    ensures r.Ok? ==> |r.value| == if numBins < 0 then 0 else numBins
  {
    if numBins == 0 then Err(ZeroDivisionError)
    else
      var size := (hi - lo) / (numBins as real);
      SizeZero(hi - lo, numBins as real);
      var n: nat := if numBins < 0 then 0 else numBins;
      var bins :- CountBins(values, lo, size, n);
      if |values| == 0 then
        (if n > 0 then Err(ZeroDivisionError) else Ok([]))
      else
        Ok(BinRows(bins, lo, size, |values| as real))
  }

  lemma SizeZero(d: real, m: real)
    requires m != 0.0
    ensures d / m == 0.0 <==> d == 0.0
    ensures (d / m) * m == d
  {
    if d / m == 0.0 {
      assert d == (d / m) * m;
    }
  }

  /** A successful call with bins writes one row per count. */
  lemma RegBinsAreRows(values: seq<real>, numBins: int, lo: real, hi: real)
    requires RegBins(values, numBins, lo, hi).Ok? && numBins > 0
    ensures var size := (hi - lo) / (numBins as real);
            && CountBins(values, lo, size, numBins).Ok?
            && |values| > 0
            && RegBins(values, numBins, lo, hi).value
               == BinRows(CountBins(values, lo, size, numBins).value, lo, size, |values| as real)
  {
  }

  /** The bins of a successful call: consecutive lower edges `binSize` apart,
      starting at `scalarMin`; each fraction is the share of the values that
      fall in that bin. */
  lemma RegBinsRows(values: seq<real>, numBins: int, lo: real, hi: real, i: nat)
    requires RegBins(values, numBins, lo, hi).Ok? && 0 <= i < numBins
    ensures var size := (hi - lo) / (numBins as real);
            var row := RegBins(values, numBins, lo, hi).value[i];
            && row.lower == lo + size * (i as real)
            && row.fraction == Occurrences(values, lo, size, numBins, i) as real / (|values| as real)
  {
    var size := (hi - lo) / (numBins as real);
    var l := |values| as real;
    RegBinsAreRows(values, numBins, lo, hi);
    var bins := CountBins(values, lo, size, numBins).value;
    var rows := RegBins(values, numBins, lo, hi).value;
    assert rows[i] == BinRows(bins, lo, size, l)[i];
    assert rows[i] == Row(lo + size * (i as real), bins[i] as real / l);
    CountBinsCounts(values, lo, size, numBins, i);
  }

  /** The `numBins` bins of width `binSize` span exactly from `scalarMin` to
      `scalarMax`. */
  lemma BinsSpan(numBins: int, lo: real, hi: real)
    requires numBins > 0
    ensures lo + (hi - lo) / (numBins as real) * (numBins as real) == hi
  {
    SizeZero(hi - lo, numBins as real);
  }

  /** The fractions of a successful call add up to one. */
  lemma RegBinsFractions(values: seq<real>, numBins: int, lo: real, hi: real)
    requires RegBins(values, numBins, lo, hi).Ok? && numBins > 0
    ensures Sum(Fractions(RegBins(values, numBins, lo, hi).value)) == 1.0
  {
    var size := (hi - lo) / (numBins as real);
    RegBinsAreRows(values, numBins, lo, hi);
    var bins := CountBins(values, lo, size, numBins).value;
    var l := |values| as real;
    var rows := RegBins(values, numBins, lo, hi).value;
    CountBinsTotal(values, lo, size, numBins);
    assert Fractions(rows) == Shares(bins, l);
    SharesSumOne(bins, l);
  }

  lemma SharesSumOne(bins: seq<nat>, l: real)
    requires l > 0.0 && SumNat(bins) as real == l
    ensures Sum(Shares(bins, l)) == 1.0
  {
    SharesSum(bins, l);
    DivSelf(SumNat(bins) as real, l);
  }

  lemma DivSelf(a: real, l: real)
    requires l > 0.0 && a == l
    ensures a / l == 1.0
  {
  }

  function Fractions(rows: seq<Row>): (f: seq<real>)
    ensures |f| == |rows| && forall i :: 0 <= i < |rows| ==> f[i] == rows[i].fraction
  {
    seq(|rows|, i requires 0 <= i < |rows| => rows[i].fraction)
  }

  function Shares(bins: seq<nat>, l: real): (f: seq<real>)
    requires l > 0.0
    ensures |f| == |bins| && forall i :: 0 <= i < |bins| ==> f[i] == bins[i] as real / l
  {
    seq(|bins|, i requires 0 <= i < |bins| => bins[i] as real / l)
  }

  /** Dividing every count by `l` divides the total by `l`. */
  lemma {:induction false} SharesSum(bins: seq<nat>, l: real)
    requires l > 0.0
    ensures Sum(Shares(bins, l)) == SumNat(bins) as real / l
  {
    if |bins| > 0 {
      var m := |bins| - 1;
      assert Shares(bins, l)[..m] == Shares(bins[..m], l);
      SharesSum(bins[..m], l);
      DivAdd(SumNat(bins[..m]) as real, bins[m] as real, l);
    }
  }

  lemma DivAdd(a: real, b: real, l: real)
    requires l > 0.0
    ensures a / l + b / l == (a + b) / l
  {
  }
}

=== FILE: presssens.dfy ===
/** The face grid of the pressure-sensor sheet (`calcFaces`,
    `calcFacesHex`): a `rows x cols` grid of squares, `rows = 15 d` and
    `cols = 3 d`, each square split into two triangles over a
    `(rows + 1) x (cols + 1)` vertex grid, and the map `sF` from each of the
    45 sensor cells (15 rows of 3) to the `2 d^2` face slots it colours. */
module PressSens {
  import opened Wrappers
  import opened Topology
  import opened Arith

  // ---------------------------------------------------------------------
  // The face array

  /** `calcFaces` draws each square as `[0, cols+1, 1]` and
      `[1, cols+1, cols+2]`; `calcFacesHex` uses `[1, cols+1, 2]` for the
      second triangle. */
  datatype Layout = Square | Hex

  function Rows(d: int): int { 15 * d }
  function Cols(d: int): int { 3 * d }

  /** The row `f0 + ind2` of the face template, with `ind2 = row (cols + 1) + col`
      the lower-left vertex of the square. */
  function Template(layout: Layout, cols: int, ind2: int, h: int): Tri
    requires 0 <= h < 2
  {
    if h == 0 then Tri(ind2, ind2 + cols + 1, ind2 + 1)
    else if layout.Square? then Tri(ind2 + 1, ind2 + cols + 1, ind2 + cols + 2)
    else Tri(ind2 + 1, ind2 + cols + 1, ind2 + 2)
  }

  /** The face that lands in slot `s`, found by reading the square and the
      half back off the slot number. */
  function SlotFace(layout: Layout, cols: int, s: int): Tri
    requires cols > 0
  {
    var q := s / 2;
    Template(layout, cols, (q / cols) * (cols + 1) + q % cols, s % 2)
  }

  /** The slot of half `h` of square (row, col) is read back as that
      square and half. */
  lemma SlotDecode(cols: int, row: int, col: int, h: int)
    requires cols > 0 && 0 <= col < cols && 0 <= h < 2
    ensures Slot(cols, row, col, h) / 2 == row * cols + col
    ensures Slot(cols, row, col, h) % 2 == h
    ensures (row * cols + col) / cols == row && (row * cols + col) % cols == col
  {
    Radix(row * cols + col, h, 2);
    Radix(row, col, cols);
  }

  lemma SlotFaceAt(layout: Layout, cols: int, row: int, col: int, h: int)
    requires cols > 0 && 0 <= col < cols && 0 <= h < 2
    ensures SlotFace(layout, cols, Slot(cols, row, col, h)) == Template(layout, cols, row * (cols + 1) + col, h)
  {
    SlotDecode(cols, row, col, h);
  }

  /** Every slot below `rows cols 2` is the slot of exactly one half of one
      square of the grid. */
  lemma SlotCover(cols: int, rows: int, s: int)
    requires cols > 0 && 0 <= s < rows * cols * 2
    ensures var q := s / 2;
      0 <= q / cols < rows && 0 <= q % cols < cols && 0 <= s % 2 < 2
      && s == Slot(cols, q / cols, q % cols, s % 2)
  {
    var q := s / 2;
    Split(s, 2);
    Split(q, cols);
    assert s == Slot(cols, q / cols, q % cols, s % 2);
    RadixBound(q, s % 2, 2, rows * cols);
    RadixBound(q / cols, q % cols, cols, rows);
  }

  /** The corners of a face of square (row, col) are vertices of the
      `(rows + 1) x (cols + 1)` grid. */
  lemma TemplateWithin(layout: Layout, rows: int, cols: int, row: int, col: int, h: int)
    requires cols > 0 && 0 <= row < rows && 0 <= col < cols && 0 <= h < 2
    ensures Template(layout, cols, row * (cols + 1) + col, h).Within((rows + 1) * (cols + 1))
  {
    MulNonneg(row, cols + 1);
    MulStep(row, rows, cols + 1);
    assert (rows + 1) * (cols + 1) == rows * (cols + 1) + cols + 1;
  }

  /** Slot `ind = row cols 2 + col 2` and the next one hold the two
      halves of square (row, col), and both lie inside the face array. */
  lemma FaceStep(layout: Layout, rows: int, cols: int, row: int, col: int)
    requires cols > 0 && 0 <= row < rows && 0 <= col < cols
    ensures 0 <= Slot(cols, row, col, 0) && Slot(cols, row, col, 0) + 1 < rows * cols * 2
    ensures SlotFace(layout, cols, Slot(cols, row, col, 0)) == Template(layout, cols, row * (cols + 1) + col, 0)
    ensures SlotFace(layout, cols, Slot(cols, row, col, 0) + 1) == Template(layout, cols, row * (cols + 1) + col, 1)
  {
    SlotFaceAt(layout, cols, row, col, 0);
    SlotFaceAt(layout, cols, row, col, 1);
    SlotWithin(rows, cols, row, col);
  }

  /** The inner loop of `calcFaces` over the squares of grid row `row`,
      whose first slot is `start = row cols 2`. */
  method FaceRow(f0: seq<Tri>, rows: int, cols: int, row: int, start: int, layout: Layout) returns (f: seq<Tri>)
    requires cols >= 1 && 0 <= row < rows && start == row * cols * 2
    requires |f0| == rows * cols * 2 && 0 <= start && start + cols * 2 <= |f0|
    requires forall s :: 0 <= s < start ==> f0[s] == SlotFace(layout, cols, s)
    ensures |f| == rows * cols * 2
    ensures forall s :: 0 <= s < start + cols * 2 ==> f[s] == SlotFace(layout, cols, s)
  {
    f := f0;
    for col := 0 to cols
      invariant |f| == rows * cols * 2
      invariant forall s :: 0 <= s < start + col * 2 ==> f[s] == SlotFace(layout, cols, s)
    {
      var ind := start + col * 2;
      var ind2 := row * (cols + 1) + col;
      FaceStep(layout, rows, cols, row, col);
      f := f[ind := Template(layout, cols, ind2, 0)][ind + 1 := Template(layout, cols, ind2, 1)];
    }
  }

  /** The faces as the two nested loops of `calcFaces` write them into a
      grid of `rows x cols` squares. */
  method FaceLoop(rows: int, cols: int, layout: Layout) returns (f: seq<Tri>)
    requires rows >= 0 && cols >= 1
    ensures |f| == rows * cols * 2
    ensures forall s :: 0 <= s < |f| ==> f[s] == SlotFace(layout, cols, s)
  {
    f := seq(rows * cols * 2, _ => Tri(0, 0, 0));
    for row := 0 to rows
      invariant |f| == rows * cols * 2
      invariant forall s :: 0 <= s < row * cols * 2 ==> f[s] == SlotFace(layout, cols, s)
    {
      assert row * cols * 2 + cols * 2 == (row + 1) * cols * 2;
      RowsWithin(rows, cols, row);
      f := FaceRow(f, rows, cols, row, row * cols * 2, layout);
    }
  }

  /** The face array: `rows cols 2` faces, slots `ind` and `ind + 1` of square
      (row, col) holding the two template rows shifted by `ind2`, and every
      corner a vertex of the `(rows + 1) x (cols + 1)` grid. */
  method CalcFaceArray(d: int, layout: Layout) returns (f: seq<Tri>)
    requires d >= 1
    ensures |f| == Rows(d) * Cols(d) * 2
    ensures forall row, col, h :: 0 <= row < Rows(d) && 0 <= col < Cols(d) && 0 <= h < 2 ==>
      0 <= Slot(Cols(d), row, col, h) < |f| &&
      f[Slot(Cols(d), row, col, h)] == Template(layout, Cols(d), row * (Cols(d) + 1) + col, h)
    ensures forall s :: 0 <= s < |f| ==> f[s].Within((Rows(d) + 1) * (Cols(d) + 1))
  {
    var rows, cols := Rows(d), Cols(d);
    f := FaceLoop(rows, cols, layout);
    forall row, col, h | 0 <= row < rows && 0 <= col < cols && 0 <= h < 2
      ensures 0 <= Slot(cols, row, col, h) < |f|
      ensures f[Slot(cols, row, col, h)] == Template(layout, cols, row * (cols + 1) + col, h)
    {
      RadixBound(row * cols + col, h, 2, rows * cols);
      RadixBound(row, col, cols, rows);
      SlotFaceAt(layout, cols, row, col, h);
    }
    forall s | 0 <= s < |f| ensures f[s].Within((rows + 1) * (cols + 1)) {
      SlotCover(cols, rows, s);
      var q := s / 2;
      SlotFaceAt(layout, cols, q / cols, q % cols, s % 2);
      TemplateWithin(layout, rows, cols, q / cols, q % cols, s % 2);
    }
  }

  // ---------------------------------------------------------------------
  // The sensor map

  /** The face slot at position `a 2d + b` of sensor cell (row, col):
      `b + d row cols 2 + a cols 2 + col 2d` with `cols = 3d`. */
  function Entry(d: int, row: int, col: int, a: int, b: int): int {
    b + d * row * Cols(d) * 2 + a * Cols(d) * 2 + col * 2 * d
  }

  /** The face slots of sensor cell (row, col), in `inds.flatten()` order. */
  function SensorCell(d: int, row: int, col: int): (r: seq<int>)
    requires d >= 1
    ensures |r| == 2 * d * d
  {
    seq(2 * d * d, e requires 0 <= e < 2 * d * d => Entry(d, row, col, e / (2 * d), e % (2 * d)))
  }

  /** The rows of a `d x 2d` block laid end to end. */
  function Flatten(m: seq<seq<int>>): seq<int> {
    if |m| == 0 then [] else m[0] + Flatten(m[1..])
  }

  /** Entry `(a, b)` of a block with rows of width `w` is at `a w + b` once
      flattened. */
  lemma {:induction false} FlattenAt(m: seq<seq<int>>, w: int, a: int, b: int)
    requires w > 0 && forall i :: 0 <= i < |m| ==> |m[i]| == w
    requires 0 <= a < |m| && 0 <= b < w
    ensures |Flatten(m)| == |m| * w
    ensures 0 <= a * w + b < |m| * w
    ensures Flatten(m)[a * w + b] == m[a][b]
  {
    FlattenLength(m, w);
    RadixBound(a, b, w, |m|);
    RadixBound(a, b, w, 0);
    assert Flatten(m) == m[0] + Flatten(m[1..]);
    if a > 0 {
      FlattenAt(m[1..], w, a - 1, b);
      var i := (a - 1) * w + b;
      assert a * w + b == i + w;
      assert Flatten(m)[i + w] == Flatten(m[1..])[i];
    }
  }

  lemma {:induction false} FlattenLength(m: seq<seq<int>>, w: int)
    requires forall i :: 0 <= i < |m| ==> |m[i]| == w
    ensures |Flatten(m)| == |m| * w
  {
    if |m| > 0 {
      FlattenLength(m[1..], w);
    }
  }

  /** `np.array([np.arange(2d) + d row cols 2] * d)` plus
      `np.arange(0, cols 2 d, cols 2)[:, None]`, shifted by `2d` per column
      already written. */
  function Block(d: int, row: int, col: int): (m: seq<seq<int>>)
    requires d >= 1
    ensures |m| == d && forall a :: 0 <= a < d ==> |m[a]| == 2 * d
  {
    seq(d, a requires 0 <= a < d => seq(2 * d, b requires 0 <= b < 2 * d => Entry(d, row, col, a, b)))
  }

  /** `inds += 2d`. */
  function AddAll(m: seq<seq<int>>, k: int): (r: seq<seq<int>>)
    ensures |r| == |m| && forall a :: 0 <= a < |m| ==> |r[a]| == |m[a]| && forall b :: 0 <= b < |m[a]| ==> r[a][b] == m[a][b] + k
  {
    seq(|m|, a requires 0 <= a < |m| => seq(|m[a]|, b requires 0 <= b < |m[a]| => m[a][b] + k))
  }

  lemma BlockNext(d: int, row: int, col: int)
    requires d >= 1
    ensures AddAll(Block(d, row, col), 2 * d) == Block(d, row, col + 1)
  {
    var m, n := AddAll(Block(d, row, col), 2 * d), Block(d, row, col + 1);
    forall a | 0 <= a < d ensures m[a] == n[a] {
      forall b | 0 <= b < 2 * d ensures m[a][b] == n[a][b] {
        assert (col + 1) * 2 * d == col * 2 * d + 2 * d;
      }
    }
  }

  lemma BlockFlatten(d: int, row: int, col: int)
    requires d >= 1
    ensures Flatten(Block(d, row, col)) == SensorCell(d, row, col)
  {
    var m := Block(d, row, col);
    var w := 2 * d;
    FlattenLength(m, w);
    assert d * w == 2 * d * d;
    forall e | 0 <= e < 2 * d * d ensures Flatten(m)[e] == SensorCell(d, row, col)[e] {
      Split(e, w);
      RadixBound(e / w, e % w, w, d);
      FlattenAt(m, w, e / w, e % w);
    }
  }

  /** The inner loop of `calcFaces` over the three cells of sensor row
      `row`: `inds` starts as the block of column 0 and moves on by `2d`. */
  method SensorRow(sF0: seq<seq<int>>, d: int, row: int) returns (sF: seq<seq<int>>)
    requires d >= 1 && 0 <= row < 15 && |sF0| == 45
    requires forall k :: 0 <= k < row * 3 ==> sF0[k] == SensorCell(d, k / 3, k % 3)
    ensures |sF| == 45
    ensures forall k :: 0 <= k < row * 3 + 3 ==> sF[k] == SensorCell(d, k / 3, k % 3)
  {
    sF := sF0;
    var inds := Block(d, row, 0);
    for col := 0 to 3
      invariant |sF| == 45
      invariant inds == Block(d, row, col)
      invariant forall k :: 0 <= k < row * 3 + col ==> sF[k] == SensorCell(d, k / 3, k % 3)
    {
      BlockFlatten(d, row, col);
      assert (row * 3 + col) / 3 == row && (row * 3 + col) % 3 == col;
      sF := sF[row * 3 + col := Flatten(inds)];
      BlockNext(d, row, col);
      inds := AddAll(inds, 2 * d);
    }
  }

  /** `sF` as the loops of `calcFaces` fill it: 45 cells, row by row and
      three per row. */
  method SensorLoop(d: int) returns (sF: seq<seq<int>>)
    requires d >= 1
    ensures |sF| == 45
    ensures forall k :: 0 <= k < 45 ==> sF[k] == SensorCell(d, k / 3, k % 3)
  {
    sF := seq(45, _ => seq(2 * d * d, _ => 0));
    for row := 0 to 15
      invariant |sF| == 45
      invariant forall k :: 0 <= k < row * 3 ==> sF[k] == SensorCell(d, k / 3, k % 3)
    {
      sF := SensorRow(sF, d, row);
    }
  }

  /** Entry `(a, b)` of cell (row, col) written in mixed radix: the face
      slot of half `b % 2` of grid square `(row d + a, col d + b / 2)`. So
      each sensor cell colours a `d x d` block of squares. */
  lemma EntrySquare(d: int, row: int, col: int, a: int, b: int)
    requires d >= 1 && 0 <= b < 2 * d
    ensures Entry(d, row, col, a, b) == ((row * d + a) * 3 + col) * (2 * d) + b
    ensures Entry(d, row, col, a, b) == Slot(Cols(d), row * d + a, col * d + b / 2, b % 2)
  {
    assert d * row * Cols(d) * 2 == row * d * 3 * (2 * d);
    assert a * Cols(d) * 2 == a * 3 * (2 * d);
    Split(b, 2);
    assert Slot(Cols(d), row * d + a, col * d + b / 2, b % 2)
        == ((row * d + a) * (3 * d) + col * d + b / 2) * 2 + b % 2;
    assert ((row * d + a) * (3 * d) + col * d + b / 2) * 2 + b % 2
        == (row * d + a) * 3 * (2 * d) + col * 2 * d + b;
  }

  /** A face slot below `90 d^2` read back as sensor cell and position. */
  function Locate(d: int, s: int): (int, int)
    requires d >= 1
  {
    var t := s / (2 * d);
    var u := t / 3;
    ((u / d) * 3 + t % 3, (u % d) * (2 * d) + s % (2 * d))
  }

  /** Every face slot below `90 d^2` is entry `e` of cell `k` for
      `(k, e) = Locate(d, s)`. */
  lemma LocateCovers(d: int, s: int)
    requires d >= 1 && 0 <= s < 90 * d * d
    ensures var (k, e) := Locate(d, s);
      0 <= k < 45 && 0 <= e < 2 * d * d && SensorCell(d, k / 3, k % 3)[e] == s
  {
    var w := 2 * d;
    var t := s / w;
    var u := t / 3;
    Split(s, w);
    Split(t, 3);
    Split(u, d);
    var row, col, a, b := u / d, t % 3, u % d, s % w;
    assert s == ((row * d + a) * 3 + col) * w + b;
    assert 90 * d * d == (45 * d) * w;
    RadixBound(t, b, w, 45 * d);
    assert 45 * d == (15 * d) * 3;
    RadixBound(u, col, 3, 15 * d);
    RadixBound(row, a, d, 15);
    var k, e := row * 3 + col, a * w + b;
    Radix(row, col, 3);
    Radix(a, b, w);
    RadixBound(a, b, w, d);
    assert d * w == 2 * d * d;
    EntrySquare(d, row, col, a, b);
  }

  /** The entries of all cells lie below `90 d^2`, and two positions hold
      the same slot only if they are the same position of the same cell. */
  lemma EntryInjective(d: int, k: int, e: int, k': int, e': int)
    requires d >= 1 && 0 <= k < 45 && 0 <= k' < 45 && 0 <= e < 2 * d * d && 0 <= e' < 2 * d * d
    ensures 0 <= SensorCell(d, k / 3, k % 3)[e] < 90 * d * d
    ensures SensorCell(d, k / 3, k % 3)[e] == SensorCell(d, k' / 3, k' % 3)[e'] ==> k == k' && e == e'
  {
    var w := 2 * d;
    EntryDecode(d, k, e);
    EntryDecode(d, k', e');
  }

  /** The mixed-radix number with digits `row < 15`, `a < d`, `col < 3`
      and `b < 2d` lies below `90 d^2` and `Locate` reads back cell
      `row 3 + col` and position `a 2d + b`. */
  lemma Digits(d: int, row: int, col: int, a: int, b: int)
    requires d >= 1 && 0 <= row < 15 && 0 <= a < d && 0 <= col < 3 && 0 <= b < 2 * d
    ensures 0 <= ((row * d + a) * 3 + col) * (2 * d) + b < 90 * d * d
    ensures Locate(d, ((row * d + a) * 3 + col) * (2 * d) + b) == (row * 3 + col, a * (2 * d) + b)
  {
    var w := 2 * d;
    var u := row * d + a;
    var t := u * 3 + col;
    Radix(t, b, w);
    Radix(u, col, 3);
    Radix(row, a, d);
    RadixBound(row, a, d, 15);
    RadixBound(u, col, 3, 15 * d);
    RadixBound(t, b, w, 45 * d);
    RadixBound(row, a, d, 0);
    RadixBound(u, col, 3, 0);
    RadixBound(t, b, w, 0);
    assert 45 * d == (15 * d) * 3;
    assert 90 * d * d == (45 * d) * w;
  }

  /** The slot at position `e` of cell `k` is located back at `(k, e)`. */
  lemma EntryDecode(d: int, k: int, e: int)
    requires d >= 1 && 0 <= k < 45 && 0 <= e < 2 * d * d
    ensures 0 <= SensorCell(d, k / 3, k % 3)[e] < 90 * d * d
    ensures Locate(d, SensorCell(d, k / 3, k % 3)[e]) == (k, e)
  {
    var w := 2 * d;
    Split(k, 3);
    Split(e, w);
    assert d * w == 2 * d * d;
    RadixBound(e / w, e % w, w, d);
    EntrySquare(d, k / 3, k % 3, e / w, e % w);
    Digits(d, k / 3, k % 3, e / w, e % w);
  }

  /** `sF` partitions the face slots `0 .. n - 1`: every entry is a slot,
      every slot is an entry, and no slot is listed twice. */
  ghost predicate Listed(sF: seq<seq<int>>, s: int) {
    exists k, e :: 0 <= k < |sF| && 0 <= e < |sF[k]| && sF[k][e] == s
  }

  ghost predicate Partition(sF: seq<seq<int>>, n: int) {
    && (forall k, e :: 0 <= k < |sF| && 0 <= e < |sF[k]| ==> 0 <= sF[k][e] < n)
    && (forall s :: 0 <= s < n ==> Listed(sF, s))
    && (forall k, e, k', e' ::
          0 <= k < |sF| && 0 <= e < |sF[k]| && 0 <= k' < |sF| && 0 <= e' < |sF[k']| && sF[k][e] == sF[k'][e']
          ==> k == k' && e == e')
  }

  /** The sensor map: 45 cells of `2 d^2` slots each that together cover
      every face slot exactly once. */
  method CalcSensorMap(d: int) returns (sF: seq<seq<int>>)
    requires d >= 1
    ensures |sF| == 45 && forall k :: 0 <= k < 45 ==> |sF[k]| == 2 * d * d
    ensures forall k :: 0 <= k < 45 ==> sF[k] == SensorCell(d, k / 3, k % 3)
    ensures Partition(sF, Rows(d) * Cols(d) * 2)
  {
    sF := SensorLoop(d);
    assert Rows(d) * Cols(d) * 2 == 90 * d * d;
    forall s | 0 <= s < 90 * d * d
      ensures Listed(sF, s)
    {
      LocateCovers(d, s);
      var (k, e) := Locate(d, s);
      assert sF[k][e] == s;
    }
    forall k, e, k', e' | 0 <= k < |sF| && 0 <= e < |sF[k]| && 0 <= k' < |sF| && 0 <= e' < |sF[k']|
      ensures 0 <= sF[k][e] < 90 * d * d
      ensures sF[k][e] == sF[k'][e'] ==> k == k' && e == e'
    {
      EntryInjective(d, k, e, k', e');
    }
  }

  // ---------------------------------------------------------------------
  // calcFaces, calcFacesHex

  /** The face array and the sensor map that `calcFaces` (layout `Square`)
      or `calcFacesHex` (layout `Hex`) stores. */
  datatype SensorSheet = SensorSheet(faces: seq<Tri>, sF: seq<seq<int>>)

  /** `calcFaces(d)` / `calcFacesHex(d)`. For `d = 0` the block offsets are
      `np.arange(0, 0, 0)`, a ZeroDivisionError; for a negative `d` the
      offsets are empty with shape (0, 1) and adding them in place to the
      empty block of shape (0,) is a ValueError. Otherwise the faces form
      the grid and `sF` partitions the face slots into the 45 cells. */
  method CalcFaces(d: int, layout: Layout) returns (r: Result<SensorSheet>)
    ensures d < 0 ==> r == Err(ValueError)
    ensures d == 0 ==> r == Err(ZeroDivisionError)
    ensures r.Ok? <==> d >= 1
    ensures r.Ok? ==> |r.value.faces| == Rows(d) * Cols(d) * 2
    ensures r.Ok? ==> forall row, col, h :: 0 <= row < Rows(d) && 0 <= col < Cols(d) && 0 <= h < 2 ==>
      0 <= Slot(Cols(d), row, col, h) < |r.value.faces| &&
      r.value.faces[Slot(Cols(d), row, col, h)] == Template(layout, Cols(d), row * (Cols(d) + 1) + col, h)
    ensures r.Ok? ==> forall s :: 0 <= s < |r.value.faces| ==> r.value.faces[s].Within((Rows(d) + 1) * (Cols(d) + 1))
    ensures r.Ok? ==> |r.value.sF| == 45 && forall k :: 0 <= k < 45 ==> |r.value.sF[k]| == 2 * d * d
    ensures r.Ok? ==> forall k :: 0 <= k < 45 ==> r.value.sF[k] == SensorCell(d, k / 3, k % 3)
    ensures r.Ok? ==> Partition(r.value.sF, |r.value.faces|)
  {
    if d < 0 {
      return Err(ValueError);
    } else if d == 0 {
      return Err(ZeroDivisionError);
    }
    var f := CalcFaceArray(d, layout);
    var sF := CalcSensorMap(d);
    r := Ok(SensorSheet(f, sF));
  }

  /** The two layouts share the first triangle of every square and differ
      only in the last corner of the second. */
  lemma LayoutsDiffer(cols: int, ind2: int)
    ensures Template(Square, cols, ind2, 0) == Template(Hex, cols, ind2, 0)
    ensures Template(Square, cols, ind2, 1).a == Template(Hex, cols, ind2, 1).a
    ensures Template(Square, cols, ind2, 1).b == Template(Hex, cols, ind2, 1).b
    ensures Template(Square, cols, ind2, 1).c == Template(Hex, cols, ind2, 1).c + cols
  {
  }
}

=== FILE: pyargs.dfy ===
/** The dynamically typed arguments that the transform methods validate with
    `isinstance` and `len` before using them. */
module PyArgs {
  import opened Wrappers
  import opened Linalg

  /** A Python argument value, as far as the argument checks can tell values
      apart. `PyArray` is a NumPy array (indexed by its first axis). */
  datatype PyValue =
    | PyInt(i: int)
    | PyBool(b: bool)
    | PyFloat(f: real)
    | PyStr(s: string)
    | PyNone
    | PyList(items: seq<PyValue>)
    | PyTuple(items: seq<PyValue>)
    | PyArray(items: seq<PyValue>)
    | PyOther

  /** `isinstance(v, (list, tuple, np.ndarray))`. */
  predicate IsArrayLike(v: PyValue) {
    v.PyList? || v.PyTuple? || v.PyArray?
  }

  /** `isinstance(v, int)`: a `bool` is an `int` in Python. */
  predicate IsInt(v: PyValue) {
    v.PyInt? || v.PyBool?
  }

  /** `isinstance(v, numbers.Number)`. */
  predicate IsNumber(v: PyValue) {
    v.PyInt? || v.PyBool? || v.PyFloat?
  }

  function IntValue(v: PyValue): int
    requires IsInt(v)
  {
    if v.PyInt? then v.i else if v.b then 1 else 0
  }

  function NumValue(v: PyValue): real
    requires IsNumber(v)
  {
    if v.PyFloat? then v.f else IntValue(v) as real
  }

  /** The three numbers of a length-3 array-like value, as a vector. Elements
      that are not numbers make the NumPy arithmetic fail. */
  function AsVec(v: PyValue): (r: Result<Vec3>)
    requires IsArrayLike(v) && |v.items| == 3
    ensures r.Ok? <==> IsNumber(v.items[0]) && IsNumber(v.items[1]) && IsNumber(v.items[2])
    ensures r.Ok? ==> r.value == Vec3(NumValue(v.items[0]), NumValue(v.items[1]), NumValue(v.items[2]))
  {
    var s := v.items;
    if IsNumber(s[0]) && IsNumber(s[1]) && IsNumber(s[2])
    then Ok(Vec3(NumValue(s[0]), NumValue(s[1]), NumValue(s[2])))
    else Err(TypeError)
  }

  /** The vector as a NumPy array argument. */
  function FromVec(v: Vec3): (p: PyValue)
    ensures IsArrayLike(p) && |p.items| == 3
    ensures AsVec(p) == Ok(v)
  {
    PyArray([PyFloat(v.x), PyFloat(v.y), PyFloat(v.z)])
  }

  /** Every element is a number: a one-dimensional numeric array. */
  predicate NumericRow(items: seq<PyValue>) {
    forall i | 0 <= i < |items| :: IsNumber(items[i])
  }

  /** Every element is an array-like row of numbers and all rows have the
      length of the first: a two-dimensional numeric array. */
  predicate NumericRows(items: seq<PyValue>) {
    && |items| > 0
    && IsArrayLike(items[0])
    && forall i | 0 <= i < |items| ::
      IsArrayLike(items[i]) && NumericRow(items[i].items) && |items[i].items| == |items[0].items|
  }

  /** The matrix checks of `rotate`: a list or tuple is converted with
      `np.array(R, float)` first (a ragged or non-numeric value fails there);
      then the length must be 3, the first row must have a length, and that
      length must be 3. */
  function AsMatrix(v: PyValue): (r: Result<Mat3>)
    ensures !IsArrayLike(v) ==> r == Err(TypeError)
    ensures IsArrayLike(v) && NumericRow(v.items) && |v.items| == 3 ==> r == Err(TypeError)
    ensures IsArrayLike(v) && NumericRows(v.items) && |v.items| != 3 ==> r == Err(ValueError)
    ensures r.Ok? <==> IsArrayLike(v) && |v.items| == 3 && NumericRows(v.items) && |v.items[0].items| == 3
    ensures r.Ok? ==> forall i, j :: 0 <= i < 3 && 0 <= j < 3 ==>
      r.value.Row(i).At(j) == NumValue(v.items[i].items[j])
  {
    if !IsArrayLike(v) then Err(TypeError)
    else
      var s := v.items;
      if !NumericRow(s) && !NumericRows(s) then Err(ValueError)
      else if |s| != 3 then Err(ValueError)
      else if !IsArrayLike(s[0]) then Err(TypeError)
      else if |s[0].items| != 3 then Err(ValueError)
      else
        assert NumericRows(s);
        Ok(Mat3(RowVec(s[0]), RowVec(s[1]), RowVec(s[2])))
  }

  function RowVec(row: PyValue): (r: Vec3)
    requires IsArrayLike(row) && NumericRow(row.items) && |row.items| == 3
    ensures forall j :: 0 <= j < 3 ==> r.At(j) == NumValue(row.items[j])
  {
    Vec3(NumValue(row.items[0]), NumValue(row.items[1]), NumValue(row.items[2]))
  }

  /** The matrix as a NumPy array argument. */
  function FromMat(m: Mat3): (p: PyValue)
    ensures AsMatrix(p) == Ok(m)
  {
    var p := PyArray([FromVec(m.r0), FromVec(m.r1), FromVec(m.r2)]);
    assert NumericRows(p.items);
    p
  }

  /** `s[i]` with Python's indexing: a negative index counts from the end,
      anything else out of range is an IndexError. */
  function PyIndex<T>(s: seq<T>, i: int): (r: Result<T>)
    ensures r.Ok? <==> -|s| <= i < |s|
    ensures 0 <= i < |s| ==> r == Ok(s[i])
    ensures -|s| <= i < 0 ==> r == Ok(s[|s| + i])
  {
    if 0 <= i < |s| then Ok(s[i])
    else if -|s| <= i < 0 then Ok(s[|s| + i])
    else Err(IndexError)
  }
}

=== FILE: registration.dfy ===
/** The per-step geometry of point-to-plane registration: projecting a
    baseline vertex onto the planes of nearby target faces, keeping the
    candidate inside the face by its barycentric coordinates, choosing the
    nearest candidate, the step schedule, the z-scale pre-step, and the
    signed error measures. The k-d tree query that picks the nearby faces
    is an input. */
module Registration {
  import opened Wrappers
  import opened Linalg
  import opened Topology

  // ---------------------------------------------------------------------
  // Projection onto a face's plane

  /** `t = (n . P0 - n . x) / |n|^2` and `G = x + t n`. */
  function Project(x: Vec3, n: Vec3, p0: Vec3): Vec3
    requires NormSq(n) != 0.0
  {
    var t := (Dot(n, p0) - Dot(n, x)) / NormSq(n);
    Add(x, Scale(t, n))
  }

  lemma DotAddScale(n: Vec3, x: Vec3, t: real)
    ensures Dot(n, Add(x, Scale(t, n))) == Dot(n, x) + t * NormSq(n)
  {
  }

  /** The projected point lies on the face's plane: `n . G = n . P0`. */
  lemma ProjectOnPlane(x: Vec3, n: Vec3, p0: Vec3)
    requires NormSq(n) != 0.0
    ensures Dot(n, Project(x, n, p0)) == Dot(n, p0)
  {
    var t := (Dot(n, p0) - Dot(n, x)) / NormSq(n);
    DotAddScale(n, x, t);
    assert t * NormSq(n) == Dot(n, p0) - Dot(n, x);
  }

  /** A point already on the plane stays where it is, so projecting twice
      is projecting once. */
  lemma ProjectIdempotent(x: Vec3, n: Vec3, p0: Vec3)
    requires NormSq(n) != 0.0
    ensures Project(Project(x, n, p0), n, p0) == Project(x, n, p0)
  {
    var g := Project(x, n, p0);
    ProjectOnPlane(x, n, p0);
    assert (Dot(n, p0) - Dot(n, g)) / NormSq(n) == 0.0;
  }

  // ---------------------------------------------------------------------
  // Barycentric coordinates

  /** `u` is the weight of `P2`, `v` that of `P1`, `w = 1 - u - v` that of
      `P0`. */
  datatype Bary = Bary(u: real, v: real, w: real)

  /** `d00 d11 - d01^2` with `v0 = P2 - P0` and `v1 = P1 - P0`. */
  function Denom(p0: Vec3, p1: Vec3, p2: Vec3): real {
    var v0 := Sub(p2, p0);
    var v1 := Sub(p1, p0);
    Dot(v0, v0) * Dot(v1, v1) - Dot(v0, v1) * Dot(v0, v1)
  }

  /** The denominator is the squared length of the face normal (Lagrange's
      identity), so it is nonzero exactly for a non-degenerate face. */
  lemma DenomIsNormalSq(p0: Vec3, p1: Vec3, p2: Vec3)
    ensures Denom(p0, p1, p2) == NormSq(TriNormal(p0, p1, p2))
  {
    var v0 := Sub(p2, p0);
    var v1 := Sub(p1, p0);
    assert NormSq(Cross(v1, v0)) == NormSq(v1) * NormSq(v0) - Dot(v1, v0) * Dot(v1, v0);
  }

  /** `__adjustBarycentric`'s coordinates of `G` in the face. */
  function Barycentric(p0: Vec3, p1: Vec3, p2: Vec3, g: Vec3): Bary
    requires Denom(p0, p1, p2) != 0.0
  {
    var v0 := Sub(p2, p0);
    var v1 := Sub(p1, p0);
    var v2 := Sub(g, p0);
    Solve(Dot(v0, v0), Dot(v0, v1), Dot(v1, v1), Dot(v0, v2), Dot(v1, v2))
  }

  /** Cramer's rule for `u d00 + v d01 = d02`, `u d01 + v d11 = d12`. */
  function Solve(d00: real, d01: real, d11: real, d02: real, d12: real): Bary
    requires d00 * d11 - d01 * d01 != 0.0
  {
    var denom := d00 * d11 - d01 * d01;
    var u := (d11 * d02 - d01 * d12) / denom;
    var v := (d00 * d12 - d01 * d02) / denom;
    Bary(u, v, 1.0 - u - v)
  }

  lemma MulDiv(a: real, d: real)
    requires d != 0.0
    ensures (a * d) / d == a
  {
  }

  lemma DotCombination(x: Vec3, a: real, y: Vec3, b: real, z: Vec3)
    ensures Dot(x, Add(Scale(a, y), Scale(b, z))) == a * Dot(x, y) + b * Dot(x, z)
  {
  }

  lemma SubAdd(p: Vec3, q: Vec3)
    ensures Sub(Add(p, q), p) == q
  {
  }

  /** The products of `a v0 + b v1` with `v0` and `v1`. */
  lemma CombinationDots(v0: Vec3, v1: Vec3, a: real, b: real)
    ensures Dot(v0, Add(Scale(a, v0), Scale(b, v1))) == a * Dot(v0, v0) + b * Dot(v0, v1)
    ensures Dot(v1, Add(Scale(a, v0), Scale(b, v1))) == a * Dot(v0, v1) + b * Dot(v1, v1)
  {
    DotCombination(v0, a, v0, b, v1);
    DotCombination(v1, a, v0, b, v1);
    assert Dot(v1, v0) == Dot(v0, v1);
  }

  /** Cramer's rule recovers the solution of the 2x2 system. */
  lemma SolveRecovers(d00: real, d01: real, d11: real, d02: real, d12: real, a: real, b: real)
    requires d00 * d11 - d01 * d01 != 0.0
    requires d02 == a * d00 + b * d01 && d12 == a * d01 + b * d11
    ensures Solve(d00, d01, d11, d02, d12) == Bary(a, b, 1.0 - a - b)
  {
    var denom := d00 * d11 - d01 * d01;
    assert d11 * d02 - d01 * d12 == a * denom;
    assert d00 * d12 - d01 * d02 == b * denom;
    MulDiv(a, denom);
    MulDiv(b, denom);
  }

  /** A point of the face's plane written as `P0 + a (P2 - P0) + b (P1 - P0)`
      gets the coordinates `u = a`, `v = b`, `w = 1 - a - b` back. */
  lemma BarycentricRecovers(p0: Vec3, p1: Vec3, p2: Vec3, a: real, b: real)
    requires Denom(p0, p1, p2) != 0.0
    ensures Barycentric(p0, p1, p2, Add(p0, Add(Scale(a, Sub(p2, p0)), Scale(b, Sub(p1, p0)))))
      == Bary(a, b, 1.0 - a - b)
  {
    var v0 := Sub(p2, p0);
    var v1 := Sub(p1, p0);
    var off := Add(Scale(a, v0), Scale(b, v1));
    var g := Add(p0, off);
    SubAdd(p0, off);
    CombinationDots(v0, v1, a, b);
    SolveRecovers(Dot(v0, v0), Dot(v0, v1), Dot(v1, v1), Dot(v0, off), Dot(v1, off), a, b);
  }

  /** Where a candidate lies relative to the face: the six strict sign
      patterns of `(w, v, u)` the code tests, or none of them. */
  datatype Region = NoPattern | NearP0 | NearP1 | NearP2 | EdgeP0P1 | EdgeP0P2 | EdgeP1P2

  /** The masks `P0_log` ... `P1P2_log`. Each mask is one strict sign
      pattern, so no two can hold at once; a point inside the face or with a
      zero coordinate matches none. */
  function Classify(b: Bary): (r: Region)
    ensures r == NearP0 <==> b.w > 0.0 && b.v < 0.0 && b.u < 0.0
    ensures r == NearP1 <==> b.w < 0.0 && b.v > 0.0 && b.u < 0.0
    ensures r == NearP2 <==> b.w < 0.0 && b.v < 0.0 && b.u > 0.0
    ensures r == EdgeP0P1 <==> b.w > 0.0 && b.v > 0.0 && b.u < 0.0
    ensures r == EdgeP0P2 <==> b.w > 0.0 && b.v < 0.0 && b.u > 0.0
    ensures r == EdgeP1P2 <==> b.w < 0.0 && b.v > 0.0 && b.u > 0.0
  {
    var wp, wn := b.w > 0.0, b.w < 0.0;
    var vp, vn := b.v > 0.0, b.v < 0.0;
    var up, un := b.u > 0.0, b.u < 0.0;
    if wp && vn && un then NearP0
    else if wn && vp && un then NearP1
    else if wn && vn && up then NearP2
    else if wp && vp && un then EdgeP0P1
    else if wp && vn && up then EdgeP0P2
    else if wn && vp && up then EdgeP1P2
    else NoPattern
  }

  /** Inside the face all three coordinates are positive, and no pattern
      matches. */
  lemma InsideUnchanged(b: Bary)
    requires b.u > 0.0 && b.v > 0.0 && b.w > 0.0
    ensures Classify(b) == NoPattern
  {
  }

  // ---------------------------------------------------------------------
  // Projection onto an edge

  /** The parameter of the projection of `g` onto the line from `pa` to
      `pb`: `ps / l2`. */
  function EdgeParam(pa: Vec3, pb: Vec3, g: Vec3): real
    requires NormSq(Sub(pb, pa)) != 0.0
  {
    var s := Sub(pb, pa);
    Dot(Sub(g, pa), s) / NormSq(s)
  }

  /** `pa + ps / l2 * s` as written: the orthogonal projection onto the whole
      line through the edge, with no clamping to the edge itself. */
  function LineProject(pa: Vec3, pb: Vec3, g: Vec3): Vec3
    requires NormSq(Sub(pb, pa)) != 0.0
  {
    Add(pa, Scale(EdgeParam(pa, pb, g), Sub(pb, pa)))
  }

  /** The residual of the line projection is perpendicular to the edge. */
  lemma LineProjectOrthogonal(pa: Vec3, pb: Vec3, g: Vec3)
    requires NormSq(Sub(pb, pa)) != 0.0
    ensures Dot(Sub(g, LineProject(pa, pb, g)), Sub(pb, pa)) == 0.0
  {
    var s := Sub(pb, pa);
    var t := EdgeParam(pa, pb, g);
    assert Sub(g, LineProject(pa, pb, g)) == Sub(Sub(g, pa), Scale(t, s));
    assert Dot(Sub(Sub(g, pa), Scale(t, s)), s) == Dot(Sub(g, pa), s) - t * NormSq(s);
    assert t * NormSq(s) == Dot(Sub(g, pa), s);
  }

  function Clamp01(t: real): (c: real)
    ensures 0.0 <= c <= 1.0
    ensures 0.0 <= t <= 1.0 ==> c == t
  {
    if t < 0.0 then 0.0 else if t > 1.0 then 1.0 else t
  }

  /** The nearest point of the edge itself: the line parameter clamped to
      [0, 1]. */
  function SegmentProject(pa: Vec3, pb: Vec3, g: Vec3): (r: Vec3)
    requires NormSq(Sub(pb, pa)) != 0.0
    ensures OnSegment(pa, pb, r)
    ensures 0.0 <= EdgeParam(pa, pb, g) <= 1.0 ==> r == LineProject(pa, pb, g)
  {
    Add(pa, Scale(Clamp01(EdgeParam(pa, pb, g)), Sub(pb, pa)))
  }

  /** `r` lies on the segment from `pa` to `pb`. */
  ghost predicate OnSegment(pa: Vec3, pb: Vec3, r: Vec3) {
    exists t :: 0.0 <= t <= 1.0 && r == Add(pa, Scale(t, Sub(pb, pa)))
  }

  lemma QuotientNeg(a: real, b: real)
    requires a < 0.0 && b > 0.0
    ensures a / b < 0.0
  {
  }

  lemma ProductNonneg(a: real, b: real)
    requires a >= 0.0 && b >= 0.0
    ensures a * b >= 0.0
  {
  }

  lemma ProductNeg(a: real, b: real)
    requires a < 0.0 && b > 0.0
    ensures a * b < 0.0
  {
  }

  lemma DotAlong(pa: Vec3, s: Vec3, t: real)
    ensures Dot(Sub(Add(pa, Scale(t, s)), pa), s) == t * NormSq(s)
  {
    assert Sub(Add(pa, Scale(t, s)), pa) == Scale(t, s);
    DotScale(t, s, s);
  }

  /** A line projection with a negative parameter falls before `pa`, off
      the edge. */
  lemma OffSegment(pa: Vec3, pb: Vec3, g: Vec3)
    requires NormSq(Sub(pb, pa)) != 0.0 && EdgeParam(pa, pb, g) < 0.0
    ensures !OnSegment(pa, pb, LineProject(pa, pb, g))
  {
    var s := Sub(pb, pa);
    var e := EdgeParam(pa, pb, g);
    NormSqNonneg(s);
    DotAlong(pa, s, e);
    ProductNeg(e, NormSq(s));
    if OnSegment(pa, pb, LineProject(pa, pb, g)) {
      var t :| 0.0 <= t <= 1.0 && LineProject(pa, pb, g) == Add(pa, Scale(t, s));
      DotAlong(pa, s, t);
      ProductNonneg(t, NormSq(s));
      assert false;
    }
  }

  /** The candidate `P0 + (P2 - P0) + 3 (P1 - P0)`: coordinates u = 1,
      v = 3, w = -3. */
  function Beyond(p0: Vec3, p1: Vec3, p2: Vec3): Vec3 {
    Add(p0, Add(Scale(1.0, Sub(p2, p0)), Scale(3.0, Sub(p1, p0))))
  }

  /** For every non-degenerate face, `Beyond` falls in the pattern of the
      edge P1-P2. */
  lemma PatternP1P2(p0: Vec3, p1: Vec3, p2: Vec3)
    requires Denom(p0, p1, p2) != 0.0
    ensures Classify(Barycentric(p0, p1, p2, Beyond(p0, p1, p2))) == EdgeP1P2
  {
    BarycentricRecovers(p0, p1, p2, 1.0, 3.0);
  }

  /** So on every non-degenerate face where the foot of `Beyond` on the
      line through P1 and P2 lies before P1, the adjustment as written moves
      the candidate to a point of that line off the edge, outside the face. */
  lemma AdjustAsWrittenOffEdge(p0: Vec3, p1: Vec3, p2: Vec3)
    requires Denom(p0, p1, p2) != 0.0
    requires Dot(Sub(Beyond(p0, p1, p2), p1), Sub(p2, p1)) < 0.0
    ensures !OnSegment(p1, p2, AdjustAsWritten(p0, p1, p2, Beyond(p0, p1, p2)))
  {
    var g := Beyond(p0, p1, p2);
    NondegenerateEdges(p0, p1, p2);
    NormSqNonneg(Sub(p2, p1));
    PatternP1P2(p0, p1, p2);
    QuotientNeg(Dot(Sub(g, p1), Sub(p2, p1)), NormSq(Sub(p2, p1)));
    OffSegment(p1, p2, g);
  }

  /** Such faces exist: for P0 = (0,0,0), P1 = (1,0,0), P2 = (0,1,0) the
      candidate is (3, 1, 0), and its foot on the line, (1.5, -0.5, 0), has
      parameter -1/2. */
  lemma ExampleFace(p0: Vec3, p1: Vec3, p2: Vec3)
    requires p0 == Vec3(0.0, 0.0, 0.0) && p1 == Vec3(1.0, 0.0, 0.0) && p2 == Vec3(0.0, 1.0, 0.0)
    ensures Dot(Sub(Beyond(p0, p1, p2), p1), Sub(p2, p1)) == -1.0
  {
    var g := Beyond(p0, p1, p2);
    ExampleBeyond(p0, p1, p2);
    ExampleSub(g, p1, Vec3(3.0, 1.0, 0.0), Vec3(1.0, 0.0, 0.0));
    ExampleSub(p2, p1, Vec3(0.0, 1.0, 0.0), Vec3(1.0, 0.0, 0.0));
    ExampleFoot(Sub(g, p1), Sub(p2, p1));
  }

  lemma ExampleSub(a: Vec3, b: Vec3, a': Vec3, b': Vec3)
    requires a == a' && b == b'
    ensures Sub(a, b) == Sub(a', b')
  {
  }

  lemma ExampleFoot(a: Vec3, b: Vec3)
    requires a == Vec3(2.0, 1.0, 0.0) && b == Vec3(-1.0, 1.0, 0.0)
    ensures Dot(a, b) == -1.0
  {
  }

  lemma ExampleDenom(p0: Vec3, p1: Vec3, p2: Vec3)
    requires p0 == Vec3(0.0, 0.0, 0.0) && p1 == Vec3(1.0, 0.0, 0.0) && p2 == Vec3(0.0, 1.0, 0.0)
    ensures Denom(p0, p1, p2) == 1.0
  {
    assert Sub(p2, p0) == Vec3(0.0, 1.0, 0.0);
    assert Sub(p1, p0) == Vec3(1.0, 0.0, 0.0);
  }

  lemma ExampleBeyond(p0: Vec3, p1: Vec3, p2: Vec3)
    requires p0 == Vec3(0.0, 0.0, 0.0) && p1 == Vec3(1.0, 0.0, 0.0) && p2 == Vec3(0.0, 1.0, 0.0)
    ensures Beyond(p0, p1, p2) == Vec3(3.0, 1.0, 0.0)
  {
    assert Sub(p2, p0) == Vec3(0.0, 1.0, 0.0);
    assert Sub(p1, p0) == Vec3(1.0, 0.0, 0.0);
  }

  /** Both edges at `p0` of a non-degenerate face have nonzero length:
      otherwise the denominator would be `-d01^2`, which is never positive,
      while it is a squared length, which is never negative. */
  lemma EdgesAtP0(p0: Vec3, p1: Vec3, p2: Vec3)
    requires Denom(p0, p1, p2) != 0.0
    ensures NormSq(Sub(p1, p0)) != 0.0 && NormSq(Sub(p2, p0)) != 0.0
  {
    var v0 := Sub(p2, p0);
    var v1 := Sub(p1, p0);
    var d01 := Dot(v0, v1);
    DenomIsNormalSq(p0, p1, p2);
    NormSqNonneg(TriNormal(p0, p1, p2));
    SquareNonneg(d01);
    assert NormSq(v1) == 0.0 || NormSq(v0) == 0.0 ==> Denom(p0, p1, p2) == -(d01 * d01);
  }

  /** So every edge of a non-degenerate face has nonzero length, and none
      of the three line projections divides by zero. */
  lemma NondegenerateEdges(p0: Vec3, p1: Vec3, p2: Vec3)
    requires Denom(p0, p1, p2) != 0.0
    ensures NormSq(Sub(p1, p0)) != 0.0 && NormSq(Sub(p2, p0)) != 0.0 && NormSq(Sub(p2, p1)) != 0.0
  {
    EdgesAtP0(p0, p1, p2);
    DenomIsNormalSq(p0, p1, p2);
    DenomIsNormalSq(p1, p2, p0);
    TriNormalRotate(p0, p1, p2);
    EdgesAtP0(p1, p2, p0);
  }

  /** `__adjustBarycentric` for one candidate as written: the corner
      patterns snap to the one corner with a positive weight, the edge
      patterns go to the line projection onto that edge, anything else is
      left. */
  function AdjustAsWritten(p0: Vec3, p1: Vec3, p2: Vec3, g: Vec3): Vec3
    requires Denom(p0, p1, p2) != 0.0
  {
    NondegenerateEdges(p0, p1, p2);
    match Classify(Barycentric(p0, p1, p2, g))
    case NearP0 => p0
    case NearP1 => p1
    case NearP2 => p2
    case EdgeP0P1 => LineProject(p0, p1, g)
    case EdgeP0P2 => LineProject(p0, p2, g)
    case EdgeP1P2 => LineProject(p1, p2, g)
    case NoPattern => g
  }

  /** `r` lies on the line through `pa` and `pb`. */
  ghost predicate OnLine(pa: Vec3, pb: Vec3, r: Vec3) {
    exists t :: r == Add(pa, Scale(t, Sub(pb, pa)))
  }

  /** The line projection is the foot of the perpendicular from `g`: a point
      of the line whose offset from `g` is orthogonal to the edge. */
  lemma LineProjectFoot(pa: Vec3, pb: Vec3, g: Vec3)
    requires NormSq(Sub(pb, pa)) != 0.0
    ensures OnLine(pa, pb, LineProject(pa, pb, g))
    ensures Dot(Sub(g, LineProject(pa, pb, g)), Sub(pb, pa)) == 0.0
  {
    LineProjectOrthogonal(pa, pb, g);
    assert LineProject(pa, pb, g) == Add(pa, Scale(EdgeParam(pa, pb, g), Sub(pb, pa)));
  }

  /** What the adjustment as written does in each pattern: the corners snap,
      an edge pattern goes to the foot of the perpendicular on the line of
      that edge, and a point with no pattern stays. */
  lemma AdjustAsWrittenSpec(p0: Vec3, p1: Vec3, p2: Vec3, g: Vec3)
    requires Denom(p0, p1, p2) != 0.0
    ensures var r := AdjustAsWritten(p0, p1, p2, g);
      match Classify(Barycentric(p0, p1, p2, g))
      case NearP0 => r == p0
      case NearP1 => r == p1
      case NearP2 => r == p2
      case EdgeP0P1 => OnLine(p0, p1, r) && Dot(Sub(g, r), Sub(p1, p0)) == 0.0
      case EdgeP0P2 => OnLine(p0, p2, r) && Dot(Sub(g, r), Sub(p2, p0)) == 0.0
      case EdgeP1P2 => OnLine(p1, p2, r) && Dot(Sub(g, r), Sub(p2, p1)) == 0.0
      case NoPattern => r == g
  {
    NondegenerateEdges(p0, p1, p2);
    match Classify(Barycentric(p0, p1, p2, g))
    case EdgeP0P1 => LineProjectFoot(p0, p1, g);
    case EdgeP0P2 => LineProjectFoot(p0, p2, g);
    case EdgeP1P2 => LineProjectFoot(p1, p2, g);
    case _ =>
  }

  /** The adjustment the docstring describes ("all these points will lie
      within the target face"): the edge projections kept on the edge. */
  function Adjust(p0: Vec3, p1: Vec3, p2: Vec3, g: Vec3): (r: Vec3)
    requires Denom(p0, p1, p2) != 0.0
    ensures var b := Barycentric(p0, p1, p2, g);
      match Classify(b)
      case NearP0 => r == p0
      case NearP1 => r == p1
      case NearP2 => r == p2
      case NoPattern => r == g
      case _ => OnEdgeOf(p0, p1, p2, r)
  {
    NondegenerateEdges(p0, p1, p2);
    match Classify(Barycentric(p0, p1, p2, g))
    case NearP0 => p0
    case NearP1 => p1
    case NearP2 => p2
    case EdgeP0P1 => SegmentProject(p0, p1, g)
    case EdgeP0P2 => SegmentProject(p0, p2, g)
    case EdgeP1P2 => SegmentProject(p1, p2, g)
    case NoPattern => g
  }

  /** `r` is a point of one of the face's three edges. */
  ghost predicate OnEdgeOf(p0: Vec3, p1: Vec3, p2: Vec3, r: Vec3) {
    OnSegment(p0, p1, r) || OnSegment(p0, p2, r) || OnSegment(p1, p2, r)
  }

  /** The two agree whenever the edge projection falls on the edge. */
  lemma AdjustAgrees(p0: Vec3, p1: Vec3, p2: Vec3, g: Vec3)
    requires Denom(p0, p1, p2) != 0.0
    requires NormSq(Sub(p1, p0)) != 0.0 && NormSq(Sub(p2, p0)) != 0.0 && NormSq(Sub(p2, p1)) != 0.0
    requires var c := Classify(Barycentric(p0, p1, p2, g));
      (c == EdgeP0P1 ==> 0.0 <= EdgeParam(p0, p1, g) <= 1.0) &&
      (c == EdgeP0P2 ==> 0.0 <= EdgeParam(p0, p2, g) <= 1.0) &&
      (c == EdgeP1P2 ==> 0.0 <= EdgeParam(p1, p2, g) <= 1.0)
    ensures Adjust(p0, p1, p2, g) == AdjustAsWritten(p0, p1, p2, g)
  {
  }

  // ---------------------------------------------------------------------
  // Candidates and the displacement

  /** The candidate for baseline point `x` on target face `t`: the plane
      projection, passed through the adjustment as written when `inside` is
      set. */
  function Candidate(tv: seq<Vec3>, t: Tri, x: Vec3, inside: bool): Vec3
    requires t.Within(|tv|) && Denom(tv[t.a], tv[t.b], tv[t.c]) != 0.0
  {
    var p0, p1, p2 := tv[t.a], tv[t.b], tv[t.c];
    DenomIsNormalSq(p0, p1, p2);
    var g := Project(x, TriNormal(p0, p1, p2), p0);
    if inside then AdjustAsWritten(p0, p1, p2, g) else g
  }

  /** The target faces the registration may project onto: valid and not
      degenerate (`mag` is never zero). */
  ghost predicate Usable(tv: seq<Vec3>, tf: seq<Tri>) {
    forall f :: 0 <= f < |tf| ==> tf[f].Within(|tv|) && Denom(tv[tf[f].a], tv[tf[f].b], tv[tf[f].c]) != 0.0
  }

  /** The offsets from `x` to the candidates on the faces `ind` (the indices
      of the nearest face centroids). */
  function Offsets(tv: seq<Vec3>, tf: seq<Tri>, ind: seq<int>, x: Vec3, inside: bool): (g: seq<Vec3>)
    requires Usable(tv, tf) && forall k :: 0 <= k < |ind| ==> 0 <= ind[k] < |tf|
    ensures |g| == |ind|
    ensures forall k :: 0 <= k < |ind| ==> g[k] == Sub(Candidate(tv, tf[ind[k]], x, inside), x)
  {
    seq(|ind|, k requires 0 <= k < |ind| => Sub(Candidate(tv, tf[ind[k]], x, inside), x))
  }

  function Lengths(g: seq<Vec3>): (l: seq<real>)
    ensures |l| == |g| && forall k :: 0 <= k < |g| ==> l[k] == NormSq(g[k])
  {
    seq(|g|, k requires 0 <= k < |g| => NormSq(g[k]))
  }

  /** `k` is the position of the shortest offset, the first one on ties
      (`argmin`). */
  ghost predicate Nearest(g: seq<Vec3>, k: int) {
    0 <= k < |g| &&
    (forall j :: 0 <= j < |g| ==> NormSq(g[k]) <= NormSq(g[j])) &&
    (forall j :: 0 <= j < k ==> NormSq(g[k]) < NormSq(g[j]))
  }

  /** `D = G[GInd]`: the offset of smallest length. The code compares
      square roots of the squared lengths; the square root is increasing, so
      the squared lengths pick the same index. */
  function Displacement(tv: seq<Vec3>, tf: seq<Tri>, ind: seq<int>, x: Vec3, inside: bool): (d: Vec3)
    requires Usable(tv, tf) && |ind| > 0 && forall k :: 0 <= k < |ind| ==> 0 <= ind[k] < |tf|
    ensures exists k :: Nearest(Offsets(tv, tf, ind, x, inside), k) && d == Offsets(tv, tf, ind, x, inside)[k]
  {
    var g := Offsets(tv, tf, ind, x, inside);
    var k := ArgMin(Lengths(g));
    assert Nearest(g, k);
    g[k]
  }

  /** `p` lies on the plane of face `t`. */
  ghost predicate OnFacePlane(tv: seq<Vec3>, t: Tri, p: Vec3)
    requires t.Within(|tv|)
  {
    Dot(TriNormal(tv[t.a], tv[t.b], tv[t.c]), p) == Dot(TriNormal(tv[t.a], tv[t.b], tv[t.c]), tv[t.a])
  }

  /** With `inside` off, the displaced point lies on the plane of one of the
      queried faces. */
  lemma DisplacementOnPlane(tv: seq<Vec3>, tf: seq<Tri>, ind: seq<int>, x: Vec3)
    requires Usable(tv, tf) && |ind| > 0 && forall k :: 0 <= k < |ind| ==> 0 <= ind[k] < |tf|
    ensures exists k :: 0 <= k < |ind| && OnFacePlane(tv, tf[ind[k]], Add(x, Displacement(tv, tf, ind, x, false)))
  {
    var g := Offsets(tv, tf, ind, x, false);
    var d := Displacement(tv, tf, ind, x, false);
    var k :| Nearest(g, k) && d == g[k];
    var t := tf[ind[k]];
    var p0, p1, p2 := tv[t.a], tv[t.b], tv[t.c];
    DenomIsNormalSq(p0, p1, p2);
    var n := TriNormal(p0, p1, p2);
    ProjectOnPlane(x, n, p0);
    assert Add(x, d) == Project(x, n, p0);
    assert OnFacePlane(tv, t, Add(x, d));
  }

  // ---------------------------------------------------------------------
  // The step schedule

  /** `np.arange(steps, 0, -1)`: the divisors of the steps, from `steps`
      down to 1. */
  function Schedule(steps: nat): (s: seq<real>)
    ensures |s| == steps
    ensures forall i :: 0 <= i < steps ==> s[i] == (steps - i) as real && s[i] >= 1.0
  {
    seq(steps, i requires 0 <= i < steps => (steps - i) as real)
  }

  /** `smooth > 0 and step > 1`: smoothing runs on every step but the last. */
  lemma SmoothingSkipsLastStep(steps: nat, smooth: int, i: int)
    requires 0 <= i < steps
    ensures (smooth > 0 && Schedule(steps)[i] > 1.0) <==> (smooth > 0 && i < steps - 1)
  {
  }

  /** One step of the bookkeeping: the displacement grows by `D / step` and
      the registered vertices are the baseline plus the displacement. */
  function Advance(base: seq<Vec3>, disp: seq<Vec3>, d: seq<Vec3>, step: real): (r: (seq<Vec3>, seq<Vec3>))
    requires |disp| == |base| && |d| == |base| && step >= 1.0
    ensures |r.0| == |base| && |r.1| == |base|
    ensures forall i :: 0 <= i < |base| ==> r.1[i] == Add(base[i], r.0[i])
  {
    var disp' := seq(|base|, i requires 0 <= i < |base| => Add(disp[i], Scale(1.0 / step, d[i])));
    (disp', seq(|base|, i requires 0 <= i < |base| => Add(base[i], disp'[i])))
  }

  /** Without smoothing, each step moves every registered vertex by exactly
      `D / step`. */
  lemma AdvanceMoves(base: seq<Vec3>, disp: seq<Vec3>, d: seq<Vec3>, step: real, i: int)
    requires |disp| == |base| && |d| == |base| && step >= 1.0 && 0 <= i < |base|
    ensures Advance(base, disp, d, step).1[i] == Add(Add(base[i], disp[i]), Scale(1.0 / step, d[i]))
  {
  }

  /** The loop over the schedule without smoothing: step `k` adds
      `ds[k] / sched[k]` to the displacement. The per-step vectors `ds` come
      from the nearest-face queries and are inputs here. */
  function Steps(base: seq<Vec3>, disp: seq<Vec3>, ds: seq<seq<Vec3>>, sched: seq<real>): (r: (seq<Vec3>, seq<Vec3>))
    requires |disp| == |base| && |ds| == |sched|
    requires forall k :: 0 <= k < |ds| ==> |ds[k]| == |base| && sched[k] >= 1.0
    ensures |r.0| == |base| && |r.1| == |base|
    ensures forall i :: 0 <= i < |base| ==> r.1[i] == Add(base[i], r.0[i])
    decreases |ds|
  {
    if |ds| == 0 then
      (disp, seq(|base|, i requires 0 <= i < |base| => Add(base[i], disp[i])))
    else
      var a := Advance(base, disp, ds[0], sched[0]);
      Steps(base, a.0, ds[1..], sched[1..])
  }

  /** What vertex `i` gains over the steps: the sum of `ds[k][i] / sched[k]`. */
  function Gained(ds: seq<seq<Vec3>>, sched: seq<real>, i: int): Vec3
    requires |ds| == |sched| && 0 <= i
    requires forall k :: 0 <= k < |ds| ==> i < |ds[k]| && sched[k] >= 1.0
    decreases |ds|
  {
    if |ds| == 0 then Zero else Add(Scale(1.0 / sched[0], ds[0][i]), Gained(ds[1..], sched[1..], i))
  }

  /** After the whole schedule the displacement is the starting one plus every
      step's share, and the registered vertex is the baseline plus that. */
  lemma {:induction false} StepsAccumulate(base: seq<Vec3>, disp: seq<Vec3>, ds: seq<seq<Vec3>>, sched: seq<real>, i: int)
    requires |disp| == |base| && |ds| == |sched|
    requires forall k :: 0 <= k < |ds| ==> |ds[k]| == |base| && sched[k] >= 1.0
    requires 0 <= i < |base|
    ensures Steps(base, disp, ds, sched).0[i] == Add(disp[i], Gained(ds, sched, i))
    ensures Steps(base, disp, ds, sched).1[i] == Add(base[i], Add(disp[i], Gained(ds, sched, i)))
    decreases |ds|
  {
    if |ds| > 0 {
      var a := Advance(base, disp, ds[0], sched[0]);
      StepsAccumulate(base, a.0, ds[1..], sched[1..], i);
    }
  }

  // ---------------------------------------------------------------------
  // The z-scale pre-step

  /** `SF = (tmin - scale) / (rmin - scale) - 1`. */
  function ScaleFactor(tmin: real, rmin: real, scale: real): real
    requires rmin < scale
  {
    (tmin - scale) / (rmin - scale) - 1.0
  }

  /** A height below `scale` moved by `(z - scale) SF`. */
  function ScaledZ(z: real, scale: real, sf: real): real {
    z + (z - scale) * sf
  }

  /** With `scale` set, every vertex below the plane `z = scale` is
      stretched away from it so that the lowest vertex meets the target's
      lowest height. The minimum of an empty array is a ValueError. */
  function ScaleStep(vert: seq<Vec3>, target: seq<Vec3>, scale: real): (r: Result<seq<Vec3>>)
    ensures r.Err? <==> |vert| == 0 || |target| == 0
    ensures r.Err? ==> r.error == ValueError
    ensures r.Ok? ==> |r.value| == |vert|
    ensures r.Ok? ==> forall i :: 0 <= i < |vert| && vert[i].z >= scale ==> r.value[i] == vert[i]
    ensures r.Ok? ==> forall i :: 0 <= i < |vert| ==> r.value[i].x == vert[i].x && r.value[i].y == vert[i].y
  {
    if |target| == 0 || |vert| == 0 then Err(ValueError)
    else
      var tmin := Min(Column(target, 2));
      var rmin := Min(Column(vert, 2));
      if rmin >= scale then Ok(vert)
      else
        var sf := ScaleFactor(tmin, rmin, scale);
        Ok(seq(|vert|, i requires 0 <= i < |vert| =>
          if vert[i].z < scale then Vec3(vert[i].x, vert[i].y, ScaledZ(vert[i].z, scale, sf)) else vert[i]))
  }

  lemma LowestLands(rmin: real, tmin: real, scale: real)
    requires rmin < scale
    ensures ScaledZ(rmin, scale, ScaleFactor(tmin, rmin, scale)) == tmin
  {
    var q := (tmin - scale) / (rmin - scale);
    assert (rmin - scale) * q == tmin - scale;
    assert (rmin - scale) * (q - 1.0) == (rmin - scale) * q - (rmin - scale);
  }

  /** The stretch is the affine map fixing the plane `z = scale`: heights
      below it are scaled about it by `(tmin - scale) / (rmin - scale)`. */
  lemma ScaledZAffine(z: real, tmin: real, rmin: real, scale: real)
    requires rmin < scale
    ensures ScaledZ(z, scale, ScaleFactor(tmin, rmin, scale)) - scale == (z - scale) * ((tmin - scale) / (rmin - scale))
  {
    var q := (tmin - scale) / (rmin - scale);
    assert (z - scale) * (q - 1.0) == (z - scale) * q - (z - scale);
  }

  /** The lowest vertex, when below `scale`, lands exactly on the target's
      lowest height. */
  lemma ScaleStepMatchesMinimum(vert: seq<Vec3>, target: seq<Vec3>, scale: real, i: int)
    requires |target| > 0 && 0 <= i < |vert|
    requires vert[i].z == Min(Column(vert, 2)) && vert[i].z < scale
    ensures ScaleStep(vert, target, scale).Ok?
    ensures ScaleStep(vert, target, scale).value[i].z == Min(Column(target, 2))
  {
    var tmin := Min(Column(target, 2));
    var rmin := Min(Column(vert, 2));
    LowestLands(rmin, tmin, scale);
    var r := ScaleStep(vert, target, scale).value;
    assert r[i] == Vec3(vert[i].x, vert[i].y, ScaledZ(vert[i].z, scale, ScaleFactor(tmin, rmin, scale)));
  }

  // ---------------------------------------------------------------------
  // Error measures

  /** The three signed distances `calcError` can produce, with the vector
      norm kept abstract. */
  datatype ErrorMethod = AbsDist | CentDist | NormDist

  /** `'_registration__' + method + 'Dist'` names a method only for these
      three strings. */
  function ParseMethod(name: string): Option<ErrorMethod> {
    if name == "abs" then Some(AbsDist)
    else if name == "cent" then Some(CentDist)
    else if name == "norm" then Some(NormDist)
    else None
  }

  /** Whether the method gives vertex `i` a negative sign: never for `abs`;
      for `cent` when the registered vertex is nearer the baseline's centroid
      than the baseline vertex; for `norm` when the displacement points
      against the baseline's vertex normal. */
  function Negative(m: ErrorMethod, reg: seq<Vec3>, b: seq<Vec3>, vNorm: seq<Vec3>, norm: Vec3 -> real, i: int): bool
    requires |reg| == |b| && |vNorm| == |b| && 0 <= i < |b|
  {
    match m
    case AbsDist => false
    case CentDist => norm(Sub(reg[i], VecMean(b))) < norm(Sub(b[i], VecMean(b)))
    case NormDist => Dot(vNorm[i], Sub(reg[i], b[i])) < 0.0
  }

  /** `calcError(method)`: the distance `|reg - b|` per vertex, signed by
      the method. An unknown name raises inside the `try`, and the handler
      only builds a ValueError without raising it, so the result is `None`.
      `vNorm` holds the baseline's vertex normals. */
  function CalcError(name: string, reg: seq<Vec3>, b: seq<Vec3>, vNorm: seq<Vec3>, norm: Vec3 -> real): (r: Option<seq<real>>)
    requires |reg| == |b| && |vNorm| == |b|
    ensures r.None? <==> ParseMethod(name).None?
    ensures r.Some? ==> |r.value| == |b|
  {
    match ParseMethod(name)
    case None => None
    case Some(m) =>
      Some(seq(|b|, i requires 0 <= i < |b| =>
        var mag := norm(Sub(reg[i], b[i]));
        if Negative(m, reg, b, vNorm, norm, i) then -mag else mag))
  }

  /** Every error value is the distance moved, up to its sign. */
  lemma ErrorMagnitude(name: string, reg: seq<Vec3>, b: seq<Vec3>, vNorm: seq<Vec3>, norm: Vec3 -> real, i: int)
    requires |reg| == |b| && |vNorm| == |b| && 0 <= i < |b| && NonnegNorm(norm)
    requires CalcError(name, reg, b, vNorm, norm).Some?
    ensures Abs(CalcError(name, reg, b, vNorm, norm).value[i]) == norm(Sub(reg[i], b[i]))
  {
    assert norm(Sub(reg[i], b[i])) >= 0.0;
  }

  /** A value is negative exactly when the vertex moved and the method's
      polarity rule says so; `abs` is never negative. */
  lemma ErrorSign(name: string, reg: seq<Vec3>, b: seq<Vec3>, vNorm: seq<Vec3>, norm: Vec3 -> real, i: int)
    requires |reg| == |b| && |vNorm| == |b| && 0 <= i < |b| && NonnegNorm(norm)
    requires ParseMethod(name).Some?
    ensures CalcError(name, reg, b, vNorm, norm).Some?
    ensures CalcError(name, reg, b, vNorm, norm).value[i] < 0.0 <==>
      Negative(ParseMethod(name).value, reg, b, vNorm, norm, i) && norm(Sub(reg[i], b[i])) > 0.0
  {
    assert norm(Sub(reg[i], b[i])) >= 0.0;
  }

  /** `cent`: negative exactly for a vertex that moved towards the centroid. */
  lemma CentSign(reg: seq<Vec3>, b: seq<Vec3>, vNorm: seq<Vec3>, norm: Vec3 -> real, i: int)
    requires |reg| == |b| && |vNorm| == |b| && 0 <= i < |b| && NonnegNorm(norm)
    ensures CalcError("cent", reg, b, vNorm, norm).Some?
    ensures CalcError("cent", reg, b, vNorm, norm).value[i] < 0.0 <==>
      norm(Sub(reg[i], VecMean(b))) < norm(Sub(b[i], VecMean(b))) && norm(Sub(reg[i], b[i])) > 0.0
  {
    ErrorSign("cent", reg, b, vNorm, norm, i);
  }

  /** `norm`: negative exactly for a vertex that moved against its normal. */
  lemma NormSign(reg: seq<Vec3>, b: seq<Vec3>, vNorm: seq<Vec3>, norm: Vec3 -> real, i: int)
    requires |reg| == |b| && |vNorm| == |b| && 0 <= i < |b| && NonnegNorm(norm)
    ensures CalcError("norm", reg, b, vNorm, norm).Some?
    ensures CalcError("norm", reg, b, vNorm, norm).value[i] < 0.0 <==>
      Dot(vNorm[i], Sub(reg[i], b[i])) < 0.0 && norm(Sub(reg[i], b[i])) > 0.0
  {
    ErrorSign("norm", reg, b, vNorm, norm, i);
  }
}

=== FILE: slicing.dfy ===
/** Planar slicing of a mesh (`create_slices`): the edges a plane crosses,
    the walk `logEuPath` that orders the faces around the cut, the
    first-occurrence list of crossed edges that closes the loop, and the
    interpolated points where the edges meet the plane. */
module Slicing {
  import opened Wrappers
  import opened Linalg
  import opened PyArgs
  import opened Topology
  import U = Unique

  // ---------------------------------------------------------------------
  // logEuPath

  /** Row `p` has `val` at one of its ends. */
  predicate Touches(p: (int, int), val: int) { p.0 == val || p.1 == val }

  /** The end of `p` the walk moves to from `val`: the second if the first is
      `val`, else the first. */
  function Other(p: (int, int), val: int): int { if p.0 == val then p.1 else p.0 }

  ghost predicate RowsIn(rows: seq<int>, n: int) {
    forall x :: 0 <= x < |rows| ==> 0 <= rows[x] < n
  }

  /** The inner `for x in rows` search: the position of the first remaining
      row that touches `val`, and the other end of that row; when no row
      touches `val` the position is `len(rows)` and `val` is kept. */
  function Find(arr: seq<(int, int)>, rows: seq<int>, val: int): (res: (nat, int))
    requires RowsIn(rows, |arr|)
    ensures res.0 <= |rows|
    ensures forall q :: 0 <= q < res.0 ==> !Touches(arr[rows[q]], val)
    ensures res.0 < |rows| ==> Touches(arr[rows[res.0]], val) && res.1 == Other(arr[rows[res.0]], val)
    ensures res.0 == |rows| ==> res.1 == val
  {
    if |rows| == 0 then (0, val)
    else if Touches(arr[rows[0]], val) then (0, Other(arr[rows[0]], val))
    else
      var r := Find(arr, rows[1..], val);
      (r.0 + 1, r.1)
  }

  /** `del rows[i]`. */
  function Delete(rows: seq<int>, i: nat): (r: seq<int>)
    requires i < |rows|
    ensures |r| == |rows| - 1
    ensures forall x :: 0 <= x < |r| ==> r[x] == if x < i then rows[x] else rows[x + 1]
  {
    rows[..i] + rows[i + 1..]
  }

  /** `u` and `v` are the two ends of some row. */
  ghost predicate Linked(arr: seq<(int, int)>, u: int, v: int) {
    exists x :: 0 <= x < |arr| && (arr[x] == (u, v) || arr[x] == (v, u))
  }

  /** Consecutive entries of `w` are the two ends of a row, except that the
      last entry may repeat the one before it (the search after the last
      row finds nothing). */
  ghost predicate LinkedWalk(arr: seq<(int, int)>, w: seq<int>) {
    forall j :: 0 <= j < |w| - 1 ==> Linked(arr, w[j], w[j + 1]) || (j == |w| - 2 && w[j] == w[j + 1])
  }

  /** The rest of the walk: `k` more iterations from the state (`rows`, `i`,
      `val`). An iteration deletes `rows[i]` (an IndexError once the search
      before it has failed), records `val` and searches again. */
  function Walk(arr: seq<(int, int)>, rows: seq<int>, i: nat, val: int, k: nat): (r: Result<seq<int>>)
    requires RowsIn(rows, |arr|)
    ensures r.Ok? ==> |r.value| == k + 1 && r.value[0] == val
    ensures r.Ok? && 0 < k ==> i < |rows|
    ensures r.Ok? ==> LinkedWalk(arr, r.value)
    decreases k
  {
    if k == 0 then Ok([val])
    else if i >= |rows| then Err(IndexError)
    else
      var rows' := Delete(rows, i);
      var (i', val') := Find(arr, rows', val);
      var rest :- Walk(arr, rows', i', val', k - 1);
      var r := [val] + rest;
      assert Linked(arr, val, val') || (k == 1 && val == val') by {
        if i' < |rows'| {
          var x := rows'[i'];
          assert arr[x] == (val, val') || arr[x] == (val', val);
        }
      }
      assert LinkedWalk(arr, rest);
      assert forall j :: 1 <= j < k ==> r[j] == rest[j - 1] && r[j + 1] == rest[j];
      Ok(r)
  }

  function Range(n: nat): (r: seq<int>)
    ensures |r| == n && forall x :: 0 <= x < n ==> r[x] == x
  {
    seq(n, x => x)
  }

  /** `logEuPath(arr)`: starting from `arr[0][0]`, walk from row to row
      through shared ends, one output entry per row. An empty array is an
      IndexError at `arr[0, 0]`. */
  function LogEuPath(arr: seq<(int, int)>): (r: Result<seq<int>>)
    ensures |arr| == 0 ==> r == Err(IndexError)
    ensures r.Ok? ==> |r.value| == |arr| && r.value[0] == arr[0].0
    ensures r.Ok? ==> LinkedWalk(arr, r.value)
  {
    if |arr| == 0 then Err(IndexError)
    else Walk(arr, Range(|arr|), 0, arr[0].0, |arr| - 1)
  }

  /** Every entry of the walk is an end of some row. */
  lemma {:induction false} LogEuPathEnds(arr: seq<(int, int)>, j: int)
    requires LogEuPath(arr).Ok? && 0 <= j < |arr|
    ensures exists x :: 0 <= x < |arr| && Touches(arr[x], LogEuPath(arr).value[j])
  {
    var r := LogEuPath(arr).value;
    assert LinkedWalk(arr, r);
    if j == 0 {
      assert Touches(arr[0], r[0]);
    } else if Linked(arr, r[j - 1], r[j]) {
      var x :| 0 <= x < |arr| && (arr[x] == (r[j - 1], r[j]) || arr[x] == (r[j], r[j - 1]));
      assert Touches(arr[x], r[j]);
    } else {
      LogEuPathEnds(arr, j - 1);
    }
  }

  /** `order + rest` for a walk that may fail. */
  function After(order: seq<int>, rest: Result<seq<int>>): Result<seq<int>> {
    if rest.Ok? then Ok(order + rest.value) else rest
  }

  /** One iteration of the walk, unfolded. */
  lemma WalkStep(arr: seq<(int, int)>, rows: seq<int>, i: nat, val: int, k: nat, order: seq<int>)
    requires RowsIn(rows, |arr|) && 0 < k && i < |rows|
    ensures var f := Find(arr, Delete(rows, i), val);
            After(order, Walk(arr, rows, i, val, k))
              == After(order + [val], Walk(arr, Delete(rows, i), f.0, f.1, k - 1))
  {
    var f := Find(arr, Delete(rows, i), val);
    var w := Walk(arr, Delete(rows, i), f.0, f.1, k - 1);
    if w.Ok? {
      assert order + ([val] + w.value) == order + [val] + w.value;
    }
  }

  /** The inner search loop of `logEuPath`. */
  method FindLoop(arr: seq<(int, int)>, rows: seq<int>, val: int) returns (j: nat, val': int)
    requires RowsIn(rows, |arr|)
    ensures (j, val') == Find(arr, rows, val)
  {
    ghost var found := Find(arr, rows, val);
    j := 0;
    while j < |rows| && !Touches(arr[rows[j]], val)
      invariant 0 <= j <= |rows|
      invariant forall q :: 0 <= q < j ==> !Touches(arr[rows[q]], val)
      invariant j <= found.0
    {
      j := j + 1;
    }
    val' := if j < |rows| then Other(arr[rows[j]], val) else val;
  }

  /** The loop of `logEuPath` as written. */
  method LogEuPathLoop(arr: seq<(int, int)>) returns (r: Result<seq<int>>)
    ensures r == LogEuPath(arr)
  {
    if |arr| == 0 {
      return Err(IndexError);
    }
    var rows := Range(|arr|);
    var order: seq<int> := [];
    var i: nat := 0;
    var val := arr[0].0;
    var nmax := |arr| - 1;
    var n := 0;
    ghost var target := Walk(arr, rows, i, val, nmax);
    AfterEmpty(target);
    while n < nmax
      invariant 0 <= n <= nmax
      invariant RowsIn(rows, |arr|)
      invariant target == After(order, Walk(arr, rows, i, val, nmax - n))
    {
      if i >= |rows| {
        return Err(IndexError);
      }
      WalkStep(arr, rows, i, val, nmax - n, order);
      DeleteRowsIn(rows, i, |arr|);
      rows := Delete(rows, i);
      order := order + [val];
      i, val := FindLoop(arr, rows, val);
      n := n + 1;
    }
    assert Walk(arr, rows, i, val, 0) == Ok([val]);
    r := Ok(order + [val]);
  }

  lemma DeleteRowsIn(rows: seq<int>, i: nat, n: int)
    requires RowsIn(rows, n) && i < |rows|
    ensures RowsIn(Delete(rows, i), n)
  {
  }

  lemma AfterEmpty(w: Result<seq<int>>)
    ensures After([], w) == w
  {
    if w.Ok? {
      assert [] + w.value == w.value;
    }
  }

  /** `arr` lists the edges of one simple cycle through the distinct vertices
      `c`, in any row order and either direction: row `pos[j]` joins `c[j]`
      and `c[j + 1]`, and row 0 is the closing edge, written from `c[0]` to
      the last vertex. (Any simple cycle can be listed like this by starting
      `c` at `arr[0][0]` and walking away from `arr[0][1]`.) */
  ghost predicate SimpleCycle(arr: seq<(int, int)>, c: seq<int>, pos: seq<int>) {
    var m := |c|;
    && m >= 1 && |arr| == m && |pos| == m
    && (forall j, l :: 0 <= j < l < m ==> c[j] != c[l])
    && (forall j :: 0 <= j < m ==> 0 <= pos[j] < m)
    && (forall j, l :: 0 <= j < l < m ==> pos[j] != pos[l])
    && (forall x :: 0 <= x < m ==> x in pos)
    && pos[m - 1] == 0 && arr[0] == (c[0], c[m - 1])
    && forall j :: 0 <= j < m - 1 ==> arr[pos[j]] == (c[j], c[j + 1]) || arr[pos[j]] == (c[j + 1], c[j])
  }

  ghost predicate Distinct(s: seq<int>) {
    forall x, y :: 0 <= x < y < |s| ==> s[x] != s[y]
  }

  lemma DeleteMembers(rows: seq<int>, i: nat)
    requires i < |rows| && Distinct(rows)
    ensures Distinct(Delete(rows, i))
    ensures forall x :: x in Delete(rows, i) <==> x in rows && x != rows[i]
  {
    var r := Delete(rows, i);
    forall x ensures x in r <==> x in rows && x != rows[i] {
      if x in rows && x != rows[i] {
        var y :| 0 <= y < |rows| && rows[y] == x;
        if y < i { assert r[y] == x; } else { assert r[y - 1] == x; }
      }
    }
  }

  /** From `c[n]` the search finds the row of edge `n` and moves to `c[n + 1]`
      when the remaining rows are the edges `n ..` of the cycle. */
  lemma CycleNext(arr: seq<(int, int)>, c: seq<int>, pos: seq<int>, rows: seq<int>, n: nat)
    requires SimpleCycle(arr, c, pos)
    requires n < |c| - 1
    requires RowsIn(rows, |arr|) && Distinct(rows)
    requires forall x :: x in rows <==> exists j :: n <= j <= |c| - 2 && pos[j] == x
    ensures var f := Find(arr, rows, c[n]);
            f.0 < |rows| && rows[f.0] == pos[n] && f.1 == c[n + 1]
  {
    var m := |c|;
    assert pos[n] in rows;
    var p :| 0 <= p < |rows| && rows[p] == pos[n];
    assert arr[pos[n]] == (c[n], c[n + 1]) || arr[pos[n]] == (c[n + 1], c[n]);
    assert Touches(arr[rows[p]], c[n]);
    forall q | 0 <= q < |rows| && q != p ensures !Touches(arr[rows[q]], c[n]) {
      assert rows[q] in rows;
      var j :| n <= j <= m - 2 && pos[j] == rows[q];
      assert j != n;
      assert c[j] != c[n] && c[j + 1] != c[n];
    }
    var f := Find(arr, rows, c[n]);
    assert f.0 == p;
  }

  /** Deleting the last used row leaves exactly the edges `n ..` of the cycle. */
  lemma CycleDelete(arr: seq<(int, int)>, c: seq<int>, pos: seq<int>, rows: seq<int>, i: nat, n: nat)
    requires SimpleCycle(arr, c, pos)
    requires n < |c| - 1
    requires Distinct(rows)
    requires i < |rows| && rows[i] == pos[if n == 0 then |c| - 1 else n - 1]
    requires forall x :: x in rows <==>
      x == pos[if n == 0 then |c| - 1 else n - 1] || exists j :: n <= j <= |c| - 2 && pos[j] == x
    ensures Distinct(Delete(rows, i))
    ensures forall x :: x in Delete(rows, i) <==> exists j :: n <= j <= |c| - 2 && pos[j] == x
  {
    var m := |c|;
    DeleteMembers(rows, i);
    var prev := if n == 0 then m - 1 else n - 1;
    forall x ensures x in Delete(rows, i) <==> exists j :: n <= j <= m - 2 && pos[j] == x {
      if exists j :: n <= j <= m - 2 && pos[j] == x {
        var j :| n <= j <= m - 2 && pos[j] == x;
        assert j != prev;
        assert pos[j] != pos[prev];
      }
    }
  }

  /** From the state before iteration `n`, the rest of the walk lists the
      cycle from `c[n]` on. */
  lemma {:induction false} WalkCycle(arr: seq<(int, int)>, c: seq<int>, pos: seq<int>, rows: seq<int>, i: nat, n: nat)
    requires SimpleCycle(arr, c, pos)
    requires CycleState(arr, c, pos, rows, i, n)
    ensures Walk(arr, rows, i, c[n], |c| - 1 - n) == Ok(c[n..])
    decreases |c| - 1 - n
  {
    var m := |c|;
    if n == m - 1 {
      assert c[n..] == [c[n]];
    } else {
      WalkCycleStep(arr, c, pos, rows, i, n);
      var rows' := Delete(rows, i);
      var f := Find(arr, rows', c[n]);
      assert CycleState(arr, c, pos, rows', f.0, n + 1);
      WalkCycle(arr, c, pos, rows', f.0, n + 1);
      WalkCycleJoin(arr, c, rows, i, n);
    }
  }

  /** The walk state before iteration `n` of a simple cycle: `val` is `c[n]`,
      `rows[i]` is the row used last, and the other remaining rows are the
      edges of the cycle not yet walked. */
  ghost predicate CycleState(arr: seq<(int, int)>, c: seq<int>, pos: seq<int>, rows: seq<int>, i: nat, n: nat) {
    && 1 <= |c| == |pos| && n <= |c| - 1
    && RowsIn(rows, |arr|) && Distinct(rows)
    && i < |rows| && rows[i] == pos[if n == 0 then |c| - 1 else n - 1]
    && forall x :: x in rows <==>
         x == pos[if n == 0 then |c| - 1 else n - 1] || exists j :: n <= j <= |c| - 2 && pos[j] == x
  }

  /** One iteration from the state before iteration `n` leads to the state
      before iteration `n + 1`. */
  lemma WalkCycleStep(arr: seq<(int, int)>, c: seq<int>, pos: seq<int>, rows: seq<int>, i: nat, n: nat)
    requires SimpleCycle(arr, c, pos)
    requires n < |c| - 1
    requires RowsIn(rows, |arr|) && Distinct(rows)
    requires i < |rows| && rows[i] == pos[if n == 0 then |c| - 1 else n - 1]
    requires forall x :: x in rows <==>
      x == pos[if n == 0 then |c| - 1 else n - 1] || exists j :: n <= j <= |c| - 2 && pos[j] == x
    ensures var rows' := Delete(rows, i);
            var f := Find(arr, rows', c[n]);
            && RowsIn(rows', |arr|) && Distinct(rows')
            && f.0 < |rows'| && rows'[f.0] == pos[n] && f.1 == c[n + 1]
            && forall x :: x in rows' <==> x == pos[n] || exists j :: n + 1 <= j <= |c| - 2 && pos[j] == x
  {
    var m := |c|;
    var rows' := Delete(rows, i);
    CycleDelete(arr, c, pos, rows, i, n);
    CycleNext(arr, c, pos, rows', n);
    RemainingShift(pos, rows', n, m);
  }

  lemma WalkCycleJoin(arr: seq<(int, int)>, c: seq<int>, rows: seq<int>, i: nat, n: nat)
    requires RowsIn(rows, |arr|)
    requires n < |c| - 1 && i < |rows|
    requires var f := Find(arr, Delete(rows, i), c[n]);
             f.1 == c[n + 1] && Walk(arr, Delete(rows, i), f.0, c[n + 1], |c| - 1 - (n + 1)) == Ok(c[n + 1..])
    ensures Walk(arr, rows, i, c[n], |c| - 1 - n) == Ok(c[n..])
  {
    assert c[n..] == [c[n]] + c[n + 1..];
    WalkUnfold(arr, rows, i, c[n], |c| - 1 - n);
  }

  lemma RemainingShift(pos: seq<int>, rows: seq<int>, n: nat, m: nat)
    requires n + 1 < m == |pos|
    requires forall x :: x in rows <==> exists j :: n <= j <= m - 2 && pos[j] == x
    ensures forall x :: x in rows <==> x == pos[n] || exists j :: n + 1 <= j <= m - 2 && pos[j] == x
  {
    forall x ensures x in rows <==> x == pos[n] || exists j :: n + 1 <= j <= m - 2 && pos[j] == x {
      if x in rows {
        var j :| n <= j <= m - 2 && pos[j] == x;
        if j != n { assert n + 1 <= j <= m - 2 && pos[j] == x; }
      }
      if x == pos[n] {
        assert n <= n <= m - 2 && pos[n] == x;
      }
    }
  }

  lemma WalkUnfold(arr: seq<(int, int)>, rows: seq<int>, i: nat, val: int, k: nat)
    requires RowsIn(rows, |arr|) && 0 < k && i < |rows|
    ensures var f := Find(arr, Delete(rows, i), val);
            Walk(arr, rows, i, val, k) == After([val], Walk(arr, Delete(rows, i), f.0, f.1, k - 1))
  {
  }

  /** On a simple cycle the walk lists every vertex once, in cycle order:
      consecutive entries, and the last and the first, share an edge. */
  lemma LogEuPathCycle(arr: seq<(int, int)>, c: seq<int>, pos: seq<int>)
    requires SimpleCycle(arr, c, pos)
    ensures LogEuPath(arr) == Ok(c)
  {
    var m := |c|;
    var rows := Range(m);
    forall x ensures x in rows <==> x == pos[m - 1] || exists j :: 0 <= j <= m - 2 && pos[j] == x {
      if 0 <= x < m {
        assert x in pos;
        var j :| 0 <= j < m && pos[j] == x;
        assert rows[x] == x;
      }
    }
    assert CycleState(arr, c, pos, rows, 0, 0);
    WalkCycle(arr, c, pos, rows, 0, 0);
    assert c[0..] == c;
  }

  // ---------------------------------------------------------------------
  // Crossing edges

  /** Both ends of every edge are vertex indices. */
  ghost predicate EdgesIn(edges: seq<Edge>, n: int) {
    forall e :: 0 <= e < |edges| ==> 0 <= edges[e].lo < n && 0 <= edges[e].hi < n
  }

  /** What slicing needs of the connectivity: edges between vertices, a face
      pair per edge, and edges of faces that index the edge list. */
  ghost predicate SliceReady(vert: seq<Vec3>, s: Struct) {
    && EdgesIn(s.edges, |vert|)
    && |s.faceEdges| == |s.edges|
    && ValidFaces(s.edgesFace, |s.edges|)
  }

  /** `calcStruct` on a valid mesh gives what slicing needs. */
  lemma StructSliceReady(vert: seq<Vec3>, faces: seq<Tri>)
    requires ValidFaces(faces, |vert|)
    ensures SliceReady(vert, CalcStruct(faces))
  {
    var edges := CalcEdges(faces);
    forall e | 0 <= e < |edges| ensures 0 <= edges[e].lo < |vert| && 0 <= edges[e].hi < |vert| {
      CalcEdgesFromFaces(faces, e);
      var f, k :| 0 <= f < |faces| && 0 <= k < 3 && edges[e] == FacePair(faces[f], k);
      FacePairWithin(faces[f], k, |vert|);
    }
  }

  lemma FacePairWithin(t: Tri, k: int, n: int)
    requires 0 <= k < 3 && t.Within(n)
    ensures 0 <= FacePair(t, k).lo < n && 0 <= FacePair(t, k).hi < n
  {
  }

  /** Exactly one end lies at or below the plane (`logical_xor(vE <= plane)`). */
  predicate Crosses(lo: real, hi: real, plane: real) {
    (lo <= plane) != (hi <= plane)
  }

  /** A crossing edge has two different heights, so dividing by their
      difference is safe. */
  lemma CrossingHeightsDiffer(lo: real, hi: real, plane: real)
    requires Crosses(lo, hi, plane)
    ensures lo != hi
  {
  }

  predicate EdgeCrosses(vert: seq<Vec3>, e: Edge, axis: int, plane: real)
    requires 0 <= e.lo < |vert| && 0 <= e.hi < |vert| && 0 <= axis < 3
  {
    Crosses(vert[e.lo].At(axis), vert[e.hi].At(axis), plane)
  }

  /** `np.where(logical_xor(ind[:, 0], ind[:, 1]))[0]`: the crossing edges, in
      increasing index order. */
  function CrossingEdges(vert: seq<Vec3>, edges: seq<Edge>, axis: int, plane: real): (r: seq<int>)
    requires EdgesIn(edges, |vert|) && 0 <= axis < 3
    ensures forall k :: 0 <= k < |r| ==> 0 <= r[k] < |edges| && EdgeCrosses(vert, edges[r[k]], axis, plane)
    ensures forall e :: 0 <= e < |edges| && EdgeCrosses(vert, edges[e], axis, plane) ==> e in r
    ensures forall k, l :: 0 <= k < l < |r| ==> r[k] < r[l]
  {
    if |edges| == 0 then []
    else
      var n := |edges| - 1;
      var r' := CrossingEdges(vert, edges[..n], axis, plane);
      assert forall e :: 0 <= e < n ==> edges[..n][e] == edges[e];
      if EdgeCrosses(vert, edges[n], axis, plane) then r' + [n] else r'
  }

  // ---------------------------------------------------------------------
  // Edge/plane intersection

  /** Coordinate `j` of the point where the line through `p` and `q` meets the
      plane `axis = plane`. */
  function Interp(p: Vec3, q: Vec3, plane: real, axis: int, j: int): real
    requires 0 <= axis < 3 && 0 <= j < 3
    requires p.At(axis) != q.At(axis)
  {
    p.At(j) + (plane - p.At(axis)) * (q.At(j) - p.At(j)) / (q.At(axis) - p.At(axis))
  }

  /** `planeEdgeIntersect_cy` for one edge: the slicing coordinate set to
      `plane`, then coordinates 0 and 1 (only) interpolated; coordinate 2
      keeps its initial 0 unless it is the slicing axis. */
  function IntersectCy(p: Vec3, q: Vec3, plane: real, axis: int): (r: Vec3)
    requires 0 <= axis < 3
    requires p.At(axis) != q.At(axis)
    ensures axis != 2 ==> r.z == 0.0
  {
    Vec3(Interp(p, q, plane, axis, 0), Interp(p, q, plane, axis, 1), if axis == 2 then plane else 0.0)
  }

  /** `planeEdgeintersect` for one edge: the slicing coordinate set to
      `plane` and both other coordinates interpolated. */
  function Intersect(p: Vec3, q: Vec3, plane: real, axis: int): (r: Vec3)
    requires 0 <= axis < 3
    requires p.At(axis) != q.At(axis)
  {
    Vec3(if axis == 0 then plane else Interp(p, q, plane, axis, 0),
         if axis == 1 then plane else Interp(p, q, plane, axis, 1),
         if axis == 2 then plane else Interp(p, q, plane, axis, 2))
  }

  /** The position of `plane` between heights `a` and `b`. */
  function Param(a: real, b: real, plane: real): real
    requires a != b
  {
    (plane - a) / (b - a)
  }

  /** The point at parameter `t` from `u` to `v`. */
  function Lerp(u: real, v: real, t: real): real { u + t * (v - u) }

  /** The intersection is the point `p + t (q - p)` of the edge's line at
      `t = (plane - p_axis) / (q_axis - p_axis)`; it lies on the plane, and on
      the edge segment (`0 <= t <= 1`) when the edge crosses the plane. */
  lemma IntersectOnSegment(p: Vec3, q: Vec3, plane: real, axis: int)
    requires 0 <= axis < 3
    requires p.At(axis) != q.At(axis)
    ensures Intersect(p, q, plane, axis) == Add(p, Scale(Param(p.At(axis), q.At(axis), plane), Sub(q, p)))
    ensures Intersect(p, q, plane, axis).At(axis) == plane
    ensures Crosses(p.At(axis), q.At(axis), plane) ==> 0.0 <= Param(p.At(axis), q.At(axis), plane) <= 1.0
  {
    IntersectOnLine(p, q, plane, axis);
    if Crosses(p.At(axis), q.At(axis), plane) {
      ParameterInUnit(p.At(axis), q.At(axis), plane);
    }
  }

  lemma IntersectOnLine(p: Vec3, q: Vec3, plane: real, axis: int)
    requires 0 <= axis < 3
    requires p.At(axis) != q.At(axis)
    ensures Intersect(p, q, plane, axis) == Add(p, Scale(Param(p.At(axis), q.At(axis), plane), Sub(q, p)))
  {
    var t := Param(p.At(axis), q.At(axis), plane);
    var r := Intersect(p, q, plane, axis);
    assert r.x == Lerp(p.x, q.x, t) by { IntersectCoord(p, q, plane, axis, 0); }
    assert r.y == Lerp(p.y, q.y, t) by { IntersectCoord(p, q, plane, axis, 1); }
    assert r.z == Lerp(p.z, q.z, t) by { IntersectCoord(p, q, plane, axis, 2); }
    LerpVec(p, q, t);
  }

  /** `p + t (q - p)` coordinate by coordinate. */
  lemma LerpVec(p: Vec3, q: Vec3, t: real)
    ensures Add(p, Scale(t, Sub(q, p))) == Vec3(Lerp(p.x, q.x, t), Lerp(p.y, q.y, t), Lerp(p.z, q.z, t))
  {
  }

  lemma IntersectCoord(p: Vec3, q: Vec3, plane: real, axis: int, j: int)
    requires 0 <= axis < 3 && 0 <= j < 3
    requires p.At(axis) != q.At(axis)
    ensures Intersect(p, q, plane, axis).At(j) == Lerp(p.At(j), q.At(j), Param(p.At(axis), q.At(axis), plane))
  {
    IntersectAt(p, q, plane, axis, j);
    if j == axis {
      LineParameter(p.At(axis), q.At(axis), plane, p.At(axis), q.At(axis));
    } else {
      InterpLerp(p, q, plane, axis, j);
    }
  }

  /** The code's interpolation formula is the point at parameter `Param`. */
  lemma InterpLerp(p: Vec3, q: Vec3, plane: real, axis: int, j: int)
    requires 0 <= axis < 3 && 0 <= j < 3
    requires p.At(axis) != q.At(axis)
    ensures Interp(p, q, plane, axis, j) == Lerp(p.At(j), q.At(j), Param(p.At(axis), q.At(axis), plane))
  {
    LineParameter(p.At(axis), q.At(axis), plane, p.At(j), q.At(j));
  }

  lemma IntersectAt(p: Vec3, q: Vec3, plane: real, axis: int, j: int)
    requires 0 <= axis < 3 && 0 <= j < 3
    requires p.At(axis) != q.At(axis)
    ensures Intersect(p, q, plane, axis).At(j) == if j == axis then plane else Interp(p, q, plane, axis, j)
  {
  }

  lemma LineParameter(a: real, b: real, plane: real, u: real, v: real)
    requires a != b
    ensures u + (plane - a) * (v - u) / (b - a) == Lerp(u, v, Param(a, b, plane))
    ensures Lerp(a, b, Param(a, b, plane)) == plane
  {
  }

  lemma ParameterInUnit(a: real, b: real, plane: real)
    requires Crosses(a, b, plane)
    ensures 0.0 <= Param(a, b, plane) <= 1.0
  {
    if a <= plane {
      DivUnit(plane - a, b - a);
    } else {
      NegDiv(plane - a, b - a);
      DivUnit(a - plane, a - b);
    }
  }

  /** The `_cy` point lies on the plane: writing the interpolation over the
      slicing coordinate gives back `plane`. */
  lemma IntersectCyOnPlane(p: Vec3, q: Vec3, plane: real, axis: int)
    requires 0 <= axis < 3
    requires p.At(axis) != q.At(axis)
    ensures IntersectCy(p, q, plane, axis).At(axis) == plane
  {
    if axis != 2 {
      var a, b := p.At(axis), q.At(axis);
      MulDivCancel(plane - a, b - a);
      assert (plane - a) * (b - a) / (b - a) == plane - a;
      assert Interp(p, q, plane, axis, axis) == a + (plane - a) * (b - a) / (b - a);
      assert IntersectCy(p, q, plane, axis).At(axis) == Interp(p, q, plane, axis, axis);
    }
  }

  lemma MulDivCancel(x: real, d: real)
    requires d != 0.0
    ensures x * d / d == x
  {
  }

  /** The two routines agree on coordinates 0 and 1, and on all three for
      slicing axis 2; for axis 0 or 1 the `_cy` point has z = 0. */
  lemma IntersectCyAgrees(p: Vec3, q: Vec3, plane: real, axis: int)
    requires 0 <= axis < 3
    requires p.At(axis) != q.At(axis)
    ensures IntersectCy(p, q, plane, axis).x == Intersect(p, q, plane, axis).x
    ensures IntersectCy(p, q, plane, axis).y == Intersect(p, q, plane, axis).y
    ensures IntersectCy(p, q, plane, axis).z == Intersect(p, q, plane, axis).z <==> axis == 2 || Intersect(p, q, plane, axis).z == 0.0
  {
    IntersectCyOnPlane(p, q, plane, axis);
  }

  /** For the default slicing axis the two intersection routines agree. */
  lemma IntersectCyAxis2(p: Vec3, q: Vec3, plane: real)
    requires p.z != q.z
    ensures IntersectCy(p, q, plane, 2) == Intersect(p, q, plane, 2)
  {
  }

  /** For axis 0 the `_cy` routine puts a point of an edge at height z = 1
      down to z = 0, off the edge. */
  lemma IntersectCyOffEdge()
    ensures IntersectCy(Vec3(0.0, 0.0, 1.0), Vec3(2.0, 0.0, 1.0), 1.0, 0) == Vec3(1.0, 0.0, 0.0)
    ensures Intersect(Vec3(0.0, 0.0, 1.0), Vec3(2.0, 0.0, 1.0), 1.0, 0) == Vec3(1.0, 0.0, 1.0)
  {
    assert Interp(Vec3(0.0, 0.0, 1.0), Vec3(2.0, 0.0, 1.0), 1.0, 0, 0) == 1.0;
  }

  // ---------------------------------------------------------------------
  // The closed loop of crossed edges

  /** The entries of an edge row that are crossing edges, in column order
      (`validEdges[np.isin(validEdges, validEdgeInd)]` for one row). */
  function RowCrossings(t: Tri, valid: seq<int>): (r: seq<int>)
    ensures forall x :: x in r <==> (t.Has(x) && x in valid)
  {
    (if t.a in valid then [t.a] else []) + (if t.b in valid then [t.b] else [])
      + (if t.c in valid then [t.c] else [])
  }

  /** Every entry indexes a table of `m` rows, counting from either end. */
  predicate InTable(order: seq<int>, m: int) {
    forall k :: 0 <= k < |order| ==> -m <= order[k] < m
  }

  lemma InTablePrefix(order: seq<int>, m: int)
    requires |order| > 0
    ensures var n := |order| - 1;
            InTable(order, m) <==> InTable(order[..n], m) && -m <= order[n] < m
  {
    var n := |order| - 1;
    assert forall k :: 0 <= k < n ==> order[..n][k] == order[k];
  }

  /** `edgesFace[faceOrder]` masked by the crossing edges and flattened row by
      row. A face index outside the edge table (the -99999 sentinel on a
      small mesh) is an IndexError; numpy's negative indexing applies. */
  function OrderedCrossings(ef: seq<Tri>, order: seq<int>, valid: seq<int>): (r: Result<seq<int>>)
    ensures r.Ok? <==> InTable(order, |ef|)
    ensures r.Err? ==> r.error == IndexError
    ensures r.Ok? ==> forall x :: x in r.value ==> x in valid
  {
    if |order| == 0 then Ok([])
    else
      var n := |order| - 1;
      InTablePrefix(order, |ef|);
      var rest := OrderedCrossings(ef, order[..n], valid);
      var t := PyIndex(ef, order[n]);
      if rest.Err? then rest
      else if t.Err? then Err(IndexError)
      else Ok(rest.value + RowCrossings(t.value, valid))
  }

  /** The first position of `x` in `r` is the only position without an
      earlier `x`. */
  lemma IndexOfAt(r: seq<int>, x: int, i: int)
    requires 0 <= i < |r| && r[i] == x
    requires forall j :: 0 <= j < i ==> r[j] != x
    ensures U.IndexOf(r, x) == i
  {
  }

  /** A value in a prefix has its first position there. */
  lemma IndexOfPrefix(r: seq<int>, n: int, x: int)
    requires 0 <= n <= |r| && x in r[..n]
    ensures U.IndexOf(r, x) == U.IndexOf(r[..n], x)
  {
    var i := U.IndexOf(r[..n], x);
    IndexOfAt(r, x, i);
  }

  /** The `sortE` loop: every value of `e` once, at its first occurrence. */
  function Dedup(e: seq<int>): (d: seq<int>)
    ensures forall x :: x in d <==> x in e
    ensures Distinct(d)
    ensures |e| > 0 ==> |d| > 0 && d[0] == e[0]
  {
    if |e| == 0 then []
    else
      var n := |e| - 1;
      var d' := Dedup(e[..n]);
      assert e == e[..n] + [e[n]];
      assert n > 0 ==> e[..n][0] == e[0];
      if e[n] in d' then d' else d' + [e[n]]
  }

  /** `Dedup` keeps first occurrences in their order: its entries appear in
      `e` for the first time in increasing positions. With the contract of
      `Dedup` (same values, no repeats) this determines the list. */
  lemma {:induction false} DedupFirstOccurrence(e: seq<int>)
    ensures FirstSeenOrder(Dedup(e), e)
  {
    if |e| > 0 {
      var n := |e| - 1;
      var pre := e[..n];
      var d, d' := Dedup(e), Dedup(pre);
      DedupFirstOccurrence(pre);
      assert FirstSeenOrder(d', pre);
      forall x | x in d' ensures x in pre && U.IndexOf(e, x) == U.IndexOf(pre, x) < n {
        IndexOfPrefix(e, n, x);
      }
      if e[n] in d' {
        assert d == d';
        forall i, j | 0 <= i < j < |d| && d[i] in e && d[j] in e
          ensures U.IndexOf(e, d[i]) < U.IndexOf(e, d[j])
        {
          assert d[i] in d' && d[j] in d';
        }
      } else {
        assert d == d' + [e[n]];
        assert forall j :: 0 <= j < n ==> e[j] != e[n] by {
          forall j | 0 <= j < n ensures e[j] != e[n] {
            assert pre[j] == e[j];
          }
        }
        IndexOfAt(e, e[n], n);
        forall i, j | 0 <= i < j < |d| && d[i] in e && d[j] in e
          ensures U.IndexOf(e, d[i]) < U.IndexOf(e, d[j])
        {
          assert d[i] == d'[i] && d'[i] in d';
          if j < |d'| {
            assert d[j] == d'[j] && d'[j] in d';
          }
        }
      }
    }
  }

  /** The entries of `d` first appear in `e` in increasing positions. */
  ghost predicate FirstSeenOrder(d: seq<int>, e: seq<int>) {
    forall i, j :: 0 <= i < j < |d| && d[i] in e && d[j] in e ==> U.IndexOf(e, d[i]) < U.IndexOf(e, d[j])
  }

  /** A list without repeats whose values all lie in `v` is no longer than
      `v`. */
  lemma {:induction false} DistinctBound(d: seq<int>, v: seq<int>)
    requires Distinct(d) && forall x :: x in d ==> x in v
    ensures |d| <= |v|
  {
    if |d| > 0 {
      var n := |d| - 1;
      var p := U.IndexOf(v, d[n]);
      var v' := v[..p] + v[p + 1..];
      forall y | y in d[..n] ensures y in v' {
        var i :| 0 <= i < n && d[..n][i] == y;
        assert d[i] == y && i != n;
        assert y in d;
        assert y in v;
        var q :| 0 <= q < |v| && v[q] == y;
        assert q != p;
        if q < p { assert v'[q] == y; } else { assert v'[q - 1] == y; }
      }
      assert Distinct(d[..n]) by {
        forall i, j | 0 <= i < j < n ensures d[..n][i] != d[..n][j] {
          assert d[..n][i] == d[i] && d[..n][j] == d[j];
        }
      }
      DistinctBound(d[..n], v');
    }
  }

  // ---------------------------------------------------------------------
  // One plane

  /** Where `create_slices` puts crossing edge `e` on the plane: through
      `planeEdgeIntersect_cy`, so coordinate 2 is 0 unless it is the slicing
      axis. */
  function EdgePoint(vert: seq<Vec3>, edge: Edge, axis: int, plane: real): (r: Vec3)
    requires 0 <= edge.lo < |vert| && 0 <= edge.hi < |vert| && 0 <= axis < 3
    requires EdgeCrosses(vert, edge, axis, plane)
    ensures r.At(axis) == plane
  {
    IntersectCyOnPlane(vert[edge.lo], vert[edge.hi], plane, axis);
    IntersectCy(vert[edge.lo], vert[edge.hi], plane, axis)
  }

  /** The body of the `try` block of `create_slices` for one plane: the
      crossing edges, their face pairs walked by `logEuPath`, the crossed
      edges of those faces in walk order without repeats and with the first
      repeated at the end, and the point where each meets the plane. Every
      exception the block can raise is an `Err`. */
  function SlicePlane(vert: seq<Vec3>, s: Struct, axis: int, plane: real): (r: Result<seq<Vec3>>)
    requires SliceReady(vert, s) && 0 <= axis < 3
    ensures r.Ok? ==> 2 <= |r.value| <= |CrossingEdges(vert, s.edges, axis, plane)| + 1
    ensures r.Ok? ==> r.value[0] == r.value[|r.value| - 1]
    ensures r.Ok? ==> forall k :: 0 <= k < |r.value| ==> r.value[k].At(axis) == plane
    ensures CrossingEdges(vert, s.edges, axis, plane) == [] ==> r == Err(IndexError)
  {
    var valid := CrossingEdges(vert, s.edges, axis, plane);
    var order :- LogEuPath(FacePairs(valid, s.faceEdges));
    var e :- OrderedCrossings(s.edgesFace, order, valid);
    Polygon(vert, s.edges, valid, e, axis, plane)
  }

  /** From the crossed edges in walk order to the closed polygon: an odd
      count is a ValueError, and each crossed edge contributes its point
      once, with the first repeated at the end. */
  function Polygon(vert: seq<Vec3>, edges: seq<Edge>, valid: seq<int>, e: seq<int>, axis: int, plane: real)
    : (r: Result<seq<Vec3>>)
    requires EdgesIn(edges, |vert|) && 0 <= axis < 3
    requires forall k :: 0 <= k < |valid| ==> 0 <= valid[k] < |edges| && EdgeCrosses(vert, edges[valid[k]], axis, plane)
    requires forall x :: x in e ==> x in valid
    ensures r.Ok? ==> 2 <= |r.value| <= |valid| + 1
    ensures r.Ok? ==> r.value[0] == r.value[|r.value| - 1]
    ensures r.Ok? ==> forall k :: 0 <= k < |r.value| ==> r.value[k].At(axis) == plane
  {
    var d := Dedup(e);
    if |e| % 2 != 0 then Err(ValueError)
    else if |d| == 0 then Err(IndexError)
    else
      DistinctBound(d, valid);
      var sortE := d + [d[0]];
      assert forall k :: 0 <= k < |sortE| ==> sortE[k] in valid;
      var r := PlanePoints(vert, edges, sortE, axis, plane);
      assert sortE[0] == sortE[|sortE| - 1];
      Ok(r)
  }

  /** `faceEdges[valid]`: the face pair of each listed edge. */
  function FacePairs(valid: seq<int>, fe: seq<(int, int)>): (arr: seq<(int, int)>)
    requires forall k :: 0 <= k < |valid| ==> 0 <= valid[k] < |fe|
    ensures |arr| == |valid|
  {
    seq(|valid|, k requires 0 <= k < |valid| => fe[valid[k]])
  }

  /** The point where each listed crossing edge meets the plane. */
  function PlanePoints(vert: seq<Vec3>, edges: seq<Edge>, ix: seq<int>, axis: int, plane: real): (r: seq<Vec3>)
    requires EdgesIn(edges, |vert|) && 0 <= axis < 3
    requires forall k :: 0 <= k < |ix| ==> 0 <= ix[k] < |edges| && EdgeCrosses(vert, edges[ix[k]], axis, plane)
    ensures |r| == |ix|
    ensures forall k :: 0 <= k < |r| ==> r[k].At(axis) == plane
    ensures |ix| > 0 && ix[0] == ix[|ix| - 1] ==> r[0] == r[|r| - 1]
  {
    seq(|ix|, k requires 0 <= k < |ix| => EdgePoint(vert, edges[ix[k]], axis, plane))
  }

  /** The values of the successful results, in order: a `try` block
      inside a loop whose `except` clause is `continue`. */
  function Successes<T>(rs: seq<Result<T>>): (vs: seq<T>)
    ensures |vs| <= |rs|
  {
    if |rs| == 0 then []
    else
      var n := |rs| - 1;
      var rest := Successes(rs[..n]);
      if rs[n].Ok? then rest + [rs[n].value] else rest
  }

  /** Every value in `vs` is that of a successful result in `rs`. */
  ghost predicate FromSuccesses<T>(vs: seq<T>, rs: seq<Result<T>>) {
    forall k :: 0 <= k < |vs| ==> exists j :: 0 <= j < |rs| && rs[j] == Ok(vs[k])
  }

  /** Every value kept is that of a successful iteration. */
  lemma {:induction false} SuccessesFrom<T>(rs: seq<Result<T>>)
    ensures FromSuccesses(Successes(rs), rs)
  {
    if |rs| > 0 {
      var n := |rs| - 1;
      var pre := rs[..n];
      SuccessesFrom(pre);
      var vs, vs' := Successes(rs), Successes(pre);
      forall k | 0 <= k < |vs| ensures exists j :: 0 <= j < |rs| && rs[j] == Ok(vs[k]) {
        if k < |vs'| {
          assert FromSuccesses(vs', pre);
          var j :| 0 <= j < n && pre[j] == Ok(vs'[k]);
          assert vs[k] == vs'[k] && rs[j] == pre[j];
        } else {
          assert rs[n] == Ok(vs[k]);
        }
      }
    }
  }

  /** When no iteration fails, every one contributes. */
  lemma {:induction false} SuccessesAll<T>(rs: seq<Result<T>>)
    requires forall j :: 0 <= j < |rs| ==> rs[j].Ok?
    ensures |Successes(rs)| == |rs|
    ensures forall j :: 0 <= j < |rs| ==> rs[j] == Ok(Successes(rs)[j])
  {
    if |rs| > 0 {
      var n := |rs| - 1;
      var pre := rs[..n];
      assert forall j :: 0 <= j < n ==> pre[j] == rs[j];
      SuccessesAll(pre);
      var v, v' := Successes(rs), Successes(pre);
      assert v == v' + [rs[n].value];
      forall j | 0 <= j < |rs| ensures rs[j] == Ok(v[j]) {
        if j < n {
          assert v[j] == v'[j] && pre[j] == Ok(v'[j]);
        }
      }
    }
  }

  /** `create_slices`' loop over the planes: a plane whose block raises is
      skipped, the others contribute their polygon in order. */
  function SliceAll(vert: seq<Vec3>, s: Struct, axis: int, planes: seq<real>): (polys: seq<seq<Vec3>>)
    requires SliceReady(vert, s) && 0 <= axis < 3
    ensures |polys| <= |planes|
  {
    Successes(PlaneResults(vert, s, axis, planes))
  }

  function PlaneResults(vert: seq<Vec3>, s: Struct, axis: int, planes: seq<real>): (rs: seq<Result<seq<Vec3>>>)
    requires SliceReady(vert, s) && 0 <= axis < 3
    ensures |rs| == |planes|
  {
    seq(|planes|, j requires 0 <= j < |planes| => SlicePlane(vert, s, axis, planes[j]))
  }

  /** Every polygon is the slice of one of the planes. */
  lemma SliceAllSound(vert: seq<Vec3>, s: Struct, axis: int, planes: seq<real>, k: int)
    requires SliceReady(vert, s) && 0 <= axis < 3
    requires 0 <= k < |SliceAll(vert, s, axis, planes)|
    ensures exists j :: 0 <= j < |planes| && SlicePlane(vert, s, axis, planes[j]) == Ok(SliceAll(vert, s, axis, planes)[k])
  {
    var rs := PlaneResults(vert, s, axis, planes);
    SuccessesFrom(rs);
    assert FromSuccesses(Successes(rs), rs);
    var j :| 0 <= j < |rs| && rs[j] == Ok(Successes(rs)[k]);
    assert SlicePlane(vert, s, axis, planes[j]) == rs[j];
  }

  /** A plane that slices successfully contributes its polygon, so when every
      plane does, the polygons are those of the planes in order. */
  lemma SliceAllComplete(vert: seq<Vec3>, s: Struct, axis: int, planes: seq<real>)
    requires SliceReady(vert, s) && 0 <= axis < 3
    requires forall j :: 0 <= j < |planes| ==> SlicePlane(vert, s, axis, planes[j]).Ok?
    ensures |SliceAll(vert, s, axis, planes)| == |planes|
    ensures forall j :: 0 <= j < |planes| ==> SlicePlane(vert, s, axis, planes[j]) == Ok(SliceAll(vert, s, axis, planes)[j])
  {
    var rs := PlaneResults(vert, s, axis, planes);
    SuccessesAll(rs);
    assert forall j :: 0 <= j < |planes| ==> rs[j] == SlicePlane(vert, s, axis, planes[j]);
  }

  // ---------------------------------------------------------------------
  // Slice planes

  /** The length of `np.arange(lo, hi, step)`: `ceil((hi - lo) / step)`, or
      0 when that is negative. */
  function ArangeLen(lo: real, hi: real, step: real): nat
    requires step != 0.0
  {
    var n := Ceil((hi - lo) / step);
    if n < 0 then 0 else n
  }

  /** `np.arange(lo, hi, step)`; a zero step is a ZeroDivisionError. */
  function Arange(lo: real, hi: real, step: real): (r: Result<seq<real>>)
    ensures r.Err? <==> step == 0.0
    ensures r.Err? ==> r.error == ZeroDivisionError
    ensures r.Ok? ==> forall i :: 0 <= i < |r.value| ==> r.value[i] == lo + (i as real) * step
  {
    if step == 0.0 then Err(ZeroDivisionError)
    else Ok(seq(ArangeLen(lo, hi, step), i => lo + (i as real) * step))
  }

  /** Every value of a positive-step `arange` lies in `[lo, hi)`, and the
      values stop only when the next one would reach `hi`. */
  lemma ArangeBounds(lo: real, hi: real, step: real)
    requires step > 0.0
    ensures var r := Arange(lo, hi, step).value;
            && (forall i :: 0 <= i < |r| ==> lo <= r[i] < hi)
            && lo + (|r| as real) * step >= hi
  {
    var r := Arange(lo, hi, step).value;
    var x := (hi - lo) / step;
    var n := Ceil(x);
    forall i | 0 <= i < |r| ensures lo <= r[i] < hi {
      ArangeValue(lo, hi, step, i);
    }
    if n >= 0 {
      DivBelowMul(hi - lo, step, n as real);
    } else {
      assert x < 0.0;
      if hi - lo >= 0.0 {
        DivNonneg(hi - lo, step);
      }
    }
  }

  /** The `i`-th value of a positive-step `arange` lies in `[lo, hi)`. */
  lemma ArangeValue(lo: real, hi: real, step: real, i: nat)
    requires step > 0.0 && i < |Arange(lo, hi, step).value|
    ensures lo <= Arange(lo, hi, step).value[i] < hi
  {
    var x := (hi - lo) / step;
    assert (i as real) < x;
    MulStrictBelowDiv(i as real, hi - lo, step);
    MulMono(0.0, i as real, step);
  }

  /** The planes of `typ='real_intervals'`: the `arange` with `hi` appended. */
  function Intervals(lo: real, hi: real, step: real): (r: Result<seq<real>>)
    ensures r.Err? <==> step == 0.0
    ensures r.Ok? ==> |r.value| > 0 && r.value[|r.value| - 1] == hi
    ensures r.Ok? ==> r.value[..|r.value| - 1] == Arange(lo, hi, step).value
  {
    var a :- Arange(lo, hi, step);
    assert (a + [hi])[..|a|] == a;
    Ok(a + [hi])
  }

  /** `limb_min + s * limb_len` for every `s`. */
  function Denormalise(planes: seq<real>, mn: real, mx: real): (r: seq<real>)
    ensures |r| == |planes|
    ensures forall i :: 0 <= i < |r| ==> r[i] == mn + planes[i] * (mx - mn)
  {
    seq(|planes|, i requires 0 <= i < |planes| => mn + planes[i] * (mx - mn))
  }

  /** How the planes are given: the `typ` keyword and the positional
      arguments it reads. */
  datatype SliceSpec =
    | Slices(planes: seq<real>)
    | RealIntervals(lo: real, hi: real, step: real)
    | NormIntervals(lo: real, hi: real, step: real)
    | UnknownTyp

  /** The planes of `create_slices`, or `None` (the bare `return`) for an
      unknown `typ`. `norm_intervals` takes the minimum of an empty
      coordinate column first, a ValueError. */
  function Planes(vert: seq<Vec3>, axis: int, spec: SliceSpec): (r: Result<Option<seq<real>>>)
    requires 0 <= axis < 3
    ensures spec.UnknownTyp? <==> r == Ok(None)
    ensures spec.Slices? ==> r == Ok(Some(spec.planes))
    ensures spec.RealIntervals? ==> r.Ok? ==> r.value.Some? && Intervals(spec.lo, spec.hi, spec.step) == Ok(r.value.value)
    ensures spec.NormIntervals? && |vert| == 0 ==> r == Err(ValueError)
  {
    match spec
    case Slices(planes) => Ok(Some(planes))
    case RealIntervals(lo, hi, step) =>
      var p :- Intervals(lo, hi, step);
      Ok(Some(p))
    case NormIntervals(lo, hi, step) =>
      if |vert| == 0 then Err(ValueError)
      else
        var col := Column(vert, axis);
        var p :- Intervals(lo, hi, step);
        Ok(Some(Denormalise(p, Min(col), Max(col))))
    case UnknownTyp => Ok(None)
  }

  /** With limits [0, 1], `norm_intervals` ends at the highest vertex and, for
      a positive step, starts at the lowest. */
  lemma NormIntervalsSpan(vert: seq<Vec3>, axis: int, step: real)
    requires 0 <= axis < 3 && |vert| > 0 && step > 0.0
    ensures var r := Planes(vert, axis, NormIntervals(0.0, 1.0, step));
            && r.Ok? && r.value.Some? && |r.value.value| >= 2
            && r.value.value[0] == Min(Column(vert, axis))
            && r.value.value[|r.value.value| - 1] == Max(Column(vert, axis))
  {
    ArangeBounds(0.0, 1.0, step);
    var a := Arange(0.0, 1.0, step).value;
    assert |a| > 0;
  }

  /** `create_slices`: the planes, then one polygon for every plane that
      slices without an exception. The axis must name a coordinate. */
  function CreateSlices(vert: seq<Vec3>, s: Struct, axis: int, spec: SliceSpec): (r: Result<Option<seq<seq<Vec3>>>>)
    requires SliceReady(vert, s) && 0 <= axis < 3
    ensures spec.UnknownTyp? <==> r == Ok(None)
    ensures r.Ok? && r.value.Some? ==> Planes(vert, axis, spec).Ok? && Planes(vert, axis, spec).value.Some?
    ensures r.Ok? && r.value.Some? ==>
      r.value.value == SliceAll(vert, s, axis, Planes(vert, axis, spec).value.value)
    ensures spec.Slices? ==> r.Ok? && r.value.Some? && |r.value.value| <= |spec.planes|
  {
    var p :- Planes(vert, axis, spec);
    if p.None? then Ok(None) else Ok(Some(SliceAll(vert, s, axis, p.value)))
  }
}

=== FILE: smooth.dfy ===
/** Laplacian and Humphrey's-classes smoothing of the vertices, and
    Laplacian smoothing of the per-vertex scalar field. The neighbours of a
    vertex are the other ends of the edges at it, found by the
    argsort/searchsorted grouping of the flattened edge list. */
module Smooth {
  import opened Linalg
  import opened Topology
  import G = Grouping
  import Slicing
  import Closing

  // ---------------------------------------------------------------------
  // Neighbourhoods

  /** End `c` of an edge (`edges[row, col]`). */
  function EndAt(e: Edge, c: int): int { if c == 0 then e.lo else e.hi }

  /** `edges.flatten()`. */
  function FlatEdges(edges: seq<Edge>): (fl: seq<int>)
    ensures |fl| == 2 * |edges|
    ensures forall p :: 0 <= p < |fl| ==> fl[p] == EndAt(edges[p / 2], p % 2)
  {
    seq(2 * |edges|, p requires 0 <= p < 2 * |edges| => EndAt(edges[p / 2], p % 2))
  }

  lemma FlatEdgesInRange(edges: seq<Edge>, n: nat)
    requires Slicing.EdgesIn(edges, n)
    ensures G.InRange(FlatEdges(edges), n)
  {
  }

  /** Edge `e` runs between `j` and `v`. */
  predicate Joins(e: Edge, j: int, v: int) {
    (e.lo == j && v == e.hi) || (e.hi == j && v == e.lo)
  }

  /** The other end of the edge behind flat position `p`
      (`edges[row, 1 - col]`). */
  function Partner(edges: seq<Edge>, p: int): int
    requires 0 <= p < 2 * |edges|
  {
    EndAt(edges[p / 2], 1 - p % 2)
  }

  lemma PartnerJoins(edges: seq<Edge>, p: int)
    requires 0 <= p < 2 * |edges|
    ensures Joins(edges[p / 2], FlatEdges(edges)[p], Partner(edges, p))
  {
  }

  /** `neighVerts[ndx[j]:ndx[j+1]]` as vertex indices: for every occurrence
      of `j` in the flattened edges, the other end of that edge. */
  function Neighbours(edges: seq<Edge>, n: nat, j: int): (nb: seq<int>)
    requires Slicing.EdgesIn(edges, n) && 0 <= j < n
    ensures |nb| == G.Count(FlatEdges(edges), j)
    ensures forall k :: 0 <= k < |nb| ==> 0 <= nb[k] < n
    ensures forall k :: 0 <= k < |nb| ==>
      exists e :: 0 <= e < |edges| && Joins(edges[e], j, nb[k])
  {
    FlatEdgesInRange(edges, n);
    var grp := G.Group(FlatEdges(edges), n, j);
    var nb := seq(|grp|, k requires 0 <= k < |grp| => Partner(edges, grp[k]));
    forall k | 0 <= k < |nb|
      ensures 0 <= nb[k] < n && exists e :: 0 <= e < |edges| && Joins(edges[e], j, nb[k])
    {
      PartnerJoins(edges, grp[k]);
    }
    nb
  }

  /** Every edge at `j` contributes its other end to the neighbours of `j`. */
  lemma NeighboursComplete(edges: seq<Edge>, n: nat, j: int, e: int, v: int)
    requires Slicing.EdgesIn(edges, n) && 0 <= j < n && 0 <= e < |edges|
    requires Joins(edges[e], j, v)
    ensures v in Neighbours(edges, n, j)
  {
    FlatEdgesInRange(edges, n);
    var fl := FlatEdges(edges);
    var p := if edges[e].lo == j && v == edges[e].hi then 2 * e else 2 * e + 1;
    assert fl[p] == j;
    assert Partner(edges, p) == v;
    var grp := G.Group(fl, n, j);
    assert p in grp;
    var k :| 0 <= k < |grp| && grp[k] == p;
    assert Neighbours(edges, n, j)[k] == v;
  }

  // ---------------------------------------------------------------------
  // The brim

  /** `vBrim`: the ends of every edge with a missing face
      (`np.unique(edges[eidx, :])`, kept as a list with repeats since only
      membership is used). */
  function BrimVertices(edges: seq<Edge>, fe: seq<(int, int)>): (bv: seq<int>)
    requires |fe| == |edges|
    ensures forall v :: v in bv <==> exists e :: 0 <= e < |edges| && Closing.OnBrim(fe[e]) &&
                                              (edges[e].lo == v || edges[e].hi == v)
  {
    if |edges| == 0 then []
    else
      var n := |edges| - 1;
      var bv' := BrimVertices(edges[..n], fe[..n]);
      var bv := bv' + (if Closing.OnBrim(fe[n]) then [edges[n].lo, edges[n].hi] else []);
      forall v | v in bv
        ensures exists e :: 0 <= e < |edges| && Closing.OnBrim(fe[e]) && (edges[e].lo == v || edges[e].hi == v)
      {
        if v in bv' {
          var e :| 0 <= e < n && Closing.OnBrim(fe[..n][e]) && (edges[..n][e].lo == v || edges[..n][e].hi == v);
          assert Closing.OnBrim(fe[e]) && (edges[e].lo == v || edges[e].hi == v);
        }
      }
      forall v | exists e :: 0 <= e < |edges| && Closing.OnBrim(fe[e]) && (edges[e].lo == v || edges[e].hi == v)
        ensures v in bv
      {
        var e :| 0 <= e < |edges| && Closing.OnBrim(fe[e]) && (edges[e].lo == v || edges[e].hi == v);
        if e < n {
          assert Closing.OnBrim(fe[..n][e]) && (edges[..n][e].lo == v || edges[..n][e].hi == v);
        }
      }
      bv
  }

  /** The fixed vertices of a pass: the brim when `brim` is true, none
      otherwise. */
  function Fixed(edges: seq<Edge>, fe: seq<(int, int)>, brim: bool): seq<int>
    requires |fe| == |edges|
  {
    if brim then BrimVertices(edges, fe) else []
  }

  /** What a smoothing pass needs: edges between vertices, and a neighbour
      for every vertex that is moved (otherwise its new position is the
      mean of nothing). */
  ghost predicate Smoothable(n: nat, edges: seq<Edge>, fixed: seq<int>) {
    && Slicing.EdgesIn(edges, n)
    && forall j :: 0 <= j < n && j !in fixed ==> G.Count(FlatEdges(edges), j) > 0
  }

  /** The positions of the neighbours of `j`. */
  function Adjacent(vert: seq<Vec3>, edges: seq<Edge>, j: int): (adj: seq<Vec3>)
    requires Slicing.EdgesIn(edges, |vert|) && 0 <= j < |vert|
  {
    Points(vert, Neighbours(edges, |vert|, j))
  }

  // ---------------------------------------------------------------------
  // lp_smooth

  /** One iteration of `lp_smooth`: every vertex that is not fixed moves to
      the mean of its neighbours, all read from the positions before the
      iteration. */
  function LpStep(vert: seq<Vec3>, edges: seq<Edge>, fixed: seq<int>): (r: seq<Vec3>)
    requires Smoothable(|vert|, edges, fixed)
    ensures |r| == |vert|
    ensures forall j :: 0 <= j < |vert| && j in fixed ==> r[j] == vert[j]
    ensures forall j :: 0 <= j < |vert| && j !in fixed ==>
      |Adjacent(vert, edges, j)| > 0 && r[j] == VecMean(Adjacent(vert, edges, j))
  {
    seq(|vert|, j requires 0 <= j < |vert| => LpValue(vert, edges, fixed, j))
  }

  /** Where vertex `j` lands in one iteration of `lp_smooth`. */
  function LpValue(vert: seq<Vec3>, edges: seq<Edge>, fixed: seq<int>, j: int): Vec3
    requires Smoothable(|vert|, edges, fixed) && 0 <= j < |vert|
  {
    if j in fixed then vert[j] else VecMean(Adjacent(vert, edges, j))
  }

  /** `lp_smooth(n, brim)` on the vertices. */
  function LpSmooth(vert: seq<Vec3>, edges: seq<Edge>, fixed: seq<int>, n: nat): (r: seq<Vec3>)
    requires Smoothable(|vert|, edges, fixed)
    ensures |r| == |vert|
    decreases n
  {
    if n == 0 then vert else LpSmooth(LpStep(vert, edges, fixed), edges, fixed, n - 1)
  }

  /** The fixed vertices never move, however many iterations run; with
      `brim=True` these are the brim vertices. */
  lemma {:induction false} LpSmoothKeepsFixed(vert: seq<Vec3>, edges: seq<Edge>, fixed: seq<int>, n: nat, j: int)
    requires Smoothable(|vert|, edges, fixed) && 0 <= j < |vert| && j in fixed
    ensures LpSmooth(vert, edges, fixed, n)[j] == vert[j]
    decreases n
  {
    if n > 0 {
      LpSmoothKeepsFixed(LpStep(vert, edges, fixed), edges, fixed, n - 1, j);
    }
  }

  lemma PointsShift(vert: seq<Vec3>, ix: seq<int>, t: Vec3)
    requires forall i :: 0 <= i < |ix| ==> 0 <= ix[i] < |vert|
    ensures Points(Shift(vert, t), ix) == Shift(Points(vert, ix), t)
  {
  }

  /** Smoothing commutes with translation: moving the mesh and then
      smoothing gives the smoothed mesh moved. */
  lemma LpStepShift(vert: seq<Vec3>, edges: seq<Edge>, fixed: seq<int>, t: Vec3)
    requires Smoothable(|vert|, edges, fixed)
    ensures LpStep(Shift(vert, t), edges, fixed) == Shift(LpStep(vert, edges, fixed), t)
  {
    var moved := Shift(vert, t);
    forall j | 0 <= j < |vert| && j !in fixed
      ensures VecMean(Adjacent(moved, edges, j)) == Add(VecMean(Adjacent(vert, edges, j)), t)
    {
      PointsShift(vert, Neighbours(edges, |vert|, j), t);
      VecMeanShift(Adjacent(vert, edges, j), t);
    }
  }

  /** The inner loop of `lp_smooth` as written: a copy of the vertices is
      taken, then the vertices outside `fixed` are overwritten one after
      another with the mean of their neighbours in the copy. */
  method LpStepLoop(vert: seq<Vec3>, edges: seq<Edge>, fixed: seq<int>) returns (r: seq<Vec3>)
    requires Smoothable(|vert|, edges, fixed)
    ensures r == LpStep(vert, edges, fixed)
  {
    ghost var target := LpStep(vert, edges, fixed);
    var snapshot := vert;
    r := vert;
    var j := 0;
    while j < |vert|
      invariant 0 <= j <= |vert| && |r| == |vert|
      invariant forall k :: 0 <= k < j ==> r[k] == target[k]
      invariant forall k :: j <= k < |vert| ==> r[k] == snapshot[k]
    {
      r := r[j := LpValue(snapshot, edges, fixed, j)];
      j := j + 1;
    }
  }

  /** The outer loop of `lp_smooth`: `n` passes of the inner loop. */
  method LpSmoothLoop(vert: seq<Vec3>, edges: seq<Edge>, fixed: seq<int>, n: nat) returns (r: seq<Vec3>)
    requires Smoothable(|vert|, edges, fixed)
    ensures r == LpSmooth(vert, edges, fixed, n)
  {
    r := vert;
    var i := 0;
    while i < n
      invariant 0 <= i <= n && |r| == |vert|
      invariant LpSmooth(r, edges, fixed, n - i) == LpSmooth(vert, edges, fixed, n)
    {
      r := LpStepLoop(r, edges, fixed);
      i := i + 1;
    }
  }

  // ---------------------------------------------------------------------
  // hc_smooth

  /** The update of `hc_smooth` for a vertex at `q` with neighbours `adj`:
      `b = p - q` with `p` the neighbours' mean, `d` the mean of the
      neighbours' offsets from `q`, and the new position
      `q + beta * b - (1 - beta) * d`. */
  function HcUpdate(q: Vec3, adj: seq<Vec3>, beta: real): Vec3
    requires |adj| > 0
  {
    var p := VecMean(adj);
    var b := Sub(p, q);
    var d := VecMean(Shift(adj, Neg(q)));
    Sub(Add(q, Scale(beta, b)), Scale(1.0 - beta, d))
  }

  /** Since the mean offset `d` equals `p - q`, the update is
      `q + (2 beta - 1)(p - q)`. */
  lemma HcUpdateClosedForm(q: Vec3, adj: seq<Vec3>, beta: real)
    requires |adj| > 0
    ensures HcUpdate(q, adj, beta) == Add(q, Scale(2.0 * beta - 1.0, Sub(VecMean(adj), q)))
  {
    VecMeanShift(adj, Neg(q));
    assert Add(VecMean(adj), Neg(q)) == Sub(VecMean(adj), q);
  }

  /** One iteration of `hc_smooth`; `q` is the vertex's own position before
      the iteration, since each vertex is written once. */
  function HcStep(vert: seq<Vec3>, edges: seq<Edge>, fixed: seq<int>, beta: real): (r: seq<Vec3>)
    requires Smoothable(|vert|, edges, fixed)
    ensures |r| == |vert|
    ensures forall j :: 0 <= j < |vert| && j in fixed ==> r[j] == vert[j]
    ensures forall j :: 0 <= j < |vert| && j !in fixed ==>
      |Adjacent(vert, edges, j)| > 0 && r[j] == HcUpdate(vert[j], Adjacent(vert, edges, j), beta)
  {
    seq(|vert|, j requires 0 <= j < |vert| =>
      if j in fixed then vert[j] else HcUpdate(vert[j], Adjacent(vert, edges, j), beta))
  }

  /** `beta = 1` is the Laplacian step, as the docstring says. */
  lemma {:induction false} HcBetaOne(vert: seq<Vec3>, edges: seq<Edge>, fixed: seq<int>)
    requires Smoothable(|vert|, edges, fixed)
    ensures HcStep(vert, edges, fixed, 1.0) == LpStep(vert, edges, fixed)
  {
    var hc := HcStep(vert, edges, fixed, 1.0);
    var lp := LpStep(vert, edges, fixed);
    forall j | 0 <= j < |vert| ensures hc[j] == lp[j] {
      if j !in fixed {
        HcUpdateOne(vert[j], Adjacent(vert, edges, j));
      }
    }
  }

  lemma HcUpdateOne(q: Vec3, adj: seq<Vec3>)
    requires |adj| > 0
    ensures HcUpdate(q, adj, 1.0) == VecMean(adj)
  {
    HcUpdateClosedForm(q, adj, 1.0);
    var m := VecMean(adj);
    assert Add(q, Scale(1.0, Sub(m, q))) == m;
  }

  lemma HcUpdateHalf(q: Vec3, adj: seq<Vec3>)
    requires |adj| > 0
    ensures HcUpdate(q, adj, 0.5) == q
  {
    HcUpdateClosedForm(q, adj, 0.5);
    var m := VecMean(adj);
    assert Add(q, Scale(0.0, Sub(m, q))) == q;
  }

  /** `beta = 0.5` leaves every vertex where it is. */
  lemma {:induction false} HcBetaHalf(vert: seq<Vec3>, edges: seq<Edge>, fixed: seq<int>)
    requires Smoothable(|vert|, edges, fixed)
    ensures HcStep(vert, edges, fixed, 0.5) == vert
  {
    var hc := HcStep(vert, edges, fixed, 0.5);
    forall j | 0 <= j < |vert| ensures hc[j] == vert[j] {
      if j !in fixed {
        HcUpdateHalf(vert[j], Adjacent(vert, edges, j));
      }
    }
  }

  /** `hc_smooth(beta, n, brim)` on the vertices. */
  function HcSmooth(vert: seq<Vec3>, edges: seq<Edge>, fixed: seq<int>, beta: real, n: nat): (r: seq<Vec3>)
    requires Smoothable(|vert|, edges, fixed)
    ensures |r| == |vert|
    ensures forall j :: 0 <= j < |vert| && j in fixed ==> r[j] == vert[j]
    decreases n
  {
    if n == 0 then vert else HcSmooth(HcStep(vert, edges, fixed, beta), edges, fixed, beta, n - 1)
  }

  // ---------------------------------------------------------------------
  // smoothValues

  /** What `smoothValues` needs: edges between value indices, and a
      neighbour for every one (there is no brim exclusion here). */
  ghost predicate ValuesSmoothable(n: nat, edges: seq<Edge>) {
    Slicing.EdgesIn(edges, n) && forall j :: 0 <= j < n ==> G.Count(FlatEdges(edges), j) > 0
  }

  /** One iteration of `smoothValues`: every value becomes the mean of its
      neighbours' values from before the iteration. */
  function ValuesStep(values: seq<real>, edges: seq<Edge>): (r: seq<real>)
    requires ValuesSmoothable(|values|, edges)
    ensures |r| == |values|
    ensures forall j :: 0 <= j < |values| ==> r[j] == Mean(Points(values, Neighbours(edges, |values|, j)))
  {
    seq(|values|, j requires 0 <= j < |values| => Mean(Points(values, Neighbours(edges, |values|, j))))
  }

  function SmoothValues(values: seq<real>, edges: seq<Edge>, n: nat): (r: seq<real>)
    requires ValuesSmoothable(|values|, edges)
    ensures |r| == |values|
    decreases n
  {
    if n == 0 then values else SmoothValues(ValuesStep(values, edges), edges, n - 1)
  }

  lemma {:induction false} SumBounds(s: seq<real>, lo: real, hi: real)
    requires forall i :: 0 <= i < |s| ==> lo <= s[i] <= hi
    ensures (|s| as real) * lo <= Sum(s) <= (|s| as real) * hi
  {
    if |s| > 0 {
      SumBounds(s[..|s| - 1], lo, hi);
    }
  }

  lemma MeanBounds(s: seq<real>, lo: real, hi: real)
    requires |s| > 0
    requires forall i :: 0 <= i < |s| ==> lo <= s[i] <= hi
    ensures lo <= Mean(s) <= hi
  {
    SumBounds(s, lo, hi);
    var n := |s| as real;
    DivMonotone(n * lo, Sum(s), n);
    DivMonotone(Sum(s), n * hi, n);
    assert n * lo / n == lo;
    assert n * hi / n == hi;
  }

  lemma DivMonotone(a: real, b: real, k: real)
    requires a <= b && k > 0.0
    ensures a / k <= b / k
  {
    DivNonneg(b - a, k);
    assert (b - a) / k == b / k - a / k;
  }

  /** Values within `[lo, hi]` stay within `[lo, hi]` after a pass. */
  lemma ValuesStepBounded(values: seq<real>, edges: seq<Edge>, lo: real, hi: real)
    requires ValuesSmoothable(|values|, edges)
    requires forall j :: 0 <= j < |values| ==> lo <= values[j] <= hi
    ensures forall j :: 0 <= j < |values| ==> lo <= ValuesStep(values, edges)[j] <= hi
  {
    forall j | 0 <= j < |values|
      ensures lo <= ValuesStep(values, edges)[j] <= hi
    {
      MeanBounds(Points(values, Neighbours(edges, |values|, j)), lo, hi);
    }
  }

  /** A smoothing pass never leaves the range of the values: every new value
      lies between the old minimum and maximum. */
  lemma ValuesStepInRange(values: seq<real>, edges: seq<Edge>)
    requires ValuesSmoothable(|values|, edges) && |values| > 0
    ensures forall j :: 0 <= j < |values| ==>
      Min(values) <= ValuesStep(values, edges)[j] <= Max(values)
  {
    ValuesStepBounded(values, edges, Min(values), Max(values));
  }

  /** The same holds after any number of passes. */
  lemma {:induction false} SmoothValuesBounded(values: seq<real>, edges: seq<Edge>, n: nat, lo: real, hi: real)
    requires ValuesSmoothable(|values|, edges)
    requires forall j :: 0 <= j < |values| ==> lo <= values[j] <= hi
    ensures forall j :: 0 <= j < |values| ==> lo <= SmoothValues(values, edges, n)[j] <= hi
    decreases n
  {
    if n > 0 {
      ValuesStepBounded(values, edges, lo, hi);
      SmoothValuesBounded(ValuesStep(values, edges), edges, n - 1, lo, hi);
    }
  }

  /** A constant field is left as it is. */
  lemma {:induction false} SmoothValuesConstant(values: seq<real>, edges: seq<Edge>, n: nat, c: real)
    requires ValuesSmoothable(|values|, edges)
    requires forall j :: 0 <= j < |values| ==> values[j] == c
    ensures SmoothValues(values, edges, n) == values
  {
    var r := SmoothValues(values, edges, n);
    SmoothValuesBounded(values, edges, n, c, c);
    assert forall j :: 0 <= j < |values| ==> r[j] == values[j];
  }
}

=== FILE: stlbytes.dfy ===
/** The binary STL reader (`read_bytes`). A binary STL file is an 80-byte
    header, a 4-byte face count and one 50-byte record per face: the face
    normal and the three corners as twelve 32-bit floats, then a 2-byte
    attribute. The reader rejects text (`solid`) files and files whose
    count disagrees with the number of records, then lists the corners of
    face `f` as vertices `3f, 3f + 1, 3f + 2`. */
module StlBytes {
  import opened Wrappers
  import opened Linalg
  import opened Topology
  import opened Arith

  type Byte = b: int | 0 <= b < 256

  const HeaderSize: nat := 80
  const CountSize: nat := 4
  /** 12 float32 values and one int16. */
  const RecordSize: nat := 50

  // ---------------------------------------------------------------------
  // The face count

  /** `struct.unpack('@i', bs)` on a little-endian host: four bytes, least
      significant first, read as a two's-complement 32-bit integer. Any
      other length is a `struct.error`. */
  function DecodeInt32(bs: seq<Byte>): (r: Result<int>)
    ensures r.Ok? <==> |bs| == 4
    ensures r.Ok? ==> -0x8000_0000 <= r.value < 0x8000_0000
    ensures r.Err? ==> r.error == StructError
  {
    if |bs| != 4 then Err(StructError)
    else
      var u: int := bs[0] as int + 0x100 * (bs[1] as int) + 0x1_0000 * (bs[2] as int) + 0x100_0000 * (bs[3] as int);
      Ok(if u < 0x8000_0000 then u else u - 0x1_0000_0000)
  }

  /** `struct.pack('<i', n)`. */
  function EncodeInt32(n: int): (bs: seq<Byte>)
    requires -0x8000_0000 <= n < 0x8000_0000
    ensures |bs| == 4
  {
    var u := if n < 0 then n + 0x1_0000_0000 else n;
    [u % 0x100, (u / 0x100) % 0x100, (u / 0x1_0000) % 0x100, u / 0x100_0000]
  }

  /** Packing a count and unpacking it gives the count back. */
  lemma DecodeEncode(n: int)
    requires -0x8000_0000 <= n < 0x8000_0000
    ensures DecodeInt32(EncodeInt32(n)) == Ok(n)
  {
    var u := if n < 0 then n + 0x1_0000_0000 else n;
    var b0, b1, b2, b3 := u % 0x100, (u / 0x100) % 0x100, (u / 0x1_0000) % 0x100, u / 0x100_0000;
    assert u / 0x1_0000 == (u / 0x100) / 0x100;
    assert u / 0x100_0000 == (u / 0x1_0000) / 0x100;
    assert u == b0 + 0x100 * b1 + 0x1_0000 * b2 + 0x100_0000 * b3;
  }

  /** Unpacking four bytes and packing the count gives the bytes back, so
      every 4-byte count field is read as exactly one count. */
  lemma EncodeDecode(bs: seq<Byte>)
    requires |bs| == 4
    ensures EncodeInt32(DecodeInt32(bs).value) == bs
  {
    var b0, b1, b2, b3: int := bs[0], bs[1], bs[2], bs[3];
    var u := b0 + 0x100 * b1 + 0x1_0000 * b2 + 0x100_0000 * b3;
    Radix(b1 + 0x100 * b2 + 0x1_0000 * b3, b0, 0x100);
    Radix(b2 + 0x100 * b3, b0 + 0x100 * b1, 0x1_0000);
    Radix(b3, b0 + 0x100 * b1 + 0x1_0000 * b2, 0x100_0000);
    Radix(b2 + 0x100 * b3, b1, 0x100);
    Radix(b3, b2, 0x100);
  }

  // ---------------------------------------------------------------------
  // The header check

  /** `bytes.lower()`: ASCII capitals only. */
  function Lower(b: Byte): Byte {
    if 'A' as int <= b <= 'Z' as int then b + 32 else b
  }

  function LowerAll(bs: seq<Byte>): (r: seq<Byte>)
    ensures |r| == |bs|
  {
    seq(|bs|, i requires 0 <= i < |bs| => Lower(bs[i]))
  }

  /** The bytes of `solid`. */
  function Solid(): seq<Byte> {
    ['s' as int, 'o' as int, 'l' as int, 'i' as int, 'd' as int]
  }

  predicate Cont(b: Byte) {
    0x80 <= b <= 0xBF
  }

  /** The bytes are well-formed UTF-8 as Python's strict decoder accepts
      it (table 3-7 of the Unicode Standard): no stray continuation byte, no
      overlong form, no surrogate, nothing past U+10FFFF, and no sequence
      cut off at the end. */
  predicate Utf8(s: seq<Byte>)
    decreases |s|
  {
    if |s| == 0 then true
    else
      var b := s[0];
      if b < 0x80 then Utf8(s[1..])
      else if 0xC2 <= b <= 0xDF then |s| >= 2 && Cont(s[1]) && Utf8(s[2..])
      else if b == 0xE0 then |s| >= 3 && 0xA0 <= s[1] <= 0xBF && Cont(s[2]) && Utf8(s[3..])
      else if 0xE1 <= b <= 0xEC || 0xEE <= b <= 0xEF then |s| >= 3 && Cont(s[1]) && Cont(s[2]) && Utf8(s[3..])
      else if b == 0xED then |s| >= 3 && 0x80 <= s[1] <= 0x9F && Cont(s[2]) && Utf8(s[3..])
      else if b == 0xF0 then |s| >= 4 && 0x90 <= s[1] <= 0xBF && Cont(s[2]) && Cont(s[3]) && Utf8(s[4..])
      else if 0xF1 <= b <= 0xF3 then |s| >= 4 && Cont(s[1]) && Cont(s[2]) && Cont(s[3]) && Utf8(s[4..])
      else if b == 0xF4 then |s| >= 4 && 0x80 <= s[1] <= 0x8F && Cont(s[2]) && Cont(s[3]) && Utf8(s[4..])
      else false
  }

  /** ASCII text is UTF-8. */
  lemma {:induction false} AsciiUtf8(s: seq<Byte>)
    requires forall i :: 0 <= i < |s| ==> s[i] < 0x80
    ensures Utf8(s)
    decreases |s|
  {
    if |s| > 0 {
      AsciiUtf8(s[1..]);
    }
  }

  /** The first five bytes of the lower-cased header. */
  function Head5(data: seq<Byte>): seq<Byte> {
    var head := LowerAll(data[..if |data| < HeaderSize then |data| else HeaderSize]);
    head[..if |head| < 5 then |head| else 5]
  }

  /** `str(head[:5], 'utf-8') == 'solid'` raises: the decode fails on bytes
      that are not UTF-8 (a UnicodeDecodeError, which is a ValueError), and
      a test that passes means a text file. A decoded string equals the
      ASCII word `solid` exactly when its bytes are those five bytes. */
  predicate HeaderRejectedAsWritten(data: seq<Byte>) {
    !Utf8(Head5(data)) || Head5(data) == Solid()
  }

  /** The test the code means: the header starts with `solid`, in any
      case. */
  predicate HeaderRejected(data: seq<Byte>) {
    Head5(data) == Solid()
  }

  // ---------------------------------------------------------------------
  // The records

  /** What the reader needs from outside: the value of a 4-byte float32
      field. */
  type Float32 = seq<Byte> -> real

  /** The three floats starting at byte `at` of a record. */
  function Vec(f32: Float32, rec: seq<Byte>, at: nat): Vec3
    requires at + 12 <= |rec|
  {
    Vec3(f32(rec[at..at + 4]), f32(rec[at + 4..at + 8]), f32(rec[at + 8..at + 12]))
  }

  /** Record `f` of the body. */
  function Record(body: seq<Byte>, f: nat): seq<Byte>
    requires (f + 1) * RecordSize <= |body|
  {
    body[f * RecordSize..(f + 1) * RecordSize]
  }

  /** What `read_bytes` leaves on the object before `unifyVert` and
      `calcStruct`: three vertices per face, the face normals, and faces
      `[3f, 3f + 1, 3f + 2]`. */
  datatype Stl = Stl(vert: seq<Vec3>, norm: seq<Vec3>, faces: seq<Tri>)

  /** The arrays of `n` records: `np.resize` of the `(n, 9)` corner array to
      `(3n, 3)` keeps row-major order, so vertex `3f + k` is corner `k` of
      record `f`. */
  function Arrays(f32: Float32, body: seq<Byte>, n: nat): (r: Stl)
    requires n * RecordSize == |body|
    ensures |r.vert| == 3 * n && |r.norm| == n && |r.faces| == n
    ensures ValidFaces(r.faces, |r.vert|)
  {
    Stl(
      seq(3 * n, v requires 0 <= v < 3 * n => RecordCorner(f32, body, n, v)),
      seq(n, f requires 0 <= f < n => RecordNormal(f32, body, n, f)),
      seq(n, f => Tri(3 * f, 3 * f + 1, 3 * f + 2)))
  }

  function RecordNormal(f32: Float32, body: seq<Byte>, n: nat, f: int): Vec3
    requires n * RecordSize == |body| && 0 <= f < n
  {
    RecordWithin(n, f);
    Vec(f32, Record(body, f), 0)
  }

  function RecordCorner(f32: Float32, body: seq<Byte>, n: nat, v: int): Vec3
    requires n * RecordSize == |body| && 0 <= v < 3 * n
  {
    var f, k := v / 3, v % 3;
    RecordWithin(n, f);
    Vec(f32, Record(body, f), 12 + 12 * k)
  }

  lemma RecordWithin(n: nat, f: int)
    requires 0 <= f < n
    ensures (f + 1) * RecordSize <= n * RecordSize
  {
  }

  /** `read_bytes` as written, before `unifyVert` and `calcStruct`. The
      count is unpacked first (too short a file is a `struct.error`), then
      the records (a body that is not whole records is a ValueError), then
      the header and the count are checked (both ValueErrors). */
  function ReadBytes(f32: Float32, data: seq<Byte>): (r: Result<Stl>)
    ensures |data| < HeaderSize + CountSize ==> r == Err(StructError)
    ensures r.Ok? <==>
      && |data| >= HeaderSize + CountSize
      && (|data| - HeaderSize - CountSize) % RecordSize == 0
      && !HeaderRejectedAsWritten(data)
      && DecodeInt32(data[HeaderSize..HeaderSize + CountSize]).value == (|data| - HeaderSize - CountSize) / RecordSize
    ensures r.Err? && |data| >= HeaderSize + CountSize ==> r.error == ValueError
    ensures r.Ok? ==> |r.value.norm| == |r.value.faces| && ValidFaces(r.value.faces, |r.value.vert|)
  {
    var count := data[(if |data| < HeaderSize then |data| else HeaderSize)..if |data| < HeaderSize + CountSize then |data| else HeaderSize + CountSize];
    var nFaces :- DecodeInt32(count);
    var body := data[HeaderSize + CountSize..];
    if |body| % RecordSize != 0 then Err(ValueError)
    else if HeaderRejectedAsWritten(data) then Err(ValueError)
    else if nFaces != |body| / RecordSize then Err(ValueError)
    else Ok(Arrays(f32, body, nFaces))
  }

  /** `read_bytes` with the header test it means. */
  function ReadBytesIntended(f32: Float32, data: seq<Byte>): (r: Result<Stl>)
    ensures r.Ok? <==>
      && |data| >= HeaderSize + CountSize
      && (|data| - HeaderSize - CountSize) % RecordSize == 0
      && !HeaderRejected(data)
      && DecodeInt32(data[HeaderSize..HeaderSize + CountSize]).value == (|data| - HeaderSize - CountSize) / RecordSize
  {
    var count := data[(if |data| < HeaderSize then |data| else HeaderSize)..if |data| < HeaderSize + CountSize then |data| else HeaderSize + CountSize];
    var nFaces :- DecodeInt32(count);
    var body := data[HeaderSize + CountSize..];
    if |body| % RecordSize != 0 then Err(ValueError)
    else if HeaderRejected(data) then Err(ValueError)
    else if nFaces != |body| / RecordSize then Err(ValueError)
    else Ok(Arrays(f32, body, nFaces))
  }

  /** The two readers agree on every file whose first five header bytes
      are UTF-8, which includes every header of ASCII text. */
  lemma ReadersAgree(f32: Float32, data: seq<Byte>)
    requires Utf8(Head5(data))
    ensures ReadBytes(f32, data) == ReadBytesIntended(f32, data)
  {
  }

  /** The bytes of a binary STL file: the header, the packed count and the
      records. */
  function Encode(header: seq<Byte>, records: seq<seq<Byte>>): seq<Byte>
    requires |records| < 0x8000_0000
  {
    header + EncodeInt32(|records|) + Concat(records)
  }

  function Concat(records: seq<seq<Byte>>): seq<Byte> {
    if |records| == 0 then [] else Concat(records[..|records| - 1]) + records[|records| - 1]
  }

  lemma {:induction false} ConcatRecords(records: seq<seq<Byte>>)
    requires forall f :: 0 <= f < |records| ==> |records[f]| == RecordSize
    ensures |Concat(records)| == |records| * RecordSize
    ensures forall f :: 0 <= f < |records| ==> Record(Concat(records), f) == records[f]
  {
    if |records| > 0 {
      var init := records[..|records| - 1];
      ConcatRecords(init);
      var c := Concat(records);
      forall f | 0 <= f < |records| ensures Record(c, f) == records[f] {
        if f < |records| - 1 {
          RecordWithin(|init|, f);
          assert Record(c, f) == Record(Concat(init), f);
        } else {
          assert c[f * RecordSize..] == records[f];
        }
      }
    }
  }

  /** A file made of a header that passes the test, the packed count and
      whole records is read as the arrays of those records. */
  lemma EncodeOk(f32: Float32, header: seq<Byte>, records: seq<seq<Byte>>)
    requires |header| == HeaderSize && |records| < 0x8000_0000
    requires forall f :: 0 <= f < |records| ==> |records[f]| == RecordSize
    requires Utf8(Head5(header)) && Head5(header) != Solid()
    ensures |Concat(records)| == |records| * RecordSize
    ensures ReadBytes(f32, Encode(header, records)) == Ok(Arrays(f32, Concat(records), |records|))
  {
    var n := |records|;
    var data := Encode(header, records);
    var body := Concat(records);
    ConcatRecords(records);
    DecodeEncode(n);
    assert data[..HeaderSize] == header;
    assert Head5(data) == Head5(header);
    assert data[HeaderSize..HeaderSize + CountSize] == EncodeInt32(n);
    assert data[HeaderSize + CountSize..] == body;
    assert |body| / RecordSize == n;
  }

  /** The arrays of whole records: face `f` is `[3f, 3f + 1, 3f + 2]`, and
      the normal and corners of record `f` are its normal and vertices. */
  lemma ArraysOfRecords(f32: Float32, records: seq<seq<Byte>>)
    requires forall f :: 0 <= f < |records| ==> |records[f]| == RecordSize
    ensures |Concat(records)| == |records| * RecordSize
    ensures var stl := Arrays(f32, Concat(records), |records|);
      forall f :: 0 <= f < |records| ==>
        && stl.faces[f] == Tri(3 * f, 3 * f + 1, 3 * f + 2)
        && stl.norm[f] == Vec(f32, records[f], 0)
        && stl.vert[3 * f] == Vec(f32, records[f], 12)
        && stl.vert[3 * f + 1] == Vec(f32, records[f], 24)
        && stl.vert[3 * f + 2] == Vec(f32, records[f], 36)
  {
    ConcatRecords(records);
    forall f | 0 <= f < |records| {
      ArraysAt(f32, Concat(records), |records|, f);
    }
  }

  /** Face `f` of the arrays, its normal and its three vertices come from
      record `f`. */
  lemma ArraysAt(f32: Float32, body: seq<Byte>, n: nat, f: int)
    requires n * RecordSize == |body| && 0 <= f < n
    ensures (f + 1) * RecordSize <= |body|
    ensures var stl := Arrays(f32, body, n);
      && stl.faces[f] == Tri(3 * f, 3 * f + 1, 3 * f + 2)
      && stl.norm[f] == Vec(f32, Record(body, f), 0)
      && stl.vert[3 * f] == Vec(f32, Record(body, f), 12)
      && stl.vert[3 * f + 1] == Vec(f32, Record(body, f), 24)
      && stl.vert[3 * f + 2] == Vec(f32, Record(body, f), 36)
  {
    RecordWithin(n, f);
    assert Arrays(f32, body, n).norm[f] == RecordNormal(f32, body, n, f);
    CornerOf(f32, body, n, f, 0);
    CornerOf(f32, body, n, f, 1);
    CornerOf(f32, body, n, f, 2);
  }

  /** Reading a well-formed file back: a header that does not start with
      `solid` and is UTF-8 in its first five bytes, the packed count and
      whole records give one face per record, with the normal and the three
      corners of record `f` as its normal and vertices `3f .. 3f + 2`. */
  lemma ReadEncoded(f32: Float32, header: seq<Byte>, records: seq<seq<Byte>>)
    requires |header| == HeaderSize && |records| < 0x8000_0000
    requires forall f :: 0 <= f < |records| ==> |records[f]| == RecordSize
    requires Utf8(Head5(header)) && Head5(header) != Solid()
    ensures ReadBytes(f32, Encode(header, records)).Ok?
    ensures var stl := ReadBytes(f32, Encode(header, records)).value;
      && |stl.faces| == |stl.norm| == |records| && |stl.vert| == 3 * |records|
      && forall f :: 0 <= f < |records| ==>
           && stl.faces[f] == Tri(3 * f, 3 * f + 1, 3 * f + 2)
           && stl.norm[f] == Vec(f32, records[f], 0)
           && stl.vert[3 * f] == Vec(f32, records[f], 12)
           && stl.vert[3 * f + 1] == Vec(f32, records[f], 24)
           && stl.vert[3 * f + 2] == Vec(f32, records[f], 36)
  {
    EncodeOk(f32, header, records);
    ArraysOfRecords(f32, records);
  }

  lemma CornerOf(f32: Float32, body: seq<Byte>, n: nat, f: int, k: int)
    requires n * RecordSize == |body| && 0 <= f < n && 0 <= k < 3
    ensures (f + 1) * RecordSize <= |body|
    ensures Arrays(f32, body, n).vert[3 * f + k] == Vec(f32, Record(body, f), 12 + 12 * k)
  {
    RecordWithin(n, f);
    var v := 3 * f + k;
    assert v / 3 == f && v % 3 == k;
    assert Arrays(f32, body, n).vert[v] == RecordCorner(f32, body, n, v);
  }

  /** The object after `read_bytes(data, unify, struc)`: the arrays, merged
      by `unifyVert` when asked (`len(self.norm)` faces are kept, which is
      every face here), the edge structure when asked, and one zero value
      per vertex. */
  datatype Loaded = Loaded(vert: seq<Vec3>, faces: seq<Tri>, norm: seq<Vec3>, structure: Option<Struct>, values: seq<real>)

  /** The vertices and faces after `unifyVert` when `unify` is set. */
  function Merge(stl: Stl, unify: bool): (r: (seq<Vec3>, seq<Tri>))
    requires |stl.norm| == |stl.faces| && ValidFaces(stl.faces, |stl.vert|)
    ensures |r.1| == |stl.faces| && ValidFaces(r.1, |r.0|)
    ensures !unify ==> r == (stl.vert, stl.faces)
  {
    if unify then
      var u := UnifyVert(stl.vert, stl.faces, |stl.norm|);
      (u.vert, u.faces)
    else (stl.vert, stl.faces)
  }

  function Read(f32: Float32, data: seq<Byte>, unify: bool, struc: bool): (r: Result<Loaded>)
    ensures r.Ok? <==> ReadBytes(f32, data).Ok?
    ensures r.Err? ==> r.error == ReadBytes(f32, data).error
    ensures r.Ok? ==> |r.value.values| == |r.value.vert| && ValidFaces(r.value.faces, |r.value.vert|)
    ensures r.Ok? ==> |r.value.faces| == |ReadBytes(f32, data).value.faces|
    ensures r.Ok? ==> forall i :: 0 <= i < |r.value.values| ==> r.value.values[i] == 0.0
    ensures r.Ok? && !unify ==> r.value.vert == ReadBytes(f32, data).value.vert && r.value.faces == ReadBytes(f32, data).value.faces
    ensures r.Ok? ==> (r.value.structure.Some? <==> struc)
  {
    var stl :- ReadBytes(f32, data);
    var m := Merge(stl, unify);
    var structure := if struc then Some(CalcStruct(m.1)) else None;
    Ok(Loaded(m.0, m.1, stl.norm, structure, seq(|m.0|, _ => 0.0)))
  }

  // ---------------------------------------------------------------------
  // The header finding

  /** A binary file with no faces whose header starts with the byte 0xFF. */
  function BadHeaderFile(): seq<Byte> {
    [0xFF] + seq(HeaderSize - 1, _ => 0) + EncodeInt32(0)
  }

  /** The code rejects a binary file because its header does not decode as
      UTF-8; the intended test reads it as a file with no faces. */
  lemma BadHeaderRejected(f32: Float32)
    ensures ReadBytes(f32, BadHeaderFile()) == Err(ValueError)
    ensures ReadBytesIntended(f32, BadHeaderFile()).Ok?
    ensures ReadBytesIntended(f32, BadHeaderFile()).value.faces == []
  {
    var data := BadHeaderFile();
    DecodeEncode(0);
    assert data[HeaderSize..HeaderSize + CountSize] == EncodeInt32(0);
    assert Head5(data) == [0xFF, 0, 0, 0, 0];
  }
}

=== FILE: topology.dfy ===
/** The mesh record of `AmpObject` and its derived connectivity: vertex
    unification, the edge list, the edges of every face, the faces of every
    edge (with the -99999 "no face" sentinel), the orientation rule of
    `fixNorm` and the per-vertex face grouping of `calcVNorm`. */
module Topology {
  import opened Linalg
  import U = Unique
  import G = Grouping

  /** Marks the missing second face of a boundary edge. */
  const NoFace: int := -99999

  /** A row of three indices: the corners of a face, or the edges of a face. */
  datatype Tri = Tri(a: int, b: int, c: int) {
    function Corner(k: int): int
      requires 0 <= k < 3
    {
      if k == 0 then a else if k == 1 then b else c
    }

    predicate Has(v: int) { a == v || b == v || c == v }

    /** All three entries index a list of length `n`. */
    predicate Within(n: int) { 0 <= a < n && 0 <= b < n && 0 <= c < n }
  }

  /** A vertex pair, stored with `lo <= hi` once sorted. */
  datatype Edge = Edge(lo: int, hi: int)

  /** The data an `AmpObject` carries: vertices, faces and the per-vertex
      scalar field. */
  datatype Mesh = Mesh(vert: seq<Vec3>, faces: seq<Tri>, values: seq<real>)

  /** Every corner of every face is a vertex index. */
  ghost predicate ValidFaces(faces: seq<Tri>, n: int) {
    forall i :: 0 <= i < |faces| ==> faces[i].Within(n)
  }

  ghost predicate WellFormed(m: Mesh) {
    ValidFaces(m.faces, |m.vert|) && |m.values| == |m.vert|
  }

  // ---------------------------------------------------------------------
  // unifyVert

  /** Lexicographic order on vertex rows, as `np.unique(axis=0)` sorts them. */
  predicate VecLess(p: Vec3, q: Vec3) {
    p.x < q.x || (p.x == q.x && (p.y < q.y || (p.y == q.y && p.z < q.z)))
  }

  lemma VecLessOrder()
    ensures U.StrictTotalOrder(VecLess)
  {
  }

  lemma ModOfSmall(i: int, n: int)
    requires 0 <= i < n
    ensures i % n == i
  {
  }

  /** `np.resize(rows, (n, 3))`: the rows repeated cyclically to `n` rows
      (zeros when there are none to repeat). */
  function Resize(rows: seq<Tri>, n: nat): (r: seq<Tri>)
    ensures |r| == n
    ensures |rows| > 0 ==> forall i :: 0 <= i < n ==> r[i] == rows[i % |rows|]
    ensures n == |rows| ==> r == rows
  {
    if |rows| == 0 then seq(n, _ => Tri(0, 0, 0))
    else
      var r := seq(n, i requires 0 <= i < n => rows[i % |rows|]);
      assert n == |rows| ==> r == rows by {
        if n == |rows| {
          forall i | 0 <= i < n ensures r[i] == rows[i] {
            ModOfSmall(i, |rows|);
          }
        }
      }
      r
  }

  /** `m[faces]`: every corner sent through the index map `m`. */
  function Remap(faces: seq<Tri>, m: seq<int>): (r: seq<Tri>)
    requires ValidFaces(faces, |m|)
    ensures |r| == |faces|
    ensures forall i :: 0 <= i < |faces| ==>
      r[i] == Tri(m[faces[i].a], m[faces[i].b], m[faces[i].c])
  {
    seq(|faces|, i requires 0 <= i < |faces| =>
      Tri(m[faces[i].a], m[faces[i].b], m[faces[i].c]))
  }

  datatype Unified = Unified(vert: seq<Vec3>, faces: seq<Tri>)

  /** `unifyVert`: merge coincident vertices and remap the faces through the
      inverse index; the face array is resized to the number of normals. */
  function UnifyVert(vert: seq<Vec3>, faces: seq<Tri>, nNorm: nat): (u: Unified)
    requires ValidFaces(faces, |vert|)
    ensures U.StrictlyIncreasing(u.vert, VecLess)
    ensures U.SameElements(u.vert, vert)
    ensures |u.faces| == nNorm
    ensures nNorm == |faces| ==> ValidFaces(u.faces, |u.vert|)
    ensures nNorm == |faces| ==>
      forall i :: 0 <= i < |faces| ==>
        && u.vert[u.faces[i].a] == vert[faces[i].a]
        && u.vert[u.faces[i].b] == vert[faces[i].b]
        && u.vert[u.faces[i].c] == vert[faces[i].c]
  {
    VecLessOrder();
    var uv := U.UniqueRows(vert, VecLess);
    var inv := U.Inverse(vert, uv);
    var remapped := Remap(faces, inv);
    var resized := Resize(remapped, nNorm);
    assert nNorm == |faces| ==> resized == remapped;
    RemapKeepsCorners(vert, faces, uv, inv);
    Unified(uv, resized)
  }

  /** Faces remapped through an inverse index still name the same points. */
  lemma RemapKeepsCorners(vert: seq<Vec3>, faces: seq<Tri>, uv: seq<Vec3>, inv: seq<nat>)
    requires ValidFaces(faces, |vert|) && |inv| == |vert|
    requires forall i :: 0 <= i < |vert| ==> inv[i] < |uv| && uv[inv[i]] == vert[i]
    ensures var r := Remap(faces, inv);
            && ValidFaces(r, |uv|)
            && forall i :: 0 <= i < |faces| ==>
                 && uv[r[i].a] == vert[faces[i].a]
                 && uv[r[i].b] == vert[faces[i].b]
                 && uv[r[i].c] == vert[faces[i].c]
  {
    var r := Remap(faces, inv);
    forall i | 0 <= i < |faces|
      ensures r[i].Within(|uv|)
      ensures uv[r[i].a] == vert[faces[i].a] && uv[r[i].b] == vert[faces[i].b] && uv[r[i].c] == vert[faces[i].c]
    {
      var t := faces[i];
      assert t.Corner(0) == t.a && t.Corner(1) == t.b && t.Corner(2) == t.c;
      assert r[i] == Tri(inv[t.a], inv[t.b], inv[t.c]);
      assert r[i].Corner(0) == r[i].a && r[i].Corner(1) == r[i].b && r[i].Corner(2) == r[i].c;
    }
  }

  /** Unifying an already unified mesh changes neither vertices nor faces. */
  lemma UnifyVertIdempotent(vert: seq<Vec3>, faces: seq<Tri>)
    requires ValidFaces(faces, |vert|)
    ensures var u := UnifyVert(vert, faces, |faces|);
            UnifyVert(u.vert, u.faces, |u.faces|) == u
  {
    VecLessOrder();
    var u := UnifyVert(vert, faces, |faces|);
    U.UniqueRowsOfIncreasing(u.vert, VecLess);
    var inv := U.Inverse(u.vert, u.vert);
    forall i | 0 <= i < |u.vert| ensures inv[i] == i {
      U.IndexOfIncreasing(u.vert, VecLess, i);
    }
    var again := UnifyVert(u.vert, u.faces, |u.faces|);
    assert again.faces == u.faces;
  }

  // ---------------------------------------------------------------------
  // calcEdges, calcEdgeFaces

  function SortedPair(p: int, q: int): (e: Edge)
    ensures e.lo <= e.hi
  {
    if p <= q then Edge(p, q) else Edge(q, p)
  }

  /** The k-th corner pair (0,1), (0,2), (1,2) of a face, sorted. */
  function FacePair(t: Tri, k: int): Edge
    requires 0 <= k < 3
  {
    if k == 0 then SortedPair(t.a, t.b)
    else if k == 1 then SortedPair(t.a, t.c)
    else SortedPair(t.b, t.c)
  }

  /** `np.sort(reshape(faces[:, [0,1,0,2,1,2]], [-1, 2]), 1)`. */
  function RawEdges(faces: seq<Tri>): (r: seq<Edge>)
    ensures |r| == 3 * |faces|
    ensures forall p :: 0 <= p < |r| ==> r[p] == FacePair(faces[p / 3], p % 3)
  {
    seq(3 * |faces|, p requires 0 <= p < 3 * |faces| => FacePair(faces[p / 3], p % 3))
  }

  /** Lexicographic order on edge rows. */
  predicate EdgeLess(p: Edge, q: Edge) {
    p.lo < q.lo || (p.lo == q.lo && p.hi < q.hi)
  }

  lemma EdgeLessOrder()
    ensures U.StrictTotalOrder(EdgeLess)
  {
  }

  lemma RawEdgeOfFace(faces: seq<Tri>, f: int, k: int)
    requires 0 <= f < |faces| && 0 <= k < 3
    ensures RawEdges(faces)[3 * f + k] == FacePair(faces[f], k)
  {
    var p := 3 * f + k;
    assert p / 3 == f && p % 3 == k;
  }

  /** `calcEdges`: the distinct sorted corner pairs of all faces, sorted. */
  function CalcEdges(faces: seq<Tri>): (edges: seq<Edge>)
    ensures U.StrictlyIncreasing(edges, EdgeLess)
    ensures U.SameElements(edges, RawEdges(faces))
    ensures forall e :: 0 <= e < |edges| ==> edges[e].lo <= edges[e].hi
  {
    EdgeLessOrder();
    var edges := U.UniqueRows(RawEdges(faces), EdgeLess);
    forall e | 0 <= e < |edges| ensures edges[e].lo <= edges[e].hi {
      assert edges[e] in RawEdges(faces);
    }
    edges
  }

  /** Every face's corner pairs are edges. */
  lemma CalcEdgesCoverFaces(faces: seq<Tri>, f: int, k: int)
    requires 0 <= f < |faces| && 0 <= k < 3
    ensures FacePair(faces[f], k) in CalcEdges(faces)
  {
    RawEdgeOfFace(faces, f, k);
    assert RawEdges(faces)[3 * f + k] in RawEdges(faces);
  }

  /** Every edge is a corner pair of some face. */
  lemma CalcEdgesFromFaces(faces: seq<Tri>, e: int)
    requires 0 <= e < |CalcEdges(faces)|
    ensures exists f, k :: 0 <= f < |faces| && 0 <= k < 3 && CalcEdges(faces)[e] == FacePair(faces[f], k)
  {
    var edges := CalcEdges(faces);
    var raw := RawEdges(faces);
    assert edges[e] in raw;
    var p :| 0 <= p < |raw| && raw[p] == edges[e];
    assert edges[e] == FacePair(faces[p / 3], p % 3);
  }

  /** `inverse[reshape(range(3 n), [-1, 3])]`: the inverse index of every
      flattened corner pair, three to a row. */
  function InverseRows(raw: seq<Edge>, edges: seq<Edge>, n: nat): (ef: seq<Tri>)
    requires U.SameElements(edges, raw) && |raw| == 3 * n
    ensures |ef| == n
    ensures forall f, k :: 0 <= f < n && 0 <= k < 3 ==>
      0 <= ef[f].Corner(k) < |edges| && edges[ef[f].Corner(k)] == raw[3 * f + k]
  {
    var inv := U.Inverse(raw, edges);
    var ef := seq(n, f requires 0 <= f < n => Tri(inv[3 * f], inv[3 * f + 1], inv[3 * f + 2]));
    forall f, k | 0 <= f < n && 0 <= k < 3
      ensures 0 <= ef[f].Corner(k) < |edges| && edges[ef[f].Corner(k)] == raw[3 * f + k]
    {
      assert ef[f] == Tri(inv[3 * f], inv[3 * f + 1], inv[3 * f + 2]);
    }
    ef
  }

  /** `calcEdgeFaces`: for every face the indices of its three edges in
      `CalcEdges(faces)`, in the corner-pair order (0,1), (0,2), (1,2). */
  function CalcEdgeFaces(faces: seq<Tri>): (ef: seq<Tri>)
    ensures |ef| == |faces|
    ensures forall f, k :: 0 <= f < |faces| && 0 <= k < 3 ==>
      0 <= ef[f].Corner(k) < |CalcEdges(faces)| &&
      CalcEdges(faces)[ef[f].Corner(k)] == FacePair(faces[f], k)
  {
    var ef := InverseRows(RawEdges(faces), CalcEdges(faces), |faces|);
    forall f, k | 0 <= f < |faces| && 0 <= k < 3
      ensures CalcEdges(faces)[ef[f].Corner(k)] == FacePair(faces[f], k)
    {
      RawEdgeOfFace(faces, f, k);
    }
    ef
  }

  /** A face with three distinct corners has three distinct edges. */
  lemma EdgeFacesDistinct(faces: seq<Tri>, f: int)
    requires 0 <= f < |faces|
    requires faces[f].a != faces[f].b && faces[f].a != faces[f].c && faces[f].b != faces[f].c
    ensures var ef := CalcEdgeFaces(faces)[f];
            ef.a != ef.b && ef.a != ef.c && ef.b != ef.c
  {
    var t := faces[f];
    var ef := CalcEdgeFaces(faces)[f];
    var edges := CalcEdges(faces);
    var e0, e1, e2 := edges[ef.Corner(0)], edges[ef.Corner(1)], edges[ef.Corner(2)];
    assert e0 == FacePair(t, 0) && e1 == FacePair(t, 1) && e2 == FacePair(t, 2);
    assert e0 != e1 && e0 != e2 && e1 != e2;
  }

  // ---------------------------------------------------------------------
  // calcFaceEdges

  /** Face `f` (with corners `t`) once for every corner of it equal to `e`. */
  function FaceRefs(t: Tri, e: int, f: int): seq<int> {
    (if t.a == e then [f] else []) + (if t.b == e then [f] else []) + (if t.c == e then [f] else [])
  }

  /** The face index of every position of the flattened `edgesFace` array that
      holds edge `e`, in order: the faces referencing `e`, with multiplicity. */
  function RefFaces(ef: seq<Tri>, e: int): seq<int>
  {
    if |ef| == 0 then []
    else
      var n := |ef| - 1;
      RefFaces(ef[..n], e) + FaceRefs(ef[n], e, n)
  }

  /** `RefFaces` lists faces that reference `e`, in non-decreasing order,
      and every face that does. */
  lemma RefFacesSpec(ef: seq<Tri>, e: int)
    ensures var r := RefFaces(ef, e);
            && RefsOf(r, ef, e)
            && NonDecreasing(r)
            && (forall f :: 0 <= f < |ef| && ef[f].Has(e) ==> f in r)
  {
    RefFacesSound(ef, e);
    RefFacesSorted(ef, e);
    RefFacesComplete(ef, e);
  }

  /** Every entry of `r` is a face of `ef` that references `e`. */
  predicate RefsOf(r: seq<int>, ef: seq<Tri>, e: int) {
    forall i :: 0 <= i < |r| ==> 0 <= r[i] < |ef| && ef[r[i]].Has(e)
  }

  lemma {:induction false} RefFacesSound(ef: seq<Tri>, e: int)
    ensures RefsOf(RefFaces(ef, e), ef, e)
  {
    if |ef| > 0 {
      var n := |ef| - 1;
      var r' := RefFaces(ef[..n], e);
      var x := FaceRefs(ef[n], e, n);
      RefFacesSound(ef[..n], e);
      assert RefsOf(r', ef[..n], e);
      forall i | 0 <= i < |r' + x| ensures 0 <= (r' + x)[i] < |ef| && ef[(r' + x)[i]].Has(e) {
        assert RefsOf(r', ef[..n], e);
        if i < |r'| {
          assert (r' + x)[i] == r'[i] && ef[..n][r'[i]] == ef[r'[i]];
        } else {
          assert (r' + x)[i] == x[i - |r'|] == n;
        }
      }
    }
  }

  predicate NonDecreasing(r: seq<int>) {
    forall i, j :: 0 <= i < j < |r| ==> r[i] <= r[j]
  }

  lemma {:induction false} RefFacesSorted(ef: seq<Tri>, e: int)
    ensures NonDecreasing(RefFaces(ef, e))
  {
    if |ef| > 0 {
      var n := |ef| - 1;
      var r' := RefFaces(ef[..n], e);
      var x := FaceRefs(ef[n], e, n);
      RefFacesSorted(ef[..n], e);
      RefFacesSound(ef[..n], e);
      forall i, j | 0 <= i < j < |r' + x| ensures (r' + x)[i] <= (r' + x)[j] {
        if j < |r'| {
          assert NonDecreasing(r');
          assert (r' + x)[i] == r'[i] <= r'[j] == (r' + x)[j];
        } else if i < |r'| {
          assert RefsOf(r', ef[..n], e);
          assert (r' + x)[i] == r'[i] < n;
          assert (r' + x)[j] == x[j - |r'|] == n;
        } else {
          assert (r' + x)[i] == x[i - |r'|] == n;
          assert (r' + x)[j] == x[j - |r'|] == n;
        }
      }
    }
  }

  lemma {:induction false} RefFacesComplete(ef: seq<Tri>, e: int)
    ensures var r := RefFaces(ef, e);
            forall f :: 0 <= f < |ef| && ef[f].Has(e) ==> f in r
  {
    if |ef| > 0 {
      var n := |ef| - 1;
      var r' := RefFaces(ef[..n], e);
      var x := FaceRefs(ef[n], e, n);
      RefFacesComplete(ef[..n], e);
      forall f | 0 <= f < |ef| && ef[f].Has(e) ensures f in r' + x {
        if f < n {
          assert ef[..n][f] == ef[f];
          assert f in r';
        } else {
          assert x[0] == n;
        }
      }
    }
  }

  /** The two slots numpy leaves for an edge referenced by the faces `r`:
      slot 0 gets the face of the first reference, slot 1 the face of the last
      later reference (the last write wins), -99999 where nothing was written. */
  function SlotsOf(r: seq<int>): (int, int) {
    (if |r| == 0 then NoFace else r[0], if |r| >= 2 then r[|r| - 1] else NoFace)
  }

  /** Reference definition of `faceEdges`. */
  function FaceEdges(nEdges: nat, ef: seq<Tri>): (fe: seq<(int, int)>)
    ensures |fe| == nEdges
  {
    seq(nEdges, e requires 0 <= e < nEdges => SlotsOf(RefFaces(ef, e)))
  }

  /** The references to `e` made by the faces before `f` and by the first `k`
      corners of face `f`: what the walk below has seen of `e` so far. */
  function SeenRefs(ef: seq<Tri>, f: int, k: int, e: int): (r: seq<int>)
    requires 0 <= f < |ef| && 0 <= k <= 3
    ensures forall i :: 0 <= i < |r| ==> 0 <= r[i]
  {
    RefFacesSpec(ef[..f], e);
    var t := ef[f];
    RefFaces(ef[..f], e)
      + (if k > 0 && t.a == e then [f] else [])
      + (if k > 1 && t.b == e then [f] else [])
      + (if k > 2 && t.c == e then [f] else [])
  }

  lemma SeenRefsStep(ef: seq<Tri>, f: int, k: int, e: int)
    requires 0 <= f < |ef| && 0 <= k < 3
    ensures SeenRefs(ef, f, k + 1, e) ==
      if ef[f].Corner(k) == e then SeenRefs(ef, f, k, e) + [f] else SeenRefs(ef, f, k, e)
  {
  }

  lemma SeenRefsDone(ef: seq<Tri>, f: int, e: int)
    requires 0 <= f < |ef|
    ensures SeenRefs(ef, f, 3, e) == RefFaces(ef[..f + 1], e)
  {
    assert ef[..f + 1][..f] == ef[..f];
    var t := ef[f];
    var x, y, z := (if t.a == e then [f] else []), (if t.b == e then [f] else []), (if t.c == e then [f] else []);
    var r := RefFaces(ef[..f], e);
    assert SeenRefs(ef, f, 3, e) == r + x + y + z;
    assert r + x + y + z == r + (x + y + z);
  }

  /** One more reference: the first fills slot 0, any later one overwrites slot 1. */
  lemma SlotsAppend(r: seq<int>, f: int)
    requires forall i :: 0 <= i < |r| ==> 0 <= r[i]
    ensures SlotsOf(r + [f]) ==
      if SlotsOf(r).0 == NoFace then (f, SlotsOf(r).1) else (SlotsOf(r).0, f)
  {
  }

  /** `calcFaceEdges`, as the code does it: walk the flattened edge-of-face
      array; the first time an edge is seen its face goes to slot 0, every
      later time to slot 1. */
  method CalcFaceEdges(nEdges: nat, ef: seq<Tri>) returns (fe: seq<(int, int)>)
    requires ValidFaces(ef, nEdges)
    ensures fe == FaceEdges(nEdges, ef)
  {
    fe := seq(nEdges, _ => (NoFace, NoFace));
    var f := 0;
    while f < |ef|
      invariant 0 <= f <= |ef|
      invariant |fe| == nEdges
      invariant forall e :: 0 <= e < nEdges ==> fe[e] == SlotsOf(RefFaces(ef[..f], e))
    {
      fe := ScanFace(nEdges, ef, f, fe);
      f := f + 1;
    }
    assert ef[..|ef|] == ef;
  }

  /** The three corners of face `f` in the walk of `calcFaceEdges`. */
  method ScanFace(nEdges: nat, ef: seq<Tri>, f: nat, fe0: seq<(int, int)>) returns (fe: seq<(int, int)>)
    requires ValidFaces(ef, nEdges) && f < |ef| && |fe0| == nEdges
    requires forall e :: 0 <= e < nEdges ==> fe0[e] == SlotsOf(RefFaces(ef[..f], e))
    ensures |fe| == nEdges
    ensures forall e :: 0 <= e < nEdges ==> fe[e] == SlotsOf(RefFaces(ef[..f + 1], e))
  {
    fe := fe0;
    var k := 0;
    while k < 3
      invariant 0 <= k <= 3
      invariant |fe| == nEdges
      invariant forall e :: 0 <= e < nEdges ==> fe[e] == SlotsOf(SeenRefs(ef, f, k, e))
    {
      var e := ef[f].Corner(k);
      SlotsAppend(SeenRefs(ef, f, k, e), f);
      SeenRefsStep(ef, f, k, e);
      if fe[e].0 == NoFace {
        fe := fe[e := (f, fe[e].1)];
      } else {
        fe := fe[e := (fe[e].0, f)];
      }
      forall e' | 0 <= e' < nEdges ensures fe[e'] == SlotsOf(SeenRefs(ef, f, k + 1, e')) {
        SeenRefsStep(ef, f, k, e');
      }
      k := k + 1;
    }
    forall e | 0 <= e < nEdges ensures fe[e] == SlotsOf(RefFaces(ef[..f + 1], e)) {
      SeenRefsDone(ef, f, e);
    }
  }

  /** Slot 0 holds the lowest face that references the edge. */
  lemma FaceEdgesFirstSlot(nEdges: nat, ef: seq<Tri>, e: int)
    requires 0 <= e < nEdges
    requires exists f :: 0 <= f < |ef| && ef[f].Has(e)
    ensures var s0 := FaceEdges(nEdges, ef)[e].0;
            0 <= s0 < |ef| && ef[s0].Has(e) &&
            forall f :: 0 <= f < |ef| && ef[f].Has(e) ==> s0 <= f
  {
    var r := RefFaces(ef, e);
    RefFacesSpec(ef, e);
    var g :| 0 <= g < |ef| && ef[g].Has(e);
    assert g in r;
    forall f | 0 <= f < |ef| && ef[f].Has(e) ensures r[0] <= f {
      assert f in r;
      var k :| 0 <= k < |r| && r[k] == f;
      if k > 0 { assert r[0] <= r[k]; }
    }
  }

  /** For an edge referenced once or twice: slot 1 is -99999 exactly when it
      is referenced once (a boundary edge), and otherwise the second
      referencing face. */
  lemma FaceEdgesSecondSlot(nEdges: nat, ef: seq<Tri>, e: int)
    requires 0 <= e < nEdges
    requires 1 <= |RefFaces(ef, e)| <= 2
    ensures var s := FaceEdges(nEdges, ef)[e];
            var r := RefFaces(ef, e);
            s.0 == r[0] && s.0 != NoFace &&
            (s.1 == NoFace <==> |r| == 1) &&
            (|r| == 2 ==> s.1 == r[1] && s.0 <= s.1)
  {
    RefFacesSpec(ef, e);
  }

  datatype Struct = Struct(edges: seq<Edge>, edgesFace: seq<Tri>, faceEdges: seq<(int, int)>)

  /** `calcStruct` with its default flags, less the normals (a normalisation
      by a square root, which is not modelled). */
  function CalcStruct(faces: seq<Tri>): (s: Struct)
    ensures s.edges == CalcEdges(faces)
    ensures s.edgesFace == CalcEdgeFaces(faces)
    ensures |s.faceEdges| == |s.edges|
    ensures ValidFaces(s.edgesFace, |s.edges|)
  {
    var edges := CalcEdges(faces);
    var ef := CalcEdgeFaces(faces);
    EdgeFacesValid(faces);
    Struct(edges, ef, FaceEdges(|edges|, ef))
  }

  /** Every entry of `edgesFace` indexes the edge list. */
  lemma EdgeFacesValid(faces: seq<Tri>)
    ensures ValidFaces(CalcEdgeFaces(faces), |CalcEdges(faces)|)
  {
    var ef := CalcEdgeFaces(faces);
    forall f | 0 <= f < |ef| ensures ef[f].Within(|CalcEdges(faces)|) {
      assert ef[f].Corner(0) == ef[f].a && ef[f].Corner(1) == ef[f].b && ef[f].Corner(2) == ef[f].c;
    }
  }

  /** Every edge of the structure has at least one face in slot 0. */
  lemma StructEveryEdgeHasFace(faces: seq<Tri>, e: int)
    requires 0 <= e < |CalcEdges(faces)|
    ensures var s := CalcStruct(faces);
            0 <= s.faceEdges[e].0 < |faces|
  {
    var s := CalcStruct(faces);
    CalcEdgesFromFaces(faces, e);
    var f, k :| 0 <= f < |faces| && 0 <= k < 3 && s.edges[e] == FacePair(faces[f], k);
    var ek := s.edgesFace[f].Corner(k);
    EdgeLessOrder();
    U.IncreasingInjective(s.edges, EdgeLess, e, ek);
    assert s.edgesFace[f].Has(e);
    FaceEdgesFirstSlot(|s.edges|, s.edgesFace, e);
  }

  // ---------------------------------------------------------------------
  // fixNorm

  function FaceCentroid(vert: seq<Vec3>, t: Tri): Vec3
    requires 0 <= t.a < |vert| && 0 <= t.b < |vert| && 0 <= t.c < |vert|
  {
    Scale(1.0 / 3.0, Add(Add(vert[t.a], vert[t.b]), vert[t.c]))
  }

  /** The unnormalised face normal `(v1 - v0) x (v2 - v0)`. */
  function RawNormal(vert: seq<Vec3>, t: Tri): Vec3
    requires 0 <= t.a < |vert| && 0 <= t.b < |vert| && 0 <= t.c < |vert|
  {
    Cross(Sub(vert[t.b], vert[t.a]), Sub(vert[t.c], vert[t.a]))
  }

  function SwapWinding(t: Tri): Tri { Tri(t.a, t.c, t.b) }

  /** True when the face normal points towards the vertex mean. */
  predicate Inward(vert: seq<Vec3>, t: Tri, n: Vec3)
    requires |vert| > 0
    requires 0 <= t.a < |vert| && 0 <= t.b < |vert| && 0 <= t.c < |vert|
  {
    Dot(Sub(FaceCentroid(vert, t), VecMean(vert)), n) < 0.0
  }

  /** `fixNorm`: a face whose normal points towards the vertex mean has
      corners 1 and 2 swapped; every other face is kept. */
  function FixNorm(vert: seq<Vec3>, faces: seq<Tri>, norm: seq<Vec3>): (r: seq<Tri>)
    requires |vert| > 0 && ValidFaces(faces, |vert|) && |norm| == |faces|
    ensures |r| == |faces| && ValidFaces(r, |vert|)
    ensures forall i :: 0 <= i < |faces| && Inward(vert, faces[i], norm[i]) ==> r[i] == SwapWinding(faces[i])
    ensures forall i :: 0 <= i < |faces| && !Inward(vert, faces[i], norm[i]) ==> r[i] == faces[i]
  {
    seq(|faces|, i requires 0 <= i < |faces| =>
      if Inward(vert, faces[i], norm[i]) then SwapWinding(faces[i]) else faces[i])
  }

  lemma SwapWindingNegatesNormal(vert: seq<Vec3>, t: Tri)
    requires 0 <= t.a < |vert| && 0 <= t.b < |vert| && 0 <= t.c < |vert|
    ensures RawNormal(vert, SwapWinding(t)) == Neg(RawNormal(vert, t))
    ensures FaceCentroid(vert, SwapWinding(t)) == FaceCentroid(vert, t)
  {
  }

  /** When the stored normals are positive multiples of the face normals (as
      normalisation makes them), every face after `fixNorm` has its normal
      pointing away from the vertex mean, or along the plane through it. */
  lemma FixNormOutward(vert: seq<Vec3>, faces: seq<Tri>, norm: seq<Vec3>, mag: seq<real>, i: int)
    requires |vert| > 0 && ValidFaces(faces, |vert|) && |norm| == |faces| && |mag| == |faces|
    requires 0 <= i < |faces|
    requires 0 <= faces[i].a < |vert| && 0 <= faces[i].b < |vert| && 0 <= faces[i].c < |vert|
    requires mag[i] > 0.0 && norm[i] == Scale(mag[i], RawNormal(vert, faces[i]))
    ensures var t := FixNorm(vert, faces, norm)[i];
            0.0 <= Dot(Sub(FaceCentroid(vert, t), VecMean(vert)), RawNormal(vert, t))
  {
    var t := faces[i];
    var d := Sub(FaceCentroid(vert, t), VecMean(vert));
    var n := RawNormal(vert, t);
    SwapWindingNegatesNormal(vert, t);
    DotScale(mag[i], d, n);
    PositiveFactorSign(mag[i], Dot(d, n));
    DotNeg(d, n);
    if Inward(vert, t, norm[i]) {
      assert FixNorm(vert, faces, norm)[i] == SwapWinding(t);
    } else {
      assert FixNorm(vert, faces, norm)[i] == t;
    }
  }

  // ---------------------------------------------------------------------
  // calcVNorm

  /** `faces.flatten()`. */
  function FlatFaces(faces: seq<Tri>): (fl: seq<int>)
    ensures |fl| == 3 * |faces|
    ensures forall p :: 0 <= p < |fl| ==> fl[p] == faces[p / 3].Corner(p % 3)
  {
    seq(3 * |faces|, p requires 0 <= p < 3 * |faces| => faces[p / 3].Corner(p % 3))
  }

  lemma FlatFacesInRange(faces: seq<Tri>, n: nat)
    requires ValidFaces(faces, n)
    ensures G.InRange(FlatFaces(faces), n)
  {
    var fl := FlatFaces(faces);
    forall p | 0 <= p < |fl| ensures 0 <= fl[p] < n {
      assert fl[p] == faces[p / 3].Corner(p % 3);
    }
  }

  /** The normals of the faces around vertex `i`, one per corner at `i`, taken
      through the argsort/searchsorted grouping (`norms[ndx[i]:ndx[i+1]]`). */
  function IncidentNormals(faces: seq<Tri>, norm: seq<Vec3>, n: nat, i: nat): (ns: seq<Vec3>)
    requires ValidFaces(faces, n) && |norm| == |faces| && i < n
    ensures |ns| == G.Count(FlatFaces(faces), i)
  {
    FlatFacesInRange(faces, n);
    var grp := G.Group(FlatFaces(faces), n, i);
    seq(|grp|, k requires 0 <= k < |grp| => FlatIndex(grp[k], |faces|); norm[grp[k] / 3])
  }

  lemma FlatIndex(p: int, m: nat)
    requires 0 <= p < 3 * m
    ensures 0 <= p / 3 < m && 0 <= p % 3 < 3
  {
  }

  /** Every normal in the list belongs to a face at vertex `i`. */
  lemma IncidentNormalsSound(faces: seq<Tri>, norm: seq<Vec3>, n: nat, i: nat, k: int)
    requires ValidFaces(faces, n) && |norm| == |faces| && i < n
    requires 0 <= k < |IncidentNormals(faces, norm, n, i)|
    ensures exists f :: 0 <= f < |faces| && faces[f].Has(i) && IncidentNormals(faces, norm, n, i)[k] == norm[f]
  {
    FlatFacesInRange(faces, n);
    var fl := FlatFaces(faces);
    var grp := G.Group(fl, n, i);
    var p := grp[k];
    FlatIndex(p, |faces|);
    var f, c := p / 3, p % 3;
    assert fl[p] == faces[f].Corner(c) == i;
    assert IncidentNormals(faces, norm, n, i)[k] == norm[f];
  }

  /** Every corner at vertex `i` contributes its face's normal. */
  lemma IncidentNormalsComplete(faces: seq<Tri>, norm: seq<Vec3>, n: nat, i: nat, f: int, c: int)
    requires ValidFaces(faces, n) && |norm| == |faces| && i < n
    requires 0 <= f < |faces| && 0 <= c < 3 && faces[f].Corner(c) == i
    ensures norm[f] in IncidentNormals(faces, norm, n, i)
  {
    FlatFacesInRange(faces, n);
    var fl := FlatFaces(faces);
    var p := 3 * f + c;
    assert p / 3 == f && p % 3 == c;
    var grp := G.Group(fl, n, i);
    assert p in grp;
    var k :| 0 <= k < |grp| && grp[k] == p;
    assert IncidentNormals(faces, norm, n, i)[k] == norm[f];
  }

  /** `calcVNorm`: the mean of the normals of the faces at each vertex. A
      vertex in no face would take the mean of nothing (NaN), so every vertex
      is required to be used. */
  function VertexNormals(vert: seq<Vec3>, faces: seq<Tri>, norm: seq<Vec3>): (vn: seq<Vec3>)
    requires ValidFaces(faces, |vert|) && |norm| == |faces|
    requires forall i :: 0 <= i < |vert| ==> G.Count(FlatFaces(faces), i) > 0
    ensures |vn| == |vert|
    ensures forall i :: 0 <= i < |vert| ==> vn[i] == VecMean(IncidentNormals(faces, norm, |vert|, i))
  {
    seq(|vert|, i requires 0 <= i < |vert| => VecMean(IncidentNormals(faces, norm, |vert|, i)))
  }
}

=== FILE: transform.dfy ===
/** The rigid and affine transforms of `AmpObject` and their argument checks:
    `translate`, `centre`, `scale`, `rotMatrix`, `rotateAng`, `rotate`,
    `rigidTransform` and `flip`. Only the vertices (and, for `flip`, the face
    winding) change; faces and values are carried along untouched. */
module Transform {
  import opened Wrappers
  import opened Linalg
  import opened PyArgs
  import opened Topology

  // ---------------------------------------------------------------------
  // translate, centre, scale

  /** `translate(trans)`: `trans` must be a list, tuple or array (else
      TypeError) of length 3 (else ValueError); then the same vector is added
      to every vertex. */
  function Translate(m: Mesh, t: PyValue): (r: Result<Mesh>)
    ensures !IsArrayLike(t) ==> r == Err(TypeError)
    ensures IsArrayLike(t) && |t.items| != 3 ==> r == Err(ValueError)
    ensures r.Ok? <==> IsArrayLike(t) && |t.items| == 3 && AsVec(t).Ok?
    ensures r.Ok? ==>
      && r.value.faces == m.faces
      && r.value.values == m.values
      && |r.value.vert| == |m.vert|
      && forall i :: 0 <= i < |m.vert| ==> r.value.vert[i] == Add(m.vert[i], AsVec(t).value)
  {
    if !IsArrayLike(t) then Err(TypeError)
    else if |t.items| != 3 then Err(ValueError)
    else
      var d :- AsVec(t);
      Ok(m.(vert := Shift(m.vert, d)))
  }

  /** Translating by `t` and then by `-t` gives back the mesh. */
  lemma TranslateBack(m: Mesh, t: Vec3)
    ensures Translate(m, FromVec(t)).Ok?
    ensures Translate(Translate(m, FromVec(t)).value, FromVec(Neg(t))) == Ok(m)
  {
    var m1 := Translate(m, FromVec(t)).value;
    var m2 := Translate(m1, FromVec(Neg(t))).value;
    assert m2.vert == m.vert;
  }

  /** `centre()`: translate by minus the vertex mean. An empty mesh has no
      rows to move (NumPy's mean is NaN, but nothing is added to). */
  function Centre(m: Mesh): (r: Mesh)
    ensures r.faces == m.faces && r.values == m.values && |r.vert| == |m.vert|
    ensures forall i, j :: 0 <= i < |m.vert| && 0 <= j < |m.vert| ==>
      Sub(r.vert[i], m.vert[i]) == Sub(r.vert[j], m.vert[j])
    ensures |m.vert| > 0 ==> VecMean(r.vert) == Zero
  {
    if |m.vert| == 0 then m
    else
      var c := VecMean(m.vert);
      var r := Translate(m, FromVec(Neg(c))).value;
      CentredMean(m.vert, c);
      r
  }

  lemma CentredMean(s: seq<Vec3>, c: Vec3)
    requires |s| > 0 && c == VecMean(s)
    ensures VecMean(Shift(s, Neg(c))) == Zero
  {
    VecMeanShift(s, Neg(c));
  }

  /** `scale(sf)`: every vertex multiplied by `sf`. */
  function ScaleMesh(m: Mesh, sf: real): (r: Mesh)
    ensures r.faces == m.faces && r.values == m.values && |r.vert| == |m.vert|
    ensures forall i :: 0 <= i < |m.vert| ==> r.vert[i] == Scale(sf, m.vert[i])
  {
    m.(vert := seq(|m.vert|, i requires 0 <= i < |m.vert| => Scale(sf, m.vert[i])))
  }

  /** Scaling by `sf` and then by `1/sf` gives back the mesh. */
  lemma ScaleBack(m: Mesh, sf: real)
    requires sf != 0.0
    ensures ScaleMesh(ScaleMesh(m, sf), 1.0 / sf) == m
  {
    var r := ScaleMesh(ScaleMesh(m, sf), 1.0 / sf);
    forall i | 0 <= i < |m.vert| ensures r.vert[i] == m.vert[i] {
      var v := m.vert[i];
      assert (1.0 / sf) * (sf * v.x) == v.x;
      assert (1.0 / sf) * (sf * v.y) == v.y;
      assert (1.0 / sf) * (sf * v.z) == v.z;
    }
  }

  // ---------------------------------------------------------------------
  // rotMatrix, rotate, rotateAng, rigidTransform

  predicate ValidAng(ang: string) { ang == "rad" || ang == "deg" }

  /** Rotation about x, then y, then z: the product Rz Ry Rx. */
  function Euler(tr: Trig, a: Vec3): Mat3 {
    MatMul(MatMul(RotZ(tr.cos(a.z), tr.sin(a.z)), RotY(tr.cos(a.y), tr.sin(a.y))),
           RotX(tr.cos(a.x), tr.sin(a.x)))
  }

  /** `np.deg2rad`. */
  function DegToRad(a: Vec3, tr: Trig): Vec3 {
    Scale(tr.pi / 180.0, a)
  }

  /** The angles in radians. */
  function Radians(a: Vec3, ang: string, tr: Trig): Vec3 {
    if ang == "deg" then DegToRad(a, tr) else a
  }

  /** `rotMatrix(rot, ang)`: checks the type of `rot` (TypeError), its length
      (ValueError) and then `ang` (ValueError). */
  function RotMatrix(rot: PyValue, ang: string, tr: Trig): (r: Result<Mat3>)
    ensures !IsArrayLike(rot) ==> r == Err(TypeError)
    ensures IsArrayLike(rot) && |rot.items| != 3 ==> r == Err(ValueError)
    ensures IsArrayLike(rot) && |rot.items| == 3 && !ValidAng(ang) ==> r == Err(ValueError)
    ensures r.Ok? <==> IsArrayLike(rot) && |rot.items| == 3 && ValidAng(ang) && AsVec(rot).Ok?
    ensures r.Ok? ==> r.value == Euler(tr, Radians(AsVec(rot).value, ang, tr))
  {
    if !IsArrayLike(rot) then Err(TypeError)
    else if |rot.items| != 3 then Err(ValueError)
    else if !ValidAng(ang) then Err(ValueError)
    else
      var a :- AsVec(rot);
      Ok(Euler(tr, Radians(a, ang, tr)))
  }

  lemma RotMatrixDeg(a: Vec3, tr: Trig)
    ensures RotMatrix(FromVec(a), "deg", tr) == Ok(Euler(tr, DegToRad(a, tr)))
  {
    assert ValidAng("deg");
    assert AsVec(FromVec(a)) == Ok(a);
    assert Radians(a, "deg", tr) == DegToRad(a, tr);
  }

  lemma RotMatrixRad(a: Vec3, tr: Trig)
    ensures RotMatrix(FromVec(a), "rad", tr) == Ok(Euler(tr, a))
  {
    assert ValidAng("rad");
    assert AsVec(FromVec(a)) == Ok(a);
    assert Radians(a, "rad", tr) == a by { assert "rad" != "deg"; }
  }

  /** Angles in degrees give the matrix of the same angles in radians. */
  lemma RotMatrixDegrees(a: Vec3, tr: Trig)
    ensures RotMatrix(FromVec(a), "deg", tr) == RotMatrix(FromVec(DegToRad(a, tr)), "rad", tr)
  {
    RotMatrixDeg(a, tr);
    RotMatrixRad(DegToRad(a, tr), tr);
  }

  /** The matrix rotates about x first, then y, then z. */
  lemma EulerApply(tr: Trig, a: Vec3, v: Vec3)
    ensures MatVec(Euler(tr, a), v)
         == MatVec(RotZ(tr.cos(a.z), tr.sin(a.z)),
              MatVec(RotY(tr.cos(a.y), tr.sin(a.y)),
                MatVec(RotX(tr.cos(a.x), tr.sin(a.x)), v)))
  {
    var rz, ry, rx := RotZ(tr.cos(a.z), tr.sin(a.z)), RotY(tr.cos(a.y), tr.sin(a.y)), RotX(tr.cos(a.x), tr.sin(a.x));
    MatMulApply(MatMul(rz, ry), rx, v);
    MatMulApply(rz, ry, MatVec(rx, v));
  }

  /** `vert = vert @ R.T`: every vertex becomes `R v`. */
  function RotateBy(m: Mesh, R: Mat3): (r: Mesh)
    ensures r.faces == m.faces && r.values == m.values && |r.vert| == |m.vert|
    ensures forall i :: 0 <= i < |m.vert| ==> r.vert[i] == MatVec(R, m.vert[i])
  {
    m.(vert := seq(|m.vert|, i requires 0 <= i < |m.vert| => MatVec(R, m.vert[i])))
  }

  /** Rotating by A and then by B is rotating by B A. */
  lemma RotateCompose(m: Mesh, A: Mat3, B: Mat3)
    ensures RotateBy(RotateBy(m, A), B) == RotateBy(m, MatMul(B, A))
  {
    var l, r := RotateBy(RotateBy(m, A), B), RotateBy(m, MatMul(B, A));
    forall i | 0 <= i < |m.vert| ensures l.vert[i] == r.vert[i] {
      MatMulApply(B, A, m.vert[i]);
    }
  }

  /** An orthogonal matrix is undone by its transpose. */
  lemma RotateBack(m: Mesh, R: Mat3)
    requires MatMul(Transpose(R), R) == Identity
    ensures RotateBy(RotateBy(m, R), Transpose(R)) == m
  {
    RotateCompose(m, R, Transpose(R));
    var r := RotateBy(m, Identity);
    assert r.vert == m.vert;
  }

  /** `rotate(R)`: `R` must be array-like and 3x3. */
  function Rotate(m: Mesh, R: PyValue): (r: Result<Mesh>)
    ensures !IsArrayLike(R) ==> r == Err(TypeError)
    ensures r.Ok? <==> AsMatrix(R).Ok?
    ensures r.Ok? ==> r.value == RotateBy(m, AsMatrix(R).value)
  {
    var M :- AsMatrix(R);
    Ok(RotateBy(m, M))
  }

  /** `rotateAng(rot, ang)`: `ang` is checked before the type of `rot`,
      the other way round from `rotMatrix`. */
  function RotateAng(m: Mesh, rot: PyValue, ang: string, tr: Trig): (r: Result<Mesh>)
    ensures !ValidAng(ang) ==> r == Err(ValueError)
    ensures ValidAng(ang) && !IsArrayLike(rot) ==> r == Err(TypeError)
    ensures r.Ok? <==> ValidAng(ang) && RotMatrix(rot, ang, tr).Ok?
    ensures r.Ok? ==> r.value == RotateBy(m, RotMatrix(rot, ang, tr).value)
  {
    if !ValidAng(ang) then Err(ValueError)
    else if !IsArrayLike(rot) then Err(TypeError)
    else
      var R :- RotMatrix(rot, ang, tr);
      Rotate(m, FromMat(R))
  }

  /** With a bad `ang` and a non-sequence `rot` the two entry points report
      different errors. */
  lemma CheckOrder(m: Mesh, tr: Trig)
    ensures RotateAng(m, PyInt(1), "grad", tr) == Err(ValueError)
    ensures RotMatrix(PyInt(1), "grad", tr) == Err(TypeError)
  {
  }

  /** `rigidTransform(R, T)`: rotate, then translate; either may be None,
      and a value that is not array-like is a TypeError. */
  function RigidTransform(m: Mesh, R: PyValue, T: PyValue): (r: Result<Mesh>)
    ensures !R.PyNone? && !IsArrayLike(R) ==> r == Err(TypeError)
    ensures R.PyNone? ==> r == (if T.PyNone? then Ok(m) else if IsArrayLike(T) then Translate(m, T) else Err(TypeError))
    ensures R.PyNone? && T.PyNone? ==> r == Ok(m)
    ensures IsArrayLike(R) && T.PyNone? ==> r == Rotate(m, R)
    ensures IsArrayLike(R) && Rotate(m, R).Err? ==> r == Rotate(m, R)
    ensures IsArrayLike(R) && Rotate(m, R).Ok? && !T.PyNone? && !IsArrayLike(T) ==> r == Err(TypeError)
    ensures IsArrayLike(R) && Rotate(m, R).Ok? && IsArrayLike(T) ==> r == Translate(Rotate(m, R).value, T)
    ensures r.Ok? && !R.PyNone? && !T.PyNone? ==>
      && AsMatrix(R).Ok? && IsArrayLike(T) && |T.items| == 3 && AsVec(T).Ok?
      && |r.value.vert| == |m.vert|
      && forall i :: 0 <= i < |m.vert| ==>
           r.value.vert[i] == Add(MatVec(AsMatrix(R).value, m.vert[i]), AsVec(T).value)
  {
    var m1 :- if R.PyNone? then Ok(m) else if IsArrayLike(R) then Rotate(m, R) else Err(TypeError);
    if T.PyNone? then Ok(m1) else if IsArrayLike(T) then Translate(m1, T) else Err(TypeError)
  }

  // ---------------------------------------------------------------------
  // flip

  /** `flip(axis)`: `axis` must be an int (TypeError) in 0..2 (ValueError);
      that coordinate is negated and face columns 1 and 2 are swapped so the
      normals keep facing outwards. */
  function Flip(m: Mesh, axis: PyValue): (r: Result<Mesh>)
    ensures !IsInt(axis) ==> r == Err(TypeError)
    ensures IsInt(axis) && !(0 <= IntValue(axis) < 3) ==> r == Err(ValueError)
    ensures r.Ok? <==> IsInt(axis) && 0 <= IntValue(axis) < 3
    ensures r.Ok? ==>
      && r.value.values == m.values
      && |r.value.vert| == |m.vert| && |r.value.faces| == |m.faces|
      && (forall i, k :: 0 <= i < |m.vert| && 0 <= k < 3 ==>
            r.value.vert[i].At(k) == if k == IntValue(axis) then -m.vert[i].At(k) else m.vert[i].At(k))
      && (forall f :: 0 <= f < |m.faces| ==>
            r.value.faces[f] == Tri(m.faces[f].a, m.faces[f].c, m.faces[f].b))
  {
    if !IsInt(axis) then Err(TypeError)
    else if !(0 <= IntValue(axis) < 3) then Err(ValueError)
    else
      var k := IntValue(axis);
      Ok(Mesh(seq(|m.vert|, i requires 0 <= i < |m.vert| => m.vert[i].With(k, -m.vert[i].At(k))),
              seq(|m.faces|, f requires 0 <= f < |m.faces| => SwapWinding(m.faces[f])),
              m.values))
  }

  /** Flipping twice about the same axis restores vertices and faces. */
  lemma FlipTwice(m: Mesh, axis: PyValue)
    requires IsInt(axis) && 0 <= IntValue(axis) < 3
    ensures Flip(Flip(m, axis).value, axis) == Ok(m)
  {
    var r := Flip(Flip(m, axis).value, axis).value;
    var k := IntValue(axis);
    forall i | 0 <= i < |m.vert| ensures r.vert[i] == m.vert[i] {
      assert forall j :: 0 <= j < 3 ==> r.vert[i].At(j) == m.vert[i].At(j);
      assert r.vert[i].At(0) == m.vert[i].At(0);
      assert r.vert[i].At(1) == m.vert[i].At(1);
      assert r.vert[i].At(2) == m.vert[i].At(2);
    }
    assert r.vert == m.vert;
    assert r.faces == m.faces;
  }
}

=== FILE: trim.dfy ===
/** Trimming a mesh against a plane (`planarTrim`, `threePointTrim`) and
    against a per-face distance (`dynamictrim`). */
module Trim {
  import opened Wrappers
  import opened Linalg
  import opened PyArgs
  import opened Topology
  import Slicing
  import U = Unique

  // ---------------------------------------------------------------------
  // Boolean masks

  /** The number of `true` entries (`mask.sum()`). */
  function Ones(b: seq<bool>): nat
  {
    if |b| == 0 then 0 else Ones(b[..|b| - 1]) + (if b[|b| - 1] then 1 else 0)
  }

  /** `s[mask]`: the entries whose mask entry is true, in order. */
  function Select<T>(s: seq<T>, keep: seq<bool>): (r: seq<T>)
    requires |keep| == |s|
    ensures |r| == Ones(keep)
  {
    if |s| == 0 then []
    else
      var n := |s| - 1;
      Select(s[..n], keep[..n]) + (if keep[n] then [s[n]] else [])
  }

  /** A kept entry lands at the number of kept entries before it. */
  lemma {:induction false} SelectAt<T>(s: seq<T>, keep: seq<bool>, v: int)
    requires |keep| == |s| && 0 <= v < |s| && keep[v]
    ensures Ones(keep[..v]) < |Select(s, keep)|
    ensures Select(s, keep)[Ones(keep[..v])] == s[v]
  {
    var n := |s| - 1;
    if v < n {
      SelectAt(s[..n], keep[..n], v);
      assert keep[..n][..v] == keep[..v];
    } else {
      assert keep[..n] == keep[..v];
    }
  }

  /** Every entry of the selection is a kept entry. */
  lemma {:induction false} SelectOnto<T>(s: seq<T>, keep: seq<bool>, i: int)
    requires |keep| == |s| && 0 <= i < |Select(s, keep)|
    ensures exists v :: 0 <= v < |s| && keep[v] && Ones(keep[..v]) == i
  {
    var n := |s| - 1;
    if i < Ones(keep[..n]) {
      SelectOnto(s[..n], keep[..n], i);
      var v :| 0 <= v < n && keep[..n][v] && Ones(keep[..n][..v]) == i;
      assert keep[..n][..v] == keep[..v];
    } else {
      assert keep[..n] == keep[..|keep| - 1];
      assert keep[n] && Ones(keep[..n]) == i;
    }
  }

  /** `np.cumsum(keep) - 1`. */
  function CumIndex(keep: seq<bool>): (r: seq<int>)
    ensures |r| == |keep|
    ensures forall v :: 0 <= v < |keep| ==> r[v] == Ones(keep[..v + 1]) - 1
  {
    seq(|keep|, v requires 0 <= v < |keep| => Ones(keep[..v + 1]) - 1)
  }

  /** For a kept entry, the cumulative count is its place in the selection. */
  lemma CumIndexKept(keep: seq<bool>, v: int)
    requires 0 <= v < |keep| && keep[v]
    ensures CumIndex(keep)[v] == Ones(keep[..v])
  {
    assert keep[..v + 1][..v] == keep[..v];
  }

  // ---------------------------------------------------------------------
  // Cutting against a threshold per vertex

  /** Vertex `v` lies above its threshold along `axis`. */
  predicate Above(vert: seq<Vec3>, h: seq<real>, axis: int, v: int)
    requires |h| == |vert| && 0 <= v < |vert| && 0 <= axis < 3
  {
    vert[v].At(axis) > h[v]
  }

  /** `fvlogic`: how many corners of a face lie above. */
  function AboveCount(vert: seq<Vec3>, h: seq<real>, axis: int, t: Tri): (k: nat)
    requires |h| == |vert| && t.Within(|vert|) && 0 <= axis < 3
    ensures k <= 3
    ensures k == 0 <==> !Above(vert, h, axis, t.a) && !Above(vert, h, axis, t.b) && !Above(vert, h, axis, t.c)
    ensures k == 3 <==> Above(vert, h, axis, t.a) && Above(vert, h, axis, t.b) && Above(vert, h, axis, t.c)
  {
    (if Above(vert, h, axis, t.a) then 1 else 0)
    + (if Above(vert, h, axis, t.b) then 1 else 0)
    + (if Above(vert, h, axis, t.c) then 1 else 0)
  }

  /** `v in adjv`: a corner of a face with one or two corners above. */
  predicate NearCut(vert: seq<Vec3>, faces: seq<Tri>, h: seq<real>, axis: int, v: int)
    requires ValidFaces(faces, |vert|) && |h| == |vert| && 0 <= axis < 3
  {
    exists f :: 0 <= f < |faces| && 1 <= AboveCount(vert, h, axis, faces[f]) <= 2 && faces[f].Has(v)
  }

  /** `v in abvInd`: a vertex of a straddling face that lies above. */
  predicate Lowered(vert: seq<Vec3>, faces: seq<Tri>, h: seq<real>, axis: int, v: int)
    requires ValidFaces(faces, |vert|) && |h| == |vert| && 0 <= v < |vert| && 0 <= axis < 3
  {
    NearCut(vert, faces, h, axis, v) && Above(vert, h, axis, v)
  }

  /** `vert[abvInd, axis] = h[abvInd]`: the lowered vertices are pulled down
      onto their threshold; no other coordinate and no other vertex
      changes. */
  function Clamp(vert: seq<Vec3>, faces: seq<Tri>, h: seq<real>, axis: int): (r: seq<Vec3>)
    requires ValidFaces(faces, |vert|) && |h| == |vert| && 0 <= axis < 3
    ensures |r| == |vert|
    ensures forall v :: 0 <= v < |vert| && Lowered(vert, faces, h, axis, v) ==>
      r[v].At(axis) == h[v] && r[v] == vert[v].With(axis, h[v])
    ensures forall v :: 0 <= v < |vert| && !Lowered(vert, faces, h, axis, v) ==> r[v] == vert[v]
  {
    seq(|vert|, v requires 0 <= v < |vert| =>
      if Lowered(vert, faces, h, axis, v) then vert[v].With(axis, h[v]) else vert[v])
  }

  /** `~delv`: the vertices at or below their threshold after clamping. */
  function KeepVert(vert: seq<Vec3>, faces: seq<Tri>, h: seq<real>, axis: int): (keep: seq<bool>)
    requires ValidFaces(faces, |vert|) && |h| == |vert| && 0 <= axis < 3
    ensures |keep| == |vert|
    ensures forall v :: 0 <= v < |vert| ==> (keep[v] <==> Clamp(vert, faces, h, axis)[v].At(axis) <= h[v])
  {
    var cl := Clamp(vert, faces, h, axis);
    seq(|vert|, v requires 0 <= v < |vert| => cl[v].At(axis) <= h[v])
  }

  /** `fvlogic != 3`: the faces with a corner at or below. */
  function KeepFace(vert: seq<Vec3>, faces: seq<Tri>, h: seq<real>, axis: int): (keep: seq<bool>)
    requires ValidFaces(faces, |vert|) && |h| == |vert| && 0 <= axis < 3
    ensures |keep| == |faces|
    ensures forall f :: 0 <= f < |faces| ==> (keep[f] <==> AboveCount(vert, h, axis, faces[f]) < 3)
  {
    seq(|faces|, f requires 0 <= f < |faces| => AboveCount(vert, h, axis, faces[f]) != 3)
  }

  /** The clamp, drop and remap shared by `planarTrim` and `threePointTrim`,
      with threshold `h[v]` for vertex `v` along `axis`. */
  function Cut(m: Mesh, h: seq<real>, axis: int): (r: Mesh)
    requires WellFormed(m) && |h| == |m.vert| && 0 <= axis < 3
  {
    var keepV := KeepVert(m.vert, m.faces, h, axis);
    var kept := Select(m.faces, KeepFace(m.vert, m.faces, h, axis));
    SelectValid(m.faces, KeepFace(m.vert, m.faces, h, axis), |m.vert|);
    Mesh(Select(Clamp(m.vert, m.faces, h, axis), keepV),
         Remap(kept, CumIndex(keepV)),
         Select(m.values, keepV))
  }

  lemma SelectValid(faces: seq<Tri>, keep: seq<bool>, n: int)
    requires |keep| == |faces| && ValidFaces(faces, n)
    ensures ValidFaces(Select(faces, keep), n)
  {
    var r := Select(faces, keep);
    forall i | 0 <= i < |r| ensures r[i].Within(n) {
      SelectOnto(faces, keep, i);
      var v :| 0 <= v < |faces| && keep[v] && Ones(keep[..v]) == i;
      SelectAt(faces, keep, v);
    }
  }

  /** The corners of a face that is kept are never deleted: a corner above
      its threshold makes the face straddle, so the corner is clamped. */
  lemma KeptCornerSurvives(m: Mesh, h: seq<real>, axis: int, f: int, v: int)
    requires WellFormed(m) && |h| == |m.vert| && 0 <= axis < 3
    requires 0 <= f < |m.faces| && AboveCount(m.vert, h, axis, m.faces[f]) < 3 && m.faces[f].Has(v)
    ensures 0 <= v < |m.vert| && KeepVert(m.vert, m.faces, h, axis)[v]
  {
    assert m.faces[f].Within(|m.vert|);
    if Above(m.vert, h, axis, v) {
      assert NearCut(m.vert, m.faces, h, axis, v);
      assert Lowered(m.vert, m.faces, h, axis, v);
    }
  }

  /** Trimmed vertex `i` comes from the kept vertex `v`. */
  ghost predicate VertexFrom(m: Mesh, h: seq<real>, axis: int, i: int, v: int)
    requires WellFormed(m) && |h| == |m.vert| && 0 <= axis < 3
  {
    && 0 <= i < |Cut(m, h, axis).vert| && 0 <= v < |m.vert|
    && KeepVert(m.vert, m.faces, h, axis)[v]
    && Cut(m, h, axis).vert[i] == Clamp(m.vert, m.faces, h, axis)[v]
  }

  /** The trimmed vertices are the kept ones, in their original order, and
      every one lies at or below its threshold. */
  lemma CutVertices(m: Mesh, h: seq<real>, axis: int, i: int) returns (v: int)
    requires WellFormed(m) && |h| == |m.vert| && 0 <= axis < 3
    requires 0 <= i < |Cut(m, h, axis).vert|
    ensures VertexFrom(m, h, axis, i, v) && Cut(m, h, axis).vert[i].At(axis) <= h[v]
  {
    var keepV := KeepVert(m.vert, m.faces, h, axis);
    var cl := Clamp(m.vert, m.faces, h, axis);
    SelectOnto(cl, keepV, i);
    v :| 0 <= v < |m.vert| && keepV[v] && Ones(keepV[..v]) == i;
    SelectAt(cl, keepV, v);
  }

  /** Corner `k` of trimmed face `j` is a vertex of the trimmed mesh, and the
      same (clamped) point as corner `k` of the original face `f`. */
  ghost predicate CornerFrom(m: Mesh, h: seq<real>, axis: int, j: int, f: int, k: int)
    requires WellFormed(m) && |h| == |m.vert| && 0 <= axis < 3
    requires 0 <= j < |Cut(m, h, axis).faces| && 0 <= f < |m.faces| && 0 <= k < 3
  {
    var r := Cut(m, h, axis);
    var cl := Clamp(m.vert, m.faces, h, axis);
    var t := m.faces[f];
    assert t.Within(|m.vert|);
    var v := if k == 0 then t.a else if k == 1 then t.b else t.c;
    assert v == t.Corner(k);
    && 0 <= r.faces[j].Corner(k) < |r.vert|
    && r.vert[r.faces[j].Corner(k)] == cl[v]
  }

  lemma CutCorner(m: Mesh, h: seq<real>, axis: int, f: int, k: int)
    requires WellFormed(m) && |h| == |m.vert| && 0 <= axis < 3
    requires 0 <= f < |m.faces| && AboveCount(m.vert, h, axis, m.faces[f]) < 3 && 0 <= k < 3
    ensures var keepF := KeepFace(m.vert, m.faces, h, axis);
      Ones(keepF[..f]) < |Cut(m, h, axis).faces| && CornerFrom(m, h, axis, Ones(keepF[..f]), f, k)
  {
    var keepV := KeepVert(m.vert, m.faces, h, axis);
    var keepF := KeepFace(m.vert, m.faces, h, axis);
    var cl := Clamp(m.vert, m.faces, h, axis);
    var kept := Select(m.faces, keepF);
    SelectValid(m.faces, keepF, |m.vert|);
    var r := Cut(m, h, axis);
    assert r.faces == Remap(kept, CumIndex(keepV));
    var j := Ones(keepF[..f]);
    SelectAt(m.faces, keepF, f);
    var v := m.faces[f].Corner(k);
    RemapCorner(kept, CumIndex(keepV), j, k);
    KeptCornerSurvives(m, h, axis, f, v);
    CumIndexKept(keepV, v);
    SelectAt(cl, keepV, v);
  }

  lemma RemapCorner(faces: seq<Tri>, ix: seq<int>, i: int, k: int)
    requires ValidFaces(faces, |ix|) && 0 <= i < |faces| && 0 <= k < 3
    ensures Remap(faces, ix)[i].Corner(k) == ix[faces[i].Corner(k)]
  {
  }

  /** The trimmed faces are kept original faces, corner for corner. */
  lemma CutFaces(m: Mesh, h: seq<real>, axis: int, j: int) returns (f: int)
    requires WellFormed(m) && |h| == |m.vert| && 0 <= axis < 3
    requires 0 <= j < |Cut(m, h, axis).faces|
    ensures 0 <= f < |m.faces| && AboveCount(m.vert, h, axis, m.faces[f]) < 3
    ensures forall k :: 0 <= k < 3 ==> CornerFrom(m, h, axis, j, f, k)
  {
    var keepF := KeepFace(m.vert, m.faces, h, axis);
    SelectOnto(m.faces, keepF, j);
    f :| 0 <= f < |m.faces| && keepF[f] && Ones(keepF[..f]) == j;
    forall k | 0 <= k < 3 ensures CornerFrom(m, h, axis, j, f, k) {
      CutCorner(m, h, axis, f, k);
    }
  }

  lemma CutWellFormed(m: Mesh, h: seq<real>, axis: int)
    requires WellFormed(m) && |h| == |m.vert| && 0 <= axis < 3
    ensures WellFormed(Cut(m, h, axis))
  {
    var r := Cut(m, h, axis);
    forall j | 0 <= j < |r.faces| ensures r.faces[j].Within(|r.vert|) {
      var f := CutFaces(m, h, axis, j);
      assert CornerFrom(m, h, axis, j, f, 0);
      assert CornerFrom(m, h, axis, j, f, 1);
      assert CornerFrom(m, h, axis, j, f, 2);
    }
  }

  /** The faces kept are exactly those with fewer than three corners above,
      in their original order. */
  lemma CutKeepsFaces(m: Mesh, h: seq<real>, axis: int, f: int)
    requires WellFormed(m) && |h| == |m.vert| && 0 <= axis < 3 && 0 <= f < |m.faces|
    requires AboveCount(m.vert, h, axis, m.faces[f]) < 3
    ensures var keepF := KeepFace(m.vert, m.faces, h, axis);
      Ones(keepF[..f]) < |Cut(m, h, axis).faces| &&
      Select(m.faces, keepF)[Ones(keepF[..f])] == m.faces[f]
  {
    SelectAt(m.faces, KeepFace(m.vert, m.faces, h, axis), f);
  }

  // ---------------------------------------------------------------------
  // planarTrim

  /** `planarTrim(height, plane)`: a `height` that is not a number or a
      `plane` that is not an int is a TypeError; a plane outside the three
      axes (after Python's negative indexing) fails the NumPy indexing. */
  function PlanarTrim(m: Mesh, height: PyValue, plane: PyValue): (r: Result<Mesh>)
    requires WellFormed(m)
    ensures !(IsNumber(height) && IsInt(plane)) ==> r == Err(TypeError)
    ensures IsNumber(height) && IsInt(plane) ==> (r.Ok? <==> -3 <= IntValue(plane) < 3)
    ensures r.Err? ==> r.error == TypeError || r.error == IndexError
    ensures r.Ok? ==> WellFormed(r.value)
    ensures r.Ok? ==> forall i :: 0 <= i < |r.value.vert| ==>
      r.value.vert[i].At(PlaneAxis(IntValue(plane))) <= NumValue(height)
  {
    if !(IsNumber(height) && IsInt(plane)) then Err(TypeError)
    else
      var axis :- PyIndex([0, 1, 2], IntValue(plane));
      var h := Levels(|m.vert|, NumValue(height));
      CutWellFormed(m, h, axis);
      CutBelowLevel(m, NumValue(height), axis);
      Ok(Cut(m, h, axis))
  }

  /** The same threshold for each of `n` vertices. */
  function Levels(n: nat, level: real): (h: seq<real>)
    ensures |h| == n && forall v :: 0 <= v < n ==> h[v] == level
  {
    seq(n, _ => level)
  }

  /** Against a single level every kept vertex is at or below it. */
  lemma CutBelowLevel(m: Mesh, level: real, axis: int)
    requires WellFormed(m) && 0 <= axis < 3
    ensures var r := Cut(m, Levels(|m.vert|, level), axis);
            forall i :: 0 <= i < |r.vert| ==> r.vert[i].At(axis) <= level
  {
    var h := Levels(|m.vert|, level);
    var r := Cut(m, h, axis);
    forall i | 0 <= i < |r.vert| ensures r.vert[i].At(axis) <= level {
      var v := CutVertices(m, h, axis, i);
    }
  }

  /** The axis a valid `plane` argument selects. */
  function PlaneAxis(plane: int): (axis: int)
    ensures 0 <= plane < 3 ==> axis == plane
    ensures -3 <= plane < 0 ==> axis == plane + 3
  {
    if plane < 0 then plane + 3 else plane
  }

  // ---------------------------------------------------------------------
  // threePointTrim

  /** The plane through three points as `threePointTrim` sets it up: the
      normal `c = (p1 - p0) x (p2 - p0)` and offset `k = -c . p0`. The code
      divides `c` by its length first; every height below is a ratio in
      which that length cancels, so the unnormalised normal is used. */
  function PlaneOffset(p0: Vec3, p1: Vec3, p2: Vec3): real {
    -Dot(TriNormal(p0, p1, p2), p0)
  }

  /** The height of the plane above `(x, y)` as the code computes it:
      `-(x c0 + y c0 + k) / c2`, with the x component also used for y. */
  function HeightAsWritten(c: Vec3, k: real, p: Vec3): real
    requires c.z != 0.0
  {
    -(p.x * c.x + p.y * c.x + k) / c.z
  }

  /** The height of the plane above `(x, y)`: `-(x c0 + y c1 + k) / c2`. */
  function Height(c: Vec3, k: real, p: Vec3): real
    requires c.z != 0.0
  {
    -(p.x * c.x + p.y * c.y + k) / c.z
  }

  /** The height depends on x and y only. */
  lemma HeightXY(c: Vec3, k: real, p: Vec3, q: Vec3)
    requires c.z != 0.0 && p.x == q.x && p.y == q.y
    ensures Height(c, k, p) == Height(c, k, q)
  {
  }

  /** The point at that height lies on the plane `c . p + k = 0`. */
  lemma HeightOnPlane(c: Vec3, k: real, p: Vec3)
    requires c.z != 0.0
    ensures Dot(c, Vec3(p.x, p.y, Height(c, k, p))) + k == 0.0
  {
    var z := Height(c, k, p);
    assert c.z * z == -(p.x * c.x + p.y * c.y + k);
  }

  /** The three points lie on the plane `c . p + k = 0`. */
  lemma PointsOnPlane(p0: Vec3, p1: Vec3, p2: Vec3)
    ensures var c := TriNormal(p0, p1, p2); var k := PlaneOffset(p0, p1, p2);
      Dot(c, p0) + k == 0.0 && Dot(c, p1) + k == 0.0 && Dot(c, p2) + k == 0.0
  {
    var c := TriNormal(p0, p1, p2);
    var u := Sub(p1, p0);
    var w := Sub(p2, p0);
    CrossOrthogonal(u, w);
    assert Dot(c, p1) == Dot(c, p0) + Dot(c, u);
    assert Dot(c, p2) == Dot(c, p0) + Dot(c, w);
  }

  /** The two heights agree exactly when the normal's x and y components
      agree or the point has `y = 0`. */
  lemma HeightAsWrittenAgrees(c: Vec3, k: real, p: Vec3)
    requires c.z != 0.0
    ensures HeightAsWritten(c, k, p) == Height(c, k, p) <==> p.y * (c.x - c.y) == 0.0
  {
    var n1 := -(p.x * c.x + p.y * c.x + k);
    var n2 := -(p.x * c.x + p.y * c.y + k);
    assert n1 - n2 == -(p.y * (c.x - c.y));
    assert HeightAsWritten(c, k, p) == n1 / c.z;
    assert Height(c, k, p) == n2 / c.z;
    assert n1 / c.z - n2 / c.z == (n1 - n2) / c.z;
  }

  /** The height as written depends on x and y only. */
  lemma HeightAsWrittenXY(c: Vec3, k: real, p: Vec3, q: Vec3)
    requires c.z != 0.0 && p.x == q.x && p.y == q.y
    ensures HeightAsWritten(c, k, p) == HeightAsWritten(c, k, q)
  {
  }

  /** `height` as `threePointTrim` computes it for each vertex. */
  function HeightsAsWritten(vert: seq<Vec3>, c: Vec3, k: real): (h: seq<real>)
    requires c.z != 0.0
    ensures |h| == |vert|
    ensures forall v :: 0 <= v < |vert| ==> h[v] == HeightAsWritten(c, k, vert[v])
  {
    seq(|vert|, v requires 0 <= v < |vert| => HeightAsWritten(c, k, vert[v]))
  }

  /** The per-vertex heights of the plane. */
  function Heights(vert: seq<Vec3>, c: Vec3, k: real): (h: seq<real>)
    requires c.z != 0.0
    ensures |h| == |vert|
    ensures forall v :: 0 <= v < |vert| ==> h[v] == Height(c, k, vert[v])
  {
    seq(|vert|, v requires 0 <= v < |vert| => Height(c, k, vert[v]))
  }

  /** `threePointTrim(p0, p1, p2)` as written: the clamp, drop and remap of
      `Cut` along z against the per-vertex height with `c0` in place of `c1`.
      Every remaining vertex lies on or below that height. */
  function ThreePointTrim(m: Mesh, p0: Vec3, p1: Vec3, p2: Vec3): (r: Mesh)
    requires WellFormed(m) && TriNormal(p0, p1, p2).z != 0.0
    ensures WellFormed(r)
    ensures forall i :: 0 <= i < |r.vert| ==>
      r.vert[i].z <= HeightAsWritten(TriNormal(p0, p1, p2), PlaneOffset(p0, p1, p2), r.vert[i])
  {
    var c := TriNormal(p0, p1, p2);
    var k := PlaneOffset(p0, p1, p2);
    var h := HeightsAsWritten(m.vert, c, k);
    CutWellFormed(m, h, 2);
    var r := Cut(m, h, 2);
    forall i | 0 <= i < |r.vert| ensures r.vert[i].z <= HeightAsWritten(c, k, r.vert[i]) {
      var v := CutVertices(m, h, 2, i);
      var cl := Clamp(m.vert, m.faces, h, 2);
      assert cl[v].x == m.vert[v].x && cl[v].y == m.vert[v].y;
      HeightAsWrittenXY(c, k, cl[v], m.vert[v]);
    }
    r
  }

  /** `threePointTrim` with the plane's own height `-(x c0 + y c1 + k) / c2`:
      every remaining vertex lies on or below the plane through the three
      points. */
  function ThreePointTrimIntended(m: Mesh, p0: Vec3, p1: Vec3, p2: Vec3): (r: Mesh)
    requires WellFormed(m) && TriNormal(p0, p1, p2).z != 0.0
    ensures WellFormed(r)
    ensures forall i :: 0 <= i < |r.vert| ==> BelowPlane(TriNormal(p0, p1, p2), PlaneOffset(p0, p1, p2), r.vert[i])
  {
    var c := TriNormal(p0, p1, p2);
    var k := PlaneOffset(p0, p1, p2);
    var h := Heights(m.vert, c, k);
    CutWellFormed(m, h, 2);
    var r := Cut(m, h, 2);
    forall i | 0 <= i < |r.vert| ensures BelowPlane(c, k, r.vert[i]) {
      var v := CutVertices(m, h, 2, i);
      var cl := Clamp(m.vert, m.faces, h, 2);
      assert cl[v].x == m.vert[v].x && cl[v].y == m.vert[v].y;
      HeightXY(c, k, cl[v], m.vert[v]);
    }
    r
  }

  /** When the normal's x and y components agree the two trims coincide. */
  lemma ThreePointTrimAgrees(m: Mesh, p0: Vec3, p1: Vec3, p2: Vec3)
    requires WellFormed(m) && TriNormal(p0, p1, p2).z != 0.0
    requires TriNormal(p0, p1, p2).x == TriNormal(p0, p1, p2).y
    ensures ThreePointTrim(m, p0, p1, p2) == ThreePointTrimIntended(m, p0, p1, p2)
  {
    var c := TriNormal(p0, p1, p2);
    var k := PlaneOffset(p0, p1, p2);
    forall v | 0 <= v < |m.vert| ensures HeightAsWritten(c, k, m.vert[v]) == Height(c, k, m.vert[v]) {
      HeightAsWrittenAgrees(c, k, m.vert[v]);
    }
    assert HeightsAsWritten(m.vert, c, k) == Heights(m.vert, c, k);
  }

  /** `p` is on or below the plane: its z is at most the plane's height
      above its (x, y). */
  predicate BelowPlane(c: Vec3, k: real, p: Vec3)
    requires c.z != 0.0
  {
    p.z <= Height(c, k, p)
  }

  // ---------------------------------------------------------------------
  // dynamictrim

  /** `faceid`: the faces whose nearest-neighbour distance (given) is below
      `maxdist` in absolute value, in increasing order. */
  function FaceIds(dist: seq<real>, maxdist: real): (ids: seq<int>)
    ensures forall i :: 0 <= i < |ids| ==> 0 <= ids[i] < |dist| && Abs(dist[ids[i]]) < maxdist
    ensures forall f :: 0 <= f < |dist| && Abs(dist[f]) < maxdist ==> f in ids
    ensures forall i, j :: 0 <= i < j < |ids| ==> ids[i] < ids[j]
  {
    if |dist| == 0 then []
    else
      var n := |dist| - 1;
      var ids := FaceIds(dist[..n], maxdist);
      assert forall f :: 0 <= f < n ==> dist[..n][f] == dist[f];
      if Abs(dist[n]) < maxdist then ids + [n] else ids
  }

  /** `list(dict.fromkeys(vertid))`: the corners of the kept faces, each
      once, in the order they first appear. */
  function VertIds(faces: seq<Tri>, ids: seq<int>): (vertid: seq<int>)
    requires forall i :: 0 <= i < |ids| ==> 0 <= ids[i] < |faces|
    ensures forall x :: x in vertid <==> x in FlatFaces(Points(faces, ids))
    ensures Slicing.Distinct(vertid)
  {
    Slicing.Dedup(FlatFaces(Points(faces, ids)))
  }

  /** Every corner of a kept face is among `vertid`. */
  lemma CornerInVertIds(faces: seq<Tri>, ids: seq<int>, i: int, k: int)
    requires forall i :: 0 <= i < |ids| ==> 0 <= ids[i] < |faces|
    requires 0 <= i < |ids| && 0 <= k < 3
    ensures faces[ids[i]].Corner(k) in VertIds(faces, ids)
  {
    var fl := FlatFaces(Points(faces, ids));
    assert fl[3 * i + k] == faces[ids[i]].Corner(k);
  }

  lemma VertIdsInRange(m: Mesh, ids: seq<int>)
    requires WellFormed(m) && forall i :: 0 <= i < |ids| ==> 0 <= ids[i] < |m.faces|
    ensures forall x :: 0 <= x < |VertIds(m.faces, ids)| ==> 0 <= VertIds(m.faces, ids)[x] < |m.vert|
  {
    var vertid := VertIds(m.faces, ids);
    var fl := FlatFaces(Points(m.faces, ids));
    forall x | 0 <= x < |vertid| ensures 0 <= vertid[x] < |m.vert| {
      var p := U.IndexOf(fl, vertid[x]);
      assert m.faces[ids[p / 3]].Within(|m.vert|);
    }
  }

  /** `vertid.index(...)` on each corner of a kept face. */
  function Reindex(t: Tri, vertid: seq<int>): (r: Tri)
    requires t.a in vertid && t.b in vertid && t.c in vertid
    ensures r.Within(|vertid|)
    ensures forall k :: 0 <= k < 3 ==> vertid[r.Corner(k)] == t.Corner(k)
  {
    Tri(U.IndexOf(vertid, t.a), U.IndexOf(vertid, t.b), U.IndexOf(vertid, t.c))
  }

  function ReindexAll(faces: seq<Tri>, ids: seq<int>): (r: seq<Tri>)
    requires forall i :: 0 <= i < |ids| ==> 0 <= ids[i] < |faces|
    ensures |r| == |ids|
    ensures forall i, k :: 0 <= i < |ids| && 0 <= k < 3 ==>
      0 <= r[i].Corner(k) < |VertIds(faces, ids)| && VertIds(faces, ids)[r[i].Corner(k)] == faces[ids[i]].Corner(k)
  {
    var vertid := VertIds(faces, ids);
    seq(|ids|, i requires 0 <= i < |ids| =>
      CornerInVertIds(faces, ids, i, 0);
      CornerInVertIds(faces, ids, i, 1);
      CornerInVertIds(faces, ids, i, 2);
      Reindex(faces[ids[i]], vertid))
  }

  /** `dynamictrim(s, m, maxdist)` with the distances from the k-d tree
      query given. */
  function DynamicTrim(m: Mesh, dist: seq<real>, maxdist: real): (r: Mesh)
    requires WellFormed(m) && |dist| == |m.faces|
    ensures WellFormed(r)
  {
    var ids := FaceIds(dist, maxdist);
    var vertid := VertIds(m.faces, ids);
    VertIdsInRange(m, ids);
    var faces := ReindexAll(m.faces, ids);
    assert forall i :: 0 <= i < |faces| ==> faces[i].Within(|vertid|) by {
      forall i | 0 <= i < |faces| ensures faces[i].Within(|vertid|) {
        assert 0 <= faces[i].Corner(0) < |vertid|;
        assert 0 <= faces[i].Corner(1) < |vertid|;
        assert 0 <= faces[i].Corner(2) < |vertid|;
      }
    }
    Mesh(Points(m.vert, vertid), faces, Points(m.values, vertid))
  }

  /** The faces of the trimmed mesh are the kept faces in order, each with
      the same corner points as before. */
  lemma DynamicTrimFaces(m: Mesh, dist: seq<real>, maxdist: real, i: int, k: int)
    requires WellFormed(m) && |dist| == |m.faces|
    requires 0 <= i < |DynamicTrim(m, dist, maxdist).faces| && 0 <= k < 3
    ensures var ids := FaceIds(dist, maxdist);
      var r := DynamicTrim(m, dist, maxdist);
      |r.faces| == |ids| &&
      r.vert[r.faces[i].Corner(k)] == m.vert[m.faces[ids[i]].Corner(k)]
  {
  }

  /** Every vertex of the trimmed mesh is a corner of one of its faces. */
  lemma DynamicTrimVerticesUsed(m: Mesh, dist: seq<real>, maxdist: real, j: int)
    requires WellFormed(m) && |dist| == |m.faces|
    requires 0 <= j < |DynamicTrim(m, dist, maxdist).vert|
    ensures var r := DynamicTrim(m, dist, maxdist);
      exists i, k :: 0 <= i < |r.faces| && 0 <= k < 3 && r.faces[i].Corner(k) == j
  {
    var ids := FaceIds(dist, maxdist);
    var vertid := VertIds(m.faces, ids);
    var r := DynamicTrim(m, dist, maxdist);
    var fl := FlatFaces(Points(m.faces, ids));
    var p := U.IndexOf(fl, vertid[j]);
    var i, k := p / 3, p % 3;
    assert m.faces[ids[i]].Corner(k) == vertid[j];
    Slicing.IndexOfAt(vertid, vertid[j], j);
    assert r.faces[i].Corner(k) == j;
  }
}

/** The plane-height discrepancy of `threePointTrim` on a concrete plane. */
module TrimExample {
  import opened Linalg
  import Trim

  /** Take the plane through (0,0,0), (1,0,0) and (0,1,1), which is `z = y`
      (normal (0, -1, 1), offset 0: `ExampleNormal`, `OffsetAtOrigin`).
      Above (0, 1) the height as written is 0, where the plane is at height 1
      (`ExampleHeight`), so the vertex (0, 1, 0.5), which lies below the
      plane, counts as above it and is trimmed. */
  lemma HeightAsWrittenWrong()
    ensures Trim.HeightAsWritten(Vec3(0.0, -1.0, 1.0), 0.0, Vec3(0.0, 1.0, 0.5)) == 0.0
  {
  }

  lemma ExampleNormal()
    ensures TriNormal(Vec3(0.0, 0.0, 0.0), Vec3(1.0, 0.0, 0.0), Vec3(0.0, 1.0, 1.0)) == Vec3(0.0, -1.0, 1.0)
  {
    NormalOfPoints(Vec3(0.0, 0.0, 0.0), Vec3(1.0, 0.0, 0.0), Vec3(0.0, 1.0, 1.0));
  }

  lemma NormalOfPoints(o: Vec3, u: Vec3, w: Vec3)
    requires o == Vec3(0.0, 0.0, 0.0) && u == Vec3(1.0, 0.0, 0.0) && w == Vec3(0.0, 1.0, 1.0)
    ensures TriNormal(o, u, w) == Vec3(0.0, -1.0, 1.0)
  {
  }

  lemma OffsetAtOrigin(p1: Vec3, p2: Vec3)
    ensures Trim.PlaneOffset(Vec3(0.0, 0.0, 0.0), p1, p2) == 0.0
  {
    var c := TriNormal(Vec3(0.0, 0.0, 0.0), p1, p2);
    assert Dot(c, Vec3(0.0, 0.0, 0.0)) == 0.0;
  }

  lemma ExampleHeight()
    ensures Trim.Height(Vec3(0.0, -1.0, 1.0), 0.0, Vec3(0.0, 1.0, 0.5)) == 1.0
  {
  }
}

=== FILE: unique.dfy ===
/** `np.unique(a, return_inverse=True, axis=0)`: the distinct rows of `a` in
    strictly increasing order, and for every input row its index in that list.
    The order is a parameter so that the same definition serves vertex rows
    (lexicographic on reals) and edge rows (lexicographic on integers). */
module Unique {

  ghost predicate StrictTotalOrder<T(!new)>(less: (T, T) -> bool) {
    && (forall x :: !less(x, x))
    && (forall x, y, z :: less(x, y) && less(y, z) ==> less(x, z))
    && (forall x, y :: x != y ==> less(x, y) || less(y, x))
  }

  ghost predicate StrictlyIncreasing<T>(s: seq<T>, less: (T, T) -> bool) {
    forall i, j :: 0 <= i < j < |s| ==> less(s[i], s[j])
  }

  ghost predicate SameElements<T(!new)>(a: seq<T>, b: seq<T>) {
    forall y :: y in a <==> y in b
  }

  /** Puts `x` into the strictly increasing list `s` unless it is already there. */
  function Insert<T(==)>(s: seq<T>, x: T, less: (T, T) -> bool): seq<T>
  {
    if |s| == 0 then [x]
    else if x == s[0] then s
    else if less(x, s[0]) then [x] + s
    else [s[0]] + Insert(s[1..], x, less)
  }

  lemma {:induction false} InsertKeepsOrder<T(!new)>(s: seq<T>, x: T, less: (T, T) -> bool)
    requires StrictTotalOrder(less)
    requires StrictlyIncreasing(s, less)
    ensures StrictlyIncreasing(Insert(s, x, less), less)
    ensures forall y :: y in Insert(s, x, less) <==> y in s || y == x
  {
    if |s| == 0 {
    } else if x == s[0] {
    } else if less(x, s[0]) {
      var r := [x] + s;
      forall i, j | 0 <= i < j < |r| ensures less(r[i], r[j]) {
        if i > 0 {
          assert less(s[i - 1], s[j - 1]);
        } else if j > 1 {
          assert less(s[0], s[j - 1]);
        }
      }
    } else {
      assert less(s[0], x);
      var t := s[1..];
      assert StrictlyIncreasing(t, less) by {
        forall i, j | 0 <= i < j < |t| ensures less(t[i], t[j]) {
          assert less(s[i + 1], s[j + 1]);
        }
      }
      InsertKeepsOrder(t, x, less);
      var r := [s[0]] + Insert(t, x, less);
      assert forall y :: y in s <==> y == s[0] || y in t by {
        assert s == [s[0]] + t;
      }
      forall i, j | 0 <= i < j < |r| ensures less(r[i], r[j]) {
        if i == 0 {
          var y := r[j];
          assert y in Insert(t, x, less);
          if y != x {
            var k :| 0 <= k < |t| && t[k] == y;
            assert less(s[0], s[k + 1]);
          }
        }
      }
    }
  }

  /** The distinct elements of `s`, in strictly increasing order. */
  function UniqueRows<T(==,!new)>(s: seq<T>, less: (T, T) -> bool): (r: seq<T>)
    requires StrictTotalOrder(less)
    ensures StrictlyIncreasing(r, less)
    ensures SameElements(r, s)
  {
    if |s| == 0 then []
    else
      var r' := UniqueRows(s[..|s| - 1], less);
      InsertKeepsOrder(r', s[|s| - 1], less);
      assert s == s[..|s| - 1] + [s[|s| - 1]];
      Insert(r', s[|s| - 1], less)
  }

  lemma IncreasingIsDistinct<T(!new)>(s: seq<T>, less: (T, T) -> bool, i: int, j: int)
    requires StrictTotalOrder(less)
    requires StrictlyIncreasing(s, less)
    requires 0 <= i < |s| && 0 <= j < |s| && i != j
    ensures s[i] != s[j]
  {
    if i < j { assert less(s[i], s[j]); } else { assert less(s[j], s[i]); }
  }

  lemma IncreasingInjective<T(!new)>(s: seq<T>, less: (T, T) -> bool, i: int, j: int)
    requires StrictTotalOrder(less)
    requires StrictlyIncreasing(s, less)
    requires 0 <= i < |s| && 0 <= j < |s|
    ensures s[i] == s[j] ==> i == j
  {
    if i != j { IncreasingIsDistinct(s, less, i, j); }
  }

  lemma EmptyAlike<T(!new)>(a: seq<T>, b: seq<T>)
    requires SameElements(a, b)
    ensures |a| == 0 <==> |b| == 0
  {
    if |a| > 0 { assert a[0] in b; }
    if |b| > 0 { assert b[0] in a; }
  }

  /** A strictly increasing list is determined by its elements: so the
      postconditions of `UniqueRows` pin its result down completely. */
  lemma {:induction false} IncreasingUnique<T(!new)>(a: seq<T>, b: seq<T>, less: (T, T) -> bool)
    requires StrictTotalOrder(less)
    requires StrictlyIncreasing(a, less) && StrictlyIncreasing(b, less)
    requires SameElements(a, b)
    ensures a == b
  {
    EmptyAlike(a, b);
    if |a| == 0 {
    } else {
      assert a[0] in b;
      assert b[0] in a;
      var ia :| 0 <= ia < |a| && a[ia] == b[0];
      var ib :| 0 <= ib < |b| && b[ib] == a[0];
      assert a[0] == b[0];
      var a', b' := a[1..], b[1..];
      assert StrictlyIncreasing(a', less) by {
        forall i, j | 0 <= i < j < |a'| ensures less(a'[i], a'[j]) {
          assert less(a[i + 1], a[j + 1]);
        }
      }
      assert StrictlyIncreasing(b', less) by {
        forall i, j | 0 <= i < j < |b'| ensures less(b'[i], b'[j]) {
          assert less(b[i + 1], b[j + 1]);
        }
      }
      forall y ensures y in a' <==> y in b' {
        if y in a' {
          var k :| 0 <= k < |a'| && a'[k] == y;
          IncreasingIsDistinct(a, less, 0, k + 1);
          assert y in b;
          var m :| 0 <= m < |b| && b[m] == y;
          assert m != 0;
          assert b'[m - 1] == y;
        }
        if y in b' {
          var k :| 0 <= k < |b'| && b'[k] == y;
          IncreasingIsDistinct(b, less, 0, k + 1);
          assert y in a;
          var m :| 0 <= m < |a| && a[m] == y;
          assert m != 0;
          assert a'[m - 1] == y;
        }
      }
      IncreasingUnique(a', b', less);
      assert a == [a[0]] + a' && b == [b[0]] + b';
    }
  }

  /** Running `np.unique` on its own output changes nothing. */
  lemma UniqueRowsIdempotent<T(!new)>(s: seq<T>, less: (T, T) -> bool)
    requires StrictTotalOrder(less)
    ensures UniqueRows(UniqueRows(s, less), less) == UniqueRows(s, less)
  {
    var r := UniqueRows(s, less);
    IncreasingUnique(UniqueRows(r, less), r, less);
  }

  /** An increasing list is its own `np.unique`. */
  lemma UniqueRowsOfIncreasing<T(!new)>(s: seq<T>, less: (T, T) -> bool)
    requires StrictTotalOrder(less)
    requires StrictlyIncreasing(s, less)
    ensures UniqueRows(s, less) == s
  {
    IncreasingUnique(UniqueRows(s, less), s, less);
  }

  /** The first position of `x` in `r`. */
  function IndexOf<T(==)>(r: seq<T>, x: T): (i: nat)
    requires x in r
    ensures i < |r| && r[i] == x
    ensures forall j :: 0 <= j < i ==> r[j] != x
  {
    if r[0] == x then 0 else 1 + IndexOf(r[1..], x)
  }

  /** The `return_inverse` array: the position of every input row in the
      unique list, so that `unique[inverse[i]] == s[i]`. */
  function Inverse<T(==,!new)>(s: seq<T>, u: seq<T>): (inv: seq<nat>)
    requires SameElements(u, s)
    ensures |inv| == |s|
    ensures forall i :: 0 <= i < |s| ==> inv[i] < |u| && u[inv[i]] == s[i]
  {
    seq(|s|, i requires 0 <= i < |s| => assert s[i] in u; IndexOf(u, s[i]))
  }

  /** In a list without repeats the inverse index of an element is its position. */
  lemma IndexOfIncreasing<T(!new)>(r: seq<T>, less: (T, T) -> bool, i: int)
    requires StrictTotalOrder(less)
    requires StrictlyIncreasing(r, less)
    requires 0 <= i < |r|
    ensures IndexOf(r, r[i]) == i
  {
    var k := IndexOf(r, r[i]);
    if k != i { IncreasingIsDistinct(r, less, k, i); }
  }
}

=== FILE: wrappers.dfy ===
/** Failure-compatible result types and the Python exception kinds that the
    modelled code raises (or, in a few places, returns without raising). */
module Wrappers {

  /** The exception classes that the modelled code can end in. */
  datatype Error =
    | TypeError
    | ValueError
    | IndexError
    | KeyError
    | ZeroDivisionError
    | OverflowError
    | UnboundLocalError
    | StructError

  datatype Option<+T> = None | Some(value: T) {
    predicate IsFailure() { None? }

    function PropagateFailure<U>(): Option<U>
      requires None?
    {
      None
    }

    function Extract(): T
      requires Some?
    {
      value
    }
  }

  /** Either a value or the exception that ends the computation. */
  datatype Result<+T> = Ok(value: T) | Err(error: Error) {
    predicate IsFailure() { Err? }

    function PropagateFailure<U>(): Result<U>
      requires Err?
    {
      Err(error)
    }

    function Extract(): T
      requires Ok?
    {
      value
    }
  }
}
